=== FILE: README.md ===
# konik, modelled in Dafny

konik is a minimalist desktop music player. It plays a playlist of audio
files and of tracks cut out of CUE sheets, shows the current track in a
tray icon and in popups, saves the playlist position between runs, and
reports what is played to Last.fm and ListenBrainz. This project models its
core and proves properties of the model:

- `err_util.dfy` (`ErrUtil`): the helpers that turn a failed `Result` into
  a logged `None`, `false` or default value.
- `stream_base.dfy` (`StreamBase`): the `Track` and `TrackMeta` records,
  `Duration` arithmetic, the part of `Path` the player uses, and
  `is_extension_supported`.
- `cue.dfy` (`Cue`): CUE sheets. It finds the audio file a sheet describes,
  builds the tracks with their start times and lengths, and merges the
  sheet's metadata with the audio file's. It also holds the `CueFactory`
  cache.
- `symphonia_stream.dfy` (`SymphoniaStream`): how tags are read into
  `TrackMeta` (primary tag first), the packet loop of `read_packet`,
  `write`, and the supported extensions. Seeking is modelled in
  `decoder.dfy` (`Decoder.Decoder.SeekTo`).
- `playlist_man.dfy` (`PlaylistMan`): `collect_tracks`. It walks the given
  paths and expands CUE sheets into their tracks. It drops the audio files
  a sheet covers and sorts the rest.
- `player.dfy` (`Player`): the player thread. This covers the playlist
  index and the moves between tracks and directories, position
  callbacks, and seeking. It also covers the commands from the client and
  the responses sent back.
- `decoder.dfy` (`Decoder`): opening a track (a plain file, or a CUE track
  with its sheet), the sample buffer, `read_stream`, the playback position
  and seeking inside a CUE track.
- `app.dfy` (`App`): the application loop's handling of player responses.
  This covers the tray image, popups, the saved state, and the calls to
  the scrobbling back ends at the position callbacks.
- `lastfm.dfy` (`LastFm`): the Last.fm client. This covers API signatures,
  the request parameters for "now playing" and for batch scrobbles, and
  the queue of unsent scrobbles with its 50-item batches. It also covers
  key handling and the credentials prompt.
- `listenbrainz.dfy` (`ListenBrainz`): the ListenBrainz client. This
  covers the JSON bodies of "playing now" and import requests, the
  25-listen batches of the queue, and token validation.
- `tray_icon.dfy` (`TrayIcon`): the conversion of decoded PNG frames to
  ARGB icons, the tray menu, and the image switching.
- `build.dfy` (`Build`): the build script that turns the Last.fm key file
  into two Rust constants.

`wrappers.dfy` (`Wrappers`: `Option`, `Result`) and `text.dfy` (`Text`:
ASCII case, whitespace trimming, decimal and hexadecimal digits, lines)
hold the small library the modules share.

Everything outside the process is a parameter: the file system, the audio
decoder, the HTTP responses, the clock. A background thread whose result
the source collects later is modelled in two phases. The first phase
queues the call, which is recorded in a `sent` list; the second completes
it with an outcome given as a parameter.

## Model

| member | source | states |
|---|---|---|
| ErrUtil.ToOption | src/err_util.rs:93-104 | Some exactly for Ok, carrying the Ok value |
| ErrUtil.ToBool | src/err_util.rs:120-129 | true exactly for Ok |
| ErrUtil.MapToOption | src/err_util.rs:106-118 | None for an error; for Ok, what the closure gives for the value |
| ErrUtil.OkOr | src/err_util.rs:131-143 | the Ok value, or the fallback closure's value for an error |
| ErrUtil.OkOrDefault | src/err_util.rs:145-157 | the Ok value, or the default for an error |
| ErrUtil.ToAnyhow | src/err_util.rs:159-167 | Ok is kept with its value; an error becomes its Debug text |
| ErrUtil.RefMap | src/err_util.rs:180-188 | Some exactly when the option is Some, holding the closure's value |
| ErrUtil.MutMap | src/err_util.rs:190-198 | None leaves None; Some is updated in place and the closure's result returned |
| ErrUtil.ToBoolIsSome | src/err_util.rs:93-129 | `to_bool` is `to_option(..).is_some()` |
| ErrUtil.MapToOptionIsAndThen | src/err_util.rs:93-118 | `map_to_option` is `to_option` followed by the closure |
| ErrUtil.OkOrAgree | src/err_util.rs:131-157 | `ok_or_default` is `ok_or` with a constant fallback, and `to_option().unwrap_or(default)` |
| ErrUtil.ToAnyhowKeepsValue | src/err_util.rs:159-167 | `to_anyhow` keeps the Ok value and the failure |
| ErrUtil.RefMapIsMutMap | src/err_util.rs:180-198 | `mut_map` with a closure that leaves the value alone is `ref_map` |
| StreamBase.SaturatingSub | src/cue.rs:133 | `Duration::saturating_sub`: the difference when it is not negative, else zero |
| StreamBase.SaturatingAdd | src/decoder.rs:286 | `Duration::saturating_add`: the sum, capped at `Duration::MAX` |
| StreamBase.AsSecs | src/lastfm.rs:168 | `Duration::as_secs`: the whole seconds, the fraction dropped |
| StreamBase.DefaultMeta | src/stream_base.rs:15-26 | the derived default: no tag field and a zero duration |
| StreamBase.SerializeTrack | src/stream_base.rs:8-13 | the file name always; the index only when there is one |
| StreamBase.TrackRoundTrip | src/stream_base.rs:8-13 | reading a serialised track back gives the same track |
| StreamBase.LastIndexOf | src/stream_base.rs:56 | the last position holding the character, or None when there is none |
| StreamBase.FileName | src/stream_base.rs:56 | the last path component: not empty, without '/', a suffix of the path |
| StreamBase.Extension | src/stream_base.rs:56 | `Path::extension`: what follows the last '.' of the file name; none for a leading dot |
| StreamBase.LastIndexOfSplit | src/stream_base.rs:56 | the character put between `p` and a `q` without it is found at the length of `p` |
| StreamBase.ChildPath | src/stream_base.rs:56 | `dir/name` has parent `dir` and file name `name` |
| StreamBase.PlainFileName | src/stream_base.rs:56 | a bare name is its own file name |
| StreamBase.ExtensionOfName | src/stream_base.rs:56 | the extension of `stem.ext` is `ext` |
| StreamBase.MatchesAny | src/stream_base.rs:57-61 | true exactly when some listed extension equals the given one, ignoring ASCII case |
| StreamBase.IsExtensionSupported | src/stream_base.rs:55-64 | true exactly when the path has an extension equal, ignoring ASCII case, to one listed; false without an extension or without listed extensions |
| Cue.IsSupportedFile | src/cue.rs:37-45 | true exactly when the name ends in ".cue" in any ASCII case (the corrected check, see Findings) |
| Cue.Utf8Len | src/cue.rs:38 | a character takes one to four UTF-8 bytes, one exactly for ASCII |
| Cue.ByteLen | src/cue.rs:38 | `str::len`: at least the number of characters |
| Cue.TailChars | src/cue.rs:42 | the characters making up the last `b` bytes, or None when byte `len - b` is inside a character |
| Cue.TailCharsOfAscii | src/cue.rs:42 | the last `m` bytes of a string ending in `m` ASCII characters are those characters |
| Cue.IsSupportedFileAgrees | src/cue.rs:37-45 | wherever the slice does not panic, the source's check and the corrected one agree |
| Cue.IsSupportedFilePanics | src/cue.rs:42 | for "歌詞" (six bytes, two characters) the slice at byte 2 panics; the corrected check says false |
| Cue.FirstIndex | src/cue.rs:87-103 | the first position whose element satisfies the predicate, or None when none does |
| Cue.FirstSource | src/cue.rs:74-103 | the first listed file that is a source of the sheet: a FLAC file whose full path with ".cue" as extension, or with ".cue" appended, equals the sheet's name ignoring ASCII case |
| Cue.FindSource | src/cue.rs:47-113 | None when the directory cannot be read or no file matches; otherwise the directory joined with a matching file name |
| Cue.FlacExtension | src/cue.rs:76 | the extension of `dir/stem.flac` is "flac" |
| Cue.WithCueExtensionOfFlac | src/cue.rs:91 | `dir/stem.flac` with the extension "cue" is `dir/stem.cue` |
| Cue.WithCueExtensionReplaces | src/cue.rs:91 | `with_extension` replaces an existing extension |
| Cue.SwapSuffix | src/cue.rs:91 | replacing a ".e" suffix by ".f" |
| Cue.FlacIsSourceExtension | src/cue.rs:22 | "stem.flac" has a source extension |
| Cue.IsSourceOfSibling | src/cue.rs:87-96 | `stem.flac` beside `dir/stem.cue` is a source of that sheet |
| Cue.SiblingPath | src/cue.rs:88-89 | the sheet's directory joined with `stem.flac` is `dir/stem.flac` |
| Cue.SourceByExtension | src/cue.rs:90-96 | a supported file whose path with ".cue" as extension is the sheet's name is a source |
| Cue.FindSourceOfSibling | src/cue.rs:47-113 | for `dir/stem.cue` in a directory holding only `stem.flac`, the source found is `dir/stem.flac` |
| Cue.FindSourceSingle | src/cue.rs:87-105 | a listing of one matching file finds that file |
| Cue.OptStr | src/cue.rs:185-190 | None exactly for no values; otherwise the first value, trimmed |
| Cue.OptStr2 | src/cue.rs:192-200 | the first value of the first list, else of the second, trimmed; None when both are empty |
| Cue.OptDef | src/cue.rs:248-256 | the first option when it is set, else the second |
| Cue.CommentCapture | src/cue.rs:203-208 | the regex capture: non-empty and on one line |
| Cue.Unquote | src/cue.rs:209-212 | a value of two or more characters in double quotes loses them; the result is trimmed |
| Cue.UnquoteRoundTrip | src/cue.rs:209-212 | quoting a trimmed value and unquoting it gives the value back; an unquoted trimmed value is unchanged |
| Cue.FirstCapture | src/cue.rs:205-215 | the first comment the tag's regex matches, or None when none does |
| Cue.ExtractCommentNum | src/cue.rs:219-232 | the parsed number of the tag's comment; None when there is no comment or it does not parse |
| Cue.CommentCaptureOfValue | src/cue.rs:203 | "TAG value" captures `value` |
| Cue.UnquoteDecimal | src/cue.rs:209-224 | a number written in decimal, quoted or not, unquotes and parses back to itself |
| Cue.DecimalIsBare | src/cue.rs:224 | a decimal numeral has no whitespace, no quote and no line feed, and parses back to its number |
| Cue.QuotedNoLineFeed | src/cue.rs:209 | quoting adds no line feed |
| Cue.ExtractCommentNumOfNumber | src/cue.rs:219-232 | a "TAG n" or "TAG \"n\"" comment yields n |
| Cue.FirstIndexOne | src/cue.rs:166-174 | the first INDEX numbered 1, or None when the track has none |
| Cue.Reversed | src/cue.rs:154 | `reverse`: element k is element `len - 1 - k` of the input |
| Cue.BuildTracks | src/cue.rs:122-154 | Ok exactly when the first FILE block has tracks, each with an INDEX 01, each starting before the next; then the tracks in file order with their starts, lengths up to the next start (none for the last) and metadata. NoTracks when the block is empty; otherwise the fault of the last track that has one |
| Cue.BuildBackwards | src/cue.rs:125-148 | the loop from the last track to the first: every track built, last first, or the first fault met going backwards |
| Cue.FirstFault | src/cue.rs:127-136 | a missing INDEX 01, or a zero `saturating_sub` to the next start, is the fault reported when no later track has one |
| Cue.LastBuilt | src/cue.rs:132 | the track built last holds the start of the track after the one being built |
| Cue.BuildStep | src/cue.rs:126-146 | a track built from track i extends the tracks built so far, and track i has no fault |
| Cue.ReversedBuiltFrom | src/cue.rs:154 | tracks built last first are in file order once reversed |
| Cue.BuiltTracksValid | src/cue.rs:129-154 | built tracks form a valid sheet: not empty, each lasting until the next one's start, the last open-ended |
| Cue.NewSheet | src/cue.rs:115-160 | CannotParse when the file cannot be read or parsed, then NoSource, then BuildTracks' outcome; Ok exactly when all succeed, with a valid sheet built from the parsed file and the source found |
| Cue.TrackIds | src/cue.rs:162-164 | the track numbers in sheet order |
| Cue.FindTrack | src/cue.rs:177-181 | the position of the first track with the number, or None when there is none |
| Cue.Track | src/cue.rs:176-183 | the first track with the number; OutOfBounds exactly when no track has it |
| Cue.LastStartedAt | src/cue.rs:259-263 | the last track that started at or before the position, or None when none did |
| Cue.TrackIndexByPosition | src/cue.rs:258-269 | the number of the last track started at the position, or of the first track when none did |
| Cue.StartsIncreasing | src/cue.rs:129-137 | in a built sheet the starts strictly increase |
| Cue.TrackIndexByPositionInSpan | src/cue.rs:258-269 | a position inside a track's span of a valid sheet gives that track's number |
| Cue.TrackStart | src/cue.rs:271-276 | the start of the track with the number; OutOfBounds when there is none |
| Cue.MergedTrackMeta | src/cue.rs:278-298 | the sheet's values win over the audio file's for album, title, artist, disc, disc total and year; track number and total come from the sheet; the length is the track's, or for the last track the file's length minus the start, saturating |
| Cue.MergedMetaOfBuiltSheet | src/cue.rs:234-298 | for a built sheet, track k's merged metadata has its own number, the number of tracks, and its length up to the next start |
| Cue.CacheInsert | src/cue.rs:326 | inserting a valid sheet under a CUE name keeps the cache valid |
| Cue.CueFactory.constructor | src/cue.rs:306-310 | an empty cache |
| Cue.CueFactory.GetOrNew | src/cue.rs:312-328 | a cached entry as it is; a name that is not a CUE file gives None and is not cached; otherwise the new sheet is built and cached, or the error returned and nothing cached |
| Cue.CueFactory.Clear | src/cue.rs:330-332 | the cache is empty |
| Cue.CueFactory.Sheets | src/cue.rs:334-336 | exactly the cached sheets |
| SymphoniaStream.IsPathSupported | src/symphonia_stream.rs:73-75 | a path is supported exactly when its extension equals flac, ogg or mp3 ignoring ASCII case (the list at src/symphonia_stream.rs:36) |
| SymphoniaStream.FirstWithKey | src/symphonia_stream.rs:218 | the index of the first item carrying the key, or None when no item carries it |
| SymphoniaStream.TagGet | src/symphonia_stream.rs:218 | None exactly when no item has the key; otherwise the value of the first item with it |
| SymphoniaStream.HasAsciiControl | src/symphonia_stream.rs:221-225 | true exactly when some character is an ASCII control character |
| SymphoniaStream.ValidLoftyTagString | src/symphonia_stream.rs:217-232 | a string exactly when the key's first value is text free of ASCII control characters, and then that text |
| SymphoniaStream.FillLoftyTag | src/symphonia_stream.rs:234-259 | each of the eight fields already set is kept and each unset one is taken from the tag; the duration is untouched |
| SymphoniaStream.FirstProvidedSpec | src/symphonia_stream.rs:276-286 | filling tags in order yields the value of the first tag providing the field, and None only when no tag provides it |
| SymphoniaStream.PrimaryTag | src/symphonia_stream.rs:274 | the primary tag is a tag of the file's primary type, and None only when the file has no tag of that type |
| SymphoniaStream.FirstOfType | src/symphonia_stream.rs:274 | the first tag of the given type, or None when there is none |
| SymphoniaStream.OtherTypes | src/symphonia_stream.rs:277-281 | exactly the tags whose type differs from the primary type |
| SymphoniaStream.ApplicationOrder | src/symphonia_stream.rs:274-288 | with a primary tag, it comes first and is followed only by tags of other types; without one, all tags in file order |
| SymphoniaStream.PrimaryTagWins | src/symphonia_stream.rs:276-281 | a field the primary tag provides is taken from the primary tag |
| SymphoniaStream.NoTagsOnlyDuration | src/symphonia_stream.rs:265-272 | a file without tags gives the default metadata with the file's duration |
| SymphoniaStream.GetLoftyMeta | src/symphonia_stream.rs:261-301 | metadata exactly when lofty read the file, and then the fields filled from the tags in application order |
| SymphoniaStream.ProvidedByStep | src/symphonia_stream.rs:234-259 | filling one more tag keeps every field equal to the first value provided by the tags so far |
| SymphoniaStream.NextUsable | src/symphonia_stream.rs:80-133 | the first packet at or after the cursor that is neither for another track nor a decode error; all before it are skipped |
| SymphoniaStream.NextUsableAt | src/symphonia_stream.rs:80-133 | any position with only skipped packets before it and a usable one at it is the next usable packet |
| SymphoniaStream.SymphoniaStream.constructor | src/symphonia_stream.rs:63-70 | the stream starts with nothing read, no sample buffer and the metadata not yet sent |
| SymphoniaStream.SymphoniaStream.PullTrackInfo | src/symphonia_stream.rs:208-215 | the file's metadata (the default when lofty failed) the first time, None every later time |
| SymphoniaStream.SymphoniaStream.Write | src/symphonia_stream.rs:139-146 | without a sample buffer an error and the queue unchanged; otherwise the buffer appended to the queue and its length returned |
| SymphoniaStream.SymphoniaStream.ReadPacket | src/symphonia_stream.rs:77-137 | skips packets of other tracks and decode errors; at the end of input or a fatal error an error; a decoded packet becomes the buffer and its channel count, rate and position are returned, with the metadata on the first packet only |
| PlaylistMan.UriToStr | src/playlist_man.rs:31-46 | a string without the `file://` scheme is kept as it is; a `file://` URL becomes its file path, or stays as it is when it has none |
| PlaylistMan.PlainPathKept | src/playlist_man.rs:31-46 | an absolute path is never rewritten, whatever the URL conversion would give |
| PlaylistMan.SheetTracks | src/playlist_man.rs:75-86 | one track per sheet track, in order, each naming the CUE file and the sheet's track id |
| PlaylistMan.FlattenChunks | src/playlist_man.rs:67-89 | concatenating the per-file chunks gives the expansion of the whole file list |
| PlaylistMan.ExpandedFromFiles | src/playlist_man.rs:67-89 | every expanded track names one of the walked files |
| PlaylistMan.SourceFilenames | src/playlist_man.rs:91-95 | exactly the source filenames of the cached sheets |
| PlaylistMan.WithoutSources | src/playlist_man.rs:96-99 | each track keeps its multiplicity unless its file is a CUE source, which it loses entirely |
| PlaylistMan.TrackLeTotal | src/playlist_man.rs:101-104 | under a total name preorder, any two tracks are comparable |
| PlaylistMan.TrackLeTransitive | src/playlist_man.rs:101-104 | under a total name preorder, the track order (name, then index with None first) is transitive |
| PlaylistMan.Insert | src/playlist_man.rs:101-104 | inserting adds exactly the one track |
| PlaylistMan.SortTracks | src/playlist_man.rs:101-104 | sorting is a permutation |
| PlaylistMan.InsertRankClass | src/playlist_man.rs:101-104 | inserting into a sorted list puts the track behind every track of equal rank, so each rank keeps its order with the new track last |
| PlaylistMan.SortTracksStable | src/playlist_man.rs:101-104 | the sort is stable: the tracks of each rank come out in their input order |
| PlaylistMan.SortKeepsWalkOrder | src/playlist_man.rs:101-104 | two files whose names compare equal keep the order the walk found them in |
| PlaylistMan.InsertSorted | src/playlist_man.rs:101-104 | inserting into a sorted list keeps it sorted |
| PlaylistMan.HeadBelowInsert | src/playlist_man.rs:101-104 | the head of a sorted list stays below everything after inserting a larger track into its tail |
| PlaylistMan.ConsSorted | src/playlist_man.rs:101-104 | a track below every element of a sorted list can be put in front of it |
| PlaylistMan.SortTracksSorted | src/playlist_man.rs:101-104 | the sorted tracks are ordered by name, then index, and are a permutation of the input |
| PlaylistMan.CueFileTracks | src/playlist_man.rs:75-86 | a non-playable file gives the tracks of its sheet; a known file leaves the cache as it is, a buildable new one is cached, anything else changes nothing |
| PlaylistMan.ChunkOfPlayable | src/playlist_man.rs:68-73 | a playable file contributes the one track without an index |
| PlaylistMan.ChunkOfNewSheet | src/playlist_man.rs:75-86 | a newly cached sheet makes the file contribute the sheet's tracks and keeps every earlier chunk |
| PlaylistMan.ChunkOfKnownSheet | src/playlist_man.rs:75-86 | a file already cached or not loadable contributes its cached tracks, or none |
| PlaylistMan.CollectStep | src/playlist_man.rs:67-87 | one more file is expanded; the cache holds only walked, buildable CUE files, and every chunk matches its file |
| PlaylistMan.CollectFiles | src/playlist_man.rs:66-88 | each walked file expands to its own chunk: a playable file to itself, a file that loads as a CUE sheet to its tracks; the new cache holds only walked files that load, and every non-playable walked file that loads |
| PlaylistMan.CollectTracks | src/playlist_man.rs:48-107 | the cache holds exactly the walked non-playable files that load as CUE sheets; the tracks are the expansion without the CUE source files, as a multiset, sorted by name then index, with tracks of equal rank in walk order |
| Player.FetchNext | src/player.rs:257-274 | the following index while one exists; at the last index 0 when wrapping, else the end-of-playlist error; any index returned is in the playlist |
| Player.FetchPrev | src/player.rs:276-286 | the preceding index while one exists; at index 0 the last index when wrapping, else the start-of-playlist error |
| Player.FetchWrapsModulo | src/player.rs:257-286 | with wrapping, next and previous are addition and subtraction of one modulo the playlist length |
| Player.PrevUndoesNext | src/player.rs:257-286 | with wrapping, stepping back after stepping forward returns to the same index |
| Player.NextUndoesPrev | src/player.rs:257-286 | with wrapping, stepping forward after stepping back returns to the same index |
| Player.DecValidFiles | src/player.rs:309-315 | an error exactly when no files are left, otherwise one fewer |
| Player.Candidate | src/player.rs:325-393 | the n-th index after (or before) the start, modulo the playlist length |
| Player.CandidateStep | src/player.rs:325-393 | one more next/previous step from the (n-1)-th candidate gives the n-th one while it is in reach, and an error once it is not |
| Player.InReachDownward | src/player.rs:325-393 | a candidate count that is in reach stays in reach for every smaller count |
| Player.MustTriggerMonotone | src/player.rs:595-601 | once a marker is due at a position it stays due at every later position |
| Player.LongEndMarkerDueAtOnce | src/player.rs:597-600 | an end marker at least as long as the track is due from the start, because the subtraction saturates at zero |
| Player.Ids | src/player.rs:608 | the ids of the callbacks, in order |
| Player.Reached | src/player.rs:603-607 | one position-callback response per callback, in order |
| Player.FiredSpec | src/player.rs:593-611 | the callbacks fired are due and not yet triggered, and afterwards every due callback has been triggered |
| Player.FiredSound | src/player.rs:593-611 | only due, not yet triggered callbacks of the list fire |
| Player.FiredComplete | src/player.rs:593-611 | every due callback is triggered before or by this pass |
| Player.FiredOnce | src/player.rs:594-608 | a callback id is never triggered twice |
| Player.FiredIdempotent | src/player.rs:593-611 | a second pass at the same position fires nothing |
| Player.SeekByTarget | src/player.rs:550-555 | forward seeking adds the length, saturating at the largest duration; backward seeking subtracts it, saturating at zero |
| Player.ReadStreamPacketsBatch | src/player.rs:659-668 | reads until a read asks to stop, at most five; true exactly when all five reads asked to go on |
| Player.PlayerThread.constructor | src/player.rs:158-177 | an empty playlist at index 0, nothing sent or triggered, fast reading on and no output |
| Player.PlayerThread.Stop | src/player.rs:179-189 | output dropped, the sent index forgotten, and a Stopped state at zero sent |
| Player.PlayerThread.SetPlaylist | src/player.rs:191-200 | stops, then the playlist is replaced and the index reset to 0 |
| Player.PlayerThread.SendPlaylistIndex | src/player.rs:412-432 | the index is sent and remembered unless it was already sent or lies outside the playlist |
| Player.PlayerThread.Play | src/player.rs:227-246 | an index outside the playlist fails and changes nothing; a track that cannot be opened fails after moving the index; otherwise callbacks are cleared, the index is sent when new, and Playing at zero is sent |
| Player.PlayerThread.FetchNextIndex | src/player.rs:257-274 | the next index as FetchNext gives it, with PlaylistEnded sent on failure when asked |
| Player.PlayerThread.RunExtend | src/player.rs:300-305 | a run of tracks in one directory extends backwards over a preceding track of the same directory |
| Player.PlayerThread.FirstIndexInDir | src/player.rs:288-307 | from the previous index, walks back to the first track of its directory run, stopping at index 0 or the stop index, and consumes one file per step |
| Player.PlayerThread.MoveIndex | src/player.rs:328-384 | for next and previous moves exactly FetchNext and FetchPrev, consuming no extra file; for a next-directory move, once the skip target is known, the next index; on its first step the first index after the current one outside its directory, or index 0 when the rest of the playlist shares that directory and the move wraps, which becomes the skip target; for a previous-directory move the next index while it is not the start and stays in the current directory, otherwise the first track of the directory run walked back to from the skip target (or the current index), which becomes the skip target; every index returned is in the playlist |
| Player.PlayerThread.TryMove | src/player.rs:326-392 | one attempt: with no file left it fails for good with the no-valid-files error, and for next and previous moves no reachable candidate opens; otherwise it spends one file and moves and plays as `MoveThenPlay` does |
| Player.PlayerThread.MoveStep | src/player.rs:328-384 | from the progress of a move so far, the index moved to ends the move when there is none, lands when its track opens (the first reachable candidate that opens for next and previous moves, the first track from the skip target on that opens for a wrapping next-directory move), and otherwise extends the progress by one failed attempt |
| Player.PlayerThread.MoveThenPlay | src/player.rs:328-392 | plays the index `MoveStep` moved to; the play succeeds exactly when that track opens, and the move then lands there |
| Player.PlayerThread.MoveAndPlay | src/player.rs:317-394 | an empty playlist fails with no change; for next and previous moves it succeeds exactly when some reachable candidate opens, and then plays the first such candidate; a wrapping next-directory move that succeeds plays the first track that opens counting from the first track after the current one outside its directory (index 0 when there is none) |
| Player.PlayerThread.MoveFrom | src/player.rs:325-394 | the loop of a move on a non-empty playlist: keeps the thread state valid, takes at most one attempt per track; for next and previous moves it succeeds exactly when some reachable candidate opens, playing the first such candidate after every earlier one failed; a wrapping next-directory move that succeeds plays the first track that opens from the skip target on |
| Player.NoneOpensExtend | src/player.rs:386-392 | a failed attempt extends the run of candidates that do not open |
| Player.NoneOpens | src/player.rs:317-394 | when every reachable candidate fails, no candidate opens |
| Player.FirstOpens | src/player.rs:386-391 | a reachable candidate that opens makes the move possible |
| Player.NextDirAttempt | src/player.rs:332-342 | one attempt of a wrapping next-directory move: the track tried is the skip target or the one after the last tried; if it opens the move has landed on the first track from the skip target on that opens, otherwise one more track from the skip target on has failed |
| Player.AttemptOutcome | src/player.rs:326-392 | from the progress before an attempt and the index it moved to, the move fails for good when there is no index, lands when the track opens, and otherwise makes one more failed attempt of progress |
| Player.PlayerThread.LoadMetaAt | src/player.rs:202-225 | succeeds exactly when the track's metadata loads; then the index moves and the index and metadata are sent |
| Player.PlayerThread.LoadMetaFrom | src/player.rs:495-510 | stops, then loads the first track from the index on whose metadata loads, sending its index and metadata; loaded exactly when one exists |
| Player.PlayerThread.SeekToPosition | src/player.rs:464-472 | a successful seek sends the reached position; a failed one sends nothing |
| Player.PlayerThread.SetPaused | src/player.rs:434-462 | succeeds exactly when there is an output that accepts the change; then the paused flag and the new state with the position are sent |
| Player.PlayerThread.ProcessPositionCallbacks | src/player.rs:586-616 | without callbacks, duration or position nothing changes; otherwise the due, untriggered callbacks are sent and recorded, and no id is recorded twice |
| Player.PlayerThread.Navigate | src/player.rs:511-543 | the client is first told playback stopped; on success a track that opens is current, its index sent and playback started, and an empty playlist fails; `Play` plays its index when that opens and otherwise the first track after it that opens, without wrapping, failing exactly when none does; `Next` and `Prev` play the first track that opens in their direction with wrapping, failing exactly when none does; a successful `NextDir` plays the first track that opens counting from the first track after the current one outside its directory |
| Player.PlayerThread.ProcessClientCmd | src/player.rs:481-572 | no command changes nothing; Exit alone ends the thread; the moves keep the playlist and have the effect stated for `Navigate`; every other command has the effect `Handled` states: the fields its handler sets, and every other field of the thread unchanged |
| Player.PlayerThread.Handle | src/player.rs:488-569 | a command other than a move has the effect `Handled` states: `SetPlaylist` replaces the playlist and resets the index, `LoadMeta` stops and loads the first track from the index on whose metadata loads, `Stop` stops; Pause and UnPause succeed exactly when there is an output that accepts the change and then set the paused flag and tell the client, and change nothing on failure; a seek sends the reached position or fails changing nothing; `RequestPosition`, `SetVolume` and `Exit` send their response; in each case every field the handler does not set keeps its value |
| Player.PlayerThread.HandleStopping | src/player.rs:489-523 | `SetPlaylist`, `LoadMeta` and `Stop` as `Handled` states, with the paused flag, the triggered callbacks and the next-track flags unchanged |
| Player.PlayerThread.HandleOutput | src/player.rs:524-568 | Pause, UnPause, the seeks, `RequestPosition`, `SetVolume` and `Exit` as `Handled` states: only the paused flag and the responses can change |
| Player.HandledKeepsPlace | src/player.rs:488-569 | only `SetPlaylist` replaces the playlist, only it and `LoadMeta` move the index, no such command touches the triggered callbacks or the next-track flags, and the responses only grow |
| Decoder.IsFormatChange | src/decoder.rs:303-309 | false without a previous packet, otherwise true exactly when the channel count or the sample rate differs |
| Decoder.FormatChangeSymmetric | src/decoder.rs:303-309 | the comparison is symmetric and ignores the metadata and position of the packets |
| Decoder.Decoder.constructor | src/decoder.rs:62-83 | no stream, track, packet or metadata, an empty buffer and cache, position zero, not at the end |
| Decoder.Decoder.Stop | src/decoder.rs:85-96 | every track field is cleared, the position is zero and the buffer empty; the end and wait flags are kept |
| Decoder.Decoder.CanReadMore | src/decoder.rs:230-233 | true exactly when the buffer holds fewer than 60000 samples |
| Decoder.Decoder.SheetAndIndex | src/decoder.rs:269-276 | the current sheet and track index exactly when both are known |
| Decoder.Decoder.SheetForTrack | src/decoder.rs:106-115 | no sheet for a plain track; a CUE track gets its cached sheet, an error for a file that is not CUE, or a freshly loaded valid sheet |
| Decoder.Decoder.SeekTo | src/decoder.rs:278-295 | an error when the CUE track has no start or there is no stream; otherwise the target is offset by the track start and the reached position is returned relative to it; success empties the buffer and clears the end flag; an exact seek returns the requested position |
| Decoder.Decoder.Start | src/decoder.rs:279-285 | zero outside a CUE track; otherwise the start of the current CUE track, or an error when the sheet has no such track |
| Decoder.Decoder.SetTrackMeta | src/decoder.rs:311-321 | no tags change nothing; otherwise the file metadata is stored and the track metadata (merged with the CUE track when there is one) becomes the new metadata to announce |
| Decoder.Decoder.PastTrackEnd | src/decoder.rs:356-361 | a position can only end the track inside a CUE sheet |
| Decoder.Decoder.ReadStream | src/decoder.rs:323-371 | BufferFull without reading at the end, with a full buffer or without a stream; while waiting for the buffer to drain BufferFull, then NeedResetOutput once it is empty; a failed read ends the track; a format change holds the packet back; otherwise the samples are appended and ReadEnd is returned exactly when the position lies in a later CUE track |
| Decoder.Decoder.TakePacket | src/decoder.rs:341-368 | the samples are appended and the packet kept when writing succeeds; ReadEnd exactly when the position lies in a later CUE track; the position follows the packet |
| Decoder.Decoder.Drain | src/decoder.rs:451 | the output takes samples from the front of the buffer |
| Decoder.Decoder.Play | src/decoder.rs:157-223 | success leaves the track current and not at its end; a plain file that cannot be opened fails; the next consecutive CUE track of the open source neither seeks nor touches the buffer, stream, sheet or metadata |
| Decoder.Decoder.PlayCue | src/decoder.rs:165-204 | a consecutive track of the same source only moves the track and announces its merged metadata; another track of the same source seeks to its start; a different source is opened, or the open failure returned |
| Decoder.Decoder.PlayInSource | src/decoder.rs:166-191 | within the open source a consecutive track only updates the track and its metadata; any other track clears the metadata and seeks to its start |
| Decoder.Decoder.OpenSource | src/decoder.rs:193-203 | the sheet's source file becomes the stream with the sheet and track current and no metadata, or the open failure is returned with nothing changed; when the seek to the start then fails, the buffer and the end flag keep their values |
| Decoder.Decoder.PlayFile | src/decoder.rs:206-222 | the current packet becomes the previous one, metadata is cleared, and the file becomes the stream, or the open failure is returned |
| Decoder.Decoder.LoadMeta | src/decoder.rs:134-155 | success needs a first packet with metadata; it stores the file metadata and the packet, and the track metadata, merged with the CUE track when there is one; failure keeps them |
| Decoder.Decoder.TakeFirstPacket | src/decoder.rs:126-155 | the same as LoadMeta once the sheet is known: the file that cannot be opened, a missing packet or missing metadata fail and keep the old state |
| Decoder.CueBoundary | src/decoder.rs:354-361 | inside a CUE track's span the read loop goes on; at the next track's start it ends |
| App.PositionCallbacks | src/app.rs:519-529 | callbacks exist exactly when some backend is usable, with ids 0, 1 and 2 in that order |
| App.PositionCallbacksDue | src/app.rs:521-529 | now-playing is due from 5 s, scrobble from 5 s before the end, highlight end from 0.5 s, as the constants at src/app.rs:47-52 say; the ids are distinct |
| App.ReportTo | src/app.rs:358-399 | one call per usable backend carrying the track's artist, title, album and number; only Last.fm gets the duration |
| App.CallbackCalls | src/app.rs:353-405 | calls are made only for tracks longer than 30 s with artist and title, and only for the now-playing and scrobble ids; scrobbles only without a non-zero seek; nothing exactly when one of these fails or no backend is usable |
| App.ThirtySecondsIsTooShort | src/app.rs:354 | a track of at most 30 s, the limit at src/app.rs:53, is never reported |
| App.Transition | src/app.rs:140-219 | toggle-stop never pauses and always changes state; toggle-pause pauses exactly from Playing; stop always stops; play ends Playing and sends nothing exactly when already Playing; pause acts only when Playing; Play is sent exactly from Stopped and UnPause exactly from Paused |
| App.TogglePauseTwice | src/app.rs:183-219 | toggling pause twice from Playing or Paused returns to the same state; play then pause ends Paused |
| App.ToggleStopTwice | src/app.rs:140-155 | toggling stop twice returns to the same state, except that Paused ends Stopped |
| App.App.constructor | src/app.rs:535-549 | Stopped at index 0 with no track, default metadata, no seek and nothing sent |
| App.App.SetPlaybackState | src/app.rs:122-138 | the state is set and the tray image agrees with it; a tray already showing play or its highlight is left alone when Playing |
| App.App.Act | src/app.rs:140-219 | the state and the player commands follow the transition; the tray agrees when something was sent and is untouched otherwise |
| App.App.UserActionToggleStop | src/app.rs:140-155 | Stopped plays, Playing stops, Paused unpauses |
| App.App.UserActionStop | src/app.rs:173-176 | always Stop, with the tray stopped |
| App.App.UserActionPlay | src/app.rs:183-195 | nothing when Playing; Stopped plays and Paused unpauses |
| App.App.UserActionPause | src/app.rs:197-202 | pauses only from Playing, otherwise nothing changes |
| App.App.UserActionTogglePause | src/app.rs:204-219 | Stopped plays, Playing pauses, Paused unpauses |
| App.App.ProcessPositionCallback | src/app.rs:353-412 | exactly the backend calls the gate allows; the highlight-end callback turns the highlighted tray back to play and leaves it alone otherwise |
| App.App.UpdateTray | src/app.rs:298-351 | with a current track the position is requested and the popup shown when asked; without one nothing is sent |
| App.App.NewPlaylistIndex | src/app.rs:416-432 | index and track set, metadata reset, seek forgotten; the state is saved only when the index changed; automatic moves highlight a playing tray |
| App.App.ProcessPlayerResponse | src/app.rs:414-466 | only Exited ends the loop; a new index behaves as above; each other response changes only the fields its handler sets, all others and the tray image unchanged: PlaylistEnded adds its popup, Seeked records the position, new metadata is stored and refreshes the tray (position requested, popup when asked), a state change sets the state and a tray image that agrees with it, a position callback makes exactly its backend calls and ends the highlight, and PositionRequested, VolumeSet and Exited change nothing |
| App.TrackReportedTwice | src/app.rs:357-401 | an unseeked reportable track is announced and then scrobbled once per usable backend |
| App.SeekSuppressesScrobble | src/app.rs:380 | after a non-zero seek the track is still announced but not scrobbled |
| LastFm.KeyArrToString | src/lastfm.rs:291-295 | two lowercase hex digits per byte |
| LastFm.KeyArrToStringRoundTrip | src/lastfm.rs:291-295 | reading the hex digits back gives the original bytes |
| LastFm.KeyLtIrreflexive | src/lastfm.rs:303 | the key order used for sorting is irreflexive |
| LastFm.KeyLtTotal | src/lastfm.rs:303 | any two distinct keys are ordered one way or the other |
| LastFm.KeyLtAsymmetric | src/lastfm.rs:303 | the key order is asymmetric |
| LastFm.KeyLtTransitive | src/lastfm.rs:303 | the key order is transitive |
| LastFm.InsertByKey | src/lastfm.rs:302-303 | inserting adds exactly the one parameter |
| LastFm.InsertByKeySorted | src/lastfm.rs:302-303 | inserting into a key-sorted list keeps it sorted |
| LastFm.SortByKeySorted | src/lastfm.rs:302-303 | the sorted parameters are in key order and a permutation of the input |
| LastFm.SortedFar | src/lastfm.rs:302-303 | in a key-sorted list no later key is below an earlier one |
| LastFm.HeadIsLeast | src/lastfm.rs:302-303 | two sorted arrangements of the same parameters with distinct names start alike |
| LastFm.TailKeepsOrder | src/lastfm.rs:302-303 | dropping the head of a sorted list of distinct names keeps it sorted and distinct |
| LastFm.SortedUnique | src/lastfm.rs:302-303 | parameters with distinct names have exactly one key-sorted arrangement |
| LastFm.SigPayloadOfSorted | src/lastfm.rs:301-309 | with distinct names the payload is any name-ordered listing of the parameters, each name followed by its value, then the shared secret |
| LastFm.SigPayloadOrderFree | src/lastfm.rs:301-309 | with distinct names the payload does not depend on the order the parameters were given in |
| LastFm.MethodQueryLayout | src/lastfm.rs:315-323 | method and api_key come first, then the parameters, then api_sig over exactly those and format=json, which the signature does not cover |
| LastFm.MethodQuerySignatureOrderFree | src/lastfm.rs:315-323 | the signature of a call does not depend on the order of its parameters |
| LastFm.Lookup | src/lastfm.rs:152-169 | a value found under a name is a parameter with that name |
| LastFm.LookupAppend | src/lastfm.rs:152-169 | looking up in a concatenation looks in the first part, then the second |
| LastFm.OptionalParamLookup | src/lastfm.rs:161-169 | an optional parameter is present exactly when its value is given |
| LastFm.ParsedDecimalOpt | src/lastfm.rs:164-168 | a number written in decimal reads back as the same number |
| LastFm.NowPlayingParams | src/lastfm.rs:152-160 | fails exactly when there is no session key |
| LastFm.NowPlayingParamsDescribe | src/lastfm.rs:152-169 | artist, track and the session key are always sent; album, track number and duration in seconds exactly when given |
| LastFm.BatchStart | src/lastfm.rs:223-228 | the batch starts so that it holds the newest min(length, 50) items |
| LastFm.Batch | src/lastfm.rs:223-229 | the batch is the last min(length, 50) queued items in queue order |
| LastFm.BatchSendsNewest | src/lastfm.rs:222-229 | the batch always ends with the item just queued, and an item outside it has a copy inside it or is older than the batch |
| LastFm.IndexedInjective | src/lastfm.rs:233-245 | distinct names or indices give distinct indexed parameter names |
| LastFm.ItemParams | src/lastfm.rs:233-245 | each item sends at least artist, track and timestamp |
| LastFm.ItemParamsAsWritten | src/lastfm.rs:233-245 | as written, an item's album, number and duration parameters are those of the current call |
| LastFm.ItemParamsElsewhere | src/lastfm.rs:233-245 | an item's parameters carry only its own index |
| LastFm.BatchParamsBeyond | src/lastfm.rs:231-246 | no parameter of the batch carries an index past its end |
| LastFm.ItemParamsLookups | src/lastfm.rs:233-245 | each of an item's six fields can be looked up under its indexed name |
| LastFm.ItemAtOwn | src/lastfm.rs:233-245 | an item reads back from its own parameters |
| LastFm.BatchParamsRoundTrip | src/lastfm.rs:231-246 | every batch item reads back from the batch parameters at its index |
| LastFm.Overridden | src/lastfm.rs:237-245 | the batch with album, number and duration of every item replaced by the current call's |
| LastFm.BatchParamsAsWrittenOverrides | src/lastfm.rs:231-246 | the parameters as written are those of the batch with the current call's album, number and duration on every item |
| LastFm.BatchParamsAsWrittenReadsBack | src/lastfm.rs:231-246 | as written, an item reads back with the current call's album, number and duration |
| LastFm.BatchParamsAsWrittenMisreportsAlbum | src/lastfm.rs:237-239 | an older queued item with another album is sent with the newest track's album |
| LastFm.Timestamps | src/lastfm.rs:230-232 | the timestamps of the batch, in order |
| LastFm.Unsent | src/lastfm.rs:268-269 | exactly the queued items whose timestamp is not in the batch |
| LastFm.UnsentIdempotent | src/lastfm.rs:268-269 | removing the same timestamps twice removes nothing more |
| LastFm.SuccessRemovesBatch | src/lastfm.rs:268-269 | a successful call removes every sent item and keeps every item with a timestamp not sent |
| LastFm.AfterCall | src/lastfm.rs:257-274 | a failed call keeps the queue; a successful one removes exactly the items with a sent timestamp |
| LastFm.ScrobbleParams | src/lastfm.rs:199-246 | the session key followed by every batch item's parameters, each with the item's own album, number and duration (the corrected form, see Left out), and the batch timestamps |
| LastFm.IgnoredWarning | src/lastfm.rs:417-431 | no warning exactly when the ignored code is "0"; a warning ends with the code |
| LastFm.WarnIfIgnored | src/lastfm.rs:417-431 | true exactly when the ignored code is not "0" |
| LastFm.CheckCredentialsAsWritten | src/lastfm.rs:379-387 | as written, only an empty username is refused |
| LastFm.CheckCredentialsAsWrittenAcceptsEmptyPassword | src/lastfm.rs:383-387 | an empty password is let through |
| LastFm.CheckCredentials | src/lastfm.rs:379-387 | an empty username is refused first, then an empty password; anything else passes |
| LastFm.LastFM.constructor | src/lastfm.rs:110-116 | the given keys, session key and queue, no running call |
| LastFm.LastFM.NewOrNone | src/lastfm.rs:102-119 | a client exactly when both build-time keys exist; keys in hex; the queue is loaded only with a session key, and empty when it cannot be read |
| LastFm.LastFM.UseableOrNone | src/lastfm.rs:121-132 | a client exactly when the keys exist and a session key was read, and then it is usable |
| LastFm.LastFM.IsUseable | src/lastfm.rs:134-136 | usable exactly when there is a session key |
| LastFm.LastFM.WaitForApiThread | src/lastfm.rs:257-281 | completes the running call: the queue loses the sent items on success, and is saved when non-empty or non-empty before the call's append |
| LastFm.LastFM.PlayingNow | src/lastfm.rs:144-189 | without a session key an error and nothing changes; otherwise the running call is completed and the signed now-playing query sent |
| LastFm.LastFM.Scrobble | src/lastfm.rs:191-285 | without a session key or a clock an error and nothing changes; otherwise the running call first completes on the queue as it was, then the item is queued and the newest 50 items of that queue are sent as one signed query built with each item's own album, number and duration (the corrected form, see Left out); the new call records the batch timestamps and whether the queue was empty before the append |
| LastFm.LastFM.QueueAndSend | src/lastfm.rs:219-282 | the running call completes (sent items removed on success, the queue saved), and only then is the item appended and the call for the newest 50 started |
| LastFm.CompletedAllSent | src/lastfm.rs:253-269 | a successful running call that sent every queued item leaves the queue empty before the next item is queued, so that scrobble sends only its own item |
| LastFm.LastFM.StartCall | src/lastfm.rs:219-254 | the item is appended, the signed query for the newest 50 items of the queue sent, and the new call records their timestamps and whether the queue was empty before the append |
| LastFm.LastFM.SignedScrobble | src/lastfm.rs:199-249 | the signed `track.scrobble` query carries the session key and the parameters of the newest 50 items, and the timestamps are those of the same items |
| ListenBrainz.SkipIfNoneOrEmpty | src/listenbrainz.rs:25-32 | true exactly when the value is absent or the empty string |
| ListenBrainz.GetAppend | src/listenbrainz.rs:41-70 | looking up a member of concatenated members looks in the first part, then the second |
| ListenBrainz.GetSingle | src/listenbrainz.rs:41-70 | a single member is found exactly under its own name |
| ListenBrainz.NatMemberGet | src/listenbrainz.rs:43-62 | an optional number is serialised exactly when present and under its own name only |
| ListenBrainz.TrackMetaDataReadsBack | src/listenbrainz.rs:50-57 | artist and track name always read back; the release name reads back unless absent or empty; track number and duration read back from the additional info |
| ListenBrainz.RequestBodyMembers | src/listenbrainz.rs:34-70 | the body carries the listen type in snake case and one payload element per payload, in order |
| ListenBrainz.SubmittedListenReadsBack | src/listenbrainz.rs:322-344 | a queued listen reads back from its payload, with an empty album dropped |
| ListenBrainz.NowPlayingRequestShape | src/listenbrainz.rs:127-162 | a playing_now body has type playing_now and exactly one payload, without listened_at, carrying artist, track, album and the duration in seconds |
| ListenBrainz.ImportRequestReadsBack | src/listenbrainz.rs:189-200 | an import body has type import and one payload per batch listen, each reading back as that listen |
| ListenBrainz.AuthorizationHeader | src/listenbrainz.rs:239-242 | "Token " followed by the token |
| ListenBrainz.AuthorizationHeaderInjective | src/listenbrainz.rs:239-242 | distinct tokens give distinct headers |
| ListenBrainz.ValidateToken | src/listenbrainz.rs:283-297 | the user name exactly when the response is valid and carries one; a failed request, a valid response without user name and an invalid response with its code and message are the errors |
| ListenBrainz.BatchStart | src/listenbrainz.rs:192-193 | the batch starts so that it holds the newest min(length, 25) listens |
| ListenBrainz.Batch | src/listenbrainz.rs:192-194 | the last min(length, 25) queued listens in queue order |
| ListenBrainz.BatchEndsWithNewest | src/listenbrainz.rs:191-194 | the batch always ends with the listen just queued |
| ListenBrainz.Timestamps | src/listenbrainz.rs:195 | the timestamps of the batch, in order |
| ListenBrainz.Kept | src/listenbrainz.rs:209 | exactly the queued listens whose timestamp was not sent |
| ListenBrainz.Retain | src/listenbrainz.rs:209 | the in-place removal keeps exactly the listens Kept describes, in order |
| ListenBrainz.KeptIdempotent | src/listenbrainz.rs:209 | removing the same timestamps twice removes nothing more |
| ListenBrainz.AfterCall | src/listenbrainz.rs:205-220 | only a successful import changes the queue, removing exactly the listens with a sent timestamp |
| ListenBrainz.SuccessfulImport | src/listenbrainz.rs:207-212 | a successful import removes every sent listen and keeps every listen with a timestamp not sent |
| ListenBrainz.SuccessfulImportSaves | src/listenbrainz.rs:210-212 | after success the file is written exactly when the queue was non-empty before or is non-empty now |
| ListenBrainz.FailedImport | src/listenbrainz.rs:216-220 | a failed import keeps the queue and always writes the file |
| ListenBrainz.ListenBrainzClient.constructor | src/listenbrainz.rs:107-114 | the given token, the saved queue or an empty one when it cannot be read, no running request |
| ListenBrainz.ListenBrainzClient.UseableOrNone | src/listenbrainz.rs:97-105 | a client exactly when the token file could be read, holding that token |
| ListenBrainz.ListenBrainzClient.WaitForApiThread | src/listenbrainz.rs:233-237 | completes the running request with its effect on the queue and the file |
| ListenBrainz.ListenBrainzClient.Send | src/listenbrainz.rs:244-281 | waits for the running request, then fails without a token, or posts the body with the authorization header and makes the call the running one |
| ListenBrainz.ListenBrainzClient.PlayingNowCall | src/listenbrainz.rs:127-162 | posts the playing_now body when there is a token; the queue is only touched by completing the previous request |
| ListenBrainz.ListenBrainzClient.Submit | src/listenbrainz.rs:164-225 | without a clock an error and nothing changes; otherwise the listen is queued even without a token, and with one the newest 25 are posted as an import that records their timestamps and whether the queue was empty |
| TrayIcon.AsI32 | src/tray_icon.rs:74-75 | the `as i32` cast of a frame dimension: values below 2^31 are kept, larger ones wrap to the negative range |
| TrayIcon.Argb | src/tray_icon.rs:55-57 | a pixel's alpha byte moves to the front and red, green, blue follow in order |
| TrayIcon.ArgbPixels | src/tray_icon.rs:71-72 | converting every 4-byte chunk keeps the buffer's length |
| TrayIcon.ArgbPixelsAt | src/tray_icon.rs:71-72 | each pixel of the converted buffer holds the same pixel's bytes rotated from RGBA to ARGB |
| TrayIcon.ArgbPermutes | src/tray_icon.rs:55-57 | converting a pixel only reorders its bytes |
| TrayIcon.ArgbPixelsPermutes | src/tray_icon.rs:71-72 | converting the buffer only reorders its bytes |
| TrayIcon.Rgba2Argb | src/tray_icon.rs:55-57 | rewrites one 4-byte chunk of the buffer in place to ARGB and leaves every other byte alone |
| TrayIcon.RotatePixels | src/tray_icon.rs:71-72 | the buffer afterwards is exactly the ARGB conversion of what it held before |
| TrayIcon.CreateIco | src/tray_icon.rs:59-78 | a decode failure is passed on; a frame size beyond the buffer, or one that leaves a last chunk shorter than a pixel, is an error (both panic in the source); otherwise the icon holds the first buffer-size bytes converted to ARGB and the frame's dimensions cast to i32 |
| TrayIcon.MenuOf | src/tray_icon.rs:203-215 | one standard menu entry per item, in order, with the item's label and action |
| TrayIcon.MenuOfAppend | src/tray_icon.rs:203-215 | the menu of appended item lists is the appended menus |
| TrayIcon.TrayIconData.constructor | src/tray_icon.rs:90-98 | the four icons as given, an empty tooltip, the stop image and no menu items |
| TrayIcon.TrayIconData.IconPixmap | src/tray_icon.rs:184-192 | exactly one icon: the one matching the current image type |
| TrayIcon.TrayIconData.Menu | src/tray_icon.rs:203-215 | one standard entry per stored item, with its label and action |
| TrayIcon.TrayIcon.constructor | src/tray_icon.rs:101-104 | a handle to the given data, starting on the stop image |
| TrayIcon.TrayIcon.New | src/tray_icon.rs:80-105 | the first icon that failed to load, in the order stop, play, highlighted play, pause, is reported, then a failure to start the tray service; otherwise the tray starts stopped with those four icons |
| TrayIcon.TrayIcon.AddMenuItem | src/tray_icon.rs:107-114 | the item is appended to the stored items and the menu gains its entry at the end |
| TrayIcon.TrayIcon.Show | src/tray_icon.rs:116-158 | the shared step of the four image setters: the handle's image type and the shown one both become the requested type |
| TrayIcon.TrayIcon.Play | src/tray_icon.rs:116-125 | the tray shows the play image afterwards, and an already playing tray shows the same icon as before |
| TrayIcon.TrayIcon.PlayHl | src/tray_icon.rs:127-136 | the tray shows the highlighted play image afterwards |
| TrayIcon.TrayIcon.Stop | src/tray_icon.rs:138-147 | the tray shows the stop image afterwards |
| TrayIcon.TrayIcon.Pause | src/tray_icon.rs:149-158 | the tray shows the pause image afterwards |
| TrayIcon.TrayIcon.SetTooltip | src/tray_icon.rs:164-168 | the stored tooltip becomes the given text |
| Build.ByteTokens | build.rs:71-74 | one token per pair of key characters |
| Build.KeyToBytesStr | build.rs:59-77 | succeeds exactly when the key has 32 characters, all ASCII hex digits; a wrong length is reported before a non-hex character |
| Build.JoinedTokensLayout | build.rs:71-75 | the joined text places token i, `0x` followed by the i-th pair of characters, at offset 6i, with ", " between neighbours |
| Build.KeyToBytesStrLayout | build.rs:59-77 | an accepted key becomes 16 tokens `0xHH` in key order separated by ", ", 94 characters in all |
| Build.KeyBytesRoundTrip | build.rs:71-74 | the bytes the literals stand for print back, through the Last.fm client's hex conversion at src/lastfm.rs:291-295, as the key in lower case |
| Build.GetKeyConsts | build.rs:99-109 | an unreadable file, a trimmed file without exactly two lines, or a bad key or secret (key checked first) is an error; otherwise the two formatted byte lists |
| Build.ConstValuesBothOrNeither | build.rs:80-86 | both constants are `None` exactly when reading the keys failed, and both are present otherwise |
| Build.NoLineFeedInBytesStr | build.rs:71-76 | a formatted byte list holds no line feed |
| Build.KeyConstsContentsLines | build.rs:88-91 | the generated file consists of exactly two lines: the key constant then the secret constant |

## Left out

- Logging: `ignore_err`, `log`, `log_context` and `println_with_date` only print, so the model keeps their results and drops the output.
- Paths: the parent and extension of a `Path` are taken at the last '/' and the last '.'; platform rules for prefixes and separators are not modelled.
- CUE parsing: the Cuna parser and the regular expression in `extract_comment` are foreign code; the model starts from the parsed sheet.
- Cue.CommentCapture: folds ASCII case only when matching the tag name, while the regular expression's `(?i)` folds Unicode case, so a comment that writes a tag letter with a non-ASCII case variant (such as `DIſCNUMBER 2`, with U+017F LATIN SMALL LETTER LONG S for `S`) matches in the source but not in the model.
- Cue.CueFactory.Sheets: returns the cached sheets as a set; the source iterates the values of a `HashMap`, whose order is unspecified, so no order is modelled.
- SymphoniaStream.OtherTypes: its contract states which tags are kept, not that they keep their file order; `ApplicationOrder` uses that order, and its own contract does not depend on it.
- SymphoniaStream: `open`, `seek`'s call into the demuxer, `timestamp_to_duration` and `track_and_decoder_by_probe` call into the symphonia decoder and the lofty tag reader, which are foreign; the model takes their outcomes as input.
- PlaylistMan: saving and loading the playlist file is file I/O; the directory walk and path absolutizing are given as a parameter; `alphanumeric_sort` and the upper-casing before it are an abstract total preorder `nameLe`; URL parsing of `file://` entries is given already converted; the dispatch to a stream by extension is `IsPathSupported`.
- Player: `read_stream` (src/player.rs:618-657), `send_new_meta` and `process` drive the decoder and the output device; `ReadStreamPacketsBatch` takes the outcome of each read as input.
- Player: `PlayerTx` and `start_thread` are threads and channels; the 100 ms receive timeout and `need_fast_read` are timing choices and are not modelled.
- Player: the player model holds no decoder, so `set_cue_factory` and `clear_cue_factory` are not modelled.
- Player.PlayerThread.Navigate: for `PrevDir`, and for a `NextDir` that fails, only the facts common to every move are stated (stop first; on success a track that opens is current and playback started). Where a previous-directory move lands is stated one step at a time by `Player.PlayerThread.MoveIndex` and `Player.PlayerThread.FirstIndexInDir`, not for the whole move.
- Player.PlayerThread.MoveAndPlay: the same holds here and for `Player.PlayerThread.MoveFrom`: a previous-directory move, and a next-directory move that fails or does not wrap, have no statement of which track they reach beyond the step-wise one of `Player.PlayerThread.MoveIndex`.
- Decoder: `playback_position`, `valid_playback_position` and `buffer_duration` compute with f64; floating point is not modelled.
- Decoder: `set_volume` clamps a float; `ProcessClientCmd` takes the volume function as a parameter.
- Decoder: `copy_with_volume` and `create_output_stream` belong to the cpal output device; `Drain` stands for what the output callback takes from the buffer.
- Decoder: `clear_cue_factory` and `set_cue_factory` only replace the shared cache and are not modelled.
- App: volume handling (`set_vol`, system volume), media controls, hotkeys, the popup text and the tooltip formatting of `update_tray` are output to the desktop and are not modelled.
- App: `user_action_next`, `user_action_prev`, `user_action_dir` and `quit` only send one command each; `init_playlist`, `AppHandle` and the wiring in `start` (apart from the position callbacks) are not modelled.
- App: calls into the scrobbling back ends are abstract `BackendCall` events. src/app.rs:360-363 passes four arguments to ListenBrainz `playing_now`, which takes five in src/listenbrainz.rs, so those two files do not belong to one revision; the model gives ListenBrainz no duration in `ReportTo`.
- LastFm.LastFM.Scrobble: sends each queued item with its own album, track number and duration (the corrected parameters of the Findings row on src/lastfm.rs:237-245), not the current call's; the parameters as written are `LastFm.BatchParamsAsWritten`, which `LastFm.BatchParamsAsWrittenOverrides` shows are the corrected parameters of the batch with every item's album, number and duration overridden by the call's.
- LastFm.ScrobbleParams: builds the corrected per-item parameters, `LastFm.BatchParams`, for the same reason; `LastFm.LastFM.Queued`, `LastFm.LastFM.SignedScrobble`, `LastFm.LastFM.StartCall` and `LastFm.LastFM.QueueAndSend` send the same corrected parameters.
- LastFm: the HTTP call in `api_call` is a parameter; the md5 digest of the signature is a `digest` parameter; URL encoding is left out and the query is kept as a list of parameters. `Url::parse_with_params` on the constant API address (src/lastfm.rs:324-325) is taken not to fail, so its error branch is not modelled.
- LastFm: of `cli_auth` only the credential check is modelled; the prompts, the session request and the file it writes are I/O.
- LastFm: the system clock is a `now` parameter; the API thread is modelled in two phases (`StartCall`, then `WaitForApiThread` with the outcome as input).
- LastFm.LastFM.Scrobble: the running call is modelled as completing before `scrobble` locks the queue, the only order in which `scrobble` returns: it holds the queue lock from src/lastfm.rs:220 until it joins the call at line 253, and the call itself locks the queue at lines 268 and 275, so a call still running at line 220 deadlocks the source. That deadlock is not modelled.
- ListenBrainz: the HTTP post is a parameter and the JSON body is a `Json` value, not text; the serde serialisation failure in `send` (src/listenbrainz.rs:249) is not modelled.
- ListenBrainz: of `cli_auth` only `validate_token` is modelled; `project_info::title` is a `title` parameter; reading and writing the token and queue files are parameters.
- TrayIcon: the ksni handle's updates reach the desktop through a service thread; the model applies them to the data at once. Starting that service (`spawn`) is foreign, and its outcome is the `spawnError` parameter of `New`. PNG decoding is foreign and `CreateIco` takes the decoded frame as input.
- Build: `fs::write`, reading the key file and reading environment variables are I/O; the key file's text is a parameter and the generated file is a value.
- Durations are natural numbers of nanoseconds and other counts are unbounded; the u64 limits are written out only for the numbers of a Last.fm scrobble item (`LastFm.InRange`), whose text form the batch proofs read back.

## Findings

| source | as written | input that shows it | evidently intended | confidence | as-written member | corrected member |
|---|---|---|---|---|---|---|
| src/cue.rs:37-45 | slices the name at byte length minus 4, which panics when that byte is inside a multi-byte character | the file name "歌詞" (six bytes, two characters) | answer false for names that cannot end in ".cue" | not executed | Cue.IsSupportedFilePanics | Cue.IsSupportedFile |
| src/lastfm.rs:237-245 | every item of a scrobble batch gets the album, track number and duration of the current call | an older queued listen "First" from album A sent together with a newer listen "Second" from album B | each item sends its own album, track number and duration | not executed | LastFm.BatchParamsAsWrittenMisreportsAlbum | LastFm.BatchParamsRoundTrip |
| src/lastfm.rs:383-387 | after reading the password it tests whether the username is empty | the username "user" with the empty password | refuse an empty password | not executed | LastFm.CheckCredentialsAsWrittenAcceptsEmptyPassword | LastFm.CheckCredentials |

=== FILE: app.dfy ===
/** src/app.rs: the application object. It turns user actions into player
    commands, follows the player's responses (current track, metadata,
    playback state, seeks, position callbacks), keeps the tray icon in step
    with the playback state and calls the scrobbling backends.

    The player channel is the sequence of commands sent so far, the backend
    calls are recorded as events, and so are the popups and the saves of the
    persistent state's playlist index. */
module App {
  import opened Wrappers
  import opened StreamBase
  import P = Player
  import T = TrayIcon

  // ---------------------------------------------------------------------
  // Position callbacks

  const POS_CALLBACK_NOW_PLAYING: nat := 0
  const POS_NOW_PLAYING: Duration := Secs(5)
  const POS_CALLBACK_SCROBBLE: nat := 1
  const POS_SCROBBLE: Duration := Secs(5)
  const POS_CALLBACK_HL_END: nat := 2
  /** `Duration::from_secs_f64(0.5)` */
  const POS_HL_END: Duration := NANOS_PER_SEC / 2
  const POS_MIN_DURATION_TO_SCROBBLE: Duration := Secs(30)

  /** The callbacks `start` hands to the player: none when neither backend
      is usable, otherwise "now playing" 5 s into the track, "scrobble" 5 s
      before its end and "end of the highlight" half a second in. */
  function PositionCallbacks(listenBrainzUsable: bool, lastFmUsable: bool): (r: Option<seq<P.PositionCallback>>)
    ensures r.Some? <==> listenBrainzUsable || lastFmUsable
    ensures r.Some? ==> P.Ids(r.value) == [POS_CALLBACK_NOW_PLAYING, POS_CALLBACK_SCROBBLE, POS_CALLBACK_HL_END]
  {
    if listenBrainzUsable || lastFmUsable then
      Some([P.PositionCallback(POS_CALLBACK_NOW_PLAYING, P.SecsFromStart(POS_NOW_PLAYING)),
            P.PositionCallback(POS_CALLBACK_SCROBBLE, P.SecsFromEnd(POS_SCROBBLE)),
            P.PositionCallback(POS_CALLBACK_HL_END, P.SecsFromStart(POS_HL_END))])
    else None
  }

  /** When the player fires the app's callbacks: "now playing" from 5 s on,
      "scrobble" from 5 s before the end on, the highlight end from half a
      second on; and each id fires at most once per track. */
  lemma PositionCallbacksDue(lb: bool, lfm: bool, position: Duration, duration: Duration)
    requires lb || lfm
    ensures var cbs := PositionCallbacks(lb, lfm).value;
      && (P.MustTrigger(cbs[0].marker, position, duration) <==> position >= Secs(5))
      && (P.MustTrigger(cbs[1].marker, position, duration) <==> position + Secs(5) >= duration)
      && (P.MustTrigger(cbs[2].marker, position, duration) <==> 2 * position >= Secs(1))
      && P.NoDuplicates(P.Ids(cbs))
  {
    var cbs := PositionCallbacks(lb, lfm).value;
    assert P.Ids(cbs) == [0, 1, 2];
  }

  // ---------------------------------------------------------------------
  // Backend calls

  datatype Backend = ListenBrainz | LastFm

  datatype CallKind = NowPlaying | Scrobble

  /** One call to a backend: `playing_now`, or `submit` / `scrobble`. The
      Last.fm calls carry the duration; the ListenBrainz calls do not. */
  datatype BackendCall = BackendCall(
    backend: Backend,
    kind: CallKind,
    artist: string,
    album: Option<string>,
    title: string,
    track: Option<nat>,
    duration: Option<Duration>)

  /** A track may be reported when it is longer than 30 s and has both an
      artist and a title. */
  predicate Reportable(meta: TrackMeta) {
    meta.duration > POS_MIN_DURATION_TO_SCROBBLE && meta.artist.Some? && meta.title.Some?
  }

  /** No seek, or a seek to the very start, happened since the track began. */
  predicate Unseeked(lastSeekPosition: Option<Duration>) {
    lastSeekPosition.UnwrapOr(0) == 0
  }

  /** The calls to the configured backends for one kind of report:
      ListenBrainz first, then Last.fm. */
  function ReportTo(kind: CallKind, meta: TrackMeta, listenBrainz: bool, lastFm: bool): (r: seq<BackendCall>)
    requires meta.artist.Some? && meta.title.Some?
    ensures |r| == (if listenBrainz then 1 else 0) + (if lastFm then 1 else 0)
    ensures forall c :: c in r ==>
      c.kind == kind && c.artist == meta.artist.value && c.title == meta.title.value
      && c.album == meta.album && c.track == meta.track
    ensures forall c :: c in r ==> (c.backend == LastFm <==> c.duration == Some(meta.duration))
  {
    (if listenBrainz then [BackendCall(ListenBrainz, kind, meta.artist.value, meta.album, meta.title.value, meta.track, None)] else [])
    + (if lastFm then [BackendCall(LastFm, kind, meta.artist.value, meta.album, meta.title.value, meta.track, Some(meta.duration))] else [])
  }

  /** The backend calls `process_position_callback` makes for callback `id`. */
  function CallbackCalls(id: nat, meta: TrackMeta, lastSeekPosition: Option<Duration>, listenBrainz: bool, lastFm: bool)
    : (r: seq<BackendCall>)
    ensures r != [] ==> Reportable(meta)
    ensures forall c :: c in r ==> (c.kind == NowPlaying <==> id == POS_CALLBACK_NOW_PLAYING)
    ensures forall c :: c in r ==> (c.kind == Scrobble <==> id == POS_CALLBACK_SCROBBLE)
    ensures forall c :: c in r && c.kind == Scrobble ==> Unseeked(lastSeekPosition)
    ensures r == [] <==>
      || !Reportable(meta) || (!listenBrainz && !lastFm)
      || (id != POS_CALLBACK_NOW_PLAYING && id != POS_CALLBACK_SCROBBLE)
      || (id == POS_CALLBACK_SCROBBLE && !Unseeked(lastSeekPosition))
  {
    if !Reportable(meta) then []
    else if id == POS_CALLBACK_NOW_PLAYING then ReportTo(NowPlaying, meta, listenBrainz, lastFm)
    else if id == POS_CALLBACK_SCROBBLE && Unseeked(lastSeekPosition) then ReportTo(Scrobble, meta, listenBrainz, lastFm)
    else []
  }

  /** A track of exactly 30 s is never reported, whatever its tags. */
  lemma ThirtySecondsIsTooShort(id: nat, meta: TrackMeta, lastSeekPosition: Option<Duration>, lb: bool, lfm: bool)
    requires meta.duration <= Secs(30)
    ensures CallbackCalls(id, meta, lastSeekPosition, lb, lfm) == []
  {
  }

  // ---------------------------------------------------------------------
  // User actions

  datatype UserAction = ToggleStop | StopAction | PlayAction | PauseAction | TogglePause

  /** The new playback state and the commands sent to the player for a user
      action in playback state `s`. */
  function Transition(a: UserAction, s: P.PlaybackState): (r: (P.PlaybackState, seq<P.PlayerCmd>))
    ensures |r.1| <= 1
    ensures a == ToggleStop ==> r.0 != P.Paused && r.0 != s
    ensures a == TogglePause ==> r.0 != s && (s == P.Playing <==> r.0 == P.Paused)
    ensures a == StopAction ==> r.0 == P.Stopped && r.1 == [P.PlayerCmd.Stop]
    ensures a == PlayAction ==> r.0 == P.Playing && (r.1 == [] <==> s == P.Playing)
    ensures a == PauseAction ==> (r.1 != [] <==> s == P.Playing) && (s == P.Playing ==> r.0 == P.Paused)
    ensures a != StopAction ==> (r.1 == [] <==> r.0 == s)
    ensures r.1 == [P.PlayerCmd.Play(None)] <==> s == P.Stopped && r.0 == P.Playing
    ensures r.1 == [P.UnPause] <==> s == P.Paused && r.0 == P.Playing
  {
    match a
    case ToggleStop =>
      (match s
       case Stopped => (P.Playing, [P.PlayerCmd.Play(None)])
       case Playing => (P.Stopped, [P.PlayerCmd.Stop])
       case Paused => (P.Playing, [P.UnPause]))
    case StopAction => (P.Stopped, [P.PlayerCmd.Stop])
    case PlayAction =>
      (match s
       case Stopped => (P.Playing, [P.PlayerCmd.Play(None)])
       case Playing => (P.Playing, [])
       case Paused => (P.Playing, [P.UnPause]))
    case PauseAction =>
      if s == P.Playing then (P.Paused, [P.PlayerCmd.Pause]) else (s, [])
    case TogglePause =>
      (match s
       case Stopped => (P.Playing, [P.PlayerCmd.Play(None)])
       case Playing => (P.Paused, [P.PlayerCmd.Pause])
       case Paused => (P.Playing, [P.UnPause]))
  }

  /** Pressing pause twice while playing or paused comes back to the same
      state; pressing play and then pause while playing pauses. */
  lemma {:induction false} TogglePauseTwice(s: P.PlaybackState)
    requires s != P.Stopped
    ensures Transition(TogglePause, Transition(TogglePause, s).0).0 == s
    ensures Transition(PauseAction, Transition(PlayAction, s).0).0 == P.Paused
  {
    match s
    case Playing =>
      assert Transition(TogglePause, s).0 == P.Paused;
    case Paused =>
      assert Transition(TogglePause, s).0 == P.Playing;
  }

  /** Toggling stop twice from Stopped or Playing comes back to the same
      state, and from Paused it ends stopped. */
  lemma {:induction false} ToggleStopTwice(s: P.PlaybackState)
    ensures s != P.Paused ==> Transition(ToggleStop, Transition(ToggleStop, s).0).0 == s
    ensures s == P.Paused ==> Transition(ToggleStop, Transition(ToggleStop, s).0).0 == P.Stopped
  {
    match s
    case Stopped =>
      assert Transition(ToggleStop, s).0 == P.Playing;
    case Playing =>
      assert Transition(ToggleStop, s).0 == P.Stopped;
    case Paused =>
      assert Transition(ToggleStop, s).0 == P.Playing;
  }

  /** The tray image that goes with a playback state: a play image (plain or
      highlighted) while playing. */
  predicate TrayAgrees(s: P.PlaybackState, image: T.TrayIconImageType) {
    match s
    case Playing => image == T.Play || image == T.PlayHL
    case Stopped => image == T.TrayIconImageType.Stop
    case Paused => image == T.TrayIconImageType.Pause
  }

  // ---------------------------------------------------------------------
  // The application

  datatype Popup = PlaylistEndedPopup | TrackPopup(playlistIndex: nat, track: Track, meta: TrackMeta)

  /** The fields of the app that its handlers change, with the image the
      tray shows, as one value, so a contract can say which of them a
      handler leaves alone. */
  datatype AppState = AppState(
    playbackState: P.PlaybackState, playlistIndex: nat, curTrack: Option<Track>, meta: TrackMeta,
    statePlaylistIndex: Option<nat>, stateSaves: seq<Option<nat>>, lastSeekPosition: Option<Duration>,
    playerCmds: seq<P.PlayerCmd>, backendCalls: seq<BackendCall>, popups: seq<Popup>, trayImage: T.TrayIconImageType)

  class App {
    var playbackState: P.PlaybackState
    var playlistIndex: nat
    var curTrack: Option<Track>
    var meta: TrackMeta
    const tray: T.TrayIcon
    /** Whether a ListenBrainz client, and a Last.fm client, exist. */
    const listenBrainz: bool
    const lastFm: bool
    /** `state.playlist_index`, and every value it was saved with. */
    var statePlaylistIndex: Option<nat>
    var stateSaves: seq<Option<nat>>
    var lastSeekPosition: Option<Duration>
    /** Commands sent to the player, backend calls made and popups shown. */
    var playerCmds: seq<P.PlayerCmd>
    var backendCalls: seq<BackendCall>
    var popups: seq<Popup>

    /** The tray shows the image of the playback state. */
    predicate Valid()
      reads this, tray, tray.data
    {
      tray.Valid() && TrayAgrees(playbackState, tray.imageType)
    }

    /** The app's fields and the tray image as one value. */
    ghost function State(): AppState
      reads this, tray
    {
      AppState(playbackState, playlistIndex, curTrack, meta, statePlaylistIndex, stateSaves, lastSeekPosition,
               playerCmds, backendCalls, popups, tray.imageType)
    }

    /** The app as `start` builds it, around an existing tray and the
        playlist index loaded from the saved state. */
    constructor(tray: T.TrayIcon, listenBrainz: bool, lastFm: bool, savedPlaylistIndex: Option<nat>)
      requires tray.Valid() && tray.imageType == T.TrayIconImageType.Stop
      ensures Valid() && this.tray == tray
      ensures this.listenBrainz == listenBrainz && this.lastFm == lastFm
      ensures playbackState == P.Stopped && playlistIndex == 0 && curTrack.None?
      ensures meta == DefaultMeta() && lastSeekPosition.None?
      ensures statePlaylistIndex == savedPlaylistIndex && stateSaves == []
      ensures playerCmds == [] && backendCalls == [] && popups == []
    {
      this.tray := tray;
      this.listenBrainz := listenBrainz;
      this.lastFm := lastFm;
      playbackState := P.Stopped;
      playlistIndex := 0;
      curTrack := None;
      meta := DefaultMeta();
      statePlaylistIndex := savedPlaylistIndex;
      stateSaves := [];
      lastSeekPosition := None;
      playerCmds := [];
      backendCalls := [];
      popups := [];
    }

    /** `set_playback_state`: records the state and puts the tray image in
        step with it; a highlighted play image stays while playing. */
    method SetPlaybackState(s: P.PlaybackState)
      requires Valid()
      modifies this`playbackState, tray`imageType, tray.data`imageType
      ensures Valid() && playbackState == s
      ensures TrayAgrees(s, tray.imageType)
      ensures s == P.Playing && TrayAgrees(s, old(tray.imageType)) ==> tray.imageType == old(tray.imageType)
    {
      match s {
        case Playing =>
          if !(tray.imageType == T.Play || tray.imageType == T.PlayHL) {
            tray.Play();
          }
        case Stopped =>
          tray.Stop();
        case Paused =>
          tray.Pause();
      }
      playbackState := s;
    }

    /** A user action: the command to the player, then the new state. */
    method Act(a: UserAction)
      requires Valid()
      modifies this`playbackState, this`playerCmds, tray`imageType, tray.data`imageType
      ensures Valid()
      ensures playbackState == Transition(a, old(playbackState)).0
      ensures playerCmds == old(playerCmds) + Transition(a, old(playbackState)).1
      ensures Transition(a, old(playbackState)).1 != [] ==> TrayAgrees(playbackState, tray.imageType)
      ensures Transition(a, old(playbackState)).1 == [] ==> tray.imageType == old(tray.imageType)
    {
      var t := Transition(a, playbackState);
      if t.1 != [] {
        playerCmds := playerCmds + t.1;
        SetPlaybackState(t.0);
      }
    }

    /** `user_action_toggle_stop`: Stopped and Paused start playing, Playing
        stops. */
    method UserActionToggleStop()
      requires Valid()
      modifies this`playbackState, this`playerCmds, tray`imageType, tray.data`imageType
      ensures Valid() && TrayAgrees(playbackState, tray.imageType)
      ensures old(playbackState) == P.Stopped ==> playbackState == P.Playing && playerCmds == old(playerCmds) + [P.PlayerCmd.Play(None)]
      ensures old(playbackState) == P.Playing ==> playbackState == P.Stopped && playerCmds == old(playerCmds) + [P.PlayerCmd.Stop]
      ensures old(playbackState) == P.Paused ==> playbackState == P.Playing && playerCmds == old(playerCmds) + [P.UnPause]
    {
      Act(ToggleStop);
    }

    /** `user_action_stop` */
    method UserActionStop()
      requires Valid()
      modifies this`playbackState, this`playerCmds, tray`imageType, tray.data`imageType
      ensures Valid() && playbackState == P.Stopped && tray.imageType == T.TrayIconImageType.Stop
      ensures playerCmds == old(playerCmds) + [P.PlayerCmd.Stop]
    {
      Act(StopAction);
    }

    /** `user_action_play`: nothing happens while playing. */
    method UserActionPlay()
      requires Valid()
      modifies this`playbackState, this`playerCmds, tray`imageType, tray.data`imageType
      ensures Valid() && playbackState == P.Playing && TrayAgrees(playbackState, tray.imageType)
      ensures old(playbackState) == P.Playing ==> playerCmds == old(playerCmds) && tray.imageType == old(tray.imageType)
      ensures old(playbackState) == P.Stopped ==> playerCmds == old(playerCmds) + [P.PlayerCmd.Play(None)]
      ensures old(playbackState) == P.Paused ==> playerCmds == old(playerCmds) + [P.UnPause]
    {
      Act(PlayAction);
    }

    /** `user_action_pause`: acts only while playing. */
    method UserActionPause()
      requires Valid()
      modifies this`playbackState, this`playerCmds, tray`imageType, tray.data`imageType
      ensures Valid()
      ensures old(playbackState) == P.Playing ==>
        playbackState == P.Paused && tray.imageType == T.TrayIconImageType.Pause && playerCmds == old(playerCmds) + [P.PlayerCmd.Pause]
      ensures old(playbackState) != P.Playing ==>
        playbackState == old(playbackState) && playerCmds == old(playerCmds) && tray.imageType == old(tray.imageType)
    {
      Act(PauseAction);
    }

    /** `user_action_toggle_pause`: Stopped and Paused start playing,
        Playing pauses. */
    method UserActionTogglePause()
      requires Valid()
      modifies this`playbackState, this`playerCmds, tray`imageType, tray.data`imageType
      ensures Valid() && TrayAgrees(playbackState, tray.imageType)
      ensures old(playbackState) == P.Stopped ==> playbackState == P.Playing && playerCmds == old(playerCmds) + [P.PlayerCmd.Play(None)]
      ensures old(playbackState) == P.Playing ==> playbackState == P.Paused && playerCmds == old(playerCmds) + [P.PlayerCmd.Pause]
      ensures old(playbackState) == P.Paused ==> playbackState == P.Playing && playerCmds == old(playerCmds) + [P.UnPause]
    {
      Act(TogglePause);
    }

    /** `process_position_callback`: reports the track to the backends
        (see `CallbackCalls`) and ends the highlight of the play image. */
    method ProcessPositionCallback(callback: P.PositionCallback)
      requires Valid()
      modifies this`backendCalls, tray`imageType, tray.data`imageType
      ensures Valid()
      ensures backendCalls == old(backendCalls) + CallbackCalls(callback.id, meta, lastSeekPosition, listenBrainz, lastFm)
      ensures callback.id == POS_CALLBACK_HL_END && old(tray.imageType) == T.PlayHL ==> tray.imageType == T.Play
      ensures !(callback.id == POS_CALLBACK_HL_END && old(tray.imageType) == T.PlayHL) ==> tray.imageType == old(tray.imageType)
    {
      backendCalls := backendCalls + CallbackCalls(callback.id, meta, lastSeekPosition, listenBrainz, lastFm);
      if callback.id == POS_CALLBACK_HL_END && tray.imageType == T.PlayHL {
        tray.Play();
      }
    }

    /** The part of `update_tray` the model keeps: with a current track it
        asks the player for the position and shows the track in a popup when
        asked to. */
    method UpdateTray(showPopup: bool)
      modifies this`playerCmds, this`popups
      ensures curTrack.None? ==> playerCmds == old(playerCmds) && popups == old(popups)
      ensures curTrack.Some? ==> playerCmds == old(playerCmds) + [P.RequestPosition]
      ensures curTrack.Some? && showPopup ==> popups == old(popups) + [TrackPopup(playlistIndex, curTrack.value, meta)]
      ensures curTrack.Some? && !showPopup ==> popups == old(popups)
    {
      if curTrack.Some? {
        playerCmds := playerCmds + [P.RequestPosition];
        if showPopup {
          popups := popups + [TrackPopup(playlistIndex, curTrack.value, meta)];
        }
      }
    }

    /** The player moved to track `index`: it becomes the current track
        with no metadata yet and no seek, the index is saved in the state
        file when it changed, and an automatic move while playing highlights
        the tray icon. */
    method NewPlaylistIndex(index: nat, track: Track, userNavigation: bool)
      requires Valid()
      modifies this, tray`imageType, tray.data`imageType
      ensures Valid()
      ensures playlistIndex == index && curTrack == Some(track)
        && meta == DefaultMeta() && lastSeekPosition.None?
        && statePlaylistIndex == Some(index)
        && (old(statePlaylistIndex) == Some(index) ==> stateSaves == old(stateSaves))
        && (old(statePlaylistIndex) != Some(index) ==> stateSaves == old(stateSaves) + [Some(index)])
        && playbackState == old(playbackState) && playerCmds == old(playerCmds)
        && backendCalls == old(backendCalls) && popups == old(popups)
        && (!userNavigation && old(tray.imageType) == T.Play ==> tray.imageType == T.PlayHL)
        && (userNavigation || old(tray.imageType) != T.Play ==> tray.imageType == old(tray.imageType))
    {
      playlistIndex := index;
      curTrack := Some(track);
      meta := DefaultMeta();
      if statePlaylistIndex != Some(index) {
        statePlaylistIndex := Some(index);
        stateSaves := stateSaves + [Some(index)];
      }
      lastSeekPosition := None;
      if !userNavigation && tray.imageType == T.Play {
        tray.PlayHl();
      }
    }

    /** `process_player_response`: false exactly when the player exited. */
    method ProcessPlayerResponse(resp: P.PlayerResponse) returns (r: bool)
      requires Valid()
      modifies this, tray`imageType, tray.data`imageType
      ensures Valid()
      ensures r <==> !resp.Exited?
      ensures resp.NewPlaylistIndex? ==>
        && playlistIndex == resp.playlistIndex && curTrack == Some(resp.track)
        && meta == DefaultMeta() && lastSeekPosition.None?
        && statePlaylistIndex == Some(resp.playlistIndex)
        && (old(statePlaylistIndex) == Some(resp.playlistIndex) ==> stateSaves == old(stateSaves))
        && (old(statePlaylistIndex) != Some(resp.playlistIndex) ==> stateSaves == old(stateSaves) + [Some(resp.playlistIndex)])
        && playbackState == old(playbackState) && playerCmds == old(playerCmds)
        && backendCalls == old(backendCalls) && popups == old(popups)
        && (!resp.userNavigation && old(tray.imageType) == T.Play ==> tray.imageType == T.PlayHL)
        && (resp.userNavigation || old(tray.imageType) != T.Play ==> tray.imageType == old(tray.imageType))
      ensures resp.Seeked? ==>
        && lastSeekPosition == Some(resp.seekedTo)
        && playbackState == old(playbackState) && playlistIndex == old(playlistIndex)
        && curTrack == old(curTrack) && meta == old(meta)
        && statePlaylistIndex == old(statePlaylistIndex) && stateSaves == old(stateSaves)
        && playerCmds == old(playerCmds) && backendCalls == old(backendCalls) && popups == old(popups)
        && tray.imageType == old(tray.imageType)
      ensures resp.NewMeta? ==>
        && meta == resp.meta && playbackState == old(playbackState)
        && TrayAgrees(playbackState, tray.imageType)
        && curTrack == old(curTrack) && lastSeekPosition == old(lastSeekPosition)
        && (curTrack.Some? ==> playerCmds == old(playerCmds) + [P.RequestPosition])
        && (curTrack.None? ==> playerCmds == old(playerCmds) && popups == old(popups))
        && (curTrack.Some? && resp.userNavigation ==> popups == old(popups) + [TrackPopup(playlistIndex, curTrack.value, meta)])
      ensures resp.PlaybackStateChanged? ==>
        playbackState == resp.state && TrayAgrees(playbackState, tray.imageType) && lastSeekPosition == old(lastSeekPosition)
        && (resp.state == P.Playing && TrayAgrees(P.Playing, old(tray.imageType)) ==> tray.imageType == old(tray.imageType))
      ensures resp.PositionRequested? ==>
        playbackState == old(playbackState) && TrayAgrees(playbackState, tray.imageType)
      ensures resp.PositionCallbackReached? ==>
        backendCalls == old(backendCalls)
          + CallbackCalls(resp.callback.id, old(meta), old(lastSeekPosition), listenBrainz, lastFm)
        && playbackState == old(playbackState) && meta == old(meta) && lastSeekPosition == old(lastSeekPosition)
        && (resp.callback.id == POS_CALLBACK_HL_END && old(tray.imageType) == T.PlayHL ==> tray.imageType == T.Play)
        && (!(resp.callback.id == POS_CALLBACK_HL_END && old(tray.imageType) == T.PlayHL) ==>
              tray.imageType == old(tray.imageType))
      ensures resp.PlaylistEnded? ==> popups == old(popups) + [PlaylistEndedPopup] && backendCalls == old(backendCalls)
      ensures !resp.PositionCallbackReached? ==> backendCalls == old(backendCalls)
      // What each response leaves alone: every field its handler does not set.
      ensures resp.PlaylistEnded? ==> State() == old(State()).(popups := popups)
      ensures resp.NewMeta? ==> State() == old(State()).(meta := meta, playerCmds := playerCmds, popups := popups)
      ensures resp.PlaybackStateChanged? ==>
        State() == old(State()).(playbackState := playbackState, trayImage := tray.imageType)
      ensures resp.Seeked? ==> State() == old(State()).(lastSeekPosition := lastSeekPosition)
      ensures resp.PositionCallbackReached? ==>
        State() == old(State()).(backendCalls := backendCalls, trayImage := tray.imageType)
      ensures resp.PositionRequested? || resp.VolumeSet? || resp.Exited? ==> State() == old(State())
    {
      match resp {
        case NewPlaylistIndex(index, track, userNavigation) =>
          NewPlaylistIndex(index, track, userNavigation);
        case PlaylistEnded =>
          popups := popups + [PlaylistEndedPopup];
        case NewMeta(newMeta, userNavigation) =>
          meta := newMeta;
          SetPlaybackState(playbackState);
          UpdateTray(userNavigation);
        case PlaybackStateChanged(s, _) =>
          SetPlaybackState(s);
        case PositionRequested(_) =>
          SetPlaybackState(playbackState);
        case Seeked(position) =>
          lastSeekPosition := Some(position);
        case PositionCallbackReached(callback) =>
          ProcessPositionCallback(callback);
        case VolumeSet(_) =>
        case Exited =>
          return false;
      }
      r := true;
    }
  }

  /** What one track's callbacks report, in the order the player fires them:
      a long enough, tagged and unseeked track is announced and then
      scrobbled to every configured backend. */
  lemma {:induction false} TrackReportedTwice(meta: TrackMeta, lb: bool, lfm: bool)
    requires Reportable(meta) && (lb || lfm)
    ensures var calls := CallbackCalls(POS_CALLBACK_NOW_PLAYING, meta, None, lb, lfm)
                       + CallbackCalls(POS_CALLBACK_SCROBBLE, meta, None, lb, lfm);
      && |calls| == 2 * ((if lb then 1 else 0) + (if lfm then 1 else 0))
      && calls[0].kind == NowPlaying && calls[|calls| - 1].kind == Scrobble
  {
    var a := CallbackCalls(POS_CALLBACK_NOW_PLAYING, meta, None, lb, lfm);
    var b := CallbackCalls(POS_CALLBACK_SCROBBLE, meta, None, lb, lfm);
    assert a == ReportTo(NowPlaying, meta, lb, lfm);
    assert b == ReportTo(Scrobble, meta, lb, lfm);
    assert a[0] in a;
    assert b[|b| - 1] in b;
  }

  /** A seek away from the start between "now playing" and "scrobble"
      suppresses the scrobble but not the announcement. */
  lemma SeekSuppressesScrobble(meta: TrackMeta, position: Duration, lb: bool, lfm: bool)
    requires Reportable(meta) && (lb || lfm) && position > 0
    ensures CallbackCalls(POS_CALLBACK_SCROBBLE, meta, Some(position), lb, lfm) == []
    ensures CallbackCalls(POS_CALLBACK_NOW_PLAYING, meta, Some(position), lb, lfm) != []
  {
  }
}

=== FILE: build.dfy ===
/** The Last.fm part of the build script (build.rs): the key file holds the
    API key and the shared secret, 32 hexadecimal digits each, on two
    lines; they are written into a generated source file as two optional
    16-byte array constants, both present or both absent. */
module Build {
  import opened Wrappers
  import opened Text
  import LastFm

  const LASTFM_BYTES_LEN: nat := 16
  const LASTFM_KEY_NAME: string := "API_KEY"
  const LASTFM_SECRET_NAME: string := "SHARED_SECRET"

  datatype BuildError =
    | KeyFileUnreadable(cause: string)
    | NotTwoLines
    | WrongLength(name: string)
    | NotHex(name: string)

  // ---------------------------------------------------------------------
  // One key

  /** The tokens `0xHH`, one per pair of characters, in order
      (`chunks_exact(2)` on an even number of characters). */
  function ByteTokens(key: string): (r: seq<string>)
    requires |key| % 2 == 0
    ensures |r| == |key| / 2
  {
    if key == [] then [] else ["0x" + key[..2]] + ByteTokens(key[2..])
  }

  /** `join`: the parts with `sep` between each two. */
  function Join(parts: seq<string>, sep: string): string {
    if parts == [] then []
    else if |parts| == 1 then parts[0]
    else parts[0] + sep + Join(parts[1..], sep)
  }

  /** `lastfm_key_to_bytes_str`: a key of exactly 32 hexadecimal digits
      becomes its 16 byte literals joined by ", "; a key of another length
      is rejected first, then one holding any other character. */
  function KeyToBytesStr(name: string, key: string): (r: Result<string, BuildError>)
    ensures r.Ok? <==> |key| == 2 * LASTFM_BYTES_LEN && forall i :: 0 <= i < |key| ==> IsAsciiHexDigit(key[i])
    ensures |key| != 2 * LASTFM_BYTES_LEN ==> r == Err(WrongLength(name))
    ensures |key| == 2 * LASTFM_BYTES_LEN && r.Err? ==> r == Err(NotHex(name))
  {
    if |key| != 2 * LASTFM_BYTES_LEN then Err(WrongLength(name))
    else if !(forall i :: 0 <= i < |key| ==> IsAsciiHexDigit(key[i])) then Err(NotHex(name))
    else Ok(Join(ByteTokens(key), ", "))
  }

  /** The `i`-th token of a joined token list: six characters per byte. */
  function TokenAt(s: string, i: nat): string
    requires 6 * i + 4 <= |s|
  {
    s[6 * i..6 * i + 4]
  }

  /** The text between the `i`-th and the next token. */
  function SeparatorAt(s: string, i: nat): string
    requires 6 * i + 6 <= |s|
  {
    s[6 * i + 4..6 * i + 6]
  }

  /** The `i`-th pair of characters of a key. */
  function PairAt(key: string, i: nat): string
    requires 2 * i + 2 <= |key|
  {
    key[2 * i..2 * i + 2]
  }

  /** Behind a first token and its separator, the tokens of the rest sit
      one place further on. */
  lemma ShiftedToken(s: string, first: string, t: string, i: nat)
    requires |first| == 4 && s == first + ", " + t && 6 * i + 4 <= |t|
    ensures TokenAt(s, i + 1) == TokenAt(t, i)
  {
    assert s[6 * (i + 1)..6 * (i + 1) + 4] == t[6 * i..6 * i + 4];
  }

  /** Behind a first token and its separator, the separators of the rest
      sit one place further on. */
  lemma ShiftedSeparator(s: string, first: string, t: string, i: nat)
    requires |first| == 4 && s == first + ", " + t && 6 * i + 6 <= |t|
    ensures SeparatorAt(s, i + 1) == SeparatorAt(t, i)
  {
    assert s[6 * (i + 1) + 4..6 * (i + 1) + 6] == t[6 * i + 4..6 * i + 6];
  }

  /** The joined tokens of a key of `2n` characters: `n` tokens `0x`
      followed by the key's next two characters, in key order, each two
      separated by ", ", and nothing else. */
  lemma {:induction false} JoinedTokensLayout(key: string)
    requires |key| % 2 == 0 && key != []
    ensures var s := Join(ByteTokens(key), ", "); var n := |key| / 2;
      && |s| == 6 * n - 2
      && (forall i :: 0 <= i < n ==> TokenAt(s, i) == "0x" + PairAt(key, i))
      && (forall i :: 0 <= i < n - 1 ==> SeparatorAt(s, i) == ", ")
    decreases |key|
  {
    var s := Join(ByteTokens(key), ", ");
    var n := |key| / 2;
    var first := "0x" + key[..2];
    if |key| == 2 {
      assert ByteTokens(key) == [first];
      assert PairAt(key, 0) == key[..2];
    } else {
      var rest := key[2..];
      var t := Join(ByteTokens(rest), ", ");
      JoinedTokensLayout(rest);
      assert ByteTokens(key)[1..] == ByteTokens(rest);
      assert s == first + ", " + t;
      forall i | 0 <= i < n
        ensures TokenAt(s, i) == "0x" + PairAt(key, i)
      {
        if i == 0 {
          assert PairAt(key, 0) == key[..2];
        } else {
          ShiftedToken(s, first, t, i - 1);
          assert PairAt(key, i) == PairAt(rest, i - 1);
        }
      }
      forall i | 0 <= i < n - 1
        ensures SeparatorAt(s, i) == ", "
      {
        if i > 0 {
          ShiftedSeparator(s, first, t, i - 1);
        }
      }
    }
  }

  /** An accepted key becomes 16 tokens `0xHH` holding its characters in
      order, separated by ", ". */
  lemma KeyToBytesStrLayout(name: string, key: string)
    requires KeyToBytesStr(name, key).Ok?
    ensures var s := KeyToBytesStr(name, key).value;
      && |s| == 6 * LASTFM_BYTES_LEN - 2
      && (forall i :: 0 <= i < LASTFM_BYTES_LEN ==> TokenAt(s, i) == "0x" + PairAt(key, i))
      && (forall i :: 0 <= i < LASTFM_BYTES_LEN - 1 ==> SeparatorAt(s, i) == ", ")
  {
    JoinedTokensLayout(key);
  }

  /** One pair of digits read as a byte and written back in lower case. */
  lemma PairRoundTrip(hi: char, lo: char)
    requires IsAsciiHexDigit(hi) && IsAsciiHexDigit(lo)
    ensures LastFm.HexByte(HexDigitValue(hi) * 16 + HexDigitValue(lo)) == [AsciiLower(hi), AsciiLower(lo)]
  {
    var b := HexDigitValue(hi) * 16 + HexDigitValue(lo);
    HexDigitRoundTrip(0, hi);
    HexDigitRoundTrip(0, lo);
    assert b / 16 == HexDigitValue(hi) && b % 16 == HexDigitValue(lo);
  }

  /** Lowering a text of two or more characters lowers its first pair and
      then the rest. */
  lemma AsciiLowerPair(s: string)
    requires |s| >= 2
    ensures AsciiLowerString(s) == [AsciiLower(s[0]), AsciiLower(s[1])] + AsciiLowerString(s[2..])
  {
    var r := [AsciiLower(s[0]), AsciiLower(s[1])] + AsciiLowerString(s[2..]);
    assert forall i :: 2 <= i < |s| ==> r[i] == AsciiLowerString(s[2..])[i - 2];
  }

  /** The bytes the literals stand for are the ones the Last.fm client
      turns back into text: the key in lower case. */
  lemma {:induction false} KeyBytesRoundTrip(key: string)
    requires |key| % 2 == 0 && forall i :: 0 <= i < |key| ==> IsAsciiHexDigit(key[i])
    ensures LastFm.KeyArrToString(LastFm.HexToKey(key)) == AsciiLowerString(key)
    decreases |key|
  {
    if key != [] {
      var d := LastFm.HexToKey(key);
      var b := HexDigitValue(key[0]) * 16 + HexDigitValue(key[1]);
      assert d == [b] + LastFm.HexToKey(key[2..]);
      KeyBytesRoundTrip(key[2..]);
      PairRoundTrip(key[0], key[1]);
      assert d[1..] == LastFm.HexToKey(key[2..]);
      AsciiLowerPair(key);
    }
  }

  // ---------------------------------------------------------------------
  // The key file

  /** `get_lastfm_key_consts`: the trimmed key file must have exactly two
      lines, the key and then the secret; the key is checked first. */
  function GetKeyConsts(keyFile: Result<string, string>): (r: Result<(string, string), BuildError>)
    ensures keyFile.Err? ==> r == Err(KeyFileUnreadable(keyFile.error))
    ensures keyFile.Ok? && |Lines(Trim(keyFile.value))| != 2 ==> r == Err(NotTwoLines)
    ensures r.Ok? <==>
      && keyFile.Ok?
      && var lines := Lines(Trim(keyFile.value));
      && |lines| == 2
      && KeyToBytesStr(LASTFM_KEY_NAME, lines[0]).Ok?
      && KeyToBytesStr(LASTFM_SECRET_NAME, lines[1]).Ok?
    ensures keyFile.Ok? && |Lines(Trim(keyFile.value))| == 2 ==>
      var lines := Lines(Trim(keyFile.value));
      && (KeyToBytesStr(LASTFM_KEY_NAME, lines[0]).Err? ==> r == Err(KeyToBytesStr(LASTFM_KEY_NAME, lines[0]).error))
      && (KeyToBytesStr(LASTFM_KEY_NAME, lines[0]).Ok? && KeyToBytesStr(LASTFM_SECRET_NAME, lines[1]).Err? ==>
          r == Err(KeyToBytesStr(LASTFM_SECRET_NAME, lines[1]).error))
    ensures r.Ok? ==>
      var lines := Lines(Trim(keyFile.value));
      r.value == (KeyToBytesStr(LASTFM_KEY_NAME, lines[0]).value, KeyToBytesStr(LASTFM_SECRET_NAME, lines[1]).value)
  {
    match keyFile
    case Err(e) => Err(KeyFileUnreadable(e))
    case Ok(keys) =>
      var lines := Lines(Trim(keys));
      if |lines| != 2 then Err(NotTwoLines)
      else
        var key :- KeyToBytesStr(LASTFM_KEY_NAME, lines[0]);
        var secret :- KeyToBytesStr(LASTFM_SECRET_NAME, lines[1]);
        Ok((key, secret))
  }

  /** The declaration of one constant. */
  function ConstLine(name: string, value: string): string {
    "const " + name + ": Option<[u8; 16]> = " + value + ";"
  }

  /** The values of the two constants: both `Some([...])` on success, both
      `None` on any failure. */
  function ConstValues(consts: Result<(string, string), BuildError>): (string, string) {
    match consts
    case Ok((key, secret)) => ("Some([" + key + "])", "Some([" + secret + "])")
    case Err(_) => ("None", "None")
  }

  /** `write_lastfm_key_consts`: the content of the generated file. */
  function KeyConstsContents(keyFile: Result<string, string>): string {
    var v := ConstValues(GetKeyConsts(keyFile));
    ConstLine(LASTFM_KEY_NAME, v.0) + "\n" + ConstLine(LASTFM_SECRET_NAME, v.1)
  }

  /** Both constants are present or both absent, and they are present
      exactly when the key file is valid. */
  lemma ConstValuesBothOrNeither(consts: Result<(string, string), BuildError>)
    ensures var v := ConstValues(consts);
      && (v.0 == "None" <==> consts.Err?)
      && (v.1 == "None" <==> consts.Err?)
  {
    var v := ConstValues(consts);
    if consts.Ok? {
      assert v.0[0] == 'S' && v.1[0] == 'S';
    }
  }

  lemma NoLineFeedInConstLine(name: string, value: string)
    requires '\n' !in name && '\n' !in value
    ensures '\n' !in ConstLine(name, value)
    ensures ConstLine(name, value) != [] && ConstLine(name, value)[|ConstLine(name, value)| - 1] == ';'
  {
    var s := ConstLine(name, value);
    forall i | 0 <= i < |s|
      ensures s[i] != '\n'
    {
      var p := "const " + name + ": Option<[u8; 16]> = ";
      assert s == p + value + ";";
      if i < |"const "| {
      } else if i < |"const " + name| {
        assert s[i] == name[i - 6];
      } else if i < |p| {
        assert s[i] == ": Option<[u8; 16]> = "[i - 6 - |name|];
      } else if i < |p + value| {
        assert s[i] == value[i - |p|];
      }
    }
  }

  /** A joined token list holds no line feed. */
  lemma NoLineFeedInBytesStr(name: string, key: string)
    requires KeyToBytesStr(name, key).Ok?
    ensures '\n' !in KeyToBytesStr(name, key).value
  {
    assert '\n' !in key by {
      forall i | 0 <= i < |key|
        ensures key[i] != '\n'
      {
        assert IsAsciiHexDigit(key[i]);
      }
    }
    ByteTokensNoLineFeed(key);
    NoLineFeedInJoin(ByteTokens(key));
  }

  lemma {:induction false} ByteTokensNoLineFeed(key: string)
    requires |key| % 2 == 0 && '\n' !in key
    ensures forall k :: 0 <= k < |ByteTokens(key)| ==> '\n' !in ByteTokens(key)[k]
    decreases |key|
  {
    if key != [] {
      ByteTokensNoLineFeed(key[2..]);
      assert '\n' !in key[..2];
      assert ByteTokens(key)[1..] == ByteTokens(key[2..]);
    }
  }

  lemma {:induction false} NoLineFeedInJoin(parts: seq<string>)
    requires forall k :: 0 <= k < |parts| ==> '\n' !in parts[k]
    ensures '\n' !in Join(parts, ", ")
  {
    if |parts| > 1 {
      NoLineFeedInJoin(parts[1..]);
    }
  }

  /** The generated file has exactly two lines: the `API_KEY` declaration
      and then the `SHARED_SECRET` declaration. */
  lemma KeyConstsContentsLines(keyFile: Result<string, string>)
    ensures var v := ConstValues(GetKeyConsts(keyFile));
      Lines(KeyConstsContents(keyFile)) == [ConstLine(LASTFM_KEY_NAME, v.0), ConstLine(LASTFM_SECRET_NAME, v.1)]
  {
    var consts := GetKeyConsts(keyFile);
    var v := ConstValues(consts);
    if consts.Ok? {
      var lines := Lines(Trim(keyFile.value));
      NoLineFeedInBytesStr(LASTFM_KEY_NAME, lines[0]);
      NoLineFeedInBytesStr(LASTFM_SECRET_NAME, lines[1]);
      NoLineFeedInWrapped(consts.value.0);
      NoLineFeedInWrapped(consts.value.1);
    }
    var a := ConstLine(LASTFM_KEY_NAME, v.0);
    var b := ConstLine(LASTFM_SECRET_NAME, v.1);
    NoLineFeedInConstLine(LASTFM_KEY_NAME, v.0);
    NoLineFeedInConstLine(LASTFM_SECRET_NAME, v.1);
    LinesOfTwo(a, b);
  }

  lemma NoLineFeedInWrapped(s: string)
    requires '\n' !in s
    ensures '\n' !in "Some([" + s + "])"
  {
  }

  /** Two lines without line feeds, joined by one, split back into the two
      when the first does not end in a carriage return. */
  lemma LinesOfTwo(a: string, b: string)
    requires '\n' !in a && '\n' !in b && a != [] && b != []
    requires a[|a| - 1] != '\r'
    ensures Lines(a + "\n" + b) == [a, b]
  {
    var s := a + "\n" + b;
    assert s[|a|] == '\n';
    assert forall j :: 0 <= j < |a| ==> s[j] == a[j];
    assert IndexOf(s, '\n') == Some(|a|);
    assert s[..|a|] == a;
    assert s[|a| + 1..] == b;
  }
}

=== FILE: cue.dfy ===
/** src/cue.rs: CUE sheets that split one audio file into tracks, and the
    cache of parsed sheets. Reading the files and the CUE grammar itself
    belong to the file system and to the `cuna` parser; here they are
    inputs (a `ParsedCue` and a directory listing). */
module Cue {
  import opened Wrappers
  import opened Text
  import opened StreamBase

  /** `SOURCE_EXTS`: the audio files a CUE sheet may describe. */
  const SOURCE_EXTS: seq<string> := ["flac"]

  // ---------------------------------------------------------------------
  // What the CUE parser delivers

  /** One `INDEX nn mm:ss:ff` line: its number and its time. */
  datatype CueIndex = CueIndex(id: nat, beginTime: Duration)

  /** One `TRACK` block with its indexes, TITLE and PERFORMER lines. */
  datatype ParsedTrack = ParsedTrack(
    id: nat,
    indexes: seq<CueIndex>,
    title: seq<string>,
    performer: seq<string>)

  /** A parsed sheet: the global TITLE and PERFORMER lines, the REM comments
      and, per FILE block, its tracks. */
  datatype ParsedCue = ParsedCue(
    title: seq<string>,
    performer: seq<string>,
    comments: seq<string>,
    files: seq<seq<ParsedTrack>>)

  /** The tracks of the first FILE block (none without a FILE block). */
  function TracksOf(cue: ParsedCue): seq<ParsedTrack> {
    if cue.files == [] then [] else cue.files[0]
  }

  // ---------------------------------------------------------------------
  // The sheet

  /** `CueTrack`: `duration` is None for the last track, whose end is the
      end of the source file. */
  datatype CueTrack = CueTrack(index: nat, start: Duration, duration: Option<Duration>, meta: TrackMeta)

  /** `CueSheet`. */
  datatype CueSheet = CueSheet(tracks: seq<CueTrack>, sourceFilename: string)

  /** What every sheet built by `NewSheet` satisfies: at least one track,
      starts strictly increasing, each track lasting until the next one
      starts, and the last one open-ended. */
  predicate SheetValid(sheet: CueSheet) {
    var ts := sheet.tracks;
    |ts| > 0
    && ts[|ts| - 1].duration.None?
    && forall k :: 0 <= k < |ts| - 1 ==> LastsUntil(ts[k], ts[k + 1].start)
  }

  /** `t` starts before `next` and lasts exactly until it. */
  predicate LastsUntil(t: CueTrack, next: Duration) {
    t.start < next && t.duration == Some(next - t.start)
  }

  datatype CueError =
    | CannotParse
    | NoSource
    | NoStart(track: nat)
    | ZeroLength(track: nat)
    | NoTracks
    | OutOfBounds(index: nat)

  // ---------------------------------------------------------------------
  // CueSheet::is_supported_file

  /** Whether `filename` names a CUE sheet: at least four characters, the
      last four being ".cue" in any ASCII case. */
  function IsSupportedFile(filename: string): (r: bool)
    ensures r ==> |filename| >= 4 && filename[|filename| - 4] == '.'
    ensures r <==> EndsWith(AsciiLowerString(filename), ".cue")
  {
    |filename| >= 4 && EqIgnoreAsciiCase(filename[|filename| - 4..], ".cue")
  }

  /** The number of bytes `c` takes in UTF-8. */
  function Utf8Len(c: char): (n: nat)
    ensures 1 <= n <= 4
    ensures n == 1 <==> c < '\U{80}'
  {
    if c < '\U{80}' then 1 else if c < '\U{800}' then 2 else if c < '\U{10000}' then 3 else 4
  }

  /** `str::len`: the length of `s` in UTF-8 bytes. */
  function ByteLen(s: string): (n: nat)
    ensures |s| <= n
  {
    if s == [] then 0 else ByteLen(s[..|s| - 1]) + Utf8Len(s[|s| - 1])
  }

  /** How many characters at the end of `s` take exactly `b` bytes; None when
      byte offset `|s| - b` falls inside a character (or `s` is too short). */
  function TailChars(s: string, b: nat): (r: Option<nat>)
    ensures r.Some? ==> r.value <= |s| && r.value <= b
  {
    if b == 0 then Some(0)
    else if s == [] || Utf8Len(s[|s| - 1]) > b then None
    else match TailChars(s[..|s| - 1], b - Utf8Len(s[|s| - 1]))
      case Some(t) => Some(t + 1)
      case None => None
  }

  /** `is_supported_file` as written: the name is cut at byte `len - 4`, and
      slicing a `str` inside a character panics (the Err). */
  function IsSupportedFileAsWritten(filename: string): Result<bool, string> {
    if ByteLen(filename) < 4 then Ok(false)
    else match TailChars(filename, 4)
      case None => Err("byte index is not a char boundary")
      case Some(t) => Ok(EqIgnoreAsciiCase(filename[|filename| - t..], ".cue"))
  }

  lemma {:induction false} TailCharsOfAscii(s: string, m: nat)
    requires m <= |s|
    requires forall i :: |s| - m <= i < |s| ==> s[i] < '\U{80}'
    ensures TailChars(s, m) == Some(m)
  {
    if m > 0 {
      TailCharsOfAscii(s[..|s| - 1], m - 1);
    }
  }

  /** Where `is_supported_file` does not panic it gives the same answer as
      the character-level check. */
  lemma IsSupportedFileAgrees(filename: string)
    requires IsSupportedFileAsWritten(filename).Ok?
    ensures IsSupportedFileAsWritten(filename).value == IsSupportedFile(filename)
  {
    var n := |filename|;
    if IsSupportedFile(filename) {
      forall i | n - 4 <= i < n ensures filename[i] < '\U{80}' {
        assert AsciiLower(filename[i]) == ".cue"[i - (n - 4)];
      }
      TailCharsOfAscii(filename, 4);
    }
  }

  /** The panic the character-level check avoids: "歌詞" is six bytes long
      and byte 2 lies inside its first character. */
  lemma IsSupportedFilePanics()
    ensures IsSupportedFileAsWritten("\U{6B4C}\U{8A5E}").Err?
    ensures !IsSupportedFile("\U{6B4C}\U{8A5E}")
  {
    var s := "\U{6B4C}\U{8A5E}";
    assert s[..1][..0] == [];
    assert ByteLen(s) == 6;
    assert s[..1] == "\U{6B4C}";
    assert TailChars(s[..1], 1) == None;
  }

  // ---------------------------------------------------------------------
  // CueSheet::find_source

  /** `PathBuf::push` of a plain file name onto a directory. */
  function JoinPath(dir: string, name: string): string {
    if dir == [] then name
    else if dir[|dir| - 1] == '/' then dir + name
    else dir + "/" + name
  }

  /** `Path::with_extension("cue")`. */
  function WithCueExtension(path: string): string {
    match Extension(path)
    case Some(ext) => path[..|path| - |ext|] + "cue"
    case None => path + ".cue"
  }

  /** Whether the directory entry `name` is the source of `cueFilename`: a
      FLAC file whose path, with its extension replaced by "cue" or with
      ".cue" appended, is the CUE file's name ignoring ASCII case. */
  predicate IsSourceOf(cueFilename: string, name: string) {
    var full := JoinPath(ParentDir(cueFilename), name);
    IsExtensionSupported(name, SOURCE_EXTS)
    && (EqIgnoreAsciiCase(WithCueExtension(full), cueFilename)
        || EqIgnoreAsciiCase(full + ".cue", cueFilename))
  }

  /** The index of the first element of `xs` that satisfies `p`. */
  function FirstIndex<T>(xs: seq<T>, p: T -> bool): (r: Option<nat>)
    ensures r.Some? ==> r.value < |xs| && p(xs[r.value]) && forall j :: 0 <= j < r.value ==> !p(xs[j])
    ensures r.None? ==> forall j :: 0 <= j < |xs| ==> !p(xs[j])
  {
    if xs == [] then None
    else if p(xs[0]) then Some(0)
    else match FirstIndex(xs[1..], p)
      case Some(k) => Some(k + 1)
      case None => None
  }

  /** The first entry of `names` that is the source of `cueFilename`. */
  function FirstSource(cueFilename: string, names: seq<string>): (r: Option<nat>)
    ensures r.Some? ==> r.value < |names| && IsSourceOf(cueFilename, names[r.value])
                        && forall j :: 0 <= j < r.value ==> !IsSourceOf(cueFilename, names[j])
    ensures r.None? ==> forall j :: 0 <= j < |names| ==> !IsSourceOf(cueFilename, names[j])
  {
    FirstIndex(names, name => IsSourceOf(cueFilename, name))
  }

  /** `CueSheet::find_source`. `listing` holds the regular files of the CUE
      file's directory in the order the directory yields them, or None when
      the directory cannot be read. */
  function FindSource(cueFilename: string, listing: Option<seq<string>>): (r: Option<string>)
    ensures listing.None? ==> r.None?
    ensures r.Some? ==> exists k :: 0 <= k < |listing.value| && IsSourceOf(cueFilename, listing.value[k])
                                     && r.value == JoinPath(ParentDir(cueFilename), listing.value[k])
    ensures listing.Some? && r.None? ==> forall k :: 0 <= k < |listing.value| ==> !IsSourceOf(cueFilename, listing.value[k])
  {
    match listing
    case None => None
    case Some(names) =>
      match FirstSource(cueFilename, names)
      case Some(k) => Some(JoinPath(ParentDir(cueFilename), names[k]))
      case None => None
  }

  /** The extension of `dir/stem.flac` is "flac". */
  lemma FlacExtension(dir: string, stem: string)
    requires dir != [] && stem != [] && '/' !in stem
    ensures Extension(dir + "/" + (stem + ".flac")) == Some("flac")
  {
    var name := stem + ".flac";
    assert name == stem + "." + "flac";
    assert '/' !in name;
    ChildPath(dir, name);
    ExtensionOfName(dir + "/" + name, stem, "flac");
  }

  /** `dir/stem.flac` with its extension replaced is `dir/stem.cue`. */
  lemma WithCueExtensionOfFlac(dir: string, stem: string)
    requires dir != [] && stem != [] && '/' !in stem
    ensures WithCueExtension(dir + "/" + (stem + ".flac")) == dir + "/" + (stem + ".cue")
  {
    var full := dir + "/" + (stem + ".flac");
    FlacExtension(dir, stem);
    WithCueExtensionReplaces(full, "flac");
    SwapSuffix(dir + "/" + stem, ".flac", ".cue");
  }

  lemma WithCueExtensionReplaces(path: string, ext: string)
    requires Extension(path) == Some(ext)
    ensures WithCueExtension(path) == path[..|path| - |ext|] + "cue"
  {
  }

  /** `p + "." + e` with `e` dropped and `f` added is `p + "." + f`. */
  lemma SwapSuffix(p: string, e: string, f: string)
    requires |e| >= 1 && |f| >= 1 && e[0] == '.' && f[0] == '.'
    ensures var s := p + (e[..1] + e[1..]);
      s[..|s| - |e[1..]|] + f[1..] == p + f
  {
    var s := p + (e[..1] + e[1..]);
    assert s[..|s| - |e[1..]|] == p + e[..1];
    assert e[..1] == f[..1];
    assert f == f[..1] + f[1..];
  }

  /** `stem.flac` is a supported source file name. */
  lemma FlacIsSourceExtension(stem: string)
    requires stem != [] && '/' !in stem
    ensures IsExtensionSupported(stem + ".flac", SOURCE_EXTS)
  {
    var name := stem + ".flac";
    assert name == stem + "." + "flac";
    assert '/' !in name;
    PlainFileName(name);
    ExtensionOfName(name, stem, "flac");
    assert EqIgnoreAsciiCase("flac", SOURCE_EXTS[0]);
  }

  /** `stem.flac` is the source of `dir/stem.cue`. */
  lemma IsSourceOfSibling(dir: string, stem: string)
    requires dir != [] && dir[|dir| - 1] != '/'
    requires stem != [] && '/' !in stem
    ensures IsSourceOf(dir + "/" + (stem + ".cue"), stem + ".flac")
  {
    SiblingPath(dir, stem);
    FlacIsSourceExtension(stem);
    WithCueExtensionOfFlac(dir, stem);
    SourceByExtension(dir + "/" + (stem + ".cue"), stem + ".flac");
  }

  lemma SiblingPath(dir: string, stem: string)
    requires dir != [] && dir[|dir| - 1] != '/'
    requires stem != [] && '/' !in stem
    ensures JoinPath(ParentDir(dir + "/" + (stem + ".cue")), stem + ".flac") == dir + "/" + (stem + ".flac")
  {
    assert '/' !in stem + ".cue";
    ChildPath(dir, stem + ".cue");
  }

  lemma SourceByExtension(cueFilename: string, name: string)
    requires IsExtensionSupported(name, SOURCE_EXTS)
    requires WithCueExtension(JoinPath(ParentDir(cueFilename), name)) == cueFilename
    ensures IsSourceOf(cueFilename, name)
  {
  }

  /** A FLAC file named like the sheet, in the sheet's directory, is found
      as its source. */
  lemma FindSourceOfSibling(dir: string, stem: string)
    requires dir != [] && dir[|dir| - 1] != '/'
    requires stem != [] && '/' !in stem
    ensures FindSource(dir + "/" + (stem + ".cue"), Some([stem + ".flac"])) == Some(dir + "/" + (stem + ".flac"))
  {
    IsSourceOfSibling(dir, stem);
    FindSourceSingle(dir + "/" + (stem + ".cue"), stem + ".flac");
    SiblingPath(dir, stem);
  }

  /** A listing of one file that is the source finds that file. */
  lemma FindSourceSingle(cueFilename: string, name: string)
    requires IsSourceOf(cueFilename, name)
    ensures FindSource(cueFilename, Some([name])) == Some(JoinPath(ParentDir(cueFilename), name))
  {
    assert FirstSource(cueFilename, [name]) == Some(0);
  }

  // ---------------------------------------------------------------------
  // Track metadata from the sheet

  /** `opt_str`: the first value, trimmed. */
  function OptStr(s: seq<string>): (r: Option<string>)
    ensures r.None? <==> s == []
    ensures r.Some? ==> r.value == Trim(s[0])
  {
    if s == [] then None else Some(Trim(s[0]))
  }

  /** `opt_str2`: the first value of `s1`, else the first value of `s2`,
      trimmed. */
  function OptStr2(s1: seq<string>, s2: seq<string>): (r: Option<string>)
    ensures r.None? <==> s1 == [] && s2 == []
    ensures s1 != [] ==> r == Some(Trim(s1[0]))
    ensures s1 == [] && s2 != [] ==> r == Some(Trim(s2[0]))
  {
    if s1 != [] then Some(Trim(s1[0]))
    else if s2 != [] then Some(Trim(s2[0]))
    else None
  }

  /** `opt_def`: the first option if it holds a value, else the second. */
  function OptDef<T>(opt1: Option<T>, opt2: Option<T>): (r: Option<T>)
    ensures opt1.Some? ==> r == opt1
    ensures opt1.None? ==> r == opt2
  {
    if opt1.Some? then opt1 else opt2
  }

  /** The capture group of `(?i)^TAG\s+(.+)"?$` on one comment: the tag at the
      start (ASCII case ignored), at least one white-space character, then a
      non-empty rest without a line feed that runs to the end. When only
      white space follows the tag, the greedy `\s+` leaves its last character
      to the group. */
  function CommentCapture(comment: string, tag: string): (r: Option<string>)
    ensures r.Some? ==> r.value != [] && '\n' !in r.value
  {
    if |comment| < |tag| || !EqIgnoreAsciiCase(comment[..|tag|], tag) then None
    else
      var after := comment[|tag|..];
      var w := LeadingWhitespace(after);
      var rest := after[w..];
      if w == 0 then None
      else if rest != [] then (if '\n' in rest then None else Some(rest))
      else if w >= 2 && after[w - 1] != '\n' then Some([after[w - 1]])
      else None
  }

  /** The unquoting of `extract_comment`: a value between double quotes loses
      them; then white space is trimmed. */
  function Unquote(s: string): (r: string)
    ensures |s| > 1 && s[0] == '"' && s[|s| - 1] == '"' ==> r == Trim(s[1..|s| - 1])
    ensures !(|s| > 1 && s[0] == '"' && s[|s| - 1] == '"') ==> r == Trim(s)
  {
    if |s| > 1 && s[0] == '"' && s[|s| - 1] == '"' then Trim(s[1..|s| - 1]) else Trim(s)
  }

  /** Quoting a trimmed value and unquoting it gives the value back; so does
      unquoting it as it is, unless it is itself wrapped in quotes. */
  lemma UnquoteRoundTrip(v: string)
    requires v == [] || (!IsWhitespace(v[0]) && !IsWhitespace(v[|v| - 1]))
    ensures Unquote("\"" + v + "\"") == v
    ensures !(|v| > 1 && v[0] == '"' && v[|v| - 1] == '"') ==> Unquote(v) == v
  {
    var q := "\"" + v + "\"";
    assert q[1..|q| - 1] == v;
    TrimKeepsTrimmed(v);
  }

  /** The position of the first comment that matches the tag. */
  function FirstCapture(comments: seq<string>, tag: string): (r: Option<nat>)
    ensures r.Some? ==> r.value < |comments| && CommentCapture(comments[r.value], tag).Some?
                        && forall j :: 0 <= j < r.value ==> CommentCapture(comments[j], tag).None?
    ensures r.None? ==> forall j :: 0 <= j < |comments| ==> CommentCapture(comments[j], tag).None?
  {
    if comments == [] then None
    else if CommentCapture(comments[0], tag).Some? then Some(0)
    else match FirstCapture(comments[1..], tag)
      case Some(k) => Some(k + 1)
      case None => None
  }

  /** `extract_comment`: the unquoted capture of the first comment that
      matches the tag. */
  function ExtractComment(comments: seq<string>, tag: string): Option<string> {
    match FirstCapture(comments, tag)
    case Some(k) => Some(Unquote(CommentCapture(comments[k], tag).value))
    case None => None
  }

  /** `extract_comment_num`: the comment parsed as a `usize`; an unparsable
      value is None, as is a missing one. */
  function ExtractCommentNum(comments: seq<string>, tag: string): (r: Option<nat>)
    ensures r.Some? ==> ExtractComment(comments, tag).Some?
                        && ParseUsize(ExtractComment(comments, tag).value) == r
    ensures ExtractComment(comments, tag).None? ==> r.None?
  {
    match ExtractComment(comments, tag)
    case Some(c) => ParseUsize(c)
    case None => None
  }

  /** A comment made of the tag, one space and a value that starts with a
      visible character and has no line feed captures exactly that value. */
  lemma CommentCaptureOfValue(tag: string, v: string)
    requires v != [] && !IsWhitespace(v[0]) && '\n' !in v
    ensures CommentCapture(tag + " " + v, tag) == Some(v)
  {
    var c := tag + " " + v;
    assert c[..|tag|] == tag;
    var after := c[|tag|..];
    assert after == " " + v;
    assert after[1..] == v;
    assert LeadingWhitespace(after[1..]) == 0;
    assert LeadingWhitespace(after) == 1;
  }

  /** A number written in decimal, with or without quotes around it, is a
      value `Unquote` gives back unchanged and `ParseUsize` reads. */
  lemma UnquoteDecimal(n: nat, quoted: bool)
    requires n < U64_LIMIT
    ensures var d := NatToDecimal(n);
            var v := if quoted then "\"" + d + "\"" else d;
            v != [] && !IsWhitespace(v[0]) && '\n' !in v
            && ParseUsize(Unquote(v)) == Some(n)
  {
    var d := NatToDecimal(n);
    DecimalIsBare(n);
    UnquoteRoundTrip(d);
    if quoted {
      QuotedNoLineFeed(d);
    }
  }

  /** A decimal number is not empty, starts and ends with a digit, has no
      line feed and parses back. */
  lemma DecimalIsBare(n: nat)
    requires n < U64_LIMIT
    ensures var d := NatToDecimal(n);
            && d != [] && !IsWhitespace(d[0]) && !IsWhitespace(d[|d| - 1]) && d[0] != '"'
            && '\n' !in d && ParseUsize(d) == Some(n)
  {
    var d := NatToDecimal(n);
    assert forall j :: 0 <= j < |d| ==> IsAsciiDigit(d[j]);
    ParseUsizeOfDecimal(n);
  }

  lemma QuotedNoLineFeed(d: string)
    requires '\n' !in d
    ensures '\n' !in "\"" + d + "\""
  {
  }

  /** A comment `TAG n`, with or without quotes around the number, yields n. */
  lemma ExtractCommentNumOfNumber(tag: string, n: nat, quoted: bool)
    requires n < U64_LIMIT
    ensures var v := if quoted then "\"" + NatToDecimal(n) + "\"" else NatToDecimal(n);
            ExtractCommentNum([tag + " " + v], tag) == Some(n)
  {
    var v := if quoted then "\"" + NatToDecimal(n) + "\"" else NatToDecimal(n);
    UnquoteDecimal(n, quoted);
    CommentCaptureOfValue(tag, v);
    assert FirstCapture([tag + " " + v], tag) == Some(0);
  }

  /** The position of the first INDEX 01 among `indexes`. */
  function FirstIndexOne(indexes: seq<CueIndex>): (r: Option<nat>)
    ensures r.Some? ==> r.value < |indexes| && indexes[r.value].id == 1
                        && forall j :: 0 <= j < r.value ==> indexes[j].id != 1
    ensures r.None? ==> forall j :: 0 <= j < |indexes| ==> indexes[j].id != 1
  {
    if indexes == [] then None
    else if indexes[0].id == 1 then Some(0)
    else match FirstIndexOne(indexes[1..])
      case Some(k) => Some(k + 1)
      case None => None
  }

  /** `extract_track_start`: the time of the track's first INDEX 01, None
      when it has none. */
  function TrackStartOf(t: ParsedTrack): Option<Duration> {
    match FirstIndexOne(t.indexes)
    case Some(k) => Some(t.indexes[k].beginTime)
    case None => None
  }

  /** `extract_track_meta`: what the sheet itself says about one track. */
  function ExtractTrackMeta(cue: ParsedCue, t: ParsedTrack, tracksCount: nat): TrackMeta
  {
    TrackMeta(
      artist := OptStr2(t.performer, cue.performer),
      album := OptStr(cue.title),
      title := OptStr(t.title),
      track := Some(t.id),
      trackTotal := Some(tracksCount),
      disc := ExtractCommentNum(cue.comments, "DISCNUMBER"),
      discTotal := ExtractCommentNum(cue.comments, "TOTALDISCS"),
      year := ExtractCommentNum(cue.comments, "DATE"),
      duration := 0)
  }

  // ---------------------------------------------------------------------
  // CueSheet::new

  /** What stops `new` at track `k`: no INDEX 01, or a start not before the
      next track's start (a zero `saturating_sub`). */
  function Fault(ts: seq<ParsedTrack>, k: nat): Option<CueError>
    requires k < |ts|
  {
    var start := TrackStartOf(ts[k]);
    if start.None? then Some(NoStart(ts[k].id))
    else if k + 1 < |ts| && TrackStartOf(ts[k + 1]).Some? && TrackStartOf(ts[k + 1]).value <= start.value
    then Some(ZeroLength(ts[k].id))
    else None
  }

  /** Whether the sheet's tracks can all be built. */
  predicate Loadable(cue: ParsedCue) {
    var ts := TracksOf(cue);
    |ts| > 0 && forall k :: 0 <= k < |ts| ==> Fault(ts, k).None?
  }

  /** `t` is track `k` of the first FILE block of `cue`: its number, its
      INDEX 01 start, its length up to the next track's start (none for the
      last track) and the sheet's metadata for it. */
  predicate BuiltAt(t: CueTrack, cue: ParsedCue, k: nat) {
    var ts := TracksOf(cue);
    k < |ts| && ShapeAt(t, ts, k) && t.meta == ExtractTrackMeta(cue, ts[k], |ts|)
  }

  /** The part of `BuiltAt` that does not depend on the metadata. */
  predicate ShapeAt(t: CueTrack, ts: seq<ParsedTrack>, k: nat)
    requires k < |ts|
  {
    && t.index == ts[k].id && TrackStartOf(ts[k]) == Some(t.start)
    && (k + 1 == |ts| ==> t.duration.None?)
    && (k + 1 < |ts| ==> TrackStartOf(ts[k + 1]).Some?
                         && t.duration == Some(TrackStartOf(ts[k + 1]).value - t.start))
  }

  /** `extract_track_meta` on the sheet `cue`, as the track loop calls it. */
  function MetaOf(cue: ParsedCue): (ParsedTrack, nat) -> TrackMeta {
    (t: ParsedTrack, n: nat) => ExtractTrackMeta(cue, t, n)
  }

  /** The metadata `meta` gives each of the tracks `ts`, in order. */
  ghost function MetasOf(ts: seq<ParsedTrack>, meta: (ParsedTrack, nat) -> TrackMeta): (r: seq<TrackMeta>)
    ensures |r| == |ts|
  {
    seq(|ts|, k requires 0 <= k < |ts| => meta(ts[k], |ts|))
  }

  /** `tracks` are the tracks of the first FILE block of `cue`, in file
      order. */
  predicate TracksBuiltFrom(tracks: seq<CueTrack>, cue: ParsedCue) {
    |tracks| == |TracksOf(cue)| && forall k :: 0 <= k < |tracks| ==> BuiltAt(tracks[k], cue, k)
  }

  predicate BuiltFrom(sheet: CueSheet, cue: ParsedCue, source: string) {
    sheet.sourceFilename == source && TracksBuiltFrom(sheet.tracks, cue)
  }

  function Reversed<T>(s: seq<T>): (r: seq<T>)
    ensures |r| == |s| && forall k :: 0 <= k < |s| ==> r[k] == s[|s| - 1 - k]
  {
    seq(|s|, k requires 0 <= k < |s| => s[|s| - 1 - k])
  }

  /** The track loop of `CueSheet::new`: the tracks are built from the last
      to the first, each one's length taken from the start of the one built
      before it, and then put back in file order. */
  method BuildTracks(cue: ParsedCue) returns (r: Result<seq<CueTrack>, CueError>)
    ensures r.Ok? <==> Loadable(cue)
    ensures r.Ok? ==> SheetValid(CueSheet(r.value, [])) && TracksBuiltFrom(r.value, cue)
    ensures TracksOf(cue) == [] ==> r == Err(NoTracks)
    ensures r.Err? && TracksOf(cue) != [] ==> FaultReported(TracksOf(cue), r.error)
  {
    var ts := TracksOf(cue);
    var built := BuildBackwards(ts, MetaOf(cue));
    if built.Err? {
      return Err(built.error);
    }
    var tracks := built.value;
    if tracks == [] {
      return Err(NoTracks);
    }
    assert Loadable(cue);
    ghost var metas := MetasOf(ts, MetaOf(cue));
    ReversedBuiltFrom(tracks, ts, metas);
    tracks := Reversed(tracks);
    BuiltTracksValid(tracks, ts, metas);
    MetasBuiltFrom(tracks, cue);
    r := Ok(tracks);
  }

  /** The loop itself, over the tracks `ts` of the first FILE block, with
      `meta` giving each track's metadata: every track built, last first,
      or the fault met first going backwards. */
  method BuildBackwards(ts: seq<ParsedTrack>, meta: (ParsedTrack, nat) -> TrackMeta)
    returns (r: Result<seq<CueTrack>, CueError>)
    ensures r.Ok? ==> |r.value| == |ts| && NoFaultFrom(ts, 0) && BuiltBackwards(r.value, ts, MetasOf(ts, meta))
    ensures r.Err? ==> FaultReported(ts, r.error)
  {
    var n := |ts|;
    ghost var metas := MetasOf(ts, meta);
    var tracks: seq<CueTrack> := [];
    var i := n;
    while i > 0
      invariant 0 <= i <= n && |tracks| == n - i
      invariant NoFaultFrom(ts, i)
      invariant BuiltBackwards(tracks, ts, metas)
    {
      i := i - 1;
      var t := ts[i];
      var start := TrackStartOf(t);
      if start.None? {
        FirstFault(ts, i, NoStart(t.id));
        return Err(NoStart(t.id));
      }
      var duration: Option<Duration>;
      if tracks == [] {
        duration := None;
      } else {
        var startNext := tracks[|tracks| - 1].start;
        LastBuilt(tracks, ts, metas);
        var d := SaturatingSub(startNext, start.value);
        if d == 0 {
          FirstFault(ts, i, ZeroLength(t.id));
          return Err(ZeroLength(t.id));
        }
        duration := Some(d);
      }
      var track := CueTrack(t.id, start.value, duration, meta(t, n));
      assert track.meta == metas[i];
      BuildStep(tracks, ts, metas, track);
      tracks := tracks + [track];
    }
    r := Ok(tracks);
  }

  /** No track from `i` on has a fault. */
  predicate NoFaultFrom(ts: seq<ParsedTrack>, i: nat) {
    forall k :: i <= k < |ts| ==> Fault(ts, k).None?
  }

  /** `tracks` are the last `|tracks|` tracks of `ts`, last first, each
      with its entry of `metas` as metadata. */
  predicate BuiltBackwards(tracks: seq<CueTrack>, ts: seq<ParsedTrack>, metas: seq<TrackMeta>) {
    var n := |ts|;
    |metas| == n && |tracks| <= n
    && forall k :: 0 <= k < |tracks| ==> ShapeAt(tracks[k], ts, n - 1 - k) && tracks[k].meta == metas[n - 1 - k]
  }

  /** `e` is the fault of the last track that has one: the first fault the
      loop, going backwards, meets. */
  predicate FaultReported(ts: seq<ParsedTrack>, e: CueError) {
    exists k :: 0 <= k < |ts| && Fault(ts, k) == Some(e) && NoFaultFrom(ts, k + 1)
  }

  /** A fault at `i` with none after it is the fault `new` reports. */
  lemma FirstFault(ts: seq<ParsedTrack>, i: nat, e: CueError)
    requires i < |ts| && NoFaultFrom(ts, i + 1)
    requires var start := TrackStartOf(ts[i]);
      || (start.None? && e == NoStart(ts[i].id))
      || (start.Some? && i + 1 < |ts| && TrackStartOf(ts[i + 1]).Some?
          && SaturatingSub(TrackStartOf(ts[i + 1]).value, start.value) == 0 && e == ZeroLength(ts[i].id))
    ensures Fault(ts, i) == Some(e)
    ensures FaultReported(ts, e)
  {
    assert Fault(ts, i) == Some(e);
  }

  /** The track built last is the one after the next to build. */
  lemma LastBuilt(tracks: seq<CueTrack>, ts: seq<ParsedTrack>, metas: seq<TrackMeta>)
    requires BuiltBackwards(tracks, ts, metas) && tracks != []
    ensures var i := |ts| - |tracks|;
      0 < i + 1 <= |ts| && TrackStartOf(ts[i]) == Some(tracks[|tracks| - 1].start)
  {
    assert ShapeAt(tracks[|tracks| - 1], ts, |ts| - |tracks|);
  }

  /** One step of the loop: the track built from track `i` extends the
      tracks built so far, and track `i` has no fault. */
  lemma BuildStep(tracks: seq<CueTrack>, ts: seq<ParsedTrack>, metas: seq<TrackMeta>, track: CueTrack)
    requires BuiltBackwards(tracks, ts, metas) && |tracks| < |ts|
    requires var i := |ts| - 1 - |tracks|;
      && track.index == ts[i].id && TrackStartOf(ts[i]) == Some(track.start)
      && track.meta == metas[i]
      && (tracks == [] ==> track.duration.None?)
      && (tracks != [] ==> var d := SaturatingSub(tracks[|tracks| - 1].start, track.start);
                           d != 0 && track.duration == Some(d))
    ensures BuiltBackwards(tracks + [track], ts, metas)
    ensures Fault(ts, |ts| - 1 - |tracks|).None?
  {
    var i := |ts| - 1 - |tracks|;
    if tracks != [] {
      LastBuilt(tracks, ts, metas);
    }
    assert ShapeAt(track, ts, i);
    BuiltBackwardsExtend(tracks, ts, metas, track);
  }

  /** A track built from the track before the ones built so far extends
      them. */
  lemma BuiltBackwardsExtend(tracks: seq<CueTrack>, ts: seq<ParsedTrack>, metas: seq<TrackMeta>, track: CueTrack)
    requires BuiltBackwards(tracks, ts, metas) && |tracks| < |ts|
    requires ShapeAt(track, ts, |ts| - 1 - |tracks|) && track.meta == metas[|ts| - 1 - |tracks|]
    ensures BuiltBackwards(tracks + [track], ts, metas)
  {
    var n := |ts|;
    var u := tracks + [track];
    forall k | 0 <= k < |u|
      ensures ShapeAt(u[k], ts, n - 1 - k) && u[k].meta == metas[n - 1 - k]
    {
      if k < |tracks| {
        assert u[k] == tracks[k];
      } else {
        assert u[k] == track;
      }
    }
  }

  /** `tracks` are the tracks `ts`, in order, each with its entry of
      `metas` as metadata. */
  predicate BuiltInOrder(tracks: seq<CueTrack>, ts: seq<ParsedTrack>, metas: seq<TrackMeta>) {
    |tracks| == |ts| == |metas|
    && forall k :: 0 <= k < |tracks| ==> ShapeAt(tracks[k], ts, k) && tracks[k].meta == metas[k]
  }

  /** Tracks built from the last to the first, once reversed, are in file
      order. */
  lemma ReversedBuiltFrom(tracks: seq<CueTrack>, ts: seq<ParsedTrack>, metas: seq<TrackMeta>)
    requires |tracks| == |ts| && BuiltBackwards(tracks, ts, metas)
    ensures BuiltInOrder(Reversed(tracks), ts, metas)
  {
    var r := Reversed(tracks);
    forall k | 0 <= k < |r| ensures ShapeAt(r[k], ts, k) && r[k].meta == metas[k] {
      assert r[k] == tracks[|tracks| - 1 - k];
    }
  }

  /** Tracks built in order from tracks without a fault form a valid
      sheet. */
  lemma BuiltTracksValid(tracks: seq<CueTrack>, ts: seq<ParsedTrack>, metas: seq<TrackMeta>)
    requires |ts| > 0 && NoFaultFrom(ts, 0) && BuiltInOrder(tracks, ts, metas)
    ensures SheetValid(CueSheet(tracks, []))
  {
    forall k | 0 <= k < |tracks| - 1 ensures LastsUntil(tracks[k], tracks[k + 1].start) {
      assert ShapeAt(tracks[k], ts, k) && ShapeAt(tracks[k + 1], ts, k + 1);
      assert Fault(ts, k).None?;
    }
    assert ShapeAt(tracks[|tracks| - 1], ts, |tracks| - 1);
  }

  /** With the sheet's own metadata, tracks built in order are the tracks
      `CueSheet::new` builds from it. */
  lemma MetasBuiltFrom(tracks: seq<CueTrack>, cue: ParsedCue)
    requires BuiltInOrder(tracks, TracksOf(cue), MetasOf(TracksOf(cue), MetaOf(cue)))
    ensures TracksBuiltFrom(tracks, cue)
  {
    var ts := TracksOf(cue);
    var metas := MetasOf(ts, MetaOf(cue));
    forall k | 0 <= k < |tracks| ensures BuiltAt(tracks[k], cue, k) {
      assert metas[k] == MetaOf(cue)(ts[k], |ts|);
    }
  }

  /** `CueSheet::new`, after reading and parsing: `parsed` is None when the
      file cannot be read or parsed, `listing` is the directory listing
      `find_source` searches. */
  method NewSheet(filename: string, parsed: Option<ParsedCue>, listing: Option<seq<string>>)
    returns (r: Result<CueSheet, CueError>)
    ensures parsed.None? ==> r == Err(CannotParse)
    ensures parsed.Some? && FindSource(filename, listing).None? ==> r == Err(NoSource)
    ensures r.Ok? <==> parsed.Some? && FindSource(filename, listing).Some? && Loadable(parsed.value)
    ensures r.Ok? ==> SheetValid(r.value) && BuiltFrom(r.value, parsed.value, FindSource(filename, listing).value)
    ensures parsed.Some? && FindSource(filename, listing).Some? && TracksOf(parsed.value) == [] ==> r == Err(NoTracks)
    ensures r.Err? && parsed.Some? && FindSource(filename, listing).Some? && TracksOf(parsed.value) != [] ==>
              var ts := TracksOf(parsed.value);
              FaultReported(ts, r.error)
  {
    if parsed.None? {
      return Err(CannotParse);
    }
    var source := FindSource(filename, listing);
    if source.None? {
      return Err(NoSource);
    }
    var tracks := BuildTracks(parsed.value);
    match tracks {
      case Err(e) => r := Err(e);
      case Ok(ts) => r := Ok(CueSheet(ts, source.value));
    }
  }

  // ---------------------------------------------------------------------
  // Queries on a sheet

  /** `track_ids`: the track numbers in sheet order. */
  function TrackIds(sheet: CueSheet): (ids: seq<nat>)
    ensures |ids| == |sheet.tracks|
    ensures forall k :: 0 <= k < |ids| ==> ids[k] == sheet.tracks[k].index
  {
    seq(|sheet.tracks|, k requires 0 <= k < |sheet.tracks| => sheet.tracks[k].index)
  }

  /** The position in `tracks` of the first track numbered `index`. */
  function FindTrack(tracks: seq<CueTrack>, index: nat): (r: Option<nat>)
    ensures r.Some? ==> r.value < |tracks| && tracks[r.value].index == index
                        && forall j :: 0 <= j < r.value ==> tracks[j].index != index
    ensures r.None? ==> forall j :: 0 <= j < |tracks| ==> tracks[j].index != index
  {
    if tracks == [] then None
    else if tracks[0].index == index then Some(0)
    else match FindTrack(tracks[1..], index)
      case Some(k) => Some(k + 1)
      case None => None
  }

  /** `CueSheet::track`: the first track numbered `index`, or an error. */
  function Track(sheet: CueSheet, index: nat): (r: Result<CueTrack, CueError>)
    ensures r.Err? <==> forall j :: 0 <= j < |sheet.tracks| ==> sheet.tracks[j].index != index
    ensures r.Err? ==> r.error == OutOfBounds(index)
    ensures r.Ok? ==> r.value.index == index
                      && exists k :: 0 <= k < |sheet.tracks| && sheet.tracks[k] == r.value
                                     && forall j :: 0 <= j < k ==> sheet.tracks[j].index != index
  {
    match FindTrack(sheet.tracks, index)
    case Some(k) => Ok(sheet.tracks[k])
    case None => Err(OutOfBounds(index))
  }

  /** The position in `tracks` of the last track that starts at or before
      `position`. */
  function LastStartedAt(tracks: seq<CueTrack>, position: Duration): (r: Option<nat>)
    ensures r.Some? ==> r.value < |tracks| && tracks[r.value].start <= position
                        && forall j :: r.value < j < |tracks| ==> tracks[j].start > position
    ensures r.None? ==> forall j :: 0 <= j < |tracks| ==> tracks[j].start > position
  {
    if tracks == [] then None
    else if tracks[|tracks| - 1].start <= position then Some(|tracks| - 1)
    else LastStartedAt(tracks[..|tracks| - 1], position)
  }

  /** `track_index_by_position`: the number of the last track that has
      started by `position`, or of the first track when none has. A sheet
      without tracks makes the source panic. */
  function TrackIndexByPosition(sheet: CueSheet, position: Duration): (r: nat)
    requires |sheet.tracks| > 0
    ensures exists k :: 0 <= k < |sheet.tracks| && r == sheet.tracks[k].index
                        && (sheet.tracks[k].start <= position || k == 0)
                        && forall j :: k < j < |sheet.tracks| ==> sheet.tracks[j].start > position
  {
    match LastStartedAt(sheet.tracks, position)
    case Some(k) => sheet.tracks[k].index
    case None => sheet.tracks[0].index
  }

  /** In a valid sheet every track starts after all tracks before it. */
  lemma {:induction false} StartsIncreasing(sheet: CueSheet, i: nat, j: nat)
    requires SheetValid(sheet)
    requires i < j < |sheet.tracks|
    ensures sheet.tracks[i].start < sheet.tracks[j].start
  {
    if i + 1 < j {
      StartsIncreasing(sheet, i, j - 1);
    }
  }

  /** In a valid sheet, a position inside track k's span (from its start to
      the start of the next track, or onward for the last track) maps to
      track k, and a position before the first start maps to the first
      track. */
  lemma TrackIndexByPositionInSpan(sheet: CueSheet, position: Duration, k: nat)
    requires SheetValid(sheet) && k < |sheet.tracks|
    requires sheet.tracks[k].start <= position || k == 0
    requires sheet.tracks[k].duration.Some? ==> position < sheet.tracks[k].start + sheet.tracks[k].duration.value
    ensures TrackIndexByPosition(sheet, position) == sheet.tracks[k].index
  {
    var ts := sheet.tracks;
    forall j | k < j < |ts| ensures ts[j].start > position {
      if j > k + 1 { StartsIncreasing(sheet, k + 1, j); }
    }
    if ts[k].start <= position {
      assert LastStartedAt(ts, position) == Some(k);
    } else {
      forall j | 0 <= j < |ts| ensures ts[j].start > position {
        if j > 0 { StartsIncreasing(sheet, 0, j); }
      }
      assert LastStartedAt(ts, position).None?;
    }
  }

  /** `track_start`: where track `index` begins in the source file. */
  function TrackStart(sheet: CueSheet, index: nat): (r: Result<Duration, CueError>)
    ensures r.Ok? <==> Track(sheet, index).Ok?
    ensures r.Ok? ==> r.value == Track(sheet, index).value.start
    ensures r.Err? ==> r.error == OutOfBounds(index)
  {
    match Track(sheet, index)
    case Ok(t) => Ok(t.start)
    case Err(e) => Err(e)
  }

  /** `track_meta`: the sheet's metadata for track `index` completed by the
      source file's tags. Sheet values win; track number and total come only
      from the sheet; a track without a length (the last one) lasts until
      the end of the file, never less than zero. */
  function MergedTrackMeta(sheet: CueSheet, index: nat, fileMeta: TrackMeta): (r: Result<TrackMeta, CueError>)
    ensures r.Ok? <==> Track(sheet, index).Ok?
    ensures r.Err? ==> r.error == OutOfBounds(index)
    ensures r.Ok? ==>
              var t := Track(sheet, index).value;
              var m := r.value;
              (t.duration.Some? ==> m.duration == t.duration.value)
              && (t.duration.None? ==> m.duration == SaturatingSub(fileMeta.duration, t.start))
              && (t.meta.album.Some? ==> m.album == t.meta.album)
              && (t.meta.album.None? ==> m.album == fileMeta.album)
              && (t.meta.title.Some? ==> m.title == t.meta.title)
              && (t.meta.title.None? ==> m.title == fileMeta.title)
              && (t.meta.artist.Some? ==> m.artist == t.meta.artist)
              && (t.meta.artist.None? ==> m.artist == fileMeta.artist)
              && (t.meta.disc.Some? ==> m.disc == t.meta.disc)
              && (t.meta.disc.None? ==> m.disc == fileMeta.disc)
              && (t.meta.discTotal.Some? ==> m.discTotal == t.meta.discTotal)
              && (t.meta.discTotal.None? ==> m.discTotal == fileMeta.discTotal)
              && (t.meta.year.Some? ==> m.year == t.meta.year)
              && (t.meta.year.None? ==> m.year == fileMeta.year)
              && m.track == t.meta.track && m.trackTotal == t.meta.trackTotal
  {
    match Track(sheet, index)
    case Err(e) => Err(e)
    case Ok(t) =>
      var meta := t.meta;
      var duration := match t.duration case Some(d) => d case None => SaturatingSub(fileMeta.duration, t.start);
      Ok(TrackMeta(
        artist := OptDef(meta.artist, fileMeta.artist),
        album := OptDef(meta.album, fileMeta.album),
        title := OptDef(meta.title, fileMeta.title),
        track := meta.track,
        trackTotal := meta.trackTotal,
        disc := meta.disc.Or(fileMeta.disc),
        discTotal := meta.discTotal.Or(fileMeta.discTotal),
        year := meta.year.Or(fileMeta.year),
        duration := duration))
  }

  /** For a sheet built by `NewSheet`, the merged metadata of track k carries
      the track's own number, the number of tracks, and the track's length
      up to the next start. */
  lemma MergedMetaOfBuiltSheet(sheet: CueSheet, cue: ParsedCue, source: string, k: nat, fileMeta: TrackMeta)
    requires SheetValid(sheet) && BuiltFrom(sheet, cue, source)
    requires k < |sheet.tracks|
    requires forall j :: 0 <= j < k ==> sheet.tracks[j].index != sheet.tracks[k].index
    ensures var r := MergedTrackMeta(sheet, sheet.tracks[k].index, fileMeta);
            r.Ok? && r.value.track == Some(sheet.tracks[k].index)
            && r.value.trackTotal == Some(|sheet.tracks|)
            && (k + 1 < |sheet.tracks| ==> r.value.duration == sheet.tracks[k + 1].start - sheet.tracks[k].start)
  {
    var ts := TracksOf(cue);
    assert FindTrack(sheet.tracks, sheet.tracks[k].index) == Some(k);
    assert sheet.tracks[k].meta == ExtractTrackMeta(cue, ts[k], |ts|);
  }

  // ---------------------------------------------------------------------
  // CueFactory

  /** `CueFactory`: parsed sheets by file name. Only successfully built
      sheets are ever stored. */
  /** Every cached entry is a valid sheet stored under a CUE file name. */
  ghost predicate CacheValid(sheets: map<string, Option<CueSheet>>) {
    forall f :: f in sheets ==> sheets[f].Some? && IsSupportedFile(f) && SheetValid(sheets[f].value)
  }

  lemma CacheInsert(sheets: map<string, Option<CueSheet>>, filename: string, sheet: CueSheet)
    requires CacheValid(sheets) && IsSupportedFile(filename) && SheetValid(sheet)
    ensures CacheValid(sheets[filename := Some(sheet)])
  {
  }

  class CueFactory {
    var sheets: map<string, Option<CueSheet>>

    ghost predicate Valid()
      reads this
    {
      CacheValid(sheets)
    }

    /** `CueFactory::new`: an empty cache. */
    constructor ()
      ensures Valid() && sheets == map[]
    {
      sheets := map[];
    }

    /** `CueFactory::get_or_new`: a cached entry as it is; a name that is not
        a CUE file gives None and is not cached; otherwise the sheet is built
        (from `parsed` and `listing`, see `NewSheet`) and cached, or the
        error is returned and nothing is cached. */
    method GetOrNew(filename: string, parsed: Option<ParsedCue>, listing: Option<seq<string>>)
      returns (r: Result<Option<CueSheet>, CueError>)
      requires Valid()
      modifies this
      ensures Valid()
      ensures filename in old(sheets) ==> r == Ok(old(sheets)[filename]) && sheets == old(sheets)
      ensures filename !in old(sheets) && !IsSupportedFile(filename) ==> r == Ok(None) && sheets == old(sheets)
      ensures filename !in old(sheets) && IsSupportedFile(filename) ==>
                (r.Ok? <==> parsed.Some? && FindSource(filename, listing).Some? && Loadable(parsed.value))
      ensures r.Err? ==> sheets == old(sheets)
      ensures r.Ok? && filename !in old(sheets) && IsSupportedFile(filename) ==>
                r.value.Some? && BuiltFrom(r.value.value, parsed.value, FindSource(filename, listing).value)
                && sheets == old(sheets)[filename := r.value]
    {
      if filename in sheets {
        return Ok(sheets[filename]);
      }
      if !IsSupportedFile(filename) {
        return Ok(None);
      }
      var sheet := NewSheet(filename, parsed, listing);
      match sheet {
        case Err(e) =>
          return Err(e);
        case Ok(s) =>
          CacheInsert(sheets, filename, s);
          sheets := sheets[filename := Some(s)];
          return Ok(Some(s));
      }
    }

    /** `CueFactory::clear`. */
    method Clear()
      modifies this
      ensures Valid() && sheets == map[]
    {
      sheets := map[];
    }

    /** `CueFactory::sheets`: every cached sheet (the order of the hash map
        is not modelled). */
    function Sheets(): (r: set<CueSheet>)
      reads this
      ensures forall s :: s in r <==> exists f :: f in sheets && sheets[f] == Some(s)
    {
      set f | f in sheets && sheets[f].Some? :: sheets[f].value
    }
  }
}

=== FILE: decoder.dfy ===
/** src/decoder.rs: the decoder owned by the player thread. It opens the
    stream of a track (the source file of a CUE sheet for a CUE track),
    reads packets into the sample buffer the audio output drains, notices
    format changes and the end of a track (including the boundary of a CUE
    track inside a longer file), and seeks relative to the start of the CUE
    track.

    The stream itself is foreign: opening a file, reading a packet, writing
    its samples and seeking are outcomes given to each operation. The open
    stream is represented by the name of the file it reads. */
module Decoder {
  import opened Wrappers
  import opened StreamBase
  import ErrUtil
  import C = Cue
  import SymphoniaStream

  type Sample = SymphoniaStream.Sample

  const BUFFER_CAPACITY: nat := 65535
  /** Reading pauses once the buffer holds this many samples. */
  const BUFFER_SOFT_STOP: nat := 60000

  datatype DecoderReadResult = BufferNotFull | BufferFull | NeedResetOutput | ReadEnd

  datatype DecoderError =
    | CueLoad(cause: C.CueError)       // the CUE sheet of a CUE track cannot be loaded
    | NotCue(filename: string)         // a track with an index whose file is not a CUE sheet
    | CannotOpen(filename: string)     // `stream_man::open` failed
    | NoTrackStart(cause: C.CueError)  // the CUE track is not in its sheet
    | CannotSeek                       // the stream failed to seek
    | StreamNotReady                   // no stream to seek in
    | NoPacket                         // the first packet cannot be read
    | NoMeta(filename: string)         // the first packet carries no tags

  /** `is_format_change`: a packet changes the format when there was a
      previous packet and the channel count or the sample rate differs. */
  function IsFormatChange(cur: Option<StreamPacketMeta>, next: StreamPacketMeta): (r: bool)
    ensures cur.None? ==> !r
    ensures cur.Some? ==> (r <==> cur.value.channelsCount != next.channelsCount || cur.value.sampleRate != next.sampleRate)
  {
    match cur
    case None => false
    case Some(m) => m.channelsCount != next.channelsCount || m.sampleRate != next.sampleRate
  }

  /** Whether two packets differ in format does not depend on their order
      nor on anything but the channel count and the sample rate. */
  lemma FormatChangeSymmetric(a: StreamPacketMeta, b: StreamPacketMeta)
    ensures IsFormatChange(Some(a), b) == IsFormatChange(Some(b), a)
    ensures IsFormatChange(Some(a), a.(trackMeta := b.trackMeta, position := b.position)) == false
  {
  }

  /** `read_stream` gets past its guards and reads a packet: not at the end,
      room in the buffer, a stream, and no format change pending. */
  predicate ReadsPacket(atEnd: bool, bufLen: nat, hasStream: bool, waitEmptyBuf: bool) {
    !atEnd && bufLen < BUFFER_SOFT_STOP && hasStream && !waitEmptyBuf
  }

  /** A stream is open on the source file of `sheet`, under the current
      sheet. */
  predicate SameSource(sheet: C.CueSheet, stream: Option<string>, cueSheet: Option<C.CueSheet>) {
    stream.Some? && cueSheet.Some? && sheet.sourceFilename == cueSheet.value.sourceFilename
  }

  /** Playing `t` of `sheet` continues the current stream: same source, and
      `t` is the CUE track right after the current one. */
  predicate Continues(t: Track, sheet: C.CueSheet, stream: Option<string>, cueSheet: Option<C.CueSheet>, track: Option<Track>) {
    && t.index.Some? && SameSource(sheet, stream, cueSheet)
    && track.Some? && track.value.index.Some? && t.index.value == track.value.index.value + 1
  }

  class Decoder {
    /** The file the open stream reads, if any. */
    var stream: Option<string>
    var track: Option<Track>
    var packetMeta: Option<StreamPacketMeta>
    var previousPacketMeta: Option<StreamPacketMeta>
    var fileMeta: Option<TrackMeta>
    var trackMeta: Option<TrackMeta>
    var newTrackMeta: Option<TrackMeta>
    /** The sample buffer shared with the audio output, oldest first. */
    var buf: seq<Sample>
    var position: Duration
    var atEnd: bool
    var waitEmptyBuf: bool
    const cueFactory: C.CueFactory
    var cueSheet: Option<C.CueSheet>

    /** The current sheet is one the CUE factory could have built. */
    ghost predicate Valid()
      reads this`cueSheet, cueFactory
    {
      cueFactory.Valid() && (cueSheet.Some? ==> C.SheetValid(cueSheet.value))
    }

    /** `Decoder::new` */
    constructor ()
      ensures Valid() && fresh(cueFactory) && cueFactory.sheets == map[]
      ensures stream.None? && track.None? && packetMeta.None? && previousPacketMeta.None?
      ensures fileMeta.None? && trackMeta.None? && newTrackMeta.None? && cueSheet.None?
      ensures buf == [] && position == 0 && !atEnd && !waitEmptyBuf
    {
      stream := None;
      track := None;
      packetMeta := None;
      previousPacketMeta := None;
      fileMeta := None;
      trackMeta := None;
      newTrackMeta := None;
      buf := [];
      position := 0;
      atEnd := false;
      waitEmptyBuf := false;
      cueFactory := new C.CueFactory();
      cueSheet := None;
    }

    /** `stop`: forgets the stream and the track and empties the buffer. The
        end and format-change flags are kept. */
    method Stop()
      modifies this
      ensures stream.None? && track.None? && packetMeta.None? && previousPacketMeta.None?
      ensures fileMeta.None? && trackMeta.None? && newTrackMeta.None? && cueSheet.None?
      ensures position == 0 && buf == []
      ensures atEnd == old(atEnd) && waitEmptyBuf == old(waitEmptyBuf)
    {
      stream := None;
      track := None;
      packetMeta := None;
      previousPacketMeta := None;
      fileMeta := None;
      trackMeta := None;
      newTrackMeta := None;
      cueSheet := None;
      position := 0;
      buf := [];
    }

    /** `can_read_more`: the buffer is below the soft stop. */
    function CanReadMore(): (r: bool)
      reads this
      ensures r <==> |buf| < BUFFER_SOFT_STOP
    {
      |buf| < BUFFER_SOFT_STOP
    }

    /** `sheet_and_index`: the current sheet and the CUE index of the current
        track, when both exist. */
    function SheetAndIndex(): (r: Option<(C.CueSheet, nat)>)
      reads this
      ensures r.Some? <==> cueSheet.Some? && track.Some? && track.value.index.Some?
      ensures r.Some? ==> r.value == (cueSheet.value, track.value.index.value)
    {
      if cueSheet.Some? && track.Some? && track.value.index.Some? then
        Some((cueSheet.value, track.value.index.value))
      else None
    }

    /** `sheet_for_track`: the CUE sheet of a CUE track, from the factory
        (given the parse and the directory listing the factory would use);
        None for a plain file. */
    method SheetForTrack(t: Track, parsed: Option<C.ParsedCue>, listing: Option<seq<string>>)
      returns (r: Result<Option<C.CueSheet>, DecoderError>)
      requires Valid()
      modifies cueFactory
      ensures Valid()
      ensures t.index.None? ==> r == Ok(None) && cueFactory.sheets == old(cueFactory.sheets)
      ensures t.index.Some? && r.Ok? ==> r.value.Some? && C.SheetValid(r.value.value)
      ensures t.index.Some? && t.filename in old(cueFactory.sheets) ==>
                r == Ok(old(cueFactory.sheets)[t.filename])
      ensures t.index.Some? && t.filename !in old(cueFactory.sheets) && !C.IsSupportedFile(t.filename) ==>
                r == Err(NotCue(t.filename))
    {
      if t.index.None? {
        return Ok(None);
      }
      var sheet := cueFactory.GetOrNew(t.filename, parsed, listing);
      match sheet {
        case Err(e) =>
          return Err(CueLoad(e));
        case Ok(None) =>
          return Err(NotCue(t.filename));
        case Ok(Some(s)) =>
          return Ok(Some(s));
      }
    }

    /** `seek_to`: seeks to `pos` within the current track, which for a CUE
        track is `pos` past the track's start in the source file; `seek` is
        where the stream lands for a requested position (None when the
        stream fails). The buffer is emptied and the end flag cleared. */
    method SeekTo(pos: Duration, seek: Duration -> Option<Duration>) returns (r: Result<Duration, DecoderError>)
      requires Valid()
      modifies this`buf, this`atEnd
      ensures Valid()
      ensures SheetAndIndex().Some? && C.TrackStart(SheetAndIndex().value.0, SheetAndIndex().value.1).Err? ==>
                r == Err(NoTrackStart(C.OutOfBounds(SheetAndIndex().value.1))) && buf == old(buf) && atEnd == old(atEnd)
      ensures var start := Start();
              start.Ok? ==>
                && (stream.None? ==> r == Err(StreamNotReady))
                && (stream.Some? && seek(SaturatingAdd(pos, start.value)).None? ==> r == Err(CannotSeek))
                && (stream.Some? && seek(SaturatingAdd(pos, start.value)).Some? ==>
                      r == Ok(SaturatingSub(seek(SaturatingAdd(pos, start.value)).value, start.value)))
                && (pos + start.value <= DURATION_MAX && stream.Some? && seek(pos + start.value) == Some(pos + start.value) ==>
                      r == Ok(pos))
      ensures r.Ok? ==> buf == [] && !atEnd
      ensures r.Err? ==> buf == old(buf) && atEnd == old(atEnd)
    {
      var start := Start();
      if start.Err? {
        return Err(start.error);
      }
      var target := SaturatingAdd(pos, start.value);
      if stream.Some? {
        var seekedTo := seek(target);
        if seekedTo.None? {
          return Err(CannotSeek);
        }
        buf := [];
        atEnd := false;
        return Ok(SaturatingSub(seekedTo.value, start.value));
      }
      return Err(StreamNotReady);
    }

    /** The start of the current CUE track in its source file, zero for a
        plain file. */
    function Start(): (r: Result<Duration, DecoderError>)
      reads this
      ensures SheetAndIndex().None? ==> r == Ok(0)
      ensures SheetAndIndex().Some? ==>
                var (sheet, index) := SheetAndIndex().value;
                (r.Ok? <==> C.TrackStart(sheet, index).Ok?)
                && (r.Ok? ==> r.value == C.Track(sheet, index).value.start)
                && (r.Err? ==> r == Err(NoTrackStart(C.OutOfBounds(index))))
    {
      match SheetAndIndex()
      case None => Ok(0)
      case Some((sheet, index)) =>
        match C.TrackStart(sheet, index)
        case Ok(s) => Ok(s)
        case Err(e) => Err(NoTrackStart(e))
    }

    /** `set_track_meta`: with new tags, the file tags become them and the
        track tags are them merged into the current CUE track (or them as
        they are for a plain file); the track tags are also queued as new. */
    method SetTrackMeta(tags: Option<TrackMeta>)
      modifies this`trackMeta, this`fileMeta, this`newTrackMeta
      ensures tags.None? ==> trackMeta == old(trackMeta) && fileMeta == old(fileMeta) && newTrackMeta == old(newTrackMeta)
      ensures tags.Some? ==> fileMeta == tags && newTrackMeta == trackMeta
      ensures tags.Some? && SheetAndIndex().None? ==> trackMeta == tags
      ensures tags.Some? && SheetAndIndex().Some? ==>
                trackMeta == ErrUtil.ToOption(C.MergedTrackMeta(SheetAndIndex().value.0, SheetAndIndex().value.1, tags.value))
    {
      if tags.Some? {
        match SheetAndIndex() {
          case Some((sheet, index)) =>
            trackMeta := ErrUtil.ToOption(C.MergedTrackMeta(sheet, index, tags.value));
          case None =>
            trackMeta := tags;
        }
        fileMeta := tags;
        newTrackMeta := trackMeta;
      }
    }

    /** Whether a packet position lies in a later CUE track than the current
        one. */
    function PastTrackEnd(pos: Duration): (r: bool)
      reads this
      ensures r ==> SheetAndIndex().Some?
    {
      match SheetAndIndex()
      case None => false
      case Some((sheet, index)) => |sheet.tracks| > 0 && C.TrackIndexByPosition(sheet, pos) > index
    }

    /** `read_stream`: one step of the read loop. `packet` is what
        `read_packet` returns and `written` the samples `write` appends (an
        error when it fails). */
    method ReadStream(packet: Result<StreamPacketMeta, string>, written: Result<seq<Sample>, string>)
      returns (r: DecoderReadResult)
      requires Valid()
      modifies this`buf, this`atEnd, this`waitEmptyBuf, this`previousPacketMeta, this`packetMeta,
               this`position, this`trackMeta, this`fileMeta, this`newTrackMeta
      ensures Valid()
      // Nothing is read at the end, with a full buffer or without a stream.
      ensures old(atEnd) || |old(buf)| >= BUFFER_SOFT_STOP || stream.None? ==>
                r == BufferFull && buf == old(buf) && atEnd == old(atEnd) && waitEmptyBuf == old(waitEmptyBuf)
                && previousPacketMeta == old(previousPacketMeta) && packetMeta == old(packetMeta)
      // After a format change the buffer must drain before the output is reset.
      ensures !old(atEnd) && |old(buf)| < BUFFER_SOFT_STOP && stream.Some? && old(waitEmptyBuf) ==>
                buf == old(buf) && !atEnd && packetMeta == old(packetMeta)
                && (old(buf) != [] ==> r == BufferFull && waitEmptyBuf)
                && (old(buf) == [] ==> r == NeedResetOutput && !waitEmptyBuf)
      ensures ReadsPacket(old(atEnd), |old(buf)|, stream.Some?, old(waitEmptyBuf)) ==> previousPacketMeta.None?
      // A failed read ends the track.
      ensures ReadsPacket(old(atEnd), |old(buf)|, stream.Some?, old(waitEmptyBuf)) && packet.Err? ==> r == ReadEnd && atEnd && buf == old(buf)
      // A format change holds the packet's samples back until the buffer drains.
      ensures ReadsPacket(old(atEnd), |old(buf)|, stream.Some?, old(waitEmptyBuf)) && packet.Ok? && IsFormatChange(old(previousPacketMeta), packet.value) ==>
                r == BufferFull && waitEmptyBuf && buf == old(buf) && !atEnd && packetMeta == old(packetMeta)
      ensures ReadsPacket(old(atEnd), |old(buf)|, stream.Some?, old(waitEmptyBuf)) && packet.Ok? && !IsFormatChange(old(previousPacketMeta), packet.value) ==>
                && !waitEmptyBuf
                && (written.Ok? ==> buf == old(buf) + written.value
                                    && packetMeta == Some(packet.value.(trackMeta := None)))
                && (written.Err? ==> buf == old(buf) && packetMeta == old(packetMeta))
                && (r == ReadEnd <==> packetMeta.Some? && packetMeta.value.position.Some?
                                      && PastTrackEnd(packetMeta.value.position.value))
                && (r != ReadEnd ==> r == BufferNotFull && atEnd == old(atEnd))
                && (r == ReadEnd ==> atEnd)
                && (packetMeta.Some? && packetMeta.value.position.Some? ==> position == packetMeta.value.position.value)
      ensures r == ReadEnd ==> atEnd
    {
      if atEnd || !CanReadMore() {
        return BufferFull;
      }
      if stream.None? {
        return BufferFull;
      }
      if waitEmptyBuf {
        if |buf| != 0 {
          return BufferFull;
        }
        waitEmptyBuf := false;
        return NeedResetOutput;
      }
      var prevMeta := previousPacketMeta;
      previousPacketMeta := None;
      if packet.Err? {
        atEnd := true;
        return ReadEnd;
      }
      var meta := packet.value;
      var formatChanged := IsFormatChange(prevMeta, meta);
      var tags := meta.trackMeta;
      meta := meta.(trackMeta := None);
      if formatChanged {
        waitEmptyBuf := true;
        SetTrackMeta(tags);
        return BufferFull;
      }
      r := TakePacket(meta, tags, written);
    }

    /** The rest of `read_stream` for a packet in the current format: its
        samples join the buffer, and the position it carries can end the
        track. */
    method TakePacket(meta: StreamPacketMeta, tags: Option<TrackMeta>, written: Result<seq<Sample>, string>)
      returns (r: DecoderReadResult)
      requires Valid()
      modifies this`buf, this`atEnd, this`packetMeta, this`position, this`trackMeta, this`fileMeta, this`newTrackMeta
      ensures Valid()
      ensures written.Ok? ==> buf == old(buf) + written.value && packetMeta == Some(meta)
      ensures written.Err? ==> buf == old(buf) && packetMeta == old(packetMeta)
      ensures r == ReadEnd <==> packetMeta.Some? && packetMeta.value.position.Some?
                                && PastTrackEnd(packetMeta.value.position.value)
      ensures r != ReadEnd ==> r == BufferNotFull && atEnd == old(atEnd)
      ensures r == ReadEnd ==> atEnd
      ensures packetMeta.Some? && packetMeta.value.position.Some? ==> position == packetMeta.value.position.value
    {
      if written.Ok? {
        buf := buf + written.value;
        packetMeta := Some(meta);
        SetTrackMeta(tags);
      }
      if packetMeta.Some? && packetMeta.value.position.Some? {
        position := packetMeta.value.position.value;
        if PastTrackEnd(position) {
          atEnd := true;
          return ReadEnd;
        }
      }
      return BufferNotFull;
    }

    /** The audio output takes `n` samples from the front of the buffer. */
    method Drain(n: nat)
      requires n <= |buf|
      modifies this`buf
      ensures buf == old(buf[n..])
    {
      buf := buf[n..];
    }

    /** `play`. `parsed` and `listing` feed the CUE factory, `opens` says
        which files `stream_man::open` can open and `seek` is the stream's
        seek. A CUE track goes to `PlayCue`, a plain file to `PlayFile`. */
    method Play(t: Track, parsed: Option<C.ParsedCue>, listing: Option<seq<string>>,
                opens: string -> bool, seek: Duration -> Option<Duration>)
      returns (r: Result<Unit, DecoderError>)
      requires Valid()
      modifies this, cueFactory
      ensures Valid()
      ensures r.Ok? ==> track == Some(t) && !atEnd
      ensures r.Ok? && t.index.None? ==> stream == Some(t.filename) && trackMeta.None? && fileMeta.None?
      ensures r.Ok? && t.index.Some? ==> cueSheet.Some? && stream.Some?
      ensures t.index.None? && !opens(t.filename) ==> r == Err(CannotOpen(t.filename)) && stream == old(stream)
      ensures t.index.Some? && t.filename in old(cueFactory.sheets) && old(cueFactory.sheets)[t.filename].Some?
              && Continues(t, old(cueFactory.sheets)[t.filename].value, old(stream), old(cueSheet), old(track)) ==>
                r.Ok? && stream == old(stream) && buf == old(buf) && cueSheet == old(cueSheet)
                && trackMeta == old(trackMeta) && fileMeta == old(fileMeta) && packetMeta == old(packetMeta)
                && position == old(position)
    {
      var ns := SheetForTrack(t, parsed, listing);
      if ns.Err? {
        return Err(ns.error);
      }
      if ns.value.Some? {
        r := PlayCue(t, ns.value.value, opens, seek);
      } else {
        r := PlayFile(t, opens);
      }
    }

    /** The CUE branch of `play`, with `sheet` the track's sheet. The next
        track of the same source continues the stream where it is: no seek,
        only the track and the queued tags change. Another track of the
        same source seeks to its start; a track of another source opens
        that source and seeks to the track's start. */
    method PlayCue(t: Track, sheet: C.CueSheet, opens: string -> bool, seek: Duration -> Option<Duration>)
      returns (r: Result<Unit, DecoderError>)
      requires Valid() && C.SheetValid(sheet) && t.index.Some?
      modifies this
      ensures Valid()
      ensures r.Ok? ==> track == Some(t) && !atEnd && cueSheet.Some? && stream.Some?
      ensures Continues(t, sheet, old(stream), old(cueSheet), old(track)) ==>
                r.Ok? && stream == old(stream) && buf == old(buf) && cueSheet == old(cueSheet)
                && trackMeta == old(trackMeta) && fileMeta == old(fileMeta) && packetMeta == old(packetMeta)
                && previousPacketMeta == old(previousPacketMeta) && position == old(position)
                && (old(fileMeta).Some? ==> newTrackMeta == ErrUtil.ToOption(C.MergedTrackMeta(sheet, t.index.value, old(fileMeta).value)))
                && (old(fileMeta).None? ==> newTrackMeta == old(newTrackMeta))
      ensures SameSource(sheet, old(stream), old(cueSheet)) && !Continues(t, sheet, old(stream), old(cueSheet), old(track)) ==>
                track == Some(t) && trackMeta.None? && stream == old(stream) && cueSheet == old(cueSheet)
                && (r.Ok? ==> buf == [])
      ensures !SameSource(sheet, old(stream), old(cueSheet)) && !opens(sheet.sourceFilename) ==>
                r == Err(CannotOpen(sheet.sourceFilename)) && stream == old(stream) && track == old(track)
      ensures !SameSource(sheet, old(stream), old(cueSheet)) && opens(sheet.sourceFilename) ==>
                stream == Some(sheet.sourceFilename) && cueSheet == Some(sheet) && track == Some(t)
                && trackMeta.None? && fileMeta.None? && (r.Ok? ==> buf == [])
    {
      if SameSource(sheet, stream, cueSheet) {
        r := PlayInSource(t, sheet, seek);
      } else {
        r := OpenSource(t, sheet, opens, seek);
      }
    }

    /** `play` of a CUE track whose source is already open: the next track
        continues, any other seeks to its start. */
    method PlayInSource(t: Track, sheet: C.CueSheet, seek: Duration -> Option<Duration>)
      returns (r: Result<Unit, DecoderError>)
      requires Valid() && C.SheetValid(sheet) && t.index.Some? && SameSource(sheet, stream, cueSheet)
      modifies this`track, this`atEnd, this`trackMeta, this`newTrackMeta, this`buf
      ensures Valid() && track == Some(t)
      ensures r.Ok? ==> !atEnd
      ensures Continues(t, sheet, stream, cueSheet, old(track)) ==>
                r.Ok? && buf == old(buf) && trackMeta == old(trackMeta)
                && (fileMeta.Some? ==> newTrackMeta == ErrUtil.ToOption(C.MergedTrackMeta(sheet, t.index.value, fileMeta.value)))
                && (fileMeta.None? ==> newTrackMeta == old(newTrackMeta))
      ensures !Continues(t, sheet, stream, cueSheet, old(track)) ==> trackMeta.None? && (r.Ok? ==> buf == [])
    {
      var newIndex := t.index.value;
      if track.Some? && track.value.index.Some? && newIndex == track.value.index.value + 1 {
        if fileMeta.Some? {
          newTrackMeta := ErrUtil.ToOption(C.MergedTrackMeta(sheet, newIndex, fileMeta.value));
        }
        track := Some(t);
        atEnd := false;
        return Ok(Unit);
      }
      trackMeta := None;
      track := Some(t);
      var s := SeekTo(0, seek);
      if s.Err? {
        return Err(s.error);
      }
      if fileMeta.Some? {
        newTrackMeta := ErrUtil.ToOption(C.MergedTrackMeta(sheet, newIndex, fileMeta.value));
      }
      atEnd := false;
      return Ok(Unit);
    }

    /** `play` of a CUE track of another source: that source is opened, the
        sheet becomes current and the stream seeks to the track's start. */
    method OpenSource(t: Track, sheet: C.CueSheet, opens: string -> bool, seek: Duration -> Option<Duration>)
      returns (r: Result<Unit, DecoderError>)
      requires Valid() && C.SheetValid(sheet) && t.index.Some?
      modifies this`stream, this`trackMeta, this`fileMeta, this`track, this`cueSheet, this`buf, this`atEnd
      ensures Valid()
      ensures !opens(sheet.sourceFilename) ==>
                r == Err(CannotOpen(sheet.sourceFilename)) && unchanged(this)
      ensures opens(sheet.sourceFilename) ==>
                stream == Some(sheet.sourceFilename) && cueSheet == Some(sheet) && track == Some(t)
                && trackMeta.None? && fileMeta.None?
                && (r.Ok? ==> buf == [] && !atEnd)
                && (r.Err? ==> buf == old(buf) && atEnd == old(atEnd))
    {
      if !opens(sheet.sourceFilename) {
        return Err(CannotOpen(sheet.sourceFilename));
      }
      stream := Some(sheet.sourceFilename);
      trackMeta := None;
      fileMeta := None;
      track := Some(t);
      cueSheet := Some(sheet);
      var s := SeekTo(0, seek);
      if s.Err? {
        return Err(s.error);
      }
      atEnd := false;
      return Ok(Unit);
    }

    /** The plain-file branch of `play`: the last packet's format is kept
        to detect a format change, the tags are forgotten and the file is
        opened; when it cannot be opened the old stream stays. */
    method PlayFile(t: Track, opens: string -> bool) returns (r: Result<Unit, DecoderError>)
      requires Valid()
      modifies this
      ensures Valid()
      ensures old(packetMeta).Some? ==> previousPacketMeta == old(packetMeta) && packetMeta.None?
      ensures old(packetMeta).None? ==> previousPacketMeta == old(previousPacketMeta) && packetMeta.None?
      ensures trackMeta.None? && fileMeta.None? && buf == old(buf) && cueSheet == old(cueSheet)
      ensures !opens(t.filename) ==> r == Err(CannotOpen(t.filename)) && stream == old(stream) && track == old(track)
      ensures opens(t.filename) ==> r.Ok? && stream == Some(t.filename) && track == Some(t) && !atEnd
    {
      if packetMeta.Some? {
        previousPacketMeta := packetMeta;
        packetMeta := None;
      }
      trackMeta := None;
      fileMeta := None;
      if !opens(t.filename) {
        return Err(CannotOpen(t.filename));
      }
      stream := Some(t.filename);
      atEnd := false;
      track := Some(t);
      return Ok(Unit);
    }

    /** `load_meta`: opens the track (the CUE source for a CUE track) and
        reads the tags of its first packet; for a CUE track they are merged
        into the CUE track's tags. `first` is the first packet read. */
    method LoadMeta(t: Track, parsed: Option<C.ParsedCue>, listing: Option<seq<string>>,
                    opens: string -> bool, first: Result<StreamPacketMeta, string>)
      returns (r: Result<Unit, DecoderError>)
      requires Valid()
      modifies this`trackMeta, this`fileMeta, this`packetMeta, this`cueSheet, cueFactory
      ensures Valid()
      ensures r.Ok? ==> first.Ok? && first.value.trackMeta.Some? && fileMeta == first.value.trackMeta
                        && packetMeta == Some(first.value)
      ensures r.Ok? && t.index.None? ==> trackMeta == first.value.trackMeta && cueSheet.None?
      ensures r.Ok? && t.index.Some? ==>
                cueSheet.Some? && trackMeta.Some?
                && C.MergedTrackMeta(cueSheet.value, t.index.value, first.value.trackMeta.value) == Ok(trackMeta.value)
      ensures first.Err? || (first.Ok? && first.value.trackMeta.None?) ==> r.Err?
      ensures t.index.None? && !opens(t.filename) ==> r == Err(CannotOpen(t.filename))
      ensures r.Err? ==> fileMeta == old(fileMeta) && packetMeta == old(packetMeta) && cueSheet == old(cueSheet)
    {
      var ns := SheetForTrack(t, parsed, listing);
      if ns.Err? {
        return Err(ns.error);
      }
      r := TakeFirstPacket(t, ns.value, opens, first);
    }

    /** The part of `load_meta` after the sheet is known: `sheet` is the
        track's sheet for a CUE track and None for a plain file. */
    method TakeFirstPacket(t: Track, sheet: Option<C.CueSheet>, opens: string -> bool,
                           first: Result<StreamPacketMeta, string>)
      returns (r: Result<Unit, DecoderError>)
      requires Valid() && (sheet.Some? ==> C.SheetValid(sheet.value))
      modifies this`trackMeta, this`fileMeta, this`packetMeta, this`cueSheet
      ensures Valid()
      ensures r.Ok? ==> first.Ok? && first.value.trackMeta.Some? && fileMeta == first.value.trackMeta
                        && packetMeta == Some(first.value) && cueSheet == sheet
      ensures r.Ok? && (sheet.None? || t.index.None?) ==> trackMeta == first.value.trackMeta
      ensures r.Ok? && sheet.Some? && t.index.Some? ==>
                trackMeta.Some? && C.MergedTrackMeta(sheet.value, t.index.value, first.value.trackMeta.value) == Ok(trackMeta.value)
      ensures var filename := if sheet.Some? then sheet.value.sourceFilename else t.filename;
              !opens(filename) ==> r == Err(CannotOpen(filename))
      ensures first.Err? || (first.Ok? && first.value.trackMeta.None?) ==> r.Err?
      ensures r.Err? ==> fileMeta == old(fileMeta) && packetMeta == old(packetMeta) && cueSheet == old(cueSheet)
    {
      var filename := if sheet.Some? then sheet.value.sourceFilename else t.filename;
      if !opens(filename) {
        return Err(CannotOpen(filename));
      }
      if first.Err? {
        return Err(NoPacket);
      }
      var packet := first.value;
      if packet.trackMeta.None? {
        return Err(NoMeta(t.filename));
      }
      var tags := packet.trackMeta.value;
      if sheet.Some? && t.index.Some? {
        var merged := C.MergedTrackMeta(sheet.value, t.index.value, tags);
        if merged.Err? {
          return Err(NoTrackStart(merged.error));
        }
        trackMeta := Some(merged.value);
      } else {
        trackMeta := Some(tags);
      }
      fileMeta := Some(tags);
      packetMeta := Some(packet);
      cueSheet := sheet;
      return Ok(Unit);
    }
  }

  /** A CUE track ends the read loop once a packet lies in a later track:
      with positions inside the current track's span the loop goes on, and
      the first position at or past the next track's start ends it. */
  lemma CueBoundary(sheet: C.CueSheet, k: nat, pos: Duration)
    requires C.SheetValid(sheet) && k + 1 < |sheet.tracks|
    requires forall i, j :: 0 <= i < j < |sheet.tracks| ==> sheet.tracks[i].index < sheet.tracks[j].index
    ensures sheet.tracks[k].start <= pos < sheet.tracks[k + 1].start ==>
              C.TrackIndexByPosition(sheet, pos) == sheet.tracks[k].index
    ensures pos >= sheet.tracks[k + 1].start ==>
              C.TrackIndexByPosition(sheet, pos) > sheet.tracks[k].index
  {
    var ts := sheet.tracks;
    if ts[k].start <= pos < ts[k + 1].start {
      C.TrackIndexByPositionInSpan(sheet, pos, k);
    }
    if pos >= ts[k + 1].start {
      var r := C.TrackIndexByPosition(sheet, pos);
      var m :| 0 <= m < |ts| && r == ts[m].index && (ts[m].start <= pos || m == 0)
               && forall j :: m < j < |ts| ==> ts[j].start > pos;
      assert m >= k + 1;
    }
  }
}

=== FILE: err_util.dfy ===
/** The `IgnoreErr` and `OptionAnd` combinators of src/err_util.rs. Logging the
    discarded error is a side effect on standard error and is not modelled. */
module ErrUtil {
  import opened Wrappers

  /** `IgnoreErr::to_option`: keeps the success value, drops the error. */
  function ToOption<T, E>(r: Result<T, E>): (o: Option<T>)
    ensures o.Some? <==> r.Ok?
    ensures o.Some? ==> o.value == r.value
  {
    match r
    case Ok(v) => Some(v)
    case Err(_) => None
  }

  /** `IgnoreErr::to_bool`: whether the operation succeeded. */
  function ToBool<T, E>(r: Result<T, E>): (b: bool)
    ensures b <==> r.Ok?
  {
    r.Ok?
  }

  /** `IgnoreErr::map_to_option`: `f` applied to the success value; `None` on
      an error. */
  function MapToOption<T, E, R>(r: Result<T, E>, f: T -> Option<R>): (o: Option<R>)
    ensures r.Err? ==> o.None?
    ensures r.Ok? ==> o == f(r.value)
  {
    match r
    case Ok(v) => f(v)
    case Err(_) => None
  }

  /** `IgnoreErr::ok_or`: the success value, or what `fallback` produces. */
  function OkOr<T, E>(r: Result<T, E>, fallback: () -> T): (v: T)
    ensures r.Ok? ==> v == r.value
    ensures r.Err? ==> v == fallback()
  {
    match r
    case Ok(v) => v
    case Err(_) => fallback()
  }

  /** `IgnoreErr::ok_or_default`: `default` stands for `T::default()`. */
  function OkOrDefault<T, E>(r: Result<T, E>, default: T): (v: T)
    ensures r.Ok? ==> v == r.value
    ensures r.Err? ==> v == default
  {
    match r
    case Ok(v) => v
    case Err(_) => default
  }

  /** `IgnoreErr::to_anyhow`: the error becomes its debug text, given by
      `debug`; the success value is kept. */
  function ToAnyhow<T, E>(r: Result<T, E>, debug: E -> string): (a: Result<T, string>)
    ensures a.Ok? <==> r.Ok?
    ensures a.Ok? ==> a.value == r.value
    ensures a.Err? ==> a.error == debug(r.error)
  {
    match r
    case Ok(v) => Ok(v)
    case Err(e) => Err(debug(e))
  }

  /** `OptionAnd::ref_map`. */
  function RefMap<T, R>(o: Option<T>, f: T -> R): (m: Option<R>)
    ensures m.Some? <==> o.Some?
    ensures m.Some? ==> m.value == f(o.value)
  {
    match o
    case Some(v) => Some(f(v))
    case None => None
  }

  /** `OptionAnd::mut_map`: `f` may change the contained value (the first
      component of its result) and returns the second component. Returns the
      new option and the mapped result. */
  function MutMap<T, R>(o: Option<T>, f: T -> (T, R)): (res: (Option<T>, Option<R>))
    ensures o.None? ==> res == (None, None)
    ensures o.Some? ==> res == (Some(f(o.value).0), Some(f(o.value).1))
  {
    match o
    case Some(v) => (Some(f(v).0), Some(f(v).1))
    case None => (None, None)
  }

  // ---------------------------------------------------------------------
  // How the combinators relate

  /** `to_bool` is "`to_option` gave a value". */
  lemma ToBoolIsSome<T, E>(r: Result<T, E>)
    ensures ToBool(r) == ToOption(r).Some?
  {
  }

  /** `map_to_option` is `to_option` followed by `Option::and_then`. */
  lemma MapToOptionIsAndThen<T, E, R>(r: Result<T, E>, f: T -> Option<R>)
    ensures MapToOption(r, f) == (match ToOption(r) case Some(v) => f(v) case None => None)
  {
  }

  /** `ok_or_default` is `ok_or` with a constant fallback, and both agree with
      `to_option(..).unwrap_or(..)`. */
  lemma OkOrAgree<T, E>(r: Result<T, E>, default: T)
    ensures OkOrDefault(r, default) == OkOr(r, () => default)
    ensures OkOrDefault(r, default) == ToOption(r).UnwrapOr(default)
  {
  }

  /** `to_anyhow` changes only the error. */
  lemma ToAnyhowKeepsValue<T, E>(r: Result<T, E>, debug: E -> string)
    ensures ToOption(ToAnyhow(r, debug)) == ToOption(r)
  {
  }

  /** `ref_map` is `mut_map` with a function that leaves the value alone. */
  lemma RefMapIsMutMap<T, R>(o: Option<T>, f: T -> R)
    ensures MutMap(o, v => (v, f(v))) == (o, RefMap(o, f))
  {
  }
}

=== FILE: lastfm.dfy ===
/** src/lastfm.rs: the Last.fm scrobbling client. Listens wait in a queue
    (`notScrobbled`, persisted to a JSON file); every scrobble sends the
    newest 50 of them in one signed API call, and the completion of that
    call removes what it sent. */
module LastFm {
  import opened Wrappers
  import opened Text
  import opened StreamBase
  import ErrUtil

  const API_URL: string := "https://ws.audioscrobbler.com/2.0/"
  const MAX_SCROBBLES: nat := 50

  /** A query parameter: name and value. */
  type Param = (string, string)

  /** `ScrobbleItem`: one queued listen; `duration` is in whole seconds and
      `timestamp` in seconds since the Unix epoch. */
  datatype ScrobbleItem = ScrobbleItem(
    artist: string,
    track: string,
    album: Option<string>,
    number: Option<nat>,
    duration: Option<nat>,
    timestamp: nat)

  /** The numbers of an item fit the Rust types that hold them (`usize` on a
      64-bit target and `u64`). */
  predicate InRange(item: ScrobbleItem) {
    && item.timestamp < U64_LIMIT
    && (item.number.Some? ==> item.number.value < U64_LIMIT)
    && (item.duration.Some? ==> item.duration.value < U64_LIMIT)
  }

  datatype LastFmError =
    | NoSessionKey
    | NoTimestamp(cause: string)

  function Min(a: nat, b: nat): nat {
    if a < b then a else b
  }

  // ---------------------------------------------------------------------
  // Keys

  predicate IsLowerHexDigit(c: char) {
    IsAsciiDigit(c) || 'a' <= c <= 'f'
  }

  /** `format!("{:01$x}", b, 2)`: a byte as two lower-case hexadecimal digits. */
  function HexByte(b: byte): string {
    [HexDigitLower(b / 16), HexDigitLower(b % 16)]
  }

  /** `key_arr_to_string`: every byte of the key as two lower-case
      hexadecimal digits, in order. */
  function KeyArrToString(key: seq<byte>): (r: string)
    ensures |r| == 2 * |key|
    ensures forall i :: 0 <= i < |r| ==> IsLowerHexDigit(r[i])
  {
    if key == [] then [] else HexByte(key[0]) + KeyArrToString(key[1..])
  }

  /** Reads pairs of hexadecimal digits back as bytes. */
  function HexToKey(s: string): seq<byte>
    requires |s| % 2 == 0
    requires forall i :: 0 <= i < |s| ==> IsAsciiHexDigit(s[i])
  {
    if s == [] then [] else [HexDigitValue(s[0]) * 16 + HexDigitValue(s[1])] + HexToKey(s[2..])
  }

  /** The key text determines the key: reading the digits back gives the bytes. */
  lemma {:induction false} KeyArrToStringRoundTrip(key: seq<byte>)
    ensures HexToKey(KeyArrToString(key)) == key
  {
    if key != [] {
      var s := KeyArrToString(key);
      assert s[2..] == KeyArrToString(key[1..]);
      KeyArrToStringRoundTrip(key[1..]);
      HexDigitRoundTrip(key[0] / 16, s[0]);
      HexDigitRoundTrip(key[0] % 16, s[1]);
      assert key == [key[0]] + key[1..];
    }
  }

  // ---------------------------------------------------------------------
  // Signature

  /** `String::cmp`: lexicographic order of the characters (on UTF-8 text
      the byte order Rust compares agrees with the code-point order). */
  predicate KeyLt(a: string, b: string) {
    if a == [] then b != []
    else if b == [] then false
    else if a[0] != b[0] then a[0] < b[0]
    else KeyLt(a[1..], b[1..])
  }

  lemma {:induction false} KeyLtIrreflexive(a: string)
    ensures !KeyLt(a, a)
  {
    if a != [] {
      KeyLtIrreflexive(a[1..]);
    }
  }

  lemma {:induction false} KeyLtTotal(a: string, b: string)
    ensures KeyLt(a, b) || a == b || KeyLt(b, a)
  {
    if a != [] && b != [] && a[0] == b[0] {
      KeyLtTotal(a[1..], b[1..]);
      assert a == [a[0]] + a[1..];
      assert b == [b[0]] + b[1..];
    }
  }

  lemma KeyLtAsymmetric(a: string, b: string)
    requires KeyLt(a, b)
    ensures !KeyLt(b, a)
  {
    if KeyLt(b, a) {
      KeyLtTransitive(a, b, a);
      KeyLtIrreflexive(a);
    }
  }

  lemma {:induction false} KeyLtTransitive(a: string, b: string, c: string)
    requires KeyLt(a, b) && KeyLt(b, c)
    ensures KeyLt(a, c)
  {
    if a != [] && a[0] == b[0] && b[0] == c[0] {
      KeyLtTransitive(a[1..], b[1..], c[1..]);
    }
  }

  /** One step of the stable sort: `p` goes after every entry whose name is
      not greater than its own. */
  function InsertByKey(p: Param, s: seq<Param>): (r: seq<Param>)
    ensures multiset(r) == multiset(s) + multiset{p}
    ensures r != [] && (r[0] == p || (s != [] && r[0] == s[0]))
  {
    if s == [] || KeyLt(p.0, s[0].0) then [p] + s
    else
      assert s == [s[0]] + s[1..];
      [s[0]] + InsertByKey(p, s[1..])
  }

  /** The names never decrease from one entry to the next. */
  predicate SortedByKey(s: seq<Param>) {
    forall i :: 0 < i < |s| ==> !KeyLt(s[i].0, s[i - 1].0)
  }

  /** `params.sort_by(|(a, _), (b, _)| a.cmp(b))`, an insertion sort. */
  function SortByKey(s: seq<Param>): seq<Param> {
    if s == [] then []
    else
      assert s == s[..|s| - 1] + [s[|s| - 1]];
      InsertByKey(s[|s| - 1], SortByKey(s[..|s| - 1]))
  }

  lemma {:induction false} InsertByKeySorted(p: Param, s: seq<Param>)
    requires SortedByKey(s)
    ensures SortedByKey(InsertByKey(p, s))
  {
    if s != [] && KeyLt(p.0, s[0].0) {
      KeyLtAsymmetric(p.0, s[0].0);
    } else if s != [] {
      InsertByKeySorted(p, s[1..]);
      var t := InsertByKey(p, s[1..]);
      var r := InsertByKey(p, s);
      assert r == [s[0]] + t;
      forall k | 0 < k < |r|
        ensures !KeyLt(r[k].0, r[k - 1].0)
      {
        if k == 1 {
          assert t[0] == p || t[0] == s[1];
        } else {
          assert r[k] == t[k - 1] && r[k - 1] == t[k - 2];
        }
      }
    }
  }

  /** Sorting orders the parameters by name and keeps every one of them. */
  lemma {:induction false} SortByKeySorted(s: seq<Param>)
    ensures SortedByKey(SortByKey(s))
    ensures multiset(SortByKey(s)) == multiset(s)
  {
    if s != [] {
      SortByKeySorted(s[..|s| - 1]);
      InsertByKeySorted(s[|s| - 1], SortByKey(s[..|s| - 1]));
      assert s == s[..|s| - 1] + [s[|s| - 1]];
    }
  }

  /** No two parameters share a name (and none is repeated). */
  ghost predicate UniqueNames(m: multiset<Param>) {
    && (forall p :: m[p] <= 1)
    && (forall p, q :: p in m && q in m && p.0 == q.0 ==> p == q)
  }

  /** In a sorted sequence no entry is named below an earlier one. */
  lemma {:induction false} SortedFar(s: seq<Param>, i: nat, j: nat)
    requires SortedByKey(s) && i < j < |s|
    ensures !KeyLt(s[j].0, s[i].0)
    decreases j - i
  {
    if i + 1 < j {
      SortedFar(s, i, j - 1);
      if KeyLt(s[j].0, s[i].0) {
        KeyLtTotal(s[j - 1].0, s[j].0);
        if KeyLt(s[j - 1].0, s[j].0) {
          KeyLtTransitive(s[j - 1].0, s[j].0, s[i].0);
        }
      }
    }
  }

  /** The first entry of a sorted sequence with unique names is the only
      one that can be named as low as an entry of the same multiset. */
  lemma HeadIsLeast(a: seq<Param>, b: seq<Param>)
    requires a != [] && b != []
    requires SortedByKey(a) && SortedByKey(b)
    requires multiset(a) == multiset(b) && UniqueNames(multiset(a))
    ensures a[0] == b[0]
  {
    assert a[0] in multiset(b);
    var j :| 0 <= j < |b| && b[j] == a[0];
    assert b[0] in multiset(a);
    var i :| 0 <= i < |a| && a[i] == b[0];
    if i > 0 && j > 0 {
      SortedFar(a, 0, i);
      SortedFar(b, 0, j);
      KeyLtTotal(a[0].0, b[0].0);
    }
  }

  lemma TailKeepsOrder(a: seq<Param>)
    requires a != [] && SortedByKey(a) && UniqueNames(multiset(a))
    ensures SortedByKey(a[1..]) && UniqueNames(multiset(a[1..]))
    ensures multiset(a) == multiset{a[0]} + multiset(a[1..])
  {
    assert a == [a[0]] + a[1..];
    var m, t := multiset(a), multiset(a[1..]);
    assert m == multiset{a[0]} + t;
    forall p
      ensures t[p] <= 1
    {
      assert t[p] <= m[p];
    }
    forall p, q | p in t && q in t && p.0 == q.0
      ensures p == q
    {
      assert p in m && q in m;
    }
    forall i | 0 < i < |a[1..]|
      ensures !KeyLt(a[1..][i].0, a[1..][i - 1].0)
    {
      assert a[1..][i] == a[i + 1] && a[1..][i - 1] == a[i];
    }
  }

  /** Sorting has one outcome for all orders of parameters with unique names. */
  lemma {:induction false} SortedUnique(a: seq<Param>, b: seq<Param>)
    requires SortedByKey(a) && SortedByKey(b)
    requires multiset(a) == multiset(b) && UniqueNames(multiset(a))
    ensures a == b
  {
    if a == [] {
      assert |b| == |multiset(b)| == 0;
    } else {
      assert b != [] by { assert |b| == |multiset(b)| == |a|; }
      HeadIsLeast(a, b);
      TailKeepsOrder(a);
      TailKeepsOrder(b);
      assert multiset(a[1..]) == multiset(b[1..]);
      SortedUnique(a[1..], b[1..]);
    }
  }

  /** Each name immediately followed by its value, in order. */
  function Concatenated(ps: seq<Param>): string {
    if ps == [] then [] else ps[0].0 + ps[0].1 + Concatenated(ps[1..])
  }

  /** The text `calc_sig` digests: every parameter, sorted by name, as name
      and value, then the shared secret. */
  function SigPayload(params: seq<Param>, secret: string): string {
    Concatenated(SortByKey(params)) + secret
  }

  /** With distinct names the payload is that of any name-ordered listing
      of the same parameters, followed by the secret. */
  lemma SigPayloadOfSorted(params: seq<Param>, s: seq<Param>, secret: string)
    requires SortedByKey(s) && multiset(s) == multiset(params)
    requires UniqueNames(multiset(params))
    ensures SigPayload(params, secret) == Concatenated(s) + secret
  {
    SortByKeySorted(params);
    SortedUnique(SortByKey(params), s);
  }

  /** The payload, and so the signature, does not depend on the order in
      which parameters with distinct names are listed. */
  lemma SigPayloadOrderFree(p: seq<Param>, q: seq<Param>, secret: string)
    requires multiset(p) == multiset(q) && UniqueNames(multiset(p))
    ensures SigPayload(p, secret) == SigPayload(q, secret)
  {
    SortByKeySorted(p);
    SortByKeySorted(q);
    SortedUnique(SortByKey(p), SortByKey(q));
  }

  /** What the server checks: the query ends with the signature and
      `format=json`, and the signature is the digest of the payload of all
      the other parameters. */
  predicate Signed(query: seq<Param>, secret: string, digest: string -> string) {
    && |query| >= 2
    && query[|query| - 1] == ("format", "json")
    && query[|query| - 2] == ("api_sig", digest(SigPayload(query[..|query| - 2], secret)))
  }

  /** The parameters of the URL `get_method_url` builds: method name and
      API key first, then the call's own parameters, all of them signed;
      the signature and `format=json` come last and are not signed.
      `digest` is MD5 in lower-case hexadecimal. */
  function MethodQuery(methodName: string, apiKey: string, params: seq<Param>, secret: string, digest: string -> string): seq<Param> {
    var signed := [("method", methodName), ("api_key", apiKey)] + params;
    signed + [("api_sig", digest(SigPayload(signed, secret))), ("format", "json")]
  }

  /** The layout of the query: method name, API key, the call's own
      parameters unchanged and in order, then the signature over all of
      those and `format=json`. */
  lemma MethodQueryLayout(methodName: string, apiKey: string, params: seq<Param>, secret: string, digest: string -> string)
    ensures var r := MethodQuery(methodName, apiKey, params, secret, digest);
      && |r| == |params| + 4
      && r[..2] == [("method", methodName), ("api_key", apiKey)]
      && r[2..|params| + 2] == params
      && Signed(r, secret, digest)
  {
    var signed := [("method", methodName), ("api_key", apiKey)] + params;
    var r := MethodQuery(methodName, apiKey, params, secret, digest);
    assert r[..|signed|] == signed;
    assert r[..2] == signed[..2];
    assert r[2..|params| + 2] == signed[2..];
  }

  /** Two calls of the same method whose parameters differ only in order
      carry the same signature. */
  lemma MethodQuerySignatureOrderFree(methodName: string, apiKey: string, p: seq<Param>, q: seq<Param>, secret: string, digest: string -> string)
    requires multiset(p) == multiset(q)
    requires UniqueNames(multiset([("method", methodName), ("api_key", apiKey)] + p))
    ensures MethodQuery(methodName, apiKey, p, secret, digest)[|p| + 2]
         == MethodQuery(methodName, apiKey, q, secret, digest)[|q| + 2]
  {
    var head := [("method", methodName), ("api_key", apiKey)];
    assert multiset(head + p) == multiset(head + q);
    SigPayloadOrderFree(head + p, head + q, secret);
  }

  // ---------------------------------------------------------------------
  // Query parameters

  /** The value of the first parameter called `name`. */
  function Lookup(ps: seq<Param>, name: string): (r: Option<string>)
    ensures r.Some? ==> (name, r.value) in ps
  {
    if ps == [] then None
    else if ps[0].0 == name then Some(ps[0].1)
    else Lookup(ps[1..], name)
  }

  lemma {:induction false} LookupAppend(a: seq<Param>, b: seq<Param>, name: string)
    ensures Lookup(a + b, name) == Lookup(a, name).Or(Lookup(b, name))
  {
    if a == [] {
      assert a + b == b;
    } else if a[0].0 != name {
      assert (a + b)[1..] == a[1..] + b;
      LookupAppend(a[1..], b, name);
    } else {
      assert (a + b)[0] == a[0];
    }
  }

  /** Looking up in four consecutive parts. */
  lemma LookupParts(g: seq<Param>, a: seq<Param>, n: seq<Param>, d: seq<Param>, name: string)
    ensures Lookup(g + a + n + d, name) == Lookup(g, name).Or(Lookup(a, name)).Or(Lookup(n, name)).Or(Lookup(d, name))
  {
    LookupAppend(g + a + n, d, name);
    LookupAppend(g + a, n, name);
    LookupAppend(g, a, name);
  }

  /** The first parameter called `name` decides. */
  lemma {:induction false} LookupFirst(ps: seq<Param>, name: string, k: nat)
    requires k < |ps| && ps[k].0 == name
    requires forall j :: 0 <= j < k ==> ps[j].0 != name
    ensures Lookup(ps, name) == Some(ps[k].1)
  {
    if k > 0 {
      LookupFirst(ps[1..], name, k - 1);
    }
  }

  /** Parameters with other names are passed over. */
  lemma LookupSkip(a: seq<Param>, b: seq<Param>, name: string)
    requires forall p :: p in a ==> p.0 != name
    ensures Lookup(a + b, name) == Lookup(b, name)
  {
    LookupAppend(a, b, name);
  }

  /** The parameter `(name, v)` when the value is present. */
  function OptionalParam(name: string, v: Option<string>): seq<Param> {
    if v.Some? then [(name, v.value)] else []
  }

  /** An optional parameter holds its value, under its name only. */
  lemma OptionalParamLookup(name: string, v: Option<string>)
    ensures Lookup(OptionalParam(name, v), name) == v
    ensures forall p :: p in OptionalParam(name, v) ==> p.0 == name
  {
  }

  function DecimalOpt(n: Option<nat>): Option<string> {
    if n.Some? then Some(NatToDecimal(n.value)) else None
  }

  function ParsedOpt(s: Option<string>): Option<nat> {
    if s.Some? then ParseUsize(s.value) else None
  }

  lemma ParsedDecimalOpt(n: Option<nat>)
    requires n.Some? ==> n.value < U64_LIMIT
    ensures ParsedOpt(DecimalOpt(n)) == n
  {
    if n.Some? {
      ParseUsizeOfDecimal(n.value);
    }
  }

  function SecsOpt(d: Option<Duration>): Option<nat> {
    if d.Some? then Some(AsSecs(d.value)) else None
  }

  /** The parameters of `playing_now`: artist, track and session key, then
      album, track number and duration in seconds when known. */
  function NowPlayingParams(artist: string, album: Option<string>, track: string, number: Option<nat>, duration: Option<Duration>, sessionKey: Option<string>): (r: Result<seq<Param>, LastFmError>)
    ensures sessionKey.None? <==> r == Err(NoSessionKey)
    ensures r.Err? ==> r.error == NoSessionKey
  {
    match sessionKey
    case None => Err(NoSessionKey)
    case Some(sk) =>
      var head := [("artist", artist), ("track", track), ("sk", sk)];
      var ps := head
        + OptionalParam("album", album)
        + OptionalParam("trackNumber", DecimalOpt(number))
        + OptionalParam("duration", DecimalOpt(SecsOpt(duration)));
      Ok(ps)
  }

  /** Every argument of `playing_now` can be read back from its parameters. */
  lemma NowPlayingParamsDescribe(artist: string, album: Option<string>, track: string, number: Option<nat>, duration: Option<Duration>, sessionKey: Option<string>)
    requires sessionKey.Some?
    requires number.Some? ==> number.value < U64_LIMIT
    ensures var ps := NowPlayingParams(artist, album, track, number, duration, sessionKey).value;
      && Lookup(ps, "artist") == Some(artist)
      && Lookup(ps, "track") == Some(track)
      && Lookup(ps, "sk") == sessionKey
      && Lookup(ps, "album") == album
      && ParsedOpt(Lookup(ps, "trackNumber")) == number
      && Lookup(ps, "duration") == DecimalOpt(SecsOpt(duration))
  {
    var head := [("artist", artist), ("track", track), ("sk", sessionKey.value)];
    var a := OptionalParam("album", album);
    var n := OptionalParam("trackNumber", DecimalOpt(number));
    var d := OptionalParam("duration", DecimalOpt(SecsOpt(duration)));
    assert NowPlayingParams(artist, album, track, number, duration, sessionKey).value == head + a + n + d;
    NowPlayingHead(head, a, n, d);
    NowPlayingTail(head, album, number, duration);
    ParsedDecimalOpt(number);
  }

  lemma NowPlayingHead(head: seq<Param>, a: seq<Param>, n: seq<Param>, d: seq<Param>)
    requires |head| == 3 && head[0].0 == "artist" && head[1].0 == "track" && head[2].0 == "sk"
    ensures Lookup(head + a + n + d, "artist") == Some(head[0].1)
    ensures Lookup(head + a + n + d, "track") == Some(head[1].1)
    ensures Lookup(head + a + n + d, "sk") == Some(head[2].1)
  {
    LookupParts(head, a, n, d, "artist");
    LookupParts(head, a, n, d, "track");
    LookupParts(head, a, n, d, "sk");
    LookupFirst(head, "artist", 0);
    LookupFirst(head, "track", 1);
    LookupFirst(head, "sk", 2);
  }

  lemma NowPlayingTail(head: seq<Param>, album: Option<string>, number: Option<nat>, duration: Option<Duration>)
    requires forall p :: p in head ==> p.0 in {"artist", "track", "sk"}
    ensures var a := OptionalParam("album", album);
      var n := OptionalParam("trackNumber", DecimalOpt(number));
      var d := OptionalParam("duration", DecimalOpt(SecsOpt(duration)));
      && Lookup(head + a + n + d, "album") == album
      && Lookup(head + a + n + d, "trackNumber") == DecimalOpt(number)
      && Lookup(head + a + n + d, "duration") == DecimalOpt(SecsOpt(duration))
  {
    var a := OptionalParam("album", album);
    var n := OptionalParam("trackNumber", DecimalOpt(number));
    var d := OptionalParam("duration", DecimalOpt(SecsOpt(duration)));
    OptionalParamLookup("album", album);
    OptionalParamLookup("trackNumber", DecimalOpt(number));
    OptionalParamLookup("duration", DecimalOpt(SecsOpt(duration)));
    LookupParts(head, a, n, d, "album");
    LookupParts(head, a, n, d, "trackNumber");
    LookupParts(head, a, n, d, "duration");
  }

  // ---------------------------------------------------------------------
  // Scrobble batches

  /** The first queue index sent by a scrobble: the queue length minus 50, or 0. */
  function BatchStart(len: nat): (start: nat)
    ensures start <= len && len - start == Min(len, MAX_SCROBBLES)
  {
    if len >= MAX_SCROBBLES then len - MAX_SCROBBLES else 0
  }

  /** The items one scrobble call sends: the newest `min(len, 50)` queued
      items, oldest first. */
  function Batch(q: seq<ScrobbleItem>): (b: seq<ScrobbleItem>)
    ensures |b| == Min(|q|, MAX_SCROBBLES)
    ensures b == q[|q| - |b|..]
  {
    q[BatchStart(|q|)..]
  }

  /** The item just queued is always sent, as the last of its batch, and
      an item with 50 newer ones behind it is not sent. */
  lemma BatchSendsNewest(q: seq<ScrobbleItem>, item: ScrobbleItem)
    ensures var b := Batch(q + [item]); b != [] && b[|b| - 1] == item
    ensures forall k :: 0 <= k < |q| + 1 - MAX_SCROBBLES ==> (q + [item])[k] !in multiset(Batch(q + [item])) || (q + [item])[k] in (q + [item])[k + 1..]
  {
    var s := q + [item];
    var b := Batch(s);
    forall k | 0 <= k < |s| - MAX_SCROBBLES && s[k] in multiset(b)
      ensures s[k] in s[k + 1..]
    {
      var j :| 0 <= j < |b| && b[j] == s[k];
      assert s[|s| - |b| + j] == s[k];
      assert s[k + 1..][|s| - |b| + j - k - 1] == s[k];
    }
  }

  /** `format!("{name}[{i}]")` */
  function Indexed(name: string, i: nat): string {
    name + "[" + NatToDecimal(i) + "]"
  }

  lemma BracketAfterName(n: string, i: nat)
    ensures |Indexed(n, i)| == |n| + |NatToDecimal(i)| + 2
    ensures Indexed(n, i)[|n|] == '['
  {
  }

  /** Between the opening bracket and the closing one there are only digits. */
  lemma NoBracketAfterName(m: string, j: nat, p: int)
    ensures |m| < p < |Indexed(m, j)| - 1 ==> Indexed(m, j)[p] != '['
  {
    if |m| < p < |Indexed(m, j)| - 1 {
      assert Indexed(m, j)[p] == NatToDecimal(j)[p - |m| - 1];
    }
  }

  /** Indexed names are distinct: the name and the position are read back
      from the text. */
  lemma IndexedInjective(n: string, m: string, i: nat, j: nat)
    requires Indexed(n, i) == Indexed(m, j)
    ensures n == m && i == j
  {
    var d, e := NatToDecimal(i), NatToDecimal(j);
    var k := Indexed(n, i);
    assert k == Indexed(m, j);
    if |d| < |e| {
      BracketAfterName(n, i);
      NoBracketAfterName(m, j, |n|);
      assert false;
    } else if |e| < |d| {
      BracketAfterName(m, j);
      NoBracketAfterName(n, i, |m|);
      assert false;
    } else {
      assert n == k[..|n|];
      assert m == Indexed(m, j)[..|m|];
      assert d == k[|n| + 1..|k| - 1];
      assert e == Indexed(m, j)[|m| + 1..|k| - 1];
      NatToDecimalInjective(i, j);
    }
  }

  /** The parameters describing queued item `item` at batch position `i`:
      every field of the item itself. */
  function ItemParams(i: nat, item: ScrobbleItem): (r: seq<Param>)
    ensures |r| >= 3
  {
    [(Indexed("artist", i), item.artist),
     (Indexed("track", i), item.track),
     (Indexed("timestamp", i), NatToDecimal(item.timestamp))]
    + OptionalParam(Indexed("album", i), item.album)
    + OptionalParam(Indexed("trackNumber", i), DecimalOpt(item.number))
    + OptionalParam(Indexed("duration", i), DecimalOpt(item.duration))
  }

  /** The parameters of batch position `i` as src/lastfm.rs:231-246 builds
      them: artist, track and timestamp from the queued item, but album,
      track number and duration from the current call's arguments. */
  function ItemParamsAsWritten(i: nat, item: ScrobbleItem, album: Option<string>, number: Option<nat>, duration: Option<Duration>): (r: seq<Param>)
    ensures r == ItemParams(i, item.(album := album, number := number, duration := SecsOpt(duration)))
  {
    [(Indexed("artist", i), item.artist),
     (Indexed("track", i), item.track),
     (Indexed("timestamp", i), NatToDecimal(item.timestamp))]
    + OptionalParam(Indexed("album", i), album)
    + OptionalParam(Indexed("trackNumber", i), DecimalOpt(number))
    + OptionalParam(Indexed("duration", i), DecimalOpt(SecsOpt(duration)))
  }

  /** The indexed parameters of a whole batch, position by position. */
  function BatchParams(b: seq<ScrobbleItem>): seq<Param> {
    if b == [] then [] else BatchParams(b[..|b| - 1]) + ItemParams(|b| - 1, b[|b| - 1])
  }

  /** The indexed parameters of a whole batch as written in the source. */
  function BatchParamsAsWritten(b: seq<ScrobbleItem>, album: Option<string>, number: Option<nat>, duration: Option<Duration>): seq<Param> {
    if b == [] then []
    else
      BatchParamsAsWritten(b[..|b| - 1], album, number, duration)
      + ItemParamsAsWritten(|b| - 1, b[|b| - 1], album, number, duration)
  }

  /** Reads the item at batch position `i` back from the parameters. */
  function ItemAt(ps: seq<Param>, i: nat): Option<ScrobbleItem> {
    var artist := Lookup(ps, Indexed("artist", i));
    var track := Lookup(ps, Indexed("track", i));
    var timestamp := ParsedOpt(Lookup(ps, Indexed("timestamp", i)));
    if artist.Some? && track.Some? && timestamp.Some? then
      Some(ScrobbleItem(
        artist.value,
        track.value,
        Lookup(ps, Indexed("album", i)),
        ParsedOpt(Lookup(ps, Indexed("trackNumber", i))),
        ParsedOpt(Lookup(ps, Indexed("duration", i))),
        timestamp.value))
    else None
  }

  /** No parameter names position `i`. */
  ghost predicate Absent(ps: seq<Param>, i: nat) {
    forall p, n :: p in ps ==> p.0 != Indexed(n, i)
  }

  lemma LookupAbsent(ps: seq<Param>, n: string, i: nat)
    requires Absent(ps, i)
    ensures Lookup(ps, Indexed(n, i)) == None
  {
  }

  lemma ItemParamsElsewhere(j: nat, item: ScrobbleItem, i: nat)
    requires i != j
    ensures Absent(ItemParams(j, item), i)
  {
    forall p, n | p in ItemParams(j, item)
      ensures p.0 != Indexed(n, i)
    {
      var m := ItemParamName(j, item, p);
      if p.0 == Indexed(n, i) {
        IndexedInjective(m, n, j, i);
      }
    }
  }

  /** Every parameter of batch position `j` is named for position `j`. */
  lemma ItemParamName(j: nat, item: ScrobbleItem, p: Param) returns (m: string)
    requires p in ItemParams(j, item)
    ensures p.0 == Indexed(m, j)
  {
    var ps := ItemParams(j, item);
    var a := OptionalParam(Indexed("album", j), item.album);
    var t := OptionalParam(Indexed("trackNumber", j), DecimalOpt(item.number));
    var d := OptionalParam(Indexed("duration", j), DecimalOpt(item.duration));
    assert ps == ps[..3] + a + t + d;
    if p == ps[0] {
      m := "artist";
    } else if p == ps[1] {
      m := "track";
    } else if p == ps[2] {
      m := "timestamp";
    } else if p in a {
      m := "album";
    } else if p in t {
      m := "trackNumber";
    } else {
      assert p in d;
      m := "duration";
    }
  }

  /** A batch names only the positions below its length. */
  lemma {:induction false} BatchParamsBeyond(b: seq<ScrobbleItem>, i: nat)
    requires i >= |b|
    ensures Absent(BatchParams(b), i)
  {
    if b != [] {
      BatchParamsBeyond(b[..|b| - 1], i);
      ItemParamsElsewhere(|b| - 1, b[|b| - 1], i);
      AbsentAppend(BatchParams(b[..|b| - 1]), ItemParams(|b| - 1, b[|b| - 1]), i);
    }
  }

  lemma AbsentAppend(ps: seq<Param>, qs: seq<Param>, i: nat)
    requires Absent(ps, i) && Absent(qs, i)
    ensures Absent(ps + qs, i)
  {
  }

  /** Parameters that do not name position `i` do not change what is read there. */
  lemma ItemAtUnaffected(pre: seq<Param>, post: seq<Param>, i: nat)
    requires Absent(post, i)
    ensures ItemAt(pre + post, i) == ItemAt(pre, i)
  {
    var names := ["artist", "track", "timestamp", "album", "trackNumber", "duration"];
    forall k | 0 <= k < |names|
      ensures Lookup(pre + post, Indexed(names[k], i)) == Lookup(pre, Indexed(names[k], i))
    {
      LookupAppend(pre, post, Indexed(names[k], i));
      LookupAbsent(post, names[k], i);
    }
    assert ItemAt(pre + post, i) == ItemAt(pre, i) by {
      assert names[0] == "artist" && names[1] == "track" && names[2] == "timestamp";
      assert names[3] == "album" && names[4] == "trackNumber" && names[5] == "duration";
    }
  }

  /** Parameters before the ones of position `i` that do not name it are passed over. */
  lemma ItemAtSkips(pre: seq<Param>, post: seq<Param>, i: nat)
    requires Absent(pre, i)
    ensures ItemAt(pre + post, i) == ItemAt(post, i)
  {
    var names := ["artist", "track", "timestamp", "album", "trackNumber", "duration"];
    forall k | 0 <= k < |names|
      ensures Lookup(pre + post, Indexed(names[k], i)) == Lookup(post, Indexed(names[k], i))
    {
      LookupSkip(pre, post, Indexed(names[k], i));
    }
    assert ItemAt(pre + post, i) == ItemAt(post, i) by {
      assert names[0] == "artist" && names[1] == "track" && names[2] == "timestamp";
      assert names[3] == "album" && names[4] == "trackNumber" && names[5] == "duration";
    }
  }

  /** The six names of a batch position differ. */
  lemma IndexedNamesDiffer(i: nat)
    ensures var names := ["artist", "track", "timestamp", "album", "trackNumber", "duration"];
      forall x, y :: 0 <= x < y < |names| ==> Indexed(names[x], i) != Indexed(names[y], i)
  {
    var names := ["artist", "track", "timestamp", "album", "trackNumber", "duration"];
    forall x, y | 0 <= x < y < |names|
      ensures Indexed(names[x], i) != Indexed(names[y], i)
    {
      if Indexed(names[x], i) == Indexed(names[y], i) {
        IndexedInjective(names[x], names[y], i, i);
      }
    }
  }

  /** Each field of an item is found under its own name. */
  lemma ItemParamsLookups(i: nat, item: ScrobbleItem)
    ensures var ps := ItemParams(i, item);
      && Lookup(ps, Indexed("artist", i)) == Some(item.artist)
      && Lookup(ps, Indexed("track", i)) == Some(item.track)
      && Lookup(ps, Indexed("timestamp", i)) == Some(NatToDecimal(item.timestamp))
      && Lookup(ps, Indexed("album", i)) == item.album
      && Lookup(ps, Indexed("trackNumber", i)) == DecimalOpt(item.number)
      && Lookup(ps, Indexed("duration", i)) == DecimalOpt(item.duration)
  {
    IndexedNamesDiffer(i);
    var names := ["artist", "track", "timestamp", "album", "trackNumber", "duration"];
    var ka, kt, ks := Indexed(names[0], i), Indexed(names[1], i), Indexed(names[2], i);
    var kl, kn, kd := Indexed(names[3], i), Indexed(names[4], i), Indexed(names[5], i);
    var g := [(ka, item.artist), (kt, item.track), (ks, NatToDecimal(item.timestamp))];
    var a := OptionalParam(kl, item.album);
    var nb := OptionalParam(kn, DecimalOpt(item.number));
    var d := OptionalParam(kd, DecimalOpt(item.duration));
    assert ItemParams(i, item) == g + a + nb + d;
    RequiredLookups(g, a, nb, d, ka, kt, ks, kl, kn, kd);
    OptionalLookups(g, a, nb, d, ka, kt, ks, kl, kn, kd, item.album, DecimalOpt(item.number), DecimalOpt(item.duration));
  }

  /** The three required parameters come first and are found there. */
  lemma RequiredLookups(g: seq<Param>, a: seq<Param>, nb: seq<Param>, d: seq<Param>,
                        ka: string, kt: string, ks: string, kl: string, kn: string, kd: string)
    requires |g| == 3 && g[0].0 == ka && g[1].0 == kt && g[2].0 == ks
    requires ka != kt && ka != ks && kt != ks
    ensures var ps := g + a + nb + d;
      && Lookup(ps, ka) == Some(g[0].1) && Lookup(ps, kt) == Some(g[1].1) && Lookup(ps, ks) == Some(g[2].1)
  {
    LookupParts(g, a, nb, d, ka);
    LookupParts(g, a, nb, d, kt);
    LookupParts(g, a, nb, d, ks);
    LookupFirst(g, kt, 1);
    LookupFirst(g, ks, 2);
  }

  /** Each optional parameter is found under its own name, past the three
      required ones and the other optional ones. */
  lemma OptionalLookups(g: seq<Param>, a: seq<Param>, nb: seq<Param>, d: seq<Param>,
                        ka: string, kt: string, ks: string, kl: string, kn: string, kd: string,
                        vl: Option<string>, vn: Option<string>, vd: Option<string>)
    requires |g| == 3 && g[0].0 == ka && g[1].0 == kt && g[2].0 == ks
    requires a == OptionalParam(kl, vl) && nb == OptionalParam(kn, vn) && d == OptionalParam(kd, vd)
    requires kl != ka && kl != kt && kl != ks
    requires kn != ka && kn != kt && kn != ks && kn != kl
    requires kd != ka && kd != kt && kd != ks && kd != kl && kd != kn
    ensures var ps := g + a + nb + d;
      && Lookup(ps, kl) == vl && Lookup(ps, kn) == vn && Lookup(ps, kd) == vd
  {
    OptionalParamLookup(kl, vl);
    OptionalParamLookup(kn, vn);
    OptionalParamLookup(kd, vd);
    OptionalParamElsewhere(kn, vn, kl);
    OptionalParamElsewhere(kd, vd, kl);
    OptionalParamElsewhere(kl, vl, kn);
    OptionalParamElsewhere(kd, vd, kn);
    OptionalParamElsewhere(kl, vl, kd);
    OptionalParamElsewhere(kn, vn, kd);
    RequiredElsewhere(g, kl);
    RequiredElsewhere(g, kn);
    RequiredElsewhere(g, kd);
    LookupParts(g, a, nb, d, kl);
    LookupParts(g, a, nb, d, kn);
    LookupParts(g, a, nb, d, kd);
  }

  lemma OptionalParamElsewhere(name: string, v: Option<string>, other: string)
    requires other != name
    ensures Lookup(OptionalParam(name, v), other).None?
  {
  }

  lemma RequiredElsewhere(g: seq<Param>, name: string)
    requires |g| == 3 && g[0].0 != name && g[1].0 != name && g[2].0 != name
    ensures Lookup(g, name).None?
  {
    assert g[1..][1..][1..] == [];
  }

  /** The parameters of one item describe it. */
  lemma ItemAtOwn(i: nat, item: ScrobbleItem)
    requires InRange(item)
    ensures ItemAt(ItemParams(i, item), i) == Some(item)
  {
    ItemParamsLookups(i, item);
    ParseUsizeOfDecimal(item.timestamp);
    ParsedDecimalOpt(item.number);
    ParsedDecimalOpt(item.duration);
  }

  /** Every item of a batch is read back, field for field, from the
      parameters the batch is sent with. */
  lemma {:induction false} BatchParamsRoundTrip(b: seq<ScrobbleItem>, i: nat)
    requires i < |b| && InRange(b[i])
    ensures ItemAt(BatchParams(b), i) == Some(b[i])
  {
    var last := |b| - 1;
    var pre := b[..last];
    if i == last {
      BatchParamsBeyond(pre, i);
      ItemAtSkips(BatchParams(pre), ItemParams(i, b[i]), i);
      ItemAtOwn(i, b[i]);
    } else {
      BatchParamsRoundTrip(pre, i);
      ItemParamsElsewhere(last, b[last], i);
      ItemAtUnaffected(BatchParams(pre), ItemParams(last, b[last]), i);
    }
  }

  /** Every batch item with the current call's album, track number and duration. */
  function Overridden(b: seq<ScrobbleItem>, album: Option<string>, number: Option<nat>, duration: Option<Duration>): (r: seq<ScrobbleItem>)
    ensures |r| == |b|
    ensures forall k :: 0 <= k < |b| ==> r[k] == b[k].(album := album, number := number, duration := SecsOpt(duration))
  {
    seq(|b|, k requires 0 <= k < |b| => b[k].(album := album, number := number, duration := SecsOpt(duration)))
  }

  lemma {:induction false} BatchParamsAsWrittenOverrides(b: seq<ScrobbleItem>, album: Option<string>, number: Option<nat>, duration: Option<Duration>)
    ensures BatchParamsAsWritten(b, album, number, duration) == BatchParams(Overridden(b, album, number, duration))
  {
    if b != [] {
      var o := Overridden(b, album, number, duration);
      BatchParamsAsWrittenOverrides(b[..|b| - 1], album, number, duration);
      assert o[..|o| - 1] == Overridden(b[..|b| - 1], album, number, duration);
    }
  }

  /** As written, every batch position reads back as its queued item with
      the album, track number and duration of the current call. */
  lemma BatchParamsAsWrittenReadsBack(b: seq<ScrobbleItem>, i: nat, album: Option<string>, number: Option<nat>, duration: Option<Duration>)
    requires i < |b| && InRange(b[i])
    requires number.Some? ==> number.value < U64_LIMIT
    requires duration.Some? ==> AsSecs(duration.value) < U64_LIMIT
    ensures ItemAt(BatchParamsAsWritten(b, album, number, duration), i)
         == Some(b[i].(album := album, number := number, duration := SecsOpt(duration)))
  {
    BatchParamsAsWrittenOverrides(b, album, number, duration);
    BatchParamsRoundTrip(Overridden(b, album, number, duration), i);
  }

  /** A queue of two listens from different albums: as written, the older
      listen is scrobbled with the album of the newer one. */
  lemma BatchParamsAsWrittenMisreportsAlbum()
    ensures var older := ScrobbleItem("Artist", "First", Some("A"), None, None, 100);
      var newer := ScrobbleItem("Artist", "Second", Some("B"), None, None, 400);
      && ItemAt(BatchParamsAsWritten([older, newer], Some("B"), None, None), 0) != Some(older)
      && ItemAt(BatchParams([older, newer]), 0) == Some(older)
  {
    var older := ScrobbleItem("Artist", "First", Some("A"), None, None, 100);
    var newer := ScrobbleItem("Artist", "Second", Some("B"), None, None, 400);
    BatchParamsAsWrittenReadsBack([older, newer], 0, Some("B"), None, None);
    BatchParamsRoundTrip([older, newer], 0);
  }

  /** The timestamps of a batch, in order. */
  function Timestamps(b: seq<ScrobbleItem>): (r: seq<nat>)
    ensures |r| == |b| && forall k :: 0 <= k < |b| ==> r[k] == b[k].timestamp
  {
    seq(|b|, k requires 0 <= k < |b| => b[k].timestamp)
  }

  /** `items.retain(|i| !timestamps.contains(&i.timestamp))` */
  function Unsent(q: seq<ScrobbleItem>, ts: seq<nat>): (r: seq<ScrobbleItem>)
    ensures |r| <= |q|
    ensures forall x :: x in r <==> x in q && x.timestamp !in ts
  {
    if q == [] then []
    else (if q[0].timestamp in ts then [] else [q[0]]) + Unsent(q[1..], ts)
  }

  /** Removing the same timestamps twice removes nothing more, and the kept
      items stay in queue order. */
  lemma {:induction false} UnsentIdempotent(q: seq<ScrobbleItem>, ts: seq<nat>)
    ensures Unsent(Unsent(q, ts), ts) == Unsent(q, ts)
  {
    if q != [] {
      var rest := Unsent(q[1..], ts);
      UnsentIdempotent(q[1..], ts);
      if q[0].timestamp in ts {
        assert Unsent(q, ts) == rest;
      } else {
        var u := [q[0]] + rest;
        assert Unsent(q, ts) == u;
        assert u[1..] == rest;
        assert Unsent(u, ts) == [q[0]] + Unsent(rest, ts);
      }
    }
  }

  /** After a successful call no item of its batch is queued, and every
      queued item with a timestamp outside the batch still is. */
  lemma SuccessRemovesBatch(q: seq<ScrobbleItem>)
    ensures var b := Batch(q); var r := Unsent(q, Timestamps(b));
      && (forall x :: x in b ==> x !in r)
      && (forall x :: x in q && (forall y :: y in b ==> y.timestamp != x.timestamp) ==> x in r)
  {
    var b := Batch(q);
    forall x | x in b
      ensures x.timestamp in Timestamps(b)
    {
      var k :| 0 <= k < |b| && b[k] == x;
      assert Timestamps(b)[k] == x.timestamp;
    }
    forall x | x in q && (forall y :: y in b ==> y.timestamp != x.timestamp)
      ensures x.timestamp !in Timestamps(b)
    {
    }
  }

  /** An API call started by `scrobble` and not yet waited for: the
      timestamps it sent and whether the queue was empty before its item. */
  datatype PendingScrobble = PendingScrobble(timestamps: seq<nat>, wasEmpty: bool)

  /** The queue once the call completes: the sent items are gone on success,
      and nothing changes on failure. */
  function AfterCall(q: seq<ScrobbleItem>, call: PendingScrobble, succeeded: bool): (r: seq<ScrobbleItem>)
    ensures !succeeded ==> r == q
    ensures succeeded ==> forall x :: x in r <==> x in q && x.timestamp !in call.timestamps
  {
    if succeeded then Unsent(q, call.timestamps) else q
  }

  /** The queue once the running call, if any, has completed. */
  function Completed(q: seq<ScrobbleItem>, thread: Option<PendingScrobble>, succeeded: bool): seq<ScrobbleItem> {
    if thread.None? then q else AfterCall(q, thread.value, succeeded)
  }

  /** When the running call succeeded and it sent every queued item, the
      queue is empty once it completes, so the next scrobble sends only its
      own item. */
  lemma CompletedAllSent(q: seq<ScrobbleItem>, call: PendingScrobble)
    requires forall x :: x in q ==> x.timestamp in call.timestamps
    ensures Completed(q, Some(call), true) == []
  {
    var r := Completed(q, Some(call), true);
    HeadIsMember(r);
  }

  /** The queue file is written when the queue is non-empty, or when it was
      non-empty before the call's item was queued. */
  predicate SavesQueue(q: seq<ScrobbleItem>, call: PendingScrobble) {
    q != [] || !call.wasEmpty
  }

  lemma ScrobbleParamsStep(sk: string, b: seq<ScrobbleItem>, i: nat, params: seq<Param>)
    requires i < |b| && params == [("sk", sk)] + BatchParams(b[..i])
    ensures params + ItemParams(i, b[i]) == [("sk", sk)] + BatchParams(b[..i + 1])
  {
    BatchParamsSnoc(b, i);
    AppendAssoc([("sk", sk)], BatchParams(b[..i]), ItemParams(i, b[i]));
  }

  lemma BatchParamsSnoc(b: seq<ScrobbleItem>, i: nat)
    requires i < |b|
    ensures BatchParams(b[..i + 1]) == BatchParams(b[..i]) + ItemParams(i, b[i])
    ensures Timestamps(b[..i + 1]) == Timestamps(b[..i]) + [b[i].timestamp]
  {
    assert b[..i + 1][..i] == b[..i];
  }

  /** The parameters of `scrobble` before signing: the session key, then
      the indexed parameters of the batch, built one position at a time. */
  method ScrobbleParams(sk: string, batch: seq<ScrobbleItem>) returns (params: seq<Param>, timestamps: seq<nat>)
    ensures params == [("sk", sk)] + BatchParams(batch)
    ensures timestamps == Timestamps(batch)
  {
    params := [("sk", sk)];
    timestamps := [];
    var i := 0;
    while i < |batch|
      invariant i <= |batch|
      invariant params == [("sk", sk)] + BatchParams(batch[..i])
      invariant timestamps == Timestamps(batch[..i])
    {
      ScrobbleParamsStep(sk, batch, i, params);
      BatchParamsSnoc(batch, i);
      timestamps := timestamps + [batch[i].timestamp];
      params := params + ItemParams(i, batch[i]);
      i := i + 1;
    }
    assert batch[..i] == batch;
  }

  // ---------------------------------------------------------------------
  // Responses

  /** `TrackResult`: the server's verdict on one listen. */
  datatype TrackResult = TrackResult(
    ignoredCode: string,
    ignoredText: string,
    artist: Option<string>,
    album: Option<string>,
    track: Option<string>)

  /** The warning `warn_if_ignored` logs, when the listen was ignored. */
  function IgnoredWarning(t: TrackResult): (r: Option<string>)
    ensures r.None? <==> t.ignoredCode == "0"
    ensures r.Some? ==> |r.value| >= |t.ignoredCode| && r.value[|r.value| - |t.ignoredCode|..] == t.ignoredCode
  {
    if t.ignoredCode == "0" then None
    else
      var text := "track ignored [" + t.artist.UnwrapOr("") + "/" + t.album.UnwrapOr("") + "/"
        + t.track.UnwrapOr("") + "]: " + t.ignoredText + ", Code = ";
      assert (text + t.ignoredCode)[|text|..] == t.ignoredCode;
      Some(text + t.ignoredCode)
  }

  /** `TrackResult::warn_if_ignored`: true exactly when the code is not "0". */
  function WarnIfIgnored(t: TrackResult): (r: bool)
    ensures r <==> t.ignoredCode != "0"
    ensures r <==> IgnoredWarning(t).Some?
  {
    IgnoredWarning(t).Some?
  }

  // ---------------------------------------------------------------------
  // Credentials typed in by the user

  datatype CredentialsError = EmptyUsername | EmptyPassword

  /** The checks `cli_auth` makes on the user name and password as written
      at src/lastfm.rs:380-387: the second check tests the user name again. */
  function CheckCredentialsAsWritten(username: string, password: string): (r: Option<CredentialsError>)
    ensures r.None? <==> username != []
  {
    if username == [] then Some(EmptyUsername)
    else if username == [] then Some(EmptyPassword)
    else None
  }

  /** As written, an empty password passes the check. */
  lemma CheckCredentialsAsWrittenAcceptsEmptyPassword()
    ensures CheckCredentialsAsWritten("user", "").None?
    ensures CheckCredentials("user", "") == Some(EmptyPassword)
  {
  }

  /** The checks as intended: both the user name and the password must be
      non-empty, and the user name is checked first. */
  function CheckCredentials(username: string, password: string): (r: Option<CredentialsError>)
    ensures r.None? <==> username != [] && password != []
    ensures r == Some(EmptyUsername) <==> username == []
    ensures r == Some(EmptyPassword) <==> username != [] && password == []
  {
    if username == [] then Some(EmptyUsername)
    else if password == [] then Some(EmptyPassword)
    else None
  }

  // ---------------------------------------------------------------------
  // The client

  class LastFM {
    const apiKey: string
    const sharedSecret: string
    const sessionKey: Option<string>
    /** MD5 of a text in lower-case hexadecimal (`md5::compute`). */
    const digest: string -> string
    /** The listens not yet accepted, oldest first. */
    var notScrobbled: seq<ScrobbleItem>
    /** The scrobble call still running, if any. */
    var apiThread: Option<PendingScrobble>
    /** The query of every API call started, oldest first. */
    var sent: seq<seq<Param>>
    /** The content last written to the not-scrobbled file. */
    var saved: Option<seq<ScrobbleItem>>

    constructor (apiKey: string, sharedSecret: string, sessionKey: Option<string>, queue: seq<ScrobbleItem>, digest: string -> string)
      ensures this.apiKey == apiKey && this.sharedSecret == sharedSecret
      ensures this.sessionKey == sessionKey && this.digest == digest
      ensures notScrobbled == queue && apiThread.None? && sent == [] && saved.None?
    {
      this.apiKey := apiKey;
      this.sharedSecret := sharedSecret;
      this.sessionKey := sessionKey;
      this.digest := digest;
      notScrobbled := queue;
      apiThread := None;
      sent := [];
      saved := None;
    }

    /** `new_or_none`: a client exists when the build has both keys; the
        queue file is read only when a session key was loaded. */
    static method NewOrNone(key: Option<seq<byte>>, secret: Option<seq<byte>>, sessionKeyFile: Result<string, string>, queueFile: Result<seq<ScrobbleItem>, string>, digest: string -> string) returns (r: Option<LastFM>)
      ensures r.Some? <==> key.Some? && secret.Some?
      ensures r.Some? ==>
        && fresh(r.value)
        && r.value.apiKey == KeyArrToString(key.value)
        && r.value.sharedSecret == KeyArrToString(secret.value)
        && r.value.sessionKey == ErrUtil.ToOption(sessionKeyFile)
        && r.value.notScrobbled == (if sessionKeyFile.Ok? && queueFile.Ok? then queueFile.value else [])
        && r.value.apiThread.None? && r.value.sent == [] && r.value.saved.None?
    {
      if key.None? || secret.None? {
        return None;
      }
      var sessionKey := ErrUtil.ToOption(sessionKeyFile);
      var queue := if sessionKey.Some? then ErrUtil.OkOrDefault(queueFile, []) else [];
      var lfm := new LastFM(KeyArrToString(key.value), KeyArrToString(secret.value), sessionKey, queue, digest);
      return Some(lfm);
    }

    /** `useable_or_none`: a client that also has a session key. */
    static method UseableOrNone(key: Option<seq<byte>>, secret: Option<seq<byte>>, sessionKeyFile: Result<string, string>, queueFile: Result<seq<ScrobbleItem>, string>, digest: string -> string) returns (r: Option<LastFM>)
      ensures r.Some? <==> key.Some? && secret.Some? && sessionKeyFile.Ok?
      ensures r.Some? ==> fresh(r.value) && r.value.IsUseable()
    {
      r := NewOrNone(key, secret, sessionKeyFile, queueFile, digest);
      if r.Some? && !r.value.IsUseable() {
        r := None;
      }
    }

    /** `is_useable`: there is a session key. */
    function IsUseable(): (r: bool)
      ensures r <==> sessionKey.Some?
    {
      sessionKey.Some?
    }

    /** `wait_for_api_thread`: the running scrobble call, if any, completes
        with outcome `succeeded`; on success it drops what it sent, and the
        queue file is written unless the queue is and was empty. */
    method WaitForApiThread(succeeded: bool)
      modifies this`notScrobbled, this`apiThread, this`saved
      ensures apiThread.None?
      ensures old(apiThread).None? ==> notScrobbled == old(notScrobbled) && saved == old(saved)
      ensures old(apiThread).Some? ==>
        && notScrobbled == AfterCall(old(notScrobbled), old(apiThread).value, succeeded)
        && saved == (if SavesQueue(notScrobbled, old(apiThread).value) then Some(notScrobbled) else old(saved))
    {
      if apiThread.Some? {
        var call := apiThread.value;
        notScrobbled := AfterCall(notScrobbled, call, succeeded);
        if SavesQueue(notScrobbled, call) {
          saved := Some(notScrobbled);
        }
        apiThread := None;
      }
    }

    /** `playing_now`: without a session key it fails and changes nothing;
        otherwise it waits for the running scrobble call (outcome
        `previousSucceeded`) and starts the `track.updateNowPlaying` call. */
    method PlayingNow(artist: string, album: Option<string>, track: string, number: Option<nat>, duration: Option<Duration>, previousSucceeded: bool) returns (r: Result<Unit, LastFmError>)
      modifies this`notScrobbled, this`apiThread, this`saved, this`sent
      ensures sessionKey.None? ==>
        && r == Err(NoSessionKey)
        && notScrobbled == old(notScrobbled) && apiThread == old(apiThread) && sent == old(sent) && saved == old(saved)
      ensures sessionKey.Some? ==>
        && r.Ok?
        && sent == old(sent) + [MethodQuery("track.updateNowPlaying", apiKey, NowPlayingParams(artist, album, track, number, duration, sessionKey).value, sharedSecret, digest)]
        && apiThread.None?
        && (old(apiThread).None? ==> notScrobbled == old(notScrobbled) && saved == old(saved))
        && (old(apiThread).Some? ==>
            && notScrobbled == AfterCall(old(notScrobbled), old(apiThread).value, previousSucceeded)
            && saved == (if SavesQueue(notScrobbled, old(apiThread).value) then Some(notScrobbled) else old(saved)))
    {
      var params := NowPlayingParams(artist, album, track, number, duration, sessionKey);
      if params.Err? {
        return Err(params.error);
      }
      var query := MethodQuery("track.updateNowPlaying", apiKey, params.value, sharedSecret, digest);
      WaitForApiThread(previousSucceeded);
      sent := sent + [query];
      return Ok(Unit);
    }

    /** `scrobble`: fails and changes nothing without a session key or a
        clock reading (`now`, the time since the Unix epoch). Otherwise the
        running call completes first (outcome `previousSucceeded`): the
        queue lock taken at src/lastfm.rs:220 is held until the call is
        joined at line 253, and the call itself takes that lock, so only a
        call that finished before the lock was taken lets `scrobble` return. Then the listen is
        queued and a `track.scrobble` call for the newest 50 queued listens
        is signed and started. */
    method Scrobble(artist: string, album: Option<string>, track: string, number: Option<nat>, duration: Option<Duration>, now: Result<Duration, string>, previousSucceeded: bool) returns (r: Result<Unit, LastFmError>)
      modifies this`notScrobbled, this`apiThread, this`saved, this`sent
      ensures sessionKey.None? ==> r == Err(NoSessionKey)
      ensures sessionKey.Some? && now.Err? ==> r == Err(NoTimestamp(now.error))
      ensures r.Err? ==> notScrobbled == old(notScrobbled) && apiThread == old(apiThread) && sent == old(sent) && saved == old(saved)
      ensures sessionKey.Some? && now.Ok? ==>
        && r.Ok?
        && Queued(ScrobbleItem(artist, track, album, number, SecsOpt(duration), AsSecs(now.value)), old(notScrobbled), old(apiThread), old(sent), old(saved), previousSucceeded)
    {
      if sessionKey.None? {
        return Err(NoSessionKey);
      }
      if now.Err? {
        return Err(NoTimestamp(now.error));
      }
      var item := ScrobbleItem(artist, track, album, number, SecsOpt(duration), AsSecs(now.value));
      QueueAndSend(item, previousSucceeded);
      return Ok(Unit);
    }

    /** The part of `scrobble` after its checks: the running call completes,
        then `item` is queued and the call for the newest 50 items starts. */
    method QueueAndSend(item: ScrobbleItem, previousSucceeded: bool)
      requires sessionKey.Some?
      modifies this`notScrobbled, this`apiThread, this`saved, this`sent
      ensures Queued(item, old(notScrobbled), old(apiThread), old(sent), old(saved), previousSucceeded)
    {
      WaitForApiThread(previousSucceeded);
      StartCall(item);
    }

    /** The state after `scrobble` queued `item`: the running call completed
        on the queue as it was, then the item was appended, the query for the
        newest 50 items sent, and the new call is the running one. */
    ghost predicate Queued(item: ScrobbleItem, queue: seq<ScrobbleItem>, thread: Option<PendingScrobble>, sentBefore: seq<seq<Param>>, savedBefore: Option<seq<ScrobbleItem>>, previousSucceeded: bool)
      reads this
      requires sessionKey.Some?
    {
      var done := Completed(queue, thread, previousSucceeded);
      && saved == (if thread.Some? && SavesQueue(done, thread.value) then Some(done) else savedBefore)
      && notScrobbled == done + [item]
      && sent == sentBefore + [ScrobbleQuery(notScrobbled)]
      && apiThread == Some(PendingScrobble(Timestamps(Batch(notScrobbled)), done == []))
    }

    /** The signed `track.scrobble` query for the newest 50 items of `q`. */
    function ScrobbleQuery(q: seq<ScrobbleItem>): seq<Param>
      requires sessionKey.Some?
    {
      MethodQuery("track.scrobble", apiKey, [("sk", sessionKey.value)] + BatchParams(Batch(q)), sharedSecret, digest)
    }

    /** Builds the parameters of the newest 50 items of `q` and signs them. */
    method SignedScrobble(q: seq<ScrobbleItem>) returns (query: seq<Param>, timestamps: seq<nat>)
      requires sessionKey.Some?
      ensures query == ScrobbleQuery(q) && timestamps == Timestamps(Batch(q))
    {
      var params;
      params, timestamps := ScrobbleParams(sessionKey.value, Batch(q));
      query := MethodQuery("track.scrobble", apiKey, params, sharedSecret, digest);
    }

    /** Queues `item` and starts the call that sends the newest 50 queued
        items, recording their timestamps and whether the queue was empty. */
    method StartCall(item: ScrobbleItem)
      requires sessionKey.Some?
      modifies this`notScrobbled, this`apiThread, this`sent
      ensures notScrobbled == old(notScrobbled) + [item]
      ensures sent == old(sent) + [ScrobbleQuery(notScrobbled)]
      ensures apiThread == Some(PendingScrobble(Timestamps(Batch(notScrobbled)), old(notScrobbled) == []))
    {
      var wasEmpty := notScrobbled == [];
      var q := notScrobbled + [item];
      var query, timestamps := SignedScrobble(q);
      notScrobbled := q;
      apiThread := Some(PendingScrobble(timestamps, wasEmpty));
      sent := sent + [query];
    }
  }
}

=== FILE: listenbrainz.dfy ===
/** The ListenBrainz client (src/listenbrainz.rs): listens are queued,
    the newest 25 are sent in one `import` request, and a successful
    request removes them from the queue; a "playing now" request carries
    one listen without a timestamp. Requests are JSON values sent with a
    `Token` authorization header. */
module ListenBrainz {
  import opened Wrappers
  import opened StreamBase
  import ErrUtil

  const SUBMIT_ENDPOINT: string := "https://api.listenbrainz.org/1/submit-listens"
  const VALIDATE_ENDPOINT: string := "https://api.listenbrainz.org/1/validate-token"
  /** The most listens one import request carries. */
  const MAX_IMPORT: nat := 25

  /** `skip_if_none_or_empty`: an album name is left out of the JSON when
      it is missing or empty. */
  function SkipIfNoneOrEmpty(x: Option<string>): (skip: bool)
    ensures skip <==> x.None? || x.value == []
  {
    match x
    case Some(val) => val == []
    case None => true
  }

  // ---------------------------------------------------------------------
  // Request bodies

  /** A JSON value, as far as the requests and responses use them. */
  datatype Json = JStr(s: string) | JNat(n: nat) | JArr(items: seq<Json>) | JObj(fields: seq<(string, Json)>)

  datatype ListenType = PlayingNow | Import

  datatype AdditionalInfo = AdditionalInfo(tracknumber: Option<nat>, duration: Option<nat>, mediaPlayer: string)

  datatype TrackMetaData = TrackMetaData(artistName: string, trackName: string, releaseName: Option<string>, additionalInfo: AdditionalInfo)

  datatype Payload = Payload(listenedAt: Option<nat>, trackMetadata: TrackMetaData)

  datatype Request = Request(listenType: ListenType, payload: seq<Payload>)

  /** A queued listen; `timestamp` is in seconds since the Unix epoch. */
  datatype ListenItem = ListenItem(artist: string, track: string, album: Option<string>, number: Option<nat>, durationSecs: Option<nat>, timestamp: nat)

  /** The `snake_case` name of a listen type. */
  function ListenTypeName(t: ListenType): string {
    match t
    case PlayingNow => "playing_now"
    case Import => "import"
  }

  /** A member written only when the value is present
      (`skip_serializing_if = "Option::is_none"`). */
  function NatMember(name: string, v: Option<nat>): seq<(string, Json)> {
    if v.Some? then [(name, JNat(v.value))] else []
  }

  function AdditionalInfoJson(a: AdditionalInfo): Json {
    JObj(NatMember("tracknumber", a.tracknumber) + NatMember("duration", a.duration) + [("media_player", JStr(a.mediaPlayer))])
  }

  function TrackMetaDataJson(t: TrackMetaData): Json {
    JObj([("artist_name", JStr(t.artistName)), ("track_name", JStr(t.trackName))]
      + (if SkipIfNoneOrEmpty(t.releaseName) then [] else [("release_name", JStr(t.releaseName.value))])
      + [("additional_info", AdditionalInfoJson(t.additionalInfo))])
  }

  function PayloadJson(p: Payload): Json {
    JObj(NatMember("listened_at", p.listenedAt) + [("track_metadata", TrackMetaDataJson(p.trackMetadata))])
  }

  /** The body `serde_json::to_string` writes for a request, members in
      declaration order. */
  function RequestJson(r: Request): Json {
    JObj([("listen_type", JStr(ListenTypeName(r.listenType))),
          ("payload", JArr(seq(|r.payload|, i requires 0 <= i < |r.payload| => PayloadJson(r.payload[i]))))])
  }

  /** `AdditionalInfo::new`; `title` is the player's name. */
  function NewAdditionalInfo(number: Option<nat>, durationSecs: Option<nat>, title: string): AdditionalInfo {
    AdditionalInfo(number, durationSecs, title)
  }

  /** `Payload::from_listen` */
  function FromListen(listen: ListenItem, title: string): Payload {
    Payload(Some(listen.timestamp), TrackMetaData(listen.artist, listen.track, listen.album, NewAdditionalInfo(listen.number, listen.durationSecs, title)))
  }

  /** The single payload of a "playing now" request. */
  function NowPlayingPayload(artist: string, album: Option<string>, track: string, number: Option<nat>, duration: Duration, title: string): Payload {
    Payload(None, TrackMetaData(artist, track, album, NewAdditionalInfo(number, Some(AsSecs(duration)), title)))
  }

  function NowPlayingRequest(artist: string, album: Option<string>, track: string, number: Option<nat>, duration: Duration, title: string): Request {
    Request(PlayingNow, [NowPlayingPayload(artist, album, track, number, duration, title)])
  }

  /** The import request for a batch: one payload per listen, in order. */
  function ImportRequest(b: seq<ListenItem>, title: string): Request {
    Request(Import, seq(|b|, i requires 0 <= i < |b| => FromListen(b[i], title)))
  }

  // ---------------------------------------------------------------------
  // Reading a request body back

  /** The first member named `name`. */
  function Get(fields: seq<(string, Json)>, name: string): Option<Json> {
    if fields == [] then None
    else if fields[0].0 == name then Some(fields[0].1)
    else Get(fields[1..], name)
  }

  lemma {:induction false} GetAppend(a: seq<(string, Json)>, b: seq<(string, Json)>, name: string)
    ensures Get(a + b, name) == Get(a, name).Or(Get(b, name))
  {
    if a == [] {
      assert a + b == b;
    } else {
      assert (a + b)[0] == a[0];
      if a[0].0 != name {
        assert (a + b)[1..] == a[1..] + b;
        GetAppend(a[1..], b, name);
      }
    }
  }

  lemma GetSingle(key: string, v: Json, name: string)
    ensures Get([(key, v)], name) == if key == name then Some(v) else None
  {
  }

  function Field(j: Json, name: string): Option<Json> {
    if j.JObj? then Get(j.fields, name) else None
  }

  function StrField(j: Json, name: string): Option<string> {
    match Field(j, name)
    case Some(JStr(s)) => Some(s)
    case _ => None
  }

  function NatField(j: Json, name: string): Option<nat> {
    match Field(j, name)
    case Some(JNat(n)) => Some(n)
    case _ => None
  }

  /** The listen a payload body describes: none without a `listened_at`
      or without one of the required members. */
  function ReadListen(j: Json): Option<ListenItem> {
    var ts := NatField(j, "listened_at");
    var tm := Field(j, "track_metadata");
    if ts.None? || tm.None? then None
    else
      var artist := StrField(tm.value, "artist_name");
      var track := StrField(tm.value, "track_name");
      var info := Field(tm.value, "additional_info");
      if artist.None? || track.None? || info.None? then None
      else Some(ListenItem(artist.value, track.value, StrField(tm.value, "release_name"), NatField(info.value, "tracknumber"), NatField(info.value, "duration"), ts.value))
  }

  /** The album as the server receives it: an empty name is not sent. */
  function SentAlbum(album: Option<string>): Option<string> {
    if SkipIfNoneOrEmpty(album) then None else album
  }

  lemma NatMemberGet(name: string, v: Option<nat>, other: string)
    ensures Get(NatMember(name, v), name) == (if v.Some? then Some(JNat(v.value)) else None)
    ensures other != name ==> Get(NatMember(name, v), other) == None
  {
  }

  /** The metadata members of a body read back as the metadata. */
  lemma TrackMetaDataReadsBack(t: TrackMetaData)
    ensures StrField(TrackMetaDataJson(t), "artist_name") == Some(t.artistName)
    ensures StrField(TrackMetaDataJson(t), "track_name") == Some(t.trackName)
    ensures StrField(TrackMetaDataJson(t), "release_name") == SentAlbum(t.releaseName)
    ensures Field(TrackMetaDataJson(t), "additional_info") == Some(AdditionalInfoJson(t.additionalInfo))
    ensures NatField(AdditionalInfoJson(t.additionalInfo), "tracknumber") == t.additionalInfo.tracknumber
    ensures NatField(AdditionalInfoJson(t.additionalInfo), "duration") == t.additionalInfo.duration
  {
    var ar: seq<(string, Json)> := [("artist_name", JStr(t.artistName))];
    var tr: seq<(string, Json)> := [("track_name", JStr(t.trackName))];
    var head := ar + tr;
    GetSingle("artist_name", JStr(t.artistName), "track_name");
    GetSingle("track_name", JStr(t.trackName), "artist_name");
    GetAppend(ar, tr, "artist_name");
    GetAppend(ar, tr, "track_name");
    GetAppend(ar, tr, "release_name");
    GetAppend(ar, tr, "additional_info");
    var rel: seq<(string, Json)> := if SkipIfNoneOrEmpty(t.releaseName) then [] else [("release_name", JStr(t.releaseName.value))];
    var tail: seq<(string, Json)> := [("additional_info", AdditionalInfoJson(t.additionalInfo))];
    assert TrackMetaDataJson(t).fields == head + rel + tail;
    GetAppend(head + rel, tail, "artist_name");
    GetAppend(head, rel, "artist_name");
    GetAppend(head + rel, tail, "track_name");
    GetAppend(head, rel, "track_name");
    GetAppend(head + rel, tail, "release_name");
    GetAppend(head, rel, "release_name");
    GetAppend(head + rel, tail, "additional_info");
    GetAppend(head, rel, "additional_info");
    var a := t.additionalInfo;
    var n := NatMember("tracknumber", a.tracknumber);
    var d := NatMember("duration", a.duration);
    var m: seq<(string, Json)> := [("media_player", JStr(a.mediaPlayer))];
    assert AdditionalInfoJson(a).fields == n + d + m;
    NatMemberGet("tracknumber", a.tracknumber, "duration");
    NatMemberGet("duration", a.duration, "tracknumber");
    GetAppend(n + d, m, "tracknumber");
    GetAppend(n, d, "tracknumber");
    GetAppend(n + d, m, "duration");
    GetAppend(n, d, "duration");
  }

  /** A request body has the listen type and the payloads, in order. */
  lemma RequestBodyMembers(r: Request)
    ensures StrField(RequestJson(r), "listen_type") == Some(ListenTypeName(r.listenType))
    ensures Field(RequestJson(r), "payload").Some? && Field(RequestJson(r), "payload").value.JArr?
    ensures var items := Field(RequestJson(r), "payload").value.items;
      |items| == |r.payload| && forall i :: 0 <= i < |r.payload| ==> items[i] == PayloadJson(r.payload[i])
  {
    var lt: seq<(string, Json)> := [("listen_type", JStr(ListenTypeName(r.listenType)))];
    var pl: seq<(string, Json)> := [("payload", JArr(seq(|r.payload|, i requires 0 <= i < |r.payload| => PayloadJson(r.payload[i]))))];
    assert RequestJson(r).fields == lt + pl;
    GetAppend(lt, pl, "listen_type");
    GetAppend(lt, pl, "payload");
  }

  /** The body of a payload made by `from_listen` reads back as the listen
      it was made from, except that an empty album name is not sent. */
  lemma SubmittedListenReadsBack(listen: ListenItem, title: string)
    ensures ReadListen(PayloadJson(FromListen(listen, title))) == Some(listen.(album := SentAlbum(listen.album)))
  {
    var p := FromListen(listen, title);
    var ts := NatMember("listened_at", p.listenedAt);
    var rest: seq<(string, Json)> := [("track_metadata", TrackMetaDataJson(p.trackMetadata))];
    NatMemberGet("listened_at", p.listenedAt, "track_metadata");
    GetAppend(ts, rest, "listened_at");
    GetAppend(ts, rest, "track_metadata");
    TrackMetaDataReadsBack(p.trackMetadata);
  }

  /** A "playing now" request carries exactly one payload; it has no
      `listened_at`, so it never reads back as a listen, and it names the
      track that is playing. */
  lemma NowPlayingRequestShape(artist: string, album: Option<string>, track: string, number: Option<nat>, duration: Duration, title: string)
    ensures var body := RequestJson(NowPlayingRequest(artist, album, track, number, duration, title));
      && StrField(body, "listen_type") == Some("playing_now")
      && Field(body, "payload").Some? && Field(body, "payload").value.JArr?
      && |Field(body, "payload").value.items| == 1
      && var p := Field(body, "payload").value.items[0];
      && Field(p, "listened_at") == None
      && ReadListen(p) == None
      && Field(p, "track_metadata").Some?
      && StrField(Field(p, "track_metadata").value, "artist_name") == Some(artist)
      && StrField(Field(p, "track_metadata").value, "track_name") == Some(track)
      && StrField(Field(p, "track_metadata").value, "release_name") == SentAlbum(album)
      && Field(Field(p, "track_metadata").value, "additional_info").Some?
      && NatField(Field(Field(p, "track_metadata").value, "additional_info").value, "duration") == Some(AsSecs(duration))
  {
    var pl := NowPlayingPayload(artist, album, track, number, duration, title);
    var body := RequestJson(NowPlayingRequest(artist, album, track, number, duration, title));
    RequestBodyMembers(NowPlayingRequest(artist, album, track, number, duration, title));
    assert PayloadJson(pl).fields == [("track_metadata", TrackMetaDataJson(pl.trackMetadata))];
    GetSingle("track_metadata", TrackMetaDataJson(pl.trackMetadata), "listened_at");
    GetSingle("track_metadata", TrackMetaDataJson(pl.trackMetadata), "track_metadata");
    TrackMetaDataReadsBack(pl.trackMetadata);
  }

  /** Every payload of an import request reads back as the listen at the
      same position of the batch. */
  lemma ImportRequestReadsBack(b: seq<ListenItem>, title: string, i: nat)
    requires i < |b|
    ensures var body := RequestJson(ImportRequest(b, title));
      && StrField(body, "listen_type") == Some("import")
      && Field(body, "payload").Some? && Field(body, "payload").value.JArr?
      && |Field(body, "payload").value.items| == |b|
      && ReadListen(Field(body, "payload").value.items[i]) == Some(b[i].(album := SentAlbum(b[i].album)))
  {
    RequestBodyMembers(ImportRequest(b, title));
    SubmittedListenReadsBack(b[i], title);
  }

  /** `authorization_header_from_token` */
  function AuthorizationHeader(token: string): (h: string)
    ensures |h| == |token| + 6 && h[..6] == "Token " && h[6..] == token
  {
    "Token " + token
  }

  /** Different tokens give different headers. */
  lemma AuthorizationHeaderInjective(t: string, u: string)
    ensures AuthorizationHeader(t) == AuthorizationHeader(u) ==> t == u
  {
    if AuthorizationHeader(t) == AuthorizationHeader(u) {
      assert t == AuthorizationHeader(t)[6..];
    }
  }

  // ---------------------------------------------------------------------
  // Token validation

  datatype TokenValidationResponse = TokenValidationResponse(code: nat, message: string, valid: bool, userName: Option<string>)

  datatype ValidationError = RequestFailed(cause: string) | MissingUserName | Rejected(code: nat, message: string)

  /** `validate_token`: `get` is the GET of the validation endpoint with
      the given authorization header, parsed; a failed request or an
      unparsable body is its error. */
  function ValidateToken(token: string, get: string -> Result<TokenValidationResponse, string>): (r: Result<string, ValidationError>)
    ensures var resp := get(AuthorizationHeader(token));
      && (r.Ok? <==> resp.Ok? && resp.value.valid && resp.value.userName.Some?)
      && (r.Ok? ==> r.value == resp.value.userName.value)
      && (resp.Err? ==> r == Err(RequestFailed(resp.error)))
      && (resp.Ok? && resp.value.valid && resp.value.userName.None? ==> r == Err(MissingUserName))
      && (resp.Ok? && !resp.value.valid ==> r == Err(Rejected(resp.value.code, resp.value.message)))
  {
    match get(AuthorizationHeader(token))
    case Err(e) => Err(RequestFailed(e))
    case Ok(msg) =>
      if msg.valid then
        match msg.userName
        case Some(name) => Ok(name)
        case None => Err(MissingUserName)
      else Err(Rejected(msg.code, msg.message))
  }

  // ---------------------------------------------------------------------
  // The queue of listens not yet submitted

  /** The first queue index an import sends: `len.saturating_sub(25)`. */
  function BatchStart(len: nat): (start: nat)
    ensures start <= len
    ensures len - start == (if len < MAX_IMPORT then len else MAX_IMPORT)
  {
    SaturatingSub(len, MAX_IMPORT)
  }

  /** The listens one import sends: the newest `min(len, 25)`, oldest first. */
  function Batch(q: seq<ListenItem>): (b: seq<ListenItem>)
    ensures |b| == (if |q| < MAX_IMPORT then |q| else MAX_IMPORT)
    ensures b == q[|q| - |b|..]
  {
    q[BatchStart(|q|)..]
  }

  /** The newest listen is always sent, as the last of its batch. */
  lemma BatchEndsWithNewest(q: seq<ListenItem>, listen: ListenItem)
    ensures var b := Batch(q + [listen]); b != [] && b[|b| - 1] == listen
  {
  }

  function Timestamps(b: seq<ListenItem>): (r: seq<nat>)
    ensures |r| == |b| && forall k :: 0 <= k < |b| ==> r[k] == b[k].timestamp
  {
    seq(|b|, k requires 0 <= k < |b| => b[k].timestamp)
  }

  /** `items.retain(|i| !timestamps.contains(&i.timestamp))`, defined from
      the back of the queue. */
  function Kept(q: seq<ListenItem>, ts: seq<nat>): (r: seq<ListenItem>)
    ensures |r| <= |q|
    ensures forall x :: x in r <==> x in q && x.timestamp !in ts
  {
    if q == [] then []
    else
      var last := q[|q| - 1];
      assert q == q[..|q| - 1] + [last];
      Kept(q[..|q| - 1], ts) + (if last.timestamp in ts then [] else [last])
  }

  /** The in-place `retain`: walks the queue once and keeps the listens
      whose timestamp is not in `ts`, in queue order. */
  method Retain(items: seq<ListenItem>, ts: seq<nat>) returns (kept: seq<ListenItem>)
    ensures kept == Kept(items, ts)
  {
    kept := [];
    var i := 0;
    while i < |items|
      invariant i <= |items|
      invariant kept == Kept(items[..i], ts)
    {
      assert items[..i + 1][..i] == items[..i];
      if items[i].timestamp !in ts {
        kept := kept + [items[i]];
      }
      i := i + 1;
    }
    assert items[..i] == items;
  }

  /** Keeping is idempotent: a second pass with the same timestamps keeps
      everything the first one kept. */
  lemma {:induction false} KeptIdempotent(q: seq<ListenItem>, ts: seq<nat>)
    ensures Kept(Kept(q, ts), ts) == Kept(q, ts)
  {
    if q != [] {
      var p := q[..|q| - 1];
      var last := q[|q| - 1];
      KeptIdempotent(p, ts);
      var k := Kept(p, ts);
      if last.timestamp in ts {
        assert Kept(q, ts) == k;
      } else {
        assert Kept(q, ts) == k + [last];
        var r := k + [last];
        assert r[..|r| - 1] == k && r[|r| - 1] == last;
        assert Kept(r, ts) == Kept(k, ts) + [last];
      }
    }
  }

  /** An import request started by `submit` and not yet waited for, or a
      "playing now" request. */
  datatype PendingCall = NowPlayingCall | ImportCall(timestamps: seq<nat>, wasEmpty: bool)

  /** The queue once a call completes: a successful import drops every
      listen whose timestamp it sent; anything else leaves the queue as is. */
  function AfterCall(q: seq<ListenItem>, call: PendingCall, succeeded: bool): (r: seq<ListenItem>)
    ensures !(call.ImportCall? && succeeded) ==> r == q
    ensures call.ImportCall? && succeeded ==> forall x :: x in r <==> x in q && x.timestamp !in call.timestamps
  {
    if call.ImportCall? && succeeded then Kept(q, call.timestamps) else q
  }

  /** Whether the completion writes the queue file: after a successful
      import, when the queue is non-empty now or was before the import's
      listen was queued; after a failed import, always; after a "playing
      now" call, never. */
  predicate SavesQueue(q: seq<ListenItem>, call: PendingCall, succeeded: bool) {
    call.ImportCall? && (!succeeded || q != [] || !call.wasEmpty)
  }

  /** After a successful import of `Batch(q)` none of its listens is
      queued, and every listen with a timestamp outside it still is. */
  lemma SuccessfulImport(q: seq<ListenItem>, wasEmpty: bool)
    ensures var b := Batch(q); var r := AfterCall(q, ImportCall(Timestamps(b), wasEmpty), true);
      && (forall x :: x in b ==> x !in r)
      && (forall x :: x in q && (forall y :: y in b ==> y.timestamp != x.timestamp) ==> x in r)
  {
    var b := Batch(q);
    forall x | x in b
      ensures x.timestamp in Timestamps(b)
    {
      var k :| 0 <= k < |b| && b[k] == x;
      assert Timestamps(b)[k] == x.timestamp;
    }
    forall x | x in q && (forall y :: y in b ==> y.timestamp != x.timestamp)
      ensures x.timestamp !in Timestamps(b)
    {
    }
  }

  /** After a successful import the queue file is written unless the
      queue is empty now and was empty before the import's listen. */
  lemma SuccessfulImportSaves(r: seq<ListenItem>, ts: seq<nat>, wasEmpty: bool)
    ensures SavesQueue(r, ImportCall(ts, wasEmpty), true) <==> !wasEmpty || r != []
  {
  }

  /** A failed import leaves the queue intact and always writes it. */
  lemma FailedImport(q: seq<ListenItem>, ts: seq<nat>, wasEmpty: bool)
    ensures AfterCall(q, ImportCall(ts, wasEmpty), false) == q
    ensures SavesQueue(q, ImportCall(ts, wasEmpty), false)
  {
  }

  // ---------------------------------------------------------------------
  // The client

  datatype ListenBrainzError = NoTimestamp(cause: string) | NoToken

  /** A POST of a JSON body with an authorization header. */
  datatype Post = Post(url: string, authorization: string, body: Json)

  class ListenBrainzClient {
    const token: Option<string>
    /** The player's name, sent as `media_player`. */
    const title: string
    /** The listens not yet submitted, oldest first. */
    var notSubmitted: seq<ListenItem>
    /** The request still running, if any. */
    var apiThread: Option<PendingCall>
    /** Every request started, oldest first. */
    var sent: seq<Post>
    /** The content last written to the not-submitted file. */
    var saved: Option<seq<ListenItem>>

    /** `new`: the queue is the not-submitted file's content, or empty when
        it cannot be read. */
    constructor (token: Option<string>, title: string, queueFile: Result<seq<ListenItem>, string>)
      ensures this.token == token && this.title == title
      ensures notSubmitted == (if queueFile.Ok? then queueFile.value else [])
      ensures apiThread.None? && sent == [] && saved.None?
    {
      this.token := token;
      this.title := title;
      notSubmitted := ErrUtil.OkOrDefault(queueFile, []);
      apiThread := None;
      sent := [];
      saved := None;
    }

    /** `useable_or_none`: a client exists exactly when the token file
        could be read, and then it holds that token. */
    static method UseableOrNone(tokenFile: Result<string, string>, title: string, queueFile: Result<seq<ListenItem>, string>) returns (r: Option<ListenBrainzClient>)
      ensures r.Some? <==> tokenFile.Ok?
      ensures r.Some? ==> fresh(r.value) && r.value.token == Some(tokenFile.value) && r.value.apiThread.None?
    {
      match tokenFile
      case Ok(token) =>
        var c := new ListenBrainzClient(Some(token), title, queueFile);
        return Some(c);
      case Err(_) =>
        return None;
    }

    /** `wait_for_api_thread`: the running request, if any, completes with
        outcome `succeeded` and runs its completion handler. */
    method WaitForApiThread(succeeded: bool)
      modifies this`notSubmitted, this`apiThread, this`saved
      ensures apiThread.None?
      ensures Waited(old(notSubmitted), old(apiThread), old(saved), succeeded)
    {
      if apiThread.Some? {
        var call := apiThread.value;
        if call.ImportCall? && succeeded {
          notSubmitted := Retain(notSubmitted, call.timestamps);
        }
        if SavesQueue(notSubmitted, call, succeeded) {
          saved := Some(notSubmitted);
        }
        apiThread := None;
      }
    }

    /** The queue and the file after waiting for `thread` with outcome
        `succeeded`, from the queue `queue` and file content `savedBefore`. */
    ghost predicate Waited(queue: seq<ListenItem>, thread: Option<PendingCall>, savedBefore: Option<seq<ListenItem>>, succeeded: bool)
      reads this
    {
      && (thread.None? ==> notSubmitted == queue && saved == savedBefore)
      && (thread.Some? ==>
          && notSubmitted == AfterCall(queue, thread.value, succeeded)
          && saved == (if SavesQueue(notSubmitted, thread.value, succeeded) then Some(notSubmitted) else savedBefore))
    }

    /** `send`: waits for the running request (outcome `previousSucceeded`),
        then fails without a token, or posts the request's body with the
        token's authorization header and makes `call` the running request. */
    method Send(request: Request, call: PendingCall, previousSucceeded: bool) returns (r: Result<Unit, ListenBrainzError>)
      modifies this`notSubmitted, this`apiThread, this`saved, this`sent
      ensures r.Ok? <==> token.Some?
      ensures r.Err? ==> r.error == NoToken
      ensures Waited(old(notSubmitted), old(apiThread), old(saved), previousSucceeded)
      ensures token.None? ==> apiThread.None? && sent == old(sent)
      ensures token.Some? ==>
        && apiThread == Some(call)
        && sent == old(sent) + [Post(SUBMIT_ENDPOINT, AuthorizationHeader(token.value), RequestJson(request))]
    {
      WaitForApiThread(previousSucceeded);
      if token.Some? {
        apiThread := Some(call);
        sent := sent + [Post(SUBMIT_ENDPOINT, AuthorizationHeader(token.value), RequestJson(request))];
        return Ok(Unit);
      }
      return Err(NoToken);
    }

    /** `playing_now`: sends one payload without a timestamp. */
    method PlayingNowCall(artist: string, album: Option<string>, track: string, number: Option<nat>, duration: Duration, previousSucceeded: bool) returns (r: Result<Unit, ListenBrainzError>)
      modifies this`notSubmitted, this`apiThread, this`saved, this`sent
      ensures r.Ok? <==> token.Some?
      ensures r.Err? ==> r.error == NoToken
      ensures Waited(old(notSubmitted), old(apiThread), old(saved), previousSucceeded)
      ensures token.None? ==> apiThread.None? && sent == old(sent)
      ensures token.Some? ==>
        && apiThread == Some(NowPlayingCall)
        && sent == old(sent) + [Post(SUBMIT_ENDPOINT, AuthorizationHeader(token.value), RequestJson(NowPlayingRequest(artist, album, track, number, duration, title)))]
    {
      r := Send(NowPlayingRequest(artist, album, track, number, duration, title), NowPlayingCall, previousSucceeded);
    }

    /** `submit`: without a clock reading (`now`, the time since the Unix
        epoch) it fails and changes nothing. Otherwise it queues the
        listen, builds the import request for the newest 25 queued listens
        and sends it; the listen stays queued even when there is no token. */
    method Submit(artist: string, album: Option<string>, track: string, number: Option<nat>, duration: Duration, now: Result<Duration, string>, previousSucceeded: bool) returns (r: Result<Unit, ListenBrainzError>)
      modifies this`notSubmitted, this`apiThread, this`saved, this`sent
      ensures now.Err? ==>
        && r == Err(NoTimestamp(now.error))
        && notSubmitted == old(notSubmitted) && apiThread == old(apiThread) && sent == old(sent) && saved == old(saved)
      ensures now.Ok? ==>
        && (r.Ok? <==> token.Some?)
        && (r.Err? ==> r.error == NoToken)
        && Submitted(ListenItem(artist, track, album, number, Some(AsSecs(duration)), AsSecs(now.value)), old(notSubmitted), old(apiThread), old(sent), old(saved), previousSucceeded)
    {
      if now.Err? {
        return Err(NoTimestamp(now.error));
      }
      var listen := ListenItem(artist, track, album, number, Some(AsSecs(duration)), AsSecs(now.value));
      var wasEmpty := notSubmitted == [];
      notSubmitted := notSubmitted + [listen];
      var batch := notSubmitted[BatchStart(|notSubmitted|)..];
      var request := ImportRequest(batch, title);
      r := Send(request, ImportCall(Timestamps(batch), wasEmpty), previousSucceeded);
    }

    /** The state after `submit` queued `listen`: the running request
        completed first, seeing the new listen in the queue; then, with a
        token, the import of the newest 25 listens is posted and running. */
    ghost predicate Submitted(listen: ListenItem, queue: seq<ListenItem>, thread: Option<PendingCall>, sentBefore: seq<Post>, savedBefore: Option<seq<ListenItem>>, previousSucceeded: bool)
      reads this
    {
      var q := queue + [listen];
      && Waited(q, thread, savedBefore, previousSucceeded)
      && (token.None? ==> apiThread.None? && sent == sentBefore)
      && (token.Some? ==>
          && apiThread == Some(ImportCall(Timestamps(Batch(q)), queue == []))
          && sent == sentBefore + [Post(SUBMIT_ENDPOINT, AuthorizationHeader(token.value), RequestJson(ImportRequest(Batch(q), title)))])
    }
  }
}

=== FILE: player.dfy ===
/** src/player.rs: the player thread. It keeps the playlist and the current
    index, moves through the playlist (next, previous, next and previous
    directory), fires position callbacks and answers the commands of the
    client. The decoder is represented by the outcomes of the calls the
    player makes on it; the responses channel is the sequence of responses
    sent so far. */
module Player {
  import opened Wrappers
  import opened StreamBase

  /** `READ_PACKETS_PER_CYCLE` */
  const READ_PACKETS_PER_CYCLE: nat := 5

  datatype PlaybackState = Stopped | Playing | Paused

  datatype PositionCallbackMarker = SecsFromStart(fromStart: Duration) | SecsFromEnd(fromEnd: Duration)

  datatype PositionCallback = PositionCallback(id: nat, marker: PositionCallbackMarker)

  datatype PlayerResponse =
    | NewPlaylistIndex(playlistIndex: nat, track: Track, userNavigation: bool)
    | NewMeta(meta: TrackMeta, userNavigation: bool)
    | PlaybackStateChanged(state: PlaybackState, position: Duration)
    | PositionRequested(requested: Duration)
    | PositionCallbackReached(callback: PositionCallback)
    | PlaylistEnded
    | Seeked(seekedTo: Duration)
    | VolumeSet(volume: real)
    | Exited

  datatype PlayerCmd =
    | SetPlaylist(tracks: seq<Track>)
    | LoadMeta(index: nat)
    | Play(playIndex: Option<nat>)
    | Pause
    | UnPause
    | Stop
    | RequestPosition
    | Next
    | Prev
    | NextDir
    | PrevDir
    | SeekBy(forward: bool, length: Duration)
    | SeekTo(position: Duration)
    | SetVolume(volume: real)
    | Exit

  datatype MoveTo = MoveNext | MovePrev | MoveNextDir | MovePrevDir

  datatype PlayerError =
    | NotInPlaylist
    | CannotPlay
    | PlaylistEndReached
    | PlaylistStartReached
    | NoValidFiles
    | NoFiles
    | NoOutput
    | CannotSeek

  /** What the decoder answers to the player's calls: whether `play` opens a
      track, the metadata `load_meta` finds for a track (None when it
      fails), the playback position, the position `seek_to` reaches (None
      when it fails), the volume `set_volume` settles on, and whether the
      audio output accepts pause and play. */
  datatype DecoderView = DecoderView(
    opens: Track -> bool,
    loadMeta: Track -> Option<TrackMeta>,
    position: Duration,
    seek: Duration -> Option<Duration>,
    setVolume: real -> real,
    outputOk: bool)

  // ---------------------------------------------------------------------
  // Index arithmetic

  /** `fetch_next_playlist_index` (the PlaylistEnded message aside): the
      following index, the first one after the last when wrapping, and an
      error at the end otherwise. */
  function FetchNext(len: nat, cur: nat, wrap: bool): (r: Result<nat, PlayerError>)
    requires len > 0
    ensures r.Ok? ==> r.value < len
    ensures r.Err? <==> cur >= len - 1 && !wrap
    ensures r.Err? ==> r.error == PlaylistEndReached
    ensures cur < len - 1 ==> r == Ok(cur + 1)
  {
    if cur < len - 1 then Ok(cur + 1)
    else if wrap then Ok(0)
    else Err(PlaylistEndReached)
  }

  /** `fetch_prev_playlist_index`: the preceding index, the last one before
      the first when wrapping, and an error at the start otherwise. */
  function FetchPrev(len: nat, cur: nat, wrap: bool): (r: Result<nat, PlayerError>)
    requires len > 0
    ensures r.Ok? && cur < len ==> r.value < len
    ensures r.Err? <==> cur == 0 && !wrap
    ensures r.Err? ==> r.error == PlaylistStartReached
    ensures cur > 0 ==> r == Ok(cur - 1)
  {
    if cur > 0 then Ok(cur - 1)
    else if wrap then Ok(len - 1)
    else Err(PlaylistStartReached)
  }

  /** A number below `n` is its own remainder modulo `n`. */
  lemma ModBelow(r: nat, n: nat)
    requires r < n
    ensures r % n == r
  {
    assert r / n == 0;
  }

  /** Adding `n` does not change a remainder modulo `n`. */
  lemma ModPlusDivisor(r: nat, n: nat)
    requires r < n
    ensures (n + r) % n == r
  {
    assert (n + r) / n == 1;
  }

  /** With wrapping, both steps move modulo the playlist length. */
  lemma FetchWrapsModulo(len: nat, cur: nat)
    requires cur < len
    ensures FetchNext(len, cur, true) == Ok((cur + 1) % len)
    ensures FetchPrev(len, cur, true) == Ok((cur + len - 1) % len)
  {
    if cur < len - 1 {
      ModBelow(cur + 1, len);
    } else {
      ModPlusDivisor(0, len);
    }
    if cur > 0 {
      ModPlusDivisor(cur - 1, len);
    } else {
      ModBelow(len - 1, len);
    }
  }

  /** With wrapping, going back undoes going forward. */
  lemma PrevUndoesNext(len: nat, cur: nat)
    requires cur < len
    ensures FetchNext(len, cur, true).Ok?
    ensures FetchPrev(len, FetchNext(len, cur, true).value, true) == Ok(cur)
  {
  }

  /** With wrapping, going forward undoes going back. */
  lemma NextUndoesPrev(len: nat, cur: nat)
    requires cur < len
    ensures FetchPrev(len, cur, true).Ok?
    ensures FetchNext(len, FetchPrev(len, cur, true).value, true) == Ok(cur)
  {
  }

  /** `dec_valid_files`: one file fewer left to try; an error when none is
      left. */
  function DecValidFiles(filesLeft: nat): (r: Result<nat, PlayerError>)
    ensures r.Err? <==> filesLeft == 0
    ensures r.Ok? ==> r.value < filesLeft && filesLeft - r.value == 1
  {
    if filesLeft == 0 then Err(NoValidFiles) else Ok(filesLeft - 1)
  }

  /** The index the `n`-th attempt of a next or previous move tries when
      every attempt before failed, counting from `start`. */
  function Candidate(step: MoveTo, len: nat, start: nat, n: nat): (r: nat)
    requires start < len && n <= len
    ensures r < len
    ensures step.MoveNext? ==> r == start + n || r + len == start + n
    ensures step.MovePrev? ==> r + n == start || r + n == start + len
  {
    if step.MovePrev? then
      if n <= start then start - n else start + len - n
    else
      if start + n < len then start + n else start + n - len
  }

  /** Whether a next or previous move reaches its `n`-th attempt without
      running off the end of the playlist; with wrapping it always does. */
  predicate InReach(step: MoveTo, len: nat, start: nat, wrap: bool, n: nat) {
    wrap || (if step.MovePrev? then n <= start else start + n < len)
  }

  /** The step from one attempt of a next or previous move to the following
      one: the index after the `n - 1`-th candidate is the `n`-th one while it
      is in reach, and the move fails once it is not. */
  lemma CandidateStep(step: MoveTo, len: nat, start: nat, wrap: bool, n: nat)
    requires step.MoveNext? || step.MovePrev?
    requires start < len && 1 <= n <= len && InReach(step, len, start, wrap, n - 1)
    ensures var cur := Candidate(step, len, start, n - 1);
            var r := if step.MoveNext? then FetchNext(len, cur, wrap) else FetchPrev(len, cur, wrap);
            && (InReach(step, len, start, wrap, n) ==> r == Ok(Candidate(step, len, start, n)))
            && (!InReach(step, len, start, wrap, n) ==> r.Err?)
  {
  }

  /** `CandidateStep` for the index a next or previous move fetched: it is
      there exactly while the `n`-th attempt is in reach, and is then the
      `n`-th candidate. */
  lemma FetchedCandidate(step: MoveTo, len: nat, start: nat, wrap: bool, n: nat, next: Result<nat, PlayerError>)
    requires step.MoveNext? || step.MovePrev?
    requires start < len && 1 <= n <= len && InReach(step, len, start, wrap, n - 1)
    requires var cur := Candidate(step, len, start, n - 1);
      next == if step.MoveNext? then FetchNext(len, cur, wrap) else FetchPrev(len, cur, wrap)
    ensures next.Ok? <==> InReach(step, len, start, wrap, n)
    ensures next.Ok? ==> next.value == Candidate(step, len, start, n)
  {
    CandidateStep(step, len, start, wrap, n);
  }

  /** Without wrapping, a move that runs off the end stays off it. */
  lemma InReachDownward(step: MoveTo, len: nat, start: nat, wrap: bool, m: nat, n: nat)
    requires m <= n && InReach(step, len, start, wrap, n)
    ensures InReach(step, len, start, wrap, m)
  {
  }

  // ---------------------------------------------------------------------
  // Position callbacks

  /** Whether a marker is due at `position` in a track of `duration`: a mark
      from the start once the position reaches it, a mark from the end once
      the position reaches the duration minus the mark (zero when the mark is
      longer than the track). */
  predicate MustTrigger(marker: PositionCallbackMarker, position: Duration, duration: Duration) {
    match marker
    case SecsFromStart(m) => position >= m
    case SecsFromEnd(m) => position >= SaturatingSub(duration, m)
  }

  /** A marker that is due stays due as playback moves on. */
  lemma MustTriggerMonotone(marker: PositionCallbackMarker, p1: Duration, p2: Duration, duration: Duration)
    requires p1 <= p2 && MustTrigger(marker, p1, duration)
    ensures MustTrigger(marker, p2, duration)
  {
  }

  /** A mark from the end that is longer than the track is due from the
      start. */
  lemma LongEndMarkerDueAtOnce(m: Duration, position: Duration, duration: Duration)
    requires m >= duration
    ensures MustTrigger(SecsFromEnd(m), position, duration)
  {
  }

  /** The callbacks one pass over `callbacks` fires, in order, when the ids
      in `triggered` have fired already: a callback fires when its id has not
      fired yet and its marker is due. */
  function Fired(callbacks: seq<PositionCallback>, triggered: seq<nat>, position: Duration, duration: Duration)
    : (r: seq<PositionCallback>)
    decreases |callbacks|
  {
    if callbacks == [] then []
    else if callbacks[0].id !in triggered && MustTrigger(callbacks[0].marker, position, duration) then
      [callbacks[0]] + Fired(callbacks[1..], triggered + [callbacks[0].id], position, duration)
    else
      Fired(callbacks[1..], triggered, position, duration)
  }

  function Ids(callbacks: seq<PositionCallback>): (r: seq<nat>)
    ensures |r| == |callbacks| && forall k :: 0 <= k < |r| ==> r[k] == callbacks[k].id
  {
    seq(|callbacks|, k requires 0 <= k < |callbacks| => callbacks[k].id)
  }

  function Reached(callbacks: seq<PositionCallback>): (r: seq<PlayerResponse>)
    ensures |r| == |callbacks| && forall k :: 0 <= k < |r| ==> r[k] == PositionCallbackReached(callbacks[k])
  {
    seq(|callbacks|, k requires 0 <= k < |callbacks| => PositionCallbackReached(callbacks[k]))
  }

  /** One step of a pass, from the callback at `i` on. */
  lemma FiredFrom(callbacks: seq<PositionCallback>, i: nat, triggered: seq<nat>, position: Duration, duration: Duration)
    requires i < |callbacks|
    ensures var c := callbacks[i];
      Fired(callbacks[i..], triggered, position, duration)
      == if c.id !in triggered && MustTrigger(c.marker, position, duration)
         then [c] + Fired(callbacks[i + 1..], triggered + [c.id], position, duration)
         else Fired(callbacks[i + 1..], triggered, position, duration)
  {
    assert callbacks[i..][1..] == callbacks[i + 1..];
  }

  /** One pass step: what the callbacks from `i` on fire, given what the
      ones before fired, after callback `i` fires or is passed over. */
  lemma FiredStep(callbacks: seq<PositionCallback>, i: nat, t0: seq<nat>, fired: seq<PositionCallback>,
                  triggered: seq<nat>, position: Duration, duration: Duration)
    requires i < |callbacks|
    requires Fired(callbacks, t0, position, duration) == fired + Fired(callbacks[i..], triggered, position, duration)
    ensures var c := callbacks[i];
      if c.id !in triggered && MustTrigger(c.marker, position, duration)
      then Fired(callbacks, t0, position, duration) == (fired + [c]) + Fired(callbacks[i + 1..], triggered + [c.id], position, duration)
      else Fired(callbacks, t0, position, duration) == fired + Fired(callbacks[i + 1..], triggered, position, duration)
  {
    FiredFrom(callbacks, i, triggered, position, duration);
  }

  /** Firing one more callback adds its id and its response at the end. */
  lemma FiredAppend(fired: seq<PositionCallback>, c: PositionCallback)
    ensures Ids(fired + [c]) == Ids(fired) + [c.id]
    ensures Reached(fired + [c]) == Reached(fired) + [PositionCallbackReached(c)]
  {
    assert Ids(fired + [c]) == Ids(fired) + [c.id];
    assert Reached(fired + [c]) == Reached(fired) + [PositionCallbackReached(c)];
  }

  predicate NoDuplicates(ids: seq<nat>) {
    forall i, j :: 0 <= i < j < |ids| ==> ids[i] != ids[j]
  }

  /** What a pass fires: callbacks of `callbacks` that are due and whose id
      had not fired; and every due callback's id has fired after the pass. */
  lemma FiredSpec(callbacks: seq<PositionCallback>, triggered: seq<nat>, position: Duration, duration: Duration)
    ensures var f := Fired(callbacks, triggered, position, duration);
            && (forall c :: c in f ==> c in callbacks && c.id !in triggered && MustTrigger(c.marker, position, duration))
            && (f != [] ==> f[0] in callbacks && f[0].id !in triggered && MustTrigger(f[0].marker, position, duration))
            && (forall c :: c in callbacks && MustTrigger(c.marker, position, duration) ==> c.id in triggered + Ids(f))
  {
    FiredSound(callbacks, triggered, position, duration);
    FiredComplete(callbacks, triggered, position, duration);
  }

  lemma {:induction false} FiredSound(callbacks: seq<PositionCallback>, triggered: seq<nat>, position: Duration, duration: Duration)
    ensures var f := Fired(callbacks, triggered, position, duration);
            forall c :: c in f ==> c in callbacks && c.id !in triggered && MustTrigger(c.marker, position, duration)
    decreases |callbacks|
  {
    if callbacks != [] {
      var c0 := callbacks[0];
      var rest := callbacks[1..];
      if c0.id !in triggered && MustTrigger(c0.marker, position, duration) {
        var t := triggered + [c0.id];
        FiredSound(rest, t, position, duration);
        var f := Fired(rest, t, position, duration);
        assert Fired(callbacks, triggered, position, duration) == [c0] + f;
        forall c | c in [c0] + f
          ensures c in callbacks && c.id !in triggered && MustTrigger(c.marker, position, duration)
        {
          if c != c0 {
            assert c in f;
            assert c.id !in t;
          }
        }
      } else {
        FiredSound(rest, triggered, position, duration);
      }
    }
  }

  lemma {:induction false} FiredComplete(callbacks: seq<PositionCallback>, triggered: seq<nat>, position: Duration, duration: Duration)
    ensures var f := Fired(callbacks, triggered, position, duration);
            forall c :: c in callbacks && MustTrigger(c.marker, position, duration) ==> c.id in triggered + Ids(f)
    decreases |callbacks|
  {
    if callbacks != [] {
      var c0 := callbacks[0];
      var rest := callbacks[1..];
      assert callbacks == [c0] + rest;
      if c0.id !in triggered && MustTrigger(c0.marker, position, duration) {
        var t := triggered + [c0.id];
        FiredComplete(rest, t, position, duration);
        var f := Fired(rest, t, position, duration);
        assert Ids([c0] + f) == [c0.id] + Ids(f);
        assert t + Ids(f) == triggered + Ids([c0] + f);
      } else {
        FiredComplete(rest, triggered, position, duration);
      }
    }
  }

  /** Each id fires at most once: a pass adds only ids that had not fired,
      each of them once. */
  lemma {:induction false} FiredOnce(callbacks: seq<PositionCallback>, triggered: seq<nat>, position: Duration, duration: Duration)
    requires NoDuplicates(triggered)
    ensures NoDuplicates(triggered + Ids(Fired(callbacks, triggered, position, duration)))
    decreases |callbacks|
  {
    if callbacks != [] {
      var c0 := callbacks[0];
      var rest := callbacks[1..];
      if c0.id !in triggered && MustTrigger(c0.marker, position, duration) {
        var t := triggered + [c0.id];
        assert NoDuplicates(t) by {
          forall i, j | 0 <= i < j < |t| ensures t[i] != t[j] {
            if j == |triggered| {
              assert t[i] in triggered;
            }
          }
        }
        FiredOnce(rest, t, position, duration);
        var f := Fired(rest, t, position, duration);
        assert Ids([c0] + f) == [c0.id] + Ids(f);
        assert t + Ids(f) == triggered + Ids([c0] + f);
      } else {
        FiredOnce(rest, triggered, position, duration);
      }
    }
  }

  /** A second pass at the same position fires nothing new. */
  lemma {:induction false} FiredIdempotent(callbacks: seq<PositionCallback>, triggered: seq<nat>, position: Duration, duration: Duration)
    ensures var t := triggered + Ids(Fired(callbacks, triggered, position, duration));
            Fired(callbacks, t, position, duration) == []
  {
    FiredSpec(callbacks, triggered, position, duration);
    var t := triggered + Ids(Fired(callbacks, triggered, position, duration));
    FiredSpec(callbacks, t, position, duration);
  }

  // ---------------------------------------------------------------------
  // Seeking

  /** The target of `SeekBy`: the position moved forward (saturating at
      `Duration::MAX`) or back (saturating at zero). */
  function SeekByTarget(forward: bool, position: Duration, length: Duration): (r: Duration)
    ensures forward && position + length <= DURATION_MAX ==> r == position + length
    ensures forward && position <= DURATION_MAX ==> position <= r <= DURATION_MAX
    ensures !forward ==> r <= position
    ensures !forward && length <= position ==> r + length == position
    ensures !forward && length >= position ==> r == 0
  {
    if forward then SaturatingAdd(position, length) else SaturatingSub(position, length)
  }

  // ---------------------------------------------------------------------
  // read_stream_packets_batch

  /** `read_stream_packets_batch`: up to `READ_PACKETS_PER_CYCLE` reads,
      stopping at the first that asks to stop; `results[k]` is what the
      `k`-th `read_stream` would return. */
  method ReadStreamPacketsBatch(results: seq<bool>) returns (r: bool, readCount: nat)
    requires |results| >= READ_PACKETS_PER_CYCLE
    ensures 1 <= readCount <= READ_PACKETS_PER_CYCLE
    ensures forall k :: 0 <= k < readCount - 1 ==> results[k]
    ensures r <==> readCount == READ_PACKETS_PER_CYCLE && results[readCount - 1]
    ensures !r ==> !results[readCount - 1]
  {
    var packetsLeft := READ_PACKETS_PER_CYCLE;
    readCount := 0;
    while packetsLeft > 0
      invariant readCount + packetsLeft == READ_PACKETS_PER_CYCLE
      invariant forall k :: 0 <= k < readCount ==> results[k]
    {
      readCount := readCount + 1;
      if !results[readCount - 1] {
        return false, readCount;
      }
      packetsLeft := packetsLeft - 1;
    }
    r := true;
  }

  // ---------------------------------------------------------------------
  // Where a move through the playlist lands

  /** The directory of the track at index `i` of `pl`. */
  function DirAt(pl: seq<Track>, i: nat): string
    requires i < |pl|
  {
    ParentDir(pl[i].filename)
  }

  /** `index` is where the directory skip of a next-directory move from
      `cur` lands: the first index after `cur` outside the directory of
      `cur`, or index 0 when every track after `cur` shares that directory
      and the move wrapped. */
  ghost predicate SkipsDir(pl: seq<Track>, cur: nat, index: nat)
    requires cur < |pl|
  {
    && index < |pl| && (index == 0 || cur < index)
    && (forall k :: cur < k < (if index == 0 then |pl| else index) ==> DirAt(pl, k) == DirAt(pl, cur))
    && (index != 0 ==> DirAt(pl, index) != DirAt(pl, cur))
  }

  /** None of the first `n` candidates of a next or previous move opens. */
  ghost predicate NoneOpensUpTo(pl: seq<Track>, step: MoveTo, start: nat, opens: Track -> bool, n: nat)
    requires start < |pl| && n <= |pl|
  {
    forall m :: 1 <= m <= n ==> !opens(pl[Candidate(step, |pl|, start, m)])
  }

  /** Some candidate in reach of a next or previous move opens. */
  ghost predicate SomeOpens(pl: seq<Track>, step: MoveTo, start: nat, wrap: bool, opens: Track -> bool)
    requires start < |pl|
  {
    exists n :: 1 <= n <= |pl| && InReach(step, |pl|, start, wrap, n) && opens(pl[Candidate(step, |pl|, start, n)])
  }

  /** `index` is where a next or previous move from `start` lands when it
      succeeds: the first candidate in reach that opens. */
  ghost predicate FirstThatOpens(pl: seq<Track>, step: MoveTo, start: nat, wrap: bool, opens: Track -> bool, index: nat)
    requires start < |pl|
  {
    exists n :: 1 <= n <= |pl| && InReach(step, |pl|, start, wrap, n)
                && index == Candidate(step, |pl|, start, n) && NoneOpensUpTo(pl, step, start, opens, n - 1)
  }

  /** After `attempts` failed plays of a next or previous move from
      `start`: each cost one file, `cur` is the last candidate, which is in
      reach, and none of the candidates so far opens. */
  ghost predicate Tried(pl: seq<Track>, step: MoveTo, start: nat, wrap: bool, opens: Track -> bool,
                        cur: nat, attempts: nat, filesLeft: nat)
    requires start < |pl|
  {
    && attempts + filesLeft == |pl| && cur == Candidate(step, |pl|, start, attempts)
    && InReach(step, |pl|, start, wrap, attempts)
    && NoneOpensUpTo(pl, step, start, opens, attempts)
  }

  /** None of the first `n` tracks from `j` on, in playlist order and
      wrapping, opens. */
  ghost predicate NoneOpensFrom(pl: seq<Track>, j: nat, opens: Track -> bool, n: nat)
    requires j < |pl| && n <= |pl|
  {
    forall m :: 0 <= m < n ==> !opens(pl[Candidate(MoveNext, |pl|, j, m)])
  }

  /** `index` is where a next-directory move from `start` that wraps lands
      when it succeeds: the directory skip reaches some `j` (`SkipsDir`),
      and `index` is the first track from `j` on, wrapping, that opens. */
  ghost predicate NextDirLanded(pl: seq<Track>, start: nat, opens: Track -> bool, index: nat)
    requires start < |pl|
  {
    exists j: nat, n: nat :: SkipsDir(pl, start, j) && n < |pl|
                   && index == Candidate(MoveNext, |pl|, j, n) && NoneOpensFrom(pl, j, opens, n)
  }

  /** After `attempts` failed plays of a next-directory move from `start`
      that wraps: the skip reached `j`, and `cur`, the last track tried, is
      the last of the `attempts` tracks from `j` on, none of which opens. */
  ghost predicate DirTried(pl: seq<Track>, start: nat, j: nat, opens: Track -> bool, cur: nat, attempts: nat)
    requires start < |pl|
  {
    && SkipsDir(pl, start, j) && 1 <= attempts <= |pl|
    && cur == Candidate(MoveNext, |pl|, j, attempts - 1) && NoneOpensFrom(pl, j, opens, attempts)
  }

  /** The progress of a next-directory move from `start` that wraps, after
      `attempts` failed plays: none yet, or the skip target is known
      (`skip`) and the attempts so far tried the tracks from it on. */
  ghost predicate DirProgress(pl: seq<Track>, start: nat, opens: Track -> bool, cur: nat, attempts: nat, skip: Option<nat>)
    requires start < |pl|
  {
    && (attempts == 0 ==> skip.None? && cur == start)
    && (attempts > 0 ==> skip.Some? && DirTried(pl, start, skip.value, opens, cur, attempts))
  }

  /** The progress of a move from `start` after `attempts` failed plays,
      `filesLeft` files left and `skip` the index after the directory
      skip: `Tried` for next and previous moves, `DirProgress` for a
      next-directory move that wraps. */
  ghost predicate Progress(pl: seq<Track>, step: MoveTo, wrap: bool, start: nat, opens: Track -> bool,
                           cur: nat, attempts: nat, filesLeft: nat, skip: Option<nat>)
    requires start < |pl|
  {
    && (step.MoveNext? || step.MovePrev? ==> Tried(pl, step, start, wrap, opens, cur, attempts, filesLeft))
    && (step.MoveNextDir? && wrap ==> DirProgress(pl, start, opens, cur, attempts, skip))
  }

  /** Where a move from `start` lands after `attempts` plays when it
      succeeds: for next and previous moves the first candidate in reach
      that opens, for a next-directory move that wraps `NextDirLanded`. */
  ghost predicate Landed(pl: seq<Track>, step: MoveTo, wrap: bool, start: nat, opens: Track -> bool, index: nat, attempts: nat)
    requires start < |pl|
  {
    && (step.MoveNext? || step.MovePrev? ==>
          && 1 <= attempts <= |pl| && InReach(step, |pl|, start, wrap, attempts)
          && index == Candidate(step, |pl|, start, attempts)
          && NoneOpensUpTo(pl, step, start, opens, attempts - 1)
          && SomeOpens(pl, step, start, wrap, opens))
    && (step.MoveNextDir? && wrap ==> NextDirLanded(pl, start, opens, index))
  }

  /** A next or previous move from `start` that fails has no candidate in
      reach that opens. */
  ghost predicate NotLanded(pl: seq<Track>, step: MoveTo, wrap: bool, start: nat, opens: Track -> bool)
    requires start < |pl|
  {
    step.MoveNext? || step.MovePrev? ==> !SomeOpens(pl, step, start, wrap, opens)
  }

  /** What one step of `MoveIndex` from `cur` gives for each kind of move:
      the neighbour for next and previous moves, and for a next-directory
      move the neighbour once the directory was skipped (`skip` set) or the
      skip target on the first step. */
  ghost predicate Moved(pl: seq<Track>, step: MoveTo, wrap: bool, cur: nat, skip: Option<nat>, filesLeft: nat,
                        next: Result<nat, PlayerError>, left: nat, skip': Option<nat>)
    requires cur < |pl|
  {
    && (step.MoveNext? ==> next == FetchNext(|pl|, cur, wrap) && left == filesLeft)
    && (step.MovePrev? ==> next == FetchPrev(|pl|, cur, wrap) && left == filesLeft)
    && (step.MoveNextDir? && skip.Some? ==> next == FetchNext(|pl|, cur, wrap) && skip' == skip)
    && (step.MoveNextDir? && skip.None? && next.Ok? ==> skip' == Some(next.value) && SkipsDir(pl, cur, next.value))
  }

  lemma NoneOpensExtend(pl: seq<Track>, step: MoveTo, start: nat, opens: Track -> bool, n: nat)
    requires start < |pl| && 1 <= n <= |pl|
    requires NoneOpensUpTo(pl, step, start, opens, n - 1) && !opens(pl[Candidate(step, |pl|, start, n)])
    ensures NoneOpensUpTo(pl, step, start, opens, n)
  {
  }

  /** When every candidate in reach up to `attempts` failed and the next
      one is out of reach (or `attempts` is the length), none opens. */
  lemma NoneOpens(pl: seq<Track>, step: MoveTo, start: nat, wrap: bool, opens: Track -> bool, attempts: nat)
    requires step.MoveNext? || step.MovePrev?
    requires start < |pl| && attempts <= |pl|
    requires NoneOpensUpTo(pl, step, start, opens, attempts)
    requires attempts == |pl| || !InReach(step, |pl|, start, wrap, attempts + 1)
    ensures !SomeOpens(pl, step, start, wrap, opens)
  {
    forall n | 1 <= n <= |pl| && InReach(step, |pl|, start, wrap, n)
      ensures !opens(pl[Candidate(step, |pl|, start, n)])
    {
    }
  }

  /** A candidate in reach that opens makes the move succeed. */
  lemma FirstOpens(pl: seq<Track>, step: MoveTo, start: nat, wrap: bool, opens: Track -> bool, attempts: nat)
    requires start < |pl| && 1 <= attempts <= |pl|
    requires InReach(step, |pl|, start, wrap, attempts) && opens(pl[Candidate(step, |pl|, start, attempts)])
    ensures SomeOpens(pl, step, start, wrap, opens)
  {
  }

  /** One attempt of a next-directory move that wraps, after `attempts`
      failed ones: the track tried, `index`, is the skip target or the
      track after the last one tried; if it opens the move has landed,
      otherwise one more attempt has failed. */
  lemma NextDirAttempt(pl: seq<Track>, start: nat, opens: Track -> bool, cur: nat, attempts: nat, skip: Option<nat>,
                       skip': Option<nat>, index: nat, played: bool)
    requires start < |pl| && cur < |pl| && attempts < |pl| && index < |pl|
    requires played <==> opens(pl[index])
    requires DirProgress(pl, start, opens, cur, attempts, skip)
    requires attempts == 0 ==> skip' == Some(index) && SkipsDir(pl, cur, index)
    requires attempts > 0 ==> skip' == skip && Ok(index) == FetchNext(|pl|, cur, true)
    ensures played ==> NextDirLanded(pl, start, opens, index)
    ensures !played ==> DirProgress(pl, start, opens, index, attempts + 1, skip')
  {
    var len := |pl|;
    if attempts == 0 {
      assert Candidate(MoveNext, len, index, 0) == index;
      assert played ==> NoneOpensFrom(pl, index, opens, 0);
    } else {
      var j := skip.value;
      CandidateStep(MoveNext, len, j, true, attempts);
      assert index == Candidate(MoveNext, len, j, attempts);
    }
  }

  /** The bookkeeping of one attempt: from the progress before it and the
      index `MoveIndex` produced (`next`, and whether its track opens,
      `played`), the move fails for good, lands, or makes progress. */
  lemma AttemptOutcome(pl: seq<Track>, step: MoveTo, wrap: bool, start: nat, opens: Track -> bool, cur: nat,
                       attempts: nat, filesLeft: nat, skip: Option<nat>, next: Result<nat, PlayerError>, left: nat,
                       skip': Option<nat>, played: bool)
    requires cur < |pl| && start < |pl|
    requires attempts + filesLeft < |pl| && Progress(pl, step, wrap, start, opens, cur, attempts, filesLeft + 1, skip)
    requires Moved(pl, step, wrap, cur, skip, filesLeft, next, left, skip')
    requires next.Ok? ==> next.value < |pl| && (played <==> opens(pl[next.value]))
    ensures next.Err? ==> NotLanded(pl, step, wrap, start, opens)
    ensures next.Ok? && played ==> Landed(pl, step, wrap, start, opens, next.value, attempts + 1)
    ensures next.Ok? && !played ==> Progress(pl, step, wrap, start, opens, next.value, attempts + 1, left, skip')
  {
    var len := |pl|;
    if step.MoveNext? || step.MovePrev? {
      FetchedCandidate(step, len, start, wrap, attempts + 1, next);
      if next.Err? {
        NoneOpens(pl, step, start, wrap, opens, attempts);
      } else if played {
        FirstOpens(pl, step, start, wrap, opens, attempts + 1);
      } else {
        NoneOpensExtend(pl, step, start, opens, attempts + 1);
      }
    } else if step.MoveNextDir? && wrap && next.Ok? {
      NextDirAttempt(pl, start, opens, cur, attempts, skip, skip', next.value, played);
    }
  }

  // ---------------------------------------------------------------------
  // The player thread

  /** The fields of the player thread that its commands change, as one
      value, so a contract can say which of them a command leaves alone. */
  datatype ThreadState = ThreadState(
    playlist: seq<Track>, playlistIndex: nat, sentPlaylistIndex: Option<nat>, triggeredCallbacks: seq<nat>,
    userNavigationForNextMeta: bool, needFastRead: bool, hasOutput: bool, outputIsPaused: bool,
    responses: seq<PlayerResponse>)

  /** The commands that move through the playlist; `Navigated` states
      what they do. */
  predicate IsMove(cmd: PlayerCmd) {
    cmd.Play? || cmd.Next? || cmd.Prev? || cmd.NextDir? || cmd.PrevDir?
  }

  /** A seek to `target`: the reached position is sent and nothing else
      changes, or the seek fails and nothing changes at all. */
  ghost predicate SeekOutcome(seek: Duration -> Option<Duration>, target: Duration, s0: ThreadState, s: ThreadState,
                              r: Result<bool, PlayerError>)
  {
    && (seek(target).Some? ==> r == Ok(true) && s == s0.(responses := s0.responses + [Seeked(seek(target).value)]))
    && (seek(target).None? ==> r.Err? && s == s0)
  }

  /** What a command other than a move does to the thread, from the fields
      `s0` to the fields `s`, with the result `r`: each command sets the
      fields its handler sets, and every other field keeps its value. */
  ghost predicate Handled(cmd: PlayerCmd, dec: DecoderView, s0: ThreadState, s: ThreadState, r: Result<bool, PlayerError>)
    requires !IsMove(cmd)
  {
    var stopped := s0.responses + [PlaybackStateChanged(Stopped, 0)];
    match cmd
    case SetPlaylist(tracks) =>
      r == Ok(true)
      && s == s0.(playlist := tracks, playlistIndex := 0, hasOutput := false, sentPlaylistIndex := None, responses := stopped)
    case LoadMeta(index) =>
      var pl := s0.playlist;
      var i := s.playlistIndex;
      && r == Ok(true)
      && s == s0.(playlistIndex := i, hasOutput := false, sentPlaylistIndex := None, responses := s.responses)
      && ((exists k :: index <= k < |pl| && dec.loadMeta(pl[k]).Some?) ==>
            && index <= i < |pl| && dec.loadMeta(pl[i]).Some?
            && (forall k :: index <= k < i ==> dec.loadMeta(pl[k]).None?)
            && s.responses == stopped + [NewPlaylistIndex(i, pl[i], false), NewMeta(dec.loadMeta(pl[i]).value, false)])
      && (!(exists k :: index <= k < |pl| && dec.loadMeta(pl[k]).Some?) ==>
            i == s0.playlistIndex && s.responses == stopped)
    case Pause | UnPause =>
      var paused := cmd.Pause?;
      && (r.Ok? <==> s0.hasOutput && dec.outputOk)
      && (r.Ok? ==> r == Ok(true)
                    && s == s0.(outputIsPaused := paused,
                                responses := s0.responses + [PlaybackStateChanged(if paused then Paused else Playing, dec.position)]))
      && (r.Err? ==> s == s0)
    case Stop =>
      r == Ok(true) && s == s0.(hasOutput := false, sentPlaylistIndex := None, responses := stopped)
    case RequestPosition =>
      r == Ok(true) && s == s0.(responses := s0.responses + [PositionRequested(dec.position)])
    case SeekBy(forward, length) =>
      SeekOutcome(dec.seek, SeekByTarget(forward, dec.position, length), s0, s, r)
    case SeekTo(position) =>
      SeekOutcome(dec.seek, position, s0, s, r)
    case SetVolume(volume) =>
      r == Ok(true) && s == s0.(responses := s0.responses + [VolumeSet(dec.setVolume(volume))])
    case Exit =>
      r == Ok(false) && s == s0.(responses := s0.responses + [Exited])
  }

  /** Only `SetPlaylist` replaces the playlist and only it and `LoadMeta`
      move the current index; no command other than a move touches the
      callbacks already triggered or the flags set for the next track. */
  lemma HandledKeepsPlace(cmd: PlayerCmd, dec: DecoderView, s0: ThreadState, s: ThreadState, r: Result<bool, PlayerError>)
    requires !IsMove(cmd) && Handled(cmd, dec, s0, s, r)
    ensures !cmd.SetPlaylist? ==> s.playlist == s0.playlist
    ensures !cmd.SetPlaylist? && !cmd.LoadMeta? ==> s.playlistIndex == s0.playlistIndex
    ensures s.triggeredCallbacks == s0.triggeredCallbacks && s.needFastRead == s0.needFastRead
            && s.userNavigationForNextMeta == s0.userNavigationForNextMeta
    ensures s0.responses <= s.responses
  {
  }

  class PlayerThread {
    var playlist: seq<Track>
    var playlistIndex: nat
    var sentPlaylistIndex: Option<nat>
    const positionCallbacks: Option<seq<PositionCallback>>
    var triggeredCallbacks: seq<nat>
    var userNavigationForNextMeta: bool
    var needFastRead: bool
    var hasOutput: bool
    var outputIsPaused: bool
    /** Every response sent to the client, oldest first. */
    var responses: seq<PlayerResponse>

    /** The current index is in the playlist, or zero. */
    ghost predicate Valid()
      reads this
    {
      playlistIndex < |playlist| || playlistIndex == 0
    }

    /** The thread's fields as one value. */
    ghost function State(): ThreadState
      reads this
    {
      ThreadState(playlist, playlistIndex, sentPlaylistIndex, triggeredCallbacks, userNavigationForNextMeta,
                  needFastRead, hasOutput, outputIsPaused, responses)
    }

    /** `PlayerThread::new` */
    constructor (positionCallbacks: Option<seq<PositionCallback>>)
      ensures Valid()
      ensures this.positionCallbacks == positionCallbacks
      ensures playlist == [] && playlistIndex == 0 && sentPlaylistIndex.None?
      ensures triggeredCallbacks == [] && !userNavigationForNextMeta && needFastRead
      ensures !hasOutput && !outputIsPaused && responses == []
    {
      this.positionCallbacks := positionCallbacks;
      playlist := [];
      playlistIndex := 0;
      sentPlaylistIndex := None;
      triggeredCallbacks := [];
      userNavigationForNextMeta := false;
      needFastRead := true;
      hasOutput := false;
      outputIsPaused := false;
      responses := [];
    }

    /** The directory of the track at `index`. */
    function Dir(index: nat): string
      reads this`playlist
      requires index < |playlist|
    {
      DirAt(playlist, index)
    }

    /** `stop`: the output is dropped, the sent index forgotten and the client
        told that playback stopped. */
    method Stop()
      modifies this`hasOutput, this`sentPlaylistIndex, this`responses
      ensures !hasOutput && sentPlaylistIndex.None?
      ensures responses == old(responses) + [PlaybackStateChanged(Stopped, 0)]
    {
      hasOutput := false;
      sentPlaylistIndex := None;
      responses := responses + [PlaybackStateChanged(Stopped, 0)];
    }

    /** `set_playlist`: stop, then take the new playlist from its start. */
    method SetPlaylist(files: seq<Track>)
      modifies this`hasOutput, this`sentPlaylistIndex, this`responses, this`playlist, this`playlistIndex
      ensures Valid()
      ensures playlist == files && playlistIndex == 0
      ensures !hasOutput && sentPlaylistIndex.None?
      ensures responses == old(responses) + [PlaybackStateChanged(Stopped, 0)]
    {
      Stop();
      playlist := files;
      playlistIndex := 0;
    }

    /** `send_playlist_index`: tells the client the current index unless it
        was the last one told or is not in the playlist. Afterwards the
        current index counts as told, so a second call sends nothing. */
    method SendPlaylistIndex(userNavigation: bool)
      modifies this`sentPlaylistIndex, this`responses
      ensures old(sentPlaylistIndex) == Some(playlistIndex) || playlistIndex >= |playlist| ==>
                sentPlaylistIndex == old(sentPlaylistIndex) && responses == old(responses)
      ensures old(sentPlaylistIndex) != Some(playlistIndex) && playlistIndex < |playlist| ==>
                sentPlaylistIndex == Some(playlistIndex)
                && responses == old(responses)
                   + [NewPlaylistIndex(playlistIndex, playlist[playlistIndex], userNavigation)]
      ensures playlistIndex < |playlist| ==> sentPlaylistIndex == Some(playlistIndex)
    {
      if sentPlaylistIndex == Some(playlistIndex) {
        return;
      }
      if playlistIndex >= |playlist| {
        return;
      }
      responses := responses + [NewPlaylistIndex(playlistIndex, playlist[playlistIndex], userNavigation)];
      sentPlaylistIndex := Some(playlistIndex);
    }

    /** `play`: `index` (or the current index) must be in the playlist; it
        becomes the current index even when the decoder cannot play it. On
        success the fired callbacks are forgotten, the index is sent and the
        client is told playback started. */
    method Play(index: Option<nat>, userNavigation: bool, opens: Track -> bool) returns (r: Result<Unit, PlayerError>)
      requires Valid()
      modifies this`playlistIndex, this`needFastRead, this`triggeredCallbacks, this`sentPlaylistIndex,
               this`userNavigationForNextMeta, this`responses
      ensures Valid()
      ensures var i := index.UnwrapOr(old(playlistIndex));
              && (r.Ok? <==> i < |playlist| && opens(playlist[i]))
              && (i >= |playlist| ==> r == Err(NotInPlaylist) && unchanged(this))
              && (i < |playlist| ==> playlistIndex == i)
              && (i < |playlist| && !opens(playlist[i]) ==>
                    r == Err(CannotPlay) && responses == old(responses)
                    && triggeredCallbacks == old(triggeredCallbacks) && sentPlaylistIndex == old(sentPlaylistIndex))
              && (r.Ok? ==>
                    && needFastRead && triggeredCallbacks == [] && userNavigationForNextMeta == userNavigation
                    && sentPlaylistIndex == Some(i)
                    && responses == old(responses)
                       + (if old(sentPlaylistIndex) == Some(i) then [] else [NewPlaylistIndex(i, playlist[i], userNavigation)])
                       + [PlaybackStateChanged(Playing, 0)])
    {
      var i := index.UnwrapOr(playlistIndex);
      if i >= |playlist| {
        return Err(NotInPlaylist);
      }
      playlistIndex := i;
      if !opens(playlist[i]) {
        return Err(CannotPlay);
      }
      needFastRead := true;
      triggeredCallbacks := [];
      SendPlaylistIndex(userNavigation);
      userNavigationForNextMeta := userNavigation;
      responses := responses + [PlaybackStateChanged(Playing, 0)];
      r := Ok(Unit);
    }

    /** After a successful play: the current index was sent and the last
        response says that playback started. */
    ghost predicate Started()
      reads this
    {
      sentPlaylistIndex == Some(playlistIndex) && responses != []
      && responses[|responses| - 1] == PlaybackStateChanged(Playing, 0)
    }

    /** `fetch_next_playlist_index`, which tells the client that the playlist
        ended when it fails and `emitEnded` is set. */
    method FetchNextIndex(cur: nat, wrap: bool, emitEnded: bool) returns (r: Result<nat, PlayerError>)
      requires |playlist| > 0
      modifies this`responses
      ensures r == FetchNext(|playlist|, cur, wrap)
      ensures responses == old(responses) + (if r.Err? && emitEnded then [PlaylistEnded] else [])
    {
      r := FetchNext(|playlist|, cur, wrap);
      if r.Err? && emitEnded {
        responses := responses + [PlaylistEnded];
      }
    }

    /** The tracks from `lo` up to `hi` are all in directory `d`, and none
        of them is just before `stop`. */
    ghost predicate RunInDir(lo: nat, hi: nat, stop: nat, d: string)
      reads this
      requires hi <= |playlist|
    {
      forall k :: lo <= k < hi ==> k + 1 != stop && Dir(k) == d
    }

    lemma RunExtend(lo: nat, hi: nat, stop: nat, d: string)
      requires 0 < lo <= hi <= |playlist| && RunInDir(lo, hi, stop, d)
      requires lo != stop && Dir(lo - 1) == d
      ensures RunInDir(lo - 1, hi, stop, d)
    {
    }

    /** The directory whose first track the walk back from `i` looks for:
        that of `i` when it is a real boundary, that of `cur` otherwise. */
    function RunDir(i: nat, cur: nat, stop: nat): string
      reads this
      requires i < |playlist| && cur < |playlist|
    {
      if i != 0 && i != stop && Dir(i) != Dir(cur) then Dir(i) else Dir(cur)
    }

    /** The outcome `r` of walking back from the index before `cur` to the
        first track of its directory (see `FirstIndexInDir`), `left` files
        remaining: it starts the run of tracks in that directory, or the run
        was longer than the files left. */
    ghost predicate WalkedBack(cur: nat, stop: nat, wrap: bool, filesLeft: nat, r: Result<nat, PlayerError>, left: nat)
      reads this
      requires cur < |playlist|
    {
      var i0 := FetchPrev(|playlist|, cur, wrap);
      && (i0.Err? ==> r.Err?)
      && (i0.Ok? ==>
            var d := RunDir(i0.value, cur, stop);
            && (r.Ok? ==>
                  && r.value <= i0.value && left + (i0.value - r.value) == filesLeft
                  && RunInDir(r.value, i0.value, stop, d)
                  && (r.value == 0 || r.value == stop || Dir(r.value - 1) != d))
            && (r.Err? ==>
                  && filesLeft < i0.value
                  && RunInDir(i0.value - filesLeft - 1, i0.value, stop, d)))
    }

    /** `fetch_first_playlist_index_in_dir`: from the index before `cur`,
        walk back to the first track of its directory (the directory of
        `cur` when the previous track shares it or sits at a boundary),
        stopping at index 0 and at `stop`. Each step back costs one of
        `filesLeft`; running out is an error. */
    method FirstIndexInDir(cur: nat, stop: nat, wrap: bool, filesLeft: nat) returns (r: Result<nat, PlayerError>, left: nat)
      requires cur < |playlist|
      ensures left <= filesLeft && (r.Ok? ==> r.value < |playlist|)
      ensures WalkedBack(cur, stop, wrap, filesLeft, r, left)
    {
      var curDir := Dir(cur);
      var prev := FetchPrev(|playlist|, cur, wrap);
      if prev.Err? {
        return Err(prev.error), filesLeft;
      }
      var index: nat := prev.value;
      if index != 0 && index != stop && Dir(index) != curDir {
        curDir := Dir(index);
      }
      assert curDir == RunDir(index, cur, stop);
      left := filesLeft;
      while index != 0 && index != stop && Dir(index - 1) == curDir
        invariant index <= prev.value < |playlist|
        invariant left + (prev.value - index) == filesLeft
        invariant RunInDir(index, prev.value, stop, curDir)
      {
        RunExtend(index, prev.value, stop, curDir);
        var d := DecValidFiles(left);
        if d.Err? {
          assert left == 0 && index - 1 == prev.value - filesLeft - 1;
          assert RunInDir(prev.value - filesLeft - 1, prev.value, stop, curDir);
          return Err(d.error), left;
        }
        left := d.value;
        var p := FetchPrev(|playlist|, index, wrap);
        assert p == Ok(index - 1);
        index := p.value;
      }
      r := Ok(index);
    }

    /** One step of `move_and_play` after a file was counted: the index to
        try next. A next or previous move takes the neighbour; a next-directory
        move skips, on its first step, the rest of the current directory; a
        previous-directory move goes to the first track of the previous
        directory, unless the next track is still in the directory just
        played. Tracks skipped cost files left. */
    method MoveIndex(step: MoveTo, wrap: bool, cur: nat, start: nat, skip: Option<nat>, filesLeft: nat)
      returns (r: Result<nat, PlayerError>, left: nat, skip': Option<nat>)
      requires |playlist| > 0 && cur < |playlist| && start < |playlist|
      requires skip.Some? ==> skip.value < |playlist|
      modifies this`responses
      ensures left <= filesLeft
      ensures r.Ok? ==> r.value < |playlist|
      ensures skip'.Some? ==> skip'.value < |playlist|
      ensures old(responses) <= responses
      ensures step.MoveNext? ==> r == FetchNext(|playlist|, cur, wrap) && left == filesLeft
      ensures step.MovePrev? ==> r == FetchPrev(|playlist|, cur, wrap) && left == filesLeft
      ensures step.MoveNextDir? && skip.Some? ==> r == FetchNext(|playlist|, cur, wrap) && skip' == skip && left == filesLeft
      ensures step.MoveNextDir? && skip.None? && r.Ok? ==> skip' == Some(r.value) && SkipsDir(playlist, cur, r.value) && (r.value == 0 ==> wrap)
      ensures Moved(playlist, step, wrap, cur, skip, filesLeft, r, left, skip')
      ensures step.MovePrevDir? ==>
                var nx := FetchNext(|playlist|, cur, wrap);
                if skip.Some? && nx.Ok? && start != nx.value && Dir(nx.value) == Dir(cur) then
                  r == nx && skip' == skip && left == filesLeft
                else
                  && WalkedBack(if skip.Some? then skip.value else cur, start, wrap, filesLeft, r, left)
                  && (r.Ok? ==> skip' == Some(r.value))
    {
      var len := |playlist|;
      ghost var r0 := responses;
      left, skip' := filesLeft, skip;
      match step {
        case MoveNext =>
          r := FetchNextIndex(cur, wrap, true);
        case MovePrev =>
          r := FetchPrev(len, cur, wrap);
        case MoveNextDir =>
          r := FetchNextIndex(cur, wrap, true);
          if r.Err? || skip.Some? {
            return;
          }
          var index: nat := r.value;
          var curDir := Dir(cur);
          while index != 0 && Dir(index) == curDir
            invariant index < len && left <= filesLeft && r0 <= responses
            invariant index == 0 || cur < index
            invariant index == 0 ==> wrap
            invariant forall k :: cur < k < (if index == 0 then len else index) ==> DirAt(playlist, k) == curDir
            decreases left
          {
            var d := DecValidFiles(left);
            if d.Err? {
              return Err(d.error), left, skip';
            }
            left := d.value;
            var n := FetchNextIndex(index, wrap, true);
            if n.Err? {
              return n, left, skip';
            }
            index := n.value;
          }
          r, skip' := Ok(index), Some(index);
        case MovePrevDir =>
          var nx := FetchNext(len, cur, wrap);
          if skip.Some? && nx.Ok? && start != nx.value && Dir(nx.value) == Dir(cur) {
            return nx, left, skip';
          }
          var from := if skip.Some? then skip.value else cur;
          r, left := FirstIndexInDir(from, start, wrap, filesLeft);
          if r.Ok? {
            skip' := Some(r.value);
          }
      }
    }

    /** The move of one attempt of `move_and_play` from `cur`, with
        `filesLeft` files left after this attempt: given the progress so far
        (`attempts` failed plays), the move fails for good, or reaches a
        track where it lands if that track opens and has made one more
        failed attempt otherwise. */
    method MoveStep(step: MoveTo, wrap: bool, opens: Track -> bool, cur: nat, start: nat, skip: Option<nat>,
                    filesLeft: nat, ghost attempts: nat)
      returns (next: Result<nat, PlayerError>, left: nat, skip': Option<nat>)
      requires |playlist| > 0 && cur < |playlist| && start < |playlist|
      requires skip.Some? ==> skip.value < |playlist|
      requires attempts + filesLeft < |playlist| && Progress(playlist, step, wrap, start, opens, cur, attempts, filesLeft + 1, skip)
      modifies this`responses
      ensures old(responses) <= responses
      ensures left <= filesLeft
      ensures skip'.Some? ==> skip'.value < |playlist|
      ensures Moved(playlist, step, wrap, cur, skip, filesLeft, next, left, skip')
      ensures next.Ok? ==> next.value < |playlist|
      ensures next.Err? ==> NotLanded(playlist, step, wrap, start, opens)
      ensures next.Ok? && opens(playlist[next.value]) ==> Landed(playlist, step, wrap, start, opens, next.value, attempts + 1)
      ensures next.Ok? && !opens(playlist[next.value]) ==>
                Progress(playlist, step, wrap, start, opens, next.value, attempts + 1, left, skip')
    {
      next, left, skip' := MoveIndex(step, wrap, cur, start, skip, filesLeft);
      if next.Err? {
        AttemptOutcome(playlist, step, wrap, start, opens, cur, attempts, filesLeft, skip, next, left, skip', false);
      } else {
        AttemptOutcome(playlist, step, wrap, start, opens, cur, attempts, filesLeft, skip, next, left, skip',
                       opens(playlist[next.value]));
      }
    }

    /** The move and the play of one attempt of `move_and_play`: move from
        `cur` (`MoveStep`) and play the track moved to. */
    method MoveThenPlay(step: MoveTo, wrap: bool, userNavigation: bool, opens: Track -> bool,
                        cur: nat, start: nat, skip: Option<nat>, filesLeft: nat, ghost attempts: nat)
      returns (next: Result<nat, PlayerError>, r: Result<Unit, PlayerError>, left: nat, skip': Option<nat>)
      requires Valid() && |playlist| > 0 && cur < |playlist| && start < |playlist|
      requires skip.Some? ==> skip.value < |playlist|
      requires attempts + filesLeft < |playlist| && Progress(playlist, step, wrap, start, opens, cur, attempts, filesLeft + 1, skip)
      modifies this`playlistIndex, this`needFastRead, this`triggeredCallbacks, this`sentPlaylistIndex,
               this`userNavigationForNextMeta, this`responses
      ensures Valid() && playlist == old(playlist)
      ensures left <= filesLeft
      ensures skip'.Some? ==> skip'.value < |playlist|
      ensures Moved(playlist, step, wrap, cur, skip, filesLeft, next, left, skip')
      ensures next.Ok? ==> next.value < |playlist| && playlistIndex == next.value
                           && (r.Ok? <==> opens(playlist[next.value]))
      ensures next.Err? ==> r.Err? && NotLanded(playlist, step, wrap, start, opens)
      ensures next.Ok? && r.Ok? ==> Landed(playlist, step, wrap, start, opens, next.value, attempts + 1)
      ensures next.Ok? && r.Err? ==> Progress(playlist, step, wrap, start, opens, next.value, attempts + 1, left, skip')
      ensures old(responses) <= responses
      ensures r.Ok? ==> Started()
    {
      next, left, skip' := MoveStep(step, wrap, opens, cur, start, skip, filesLeft, attempts);
      if next.Err? {
        return next, Err(next.error), left, skip';
      }
      r := Play(Some(next.value), userNavigation, opens);
    }

    /** One attempt of `move_and_play`: spend one of the `filesLeft` files,
        then move and play (`MoveThenPlay`). With no file left the move
        fails for good with `NoValidFiles`. */
    method TryMove(step: MoveTo, wrap: bool, userNavigation: bool, opens: Track -> bool,
                   cur: nat, start: nat, skip: Option<nat>, filesLeft: nat, ghost attempts: nat)
      returns (next: Result<nat, PlayerError>, r: Result<Unit, PlayerError>, left: nat, skip': Option<nat>)
      requires Valid() && |playlist| > 0 && cur < |playlist| && start < |playlist|
      requires skip.Some? ==> skip.value < |playlist|
      requires attempts + filesLeft <= |playlist| && Progress(playlist, step, wrap, start, opens, cur, attempts, filesLeft, skip)
      modifies this`playlistIndex, this`needFastRead, this`triggeredCallbacks, this`sentPlaylistIndex,
               this`userNavigationForNextMeta, this`responses
      ensures Valid() && playlist == old(playlist)
      ensures filesLeft == 0 ==> next == Err(NoValidFiles)
      ensures next.Ok? ==> left < filesLeft
      ensures skip'.Some? ==> skip'.value < |playlist|
      ensures next.Ok? ==> next.value < |playlist| && playlistIndex == next.value
                           && (r.Ok? <==> opens(playlist[next.value]))
      ensures next.Err? ==> r.Err? && NotLanded(playlist, step, wrap, start, opens)
      ensures next.Ok? && r.Ok? ==> Landed(playlist, step, wrap, start, opens, next.value, attempts + 1)
      ensures next.Ok? && r.Err? ==> Progress(playlist, step, wrap, start, opens, next.value, attempts + 1, left, skip')
      ensures old(responses) <= responses
      ensures r.Ok? ==> Started()
    {
      var d := DecValidFiles(filesLeft);
      if d.Err? {
        if step.MoveNext? || step.MovePrev? {
          NoneOpens(playlist, step, start, wrap, opens, attempts);
        }
        return Err(d.error), Err(d.error), filesLeft, skip;
      }
      next, r, left, skip' := MoveThenPlay(step, wrap, userNavigation, opens, cur, start, skip, d.value, attempts);
    }

    /** `move_and_play`: try tracks in the direction of `step` until one
        plays. Every attempt costs one of the playlist's length in files
        left (as does every track skipped inside a directory move), so at
        most that many plays are tried. For next and previous moves the
        outcome is the first candidate, in order, that plays; a
        next-directory move that wraps lands on the first track that plays
        from the start of the next directory on. */
    method MoveAndPlay(step: MoveTo, wrap: bool, userNavigation: bool, opens: Track -> bool)
      returns (r: Result<Unit, PlayerError>, ghost attempts: nat)
      requires Valid()
      modifies this`playlistIndex, this`needFastRead, this`triggeredCallbacks, this`sentPlaylistIndex,
               this`userNavigationForNextMeta, this`responses
      ensures Valid()
      ensures old(playlist) == [] ==> r == Err(NoFiles) && unchanged(this)
      ensures attempts <= |playlist|
      ensures r.Ok? ==> playlistIndex < |playlist| && opens(playlist[playlistIndex]) && Started()
      ensures old(responses) <= responses
      ensures (step.MoveNext? || step.MovePrev?) && |playlist| > 0 ==>
                var start := old(playlistIndex);
                && (r.Ok? <==> SomeOpens(playlist, step, start, wrap, opens))
                && (r.Ok? ==> 1 <= attempts && InReach(step, |playlist|, start, wrap, attempts)
                              && playlistIndex == Candidate(step, |playlist|, start, attempts)
                              && NoneOpensUpTo(playlist, step, start, opens, attempts - 1))
      ensures step.MoveNextDir? && wrap && r.Ok? ==> NextDirLanded(playlist, old(playlistIndex), opens, playlistIndex)
    {
      if |playlist| == 0 {
        return Err(NoFiles), 0;
      }
      r, attempts := MoveFrom(step, wrap, userNavigation, opens);
    }

    /** The loop of `move_and_play` on a non-empty playlist. */
    method MoveFrom(step: MoveTo, wrap: bool, userNavigation: bool, opens: Track -> bool)
      returns (r: Result<Unit, PlayerError>, ghost attempts: nat)
      requires Valid() && |playlist| > 0
      modifies this`playlistIndex, this`needFastRead, this`triggeredCallbacks, this`sentPlaylistIndex,
               this`userNavigationForNextMeta, this`responses
      ensures Valid()
      ensures attempts <= |playlist|
      ensures r.Ok? ==> playlistIndex < |playlist| && opens(playlist[playlistIndex]) && Started()
      ensures old(responses) <= responses
      ensures old(playlistIndex) < |playlist|
      ensures r.Ok? ==> Landed(playlist, step, wrap, old(playlistIndex), opens, playlistIndex, attempts)
      ensures r.Err? ==> NotLanded(playlist, step, wrap, old(playlistIndex), opens)
    {
      attempts := 0;
      var len := |playlist|;
      var filesLeft: nat := len;
      var start: nat := playlistIndex;
      var cur: nat := playlistIndex;
      var indexAfterDirSkip: Option<nat> := None;
      ghost var r0 := responses;
      while true
        invariant playlist == old(playlist) && Valid() && start == old(playlistIndex) && r0 <= responses
        invariant cur < len && attempts + filesLeft <= len
        invariant indexAfterDirSkip.Some? ==> indexAfterDirSkip.value < len
        invariant Progress(playlist, step, wrap, start, opens, cur, attempts, filesLeft, indexAfterDirSkip)
        decreases filesLeft
      {
        var next: Result<nat, PlayerError>;
        next, r, filesLeft, indexAfterDirSkip :=
          TryMove(step, wrap, userNavigation, opens, cur, start, indexAfterDirSkip, filesLeft, attempts);
        if next.Err? {
          return Err(next.error), attempts;
        }
        attempts := attempts + 1;
        if r.Ok? {
          return;
        }
        cur := playlistIndex;
      }
    }

    /** `load_meta`: the decoder reads the metadata of the track at `index`;
        on success it becomes the current index and the client gets the
        index and the metadata. */
    method LoadMetaAt(index: nat, loadMeta: Track -> Option<TrackMeta>) returns (r: Result<Unit, PlayerError>)
      requires index < |playlist|
      modifies this`playlistIndex, this`responses
      ensures r.Ok? <==> loadMeta(playlist[index]).Some?
      ensures r.Ok? ==> playlistIndex == index
                        && responses == old(responses) + [NewPlaylistIndex(index, playlist[index], false),
                                                          NewMeta(loadMeta(playlist[index]).value, false)]
      ensures r.Err? ==> playlistIndex == old(playlistIndex) && responses == old(responses)
    {
      var meta := loadMeta(playlist[index]);
      if meta.None? {
        return Err(CannotPlay);
      }
      playlistIndex := index;
      responses := responses + [NewPlaylistIndex(index, playlist[index], false), NewMeta(meta.value, false)];
      r := Ok(Unit);
    }

    /** The `LoadMeta` command: stop, then load the metadata of the first
        track from `index` on that has any. */
    method LoadMetaFrom(index: nat, loadMeta: Track -> Option<TrackMeta>) returns (loaded: bool)
      requires Valid()
      modifies this`hasOutput, this`sentPlaylistIndex, this`responses, this`playlistIndex
      ensures Valid() && !hasOutput && sentPlaylistIndex.None?
      ensures loaded <==> exists k :: index <= k < |playlist| && loadMeta(playlist[k]).Some?
      ensures loaded ==> && index <= playlistIndex < |playlist| && loadMeta(playlist[playlistIndex]).Some?
                         && (forall k :: index <= k < playlistIndex ==> loadMeta(playlist[k]).None?)
                         && responses == old(responses)
                            + [PlaybackStateChanged(Stopped, 0),
                               NewPlaylistIndex(playlistIndex, playlist[playlistIndex], false),
                               NewMeta(loadMeta(playlist[playlistIndex]).value, false)]
      ensures !loaded ==> playlistIndex == old(playlistIndex)
                          && responses == old(responses) + [PlaybackStateChanged(Stopped, 0)]
    {
      Stop();
      var i := index;
      loaded := false;
      while i < |playlist|
        invariant index <= i && (i > |playlist| ==> i == index)
        invariant forall k :: index <= k < i && k < |playlist| ==> loadMeta(playlist[k]).None?
        invariant playlistIndex == old(playlistIndex) && !hasOutput && sentPlaylistIndex.None?
        invariant responses == old(responses) + [PlaybackStateChanged(Stopped, 0)]
      {
        var r := LoadMetaAt(i, loadMeta);
        if r.Ok? {
          return true;
        }
        i := i + 1;
      }
    }

    /** `seek_to`: the decoder seeks and the client is told where it got. */
    method SeekToPosition(position: Duration, seek: Duration -> Option<Duration>) returns (r: Result<Unit, PlayerError>)
      modifies this`responses
      ensures seek(position).Some? ==> r.Ok? && responses == old(responses) + [Seeked(seek(position).value)]
      ensures seek(position).None? ==> r == Err(CannotSeek) && responses == old(responses)
    {
      var s := seek(position);
      if s.None? {
        return Err(CannotSeek);
      }
      responses := responses + [Seeked(s.value)];
      r := Ok(Unit);
    }

    /** `pause` and `unpause`: only with an output, which must accept the
        change; the client is told the new state. */
    method SetPaused(paused: bool, dec: DecoderView) returns (r: Result<Unit, PlayerError>)
      modifies this`outputIsPaused, this`responses
      ensures r.Ok? <==> hasOutput && dec.outputOk
      ensures r.Ok? ==> outputIsPaused == paused
                        && responses == old(responses)
                           + [PlaybackStateChanged(if paused then Paused else Playing, dec.position)]
      ensures r.Err? ==> outputIsPaused == old(outputIsPaused) && responses == old(responses)
    {
      if !hasOutput || !dec.outputOk {
        return Err(NoOutput);
      }
      outputIsPaused := paused;
      responses := responses + [PlaybackStateChanged(if paused then Paused else Playing, dec.position)];
      r := Ok(Unit);
    }

    /** `process_position_callbacks`: with callbacks, a known track duration
        and a valid position, one pass fires the due callbacks whose ids have
        not fired since the last play, in order, and records their ids. */
    method ProcessPositionCallbacks(duration: Option<Duration>, position: Option<Duration>)
      modifies this`triggeredCallbacks, this`responses
      ensures positionCallbacks.None? || duration.None? || position.None? ==>
                triggeredCallbacks == old(triggeredCallbacks) && responses == old(responses)
      ensures positionCallbacks.Some? && duration.Some? && position.Some? ==>
                var f := Fired(positionCallbacks.value, old(triggeredCallbacks), position.value, duration.value);
                triggeredCallbacks == old(triggeredCallbacks) + Ids(f)
                && responses == old(responses) + Reached(f)
      ensures NoDuplicates(old(triggeredCallbacks)) ==> NoDuplicates(triggeredCallbacks)
    {
      if positionCallbacks.None? || duration.None? || position.None? {
        return;
      }
      var callbacks, pos, dur := positionCallbacks.value, position.value, duration.value;
      ghost var t0, r0 := triggeredCallbacks, responses;
      ghost var fired: seq<PositionCallback> := [];
      var i := 0;
      while i < |callbacks|
        invariant 0 <= i <= |callbacks|
        invariant triggeredCallbacks == t0 + Ids(fired)
        invariant responses == r0 + Reached(fired)
        invariant Fired(callbacks, t0, pos, dur) == fired + Fired(callbacks[i..], triggeredCallbacks, pos, dur)
      {
        var callback := callbacks[i];
        FiredStep(callbacks, i, t0, fired, triggeredCallbacks, pos, dur);
        if callback.id !in triggeredCallbacks && MustTrigger(callback.marker, pos, dur) {
          responses := responses + [PositionCallbackReached(callback)];
          triggeredCallbacks := triggeredCallbacks + [callback.id];
          FiredAppend(fired, callback);
          fired := fired + [callback];
        }
        i := i + 1;
      }
      assert callbacks[i..] == [];
      if NoDuplicates(t0) {
        FiredOnce(callbacks, t0, pos, dur);
      }
    }

    /** What a command that moves through the playlist leaves behind, given
        the index `i0` and the responses `r0` from before it. The client is
        first told that playback stopped. On success a track that opens is
        current, its index sent and playback started; an empty playlist
        fails. `Play(index)` plays `index` (the current index by default)
        when it opens and otherwise moves on to the first track after it
        that opens, without wrapping; `Next` and `Prev` land on the first
        track that opens in their direction, with wrapping, and fail only
        when none does. */
    ghost predicate Navigated(cmd: PlayerCmd, opens: Track -> bool, i0: nat, r0: seq<PlayerResponse>,
                              r: Result<bool, PlayerError>)
      reads this
    {
      var len := |playlist|;
      && |r0| < |responses| && responses[..|r0| + 1] == r0 + [PlaybackStateChanged(Stopped, 0)]
      && (r.Ok? ==> r.value && playlistIndex < len && opens(playlist[playlistIndex]) && Started())
      && (len == 0 ==> r.Err?)
      && (cmd.Play? ==>
            var i := cmd.playIndex.UnwrapOr(i0);
            && (i < len && opens(playlist[i]) ==> r == Ok(true) && playlistIndex == i)
            && (!(i < len && opens(playlist[i])) && i0 < len ==>
                  var start := if i < len then i else i0;
                  && (r.Ok? <==> SomeOpens(playlist, MoveNext, start, false, opens))
                  && (r.Ok? ==> FirstThatOpens(playlist, MoveNext, start, false, opens, playlistIndex))))
      && ((cmd.Next? || cmd.Prev?) && i0 < len ==>
            var step := if cmd.Next? then MoveNext else MovePrev;
            && (r.Ok? <==> SomeOpens(playlist, step, i0, true, opens))
            && (r.Ok? ==> FirstThatOpens(playlist, step, i0, true, opens, playlistIndex)))
      && (cmd.NextDir? && i0 < len && r.Ok? ==> NextDirLanded(playlist, i0, opens, playlistIndex))
    }

    /** The commands that move through the playlist: `Play(index)` plays the
        track at `index`, or the next one that opens when it does not;
        `Next`, `Prev`, `NextDir` and `PrevDir` move and play with wrapping.
        Each stops the current playback first. */
    method Navigate(cmd: PlayerCmd, opens: Track -> bool) returns (r: Result<bool, PlayerError>)
      requires Valid()
      requires IsMove(cmd)
      modifies this
      ensures Valid() && playlist == old(playlist)
      ensures Navigated(cmd, opens, old(playlistIndex), old(responses), r)
    {
      ghost var r0 := responses;
      Stop();
      ghost var r1 := responses;
      var step := match cmd
        case Prev => MovePrev
        case NextDir => MoveNextDir
        case PrevDir => MovePrevDir
        case _ => MoveNext;
      if cmd.Play? {
        var p := Play(cmd.playIndex, true, opens);
        if p.Ok? {
          assert responses[..|r1|] == r1;
          return Ok(true);
        }
      }
      ghost var start := playlistIndex;
      var m;
      ghost var attempts;
      m, attempts := MoveAndPlay(step, !cmd.Play?, true, opens);
      assert r1 <= responses && responses[..|r1|] == r1;
      if m.Err? {
        return Err(m.error);
      }
      r := Ok(true);
      if (step.MoveNext? || step.MovePrev?) && |playlist| > 0 {
        assert FirstThatOpens(playlist, step, start, !cmd.Play?, opens, playlistIndex);
      }
    }

    /** The handlers of the commands other than the moves, in
        `process_client_cmd`. */
    method Handle(cmd: PlayerCmd, dec: DecoderView) returns (r: Result<bool, PlayerError>)
      requires Valid() && !IsMove(cmd)
      modifies this`playlist, this`playlistIndex, this`hasOutput, this`sentPlaylistIndex, this`outputIsPaused,
               this`responses
      ensures Valid()
      ensures Handled(cmd, dec, old(State()), State(), r)
    {
      if cmd.SetPlaylist? || cmd.LoadMeta? || cmd.Stop? {
        r := HandleStopping(cmd, dec);
      } else {
        r := HandleOutput(cmd, dec);
      }
    }

    /** The handlers of the commands that stop playback first: setting the
        playlist, loading metadata and stopping. */
    method HandleStopping(cmd: PlayerCmd, dec: DecoderView) returns (r: Result<bool, PlayerError>)
      requires Valid() && (cmd.SetPlaylist? || cmd.LoadMeta? || cmd.Stop?)
      modifies this`playlist, this`playlistIndex, this`hasOutput, this`sentPlaylistIndex, this`responses
      ensures Valid()
      ensures Handled(cmd, dec, old(State()), State(), r)
    {
      match cmd {
        case SetPlaylist(tracks) =>
          SetPlaylist(tracks);
        case LoadMeta(index) =>
          var _ := LoadMetaFrom(index, dec.loadMeta);
        case Stop =>
          Stop();
      }
      r := Ok(true);
    }

    /** The handlers of the commands that only act on the output or answer
        the client: pausing, seeking, the position, the volume and exiting. */
    method HandleOutput(cmd: PlayerCmd, dec: DecoderView) returns (r: Result<bool, PlayerError>)
      requires !IsMove(cmd) && !(cmd.SetPlaylist? || cmd.LoadMeta? || cmd.Stop?)
      modifies this`outputIsPaused, this`responses
      ensures Handled(cmd, dec, old(State()), State(), r)
    {
      match cmd {
        case Pause =>
          var p := SetPaused(true, dec);
          if p.Err? {
            return Err(p.error);
          }
        case UnPause =>
          var p := SetPaused(false, dec);
          if p.Err? {
            return Err(p.error);
          }
        case RequestPosition =>
          responses := responses + [PositionRequested(dec.position)];
        case SeekBy(forward, length) =>
          var s := SeekToPosition(SeekByTarget(forward, dec.position, length), dec.seek);
          if s.Err? {
            return Err(s.error);
          }
        case SeekTo(position) =>
          var s := SeekToPosition(position, dec.seek);
          if s.Err? {
            return Err(s.error);
          }
        case SetVolume(volume) =>
          responses := responses + [VolumeSet(dec.setVolume(volume))];
        case Exit =>
          responses := responses + [Exited];
          return Ok(false);
      }
      r := Ok(true);
    }

    /** `process_client_cmd` for one received command (None when nothing
        arrived in time): Ok(false) only for `Exit`, which ends the thread. */
    method ProcessClientCmd(cmd: Option<PlayerCmd>, dec: DecoderView) returns (r: Result<bool, PlayerError>)
      requires Valid()
      modifies this
      ensures Valid()
      ensures cmd.None? ==> r == Ok(true) && unchanged(this)
      ensures r == Ok(false) <==> cmd == Some(PlayerCmd.Exit)
      ensures cmd.Some? && IsMove(cmd.value) ==>
                playlist == old(playlist) && Navigated(cmd.value, dec.opens, old(playlistIndex), old(responses), r)
      ensures cmd.Some? && !IsMove(cmd.value) ==> Handled(cmd.value, dec, old(State()), State(), r)
    {
      if cmd.None? {
        return Ok(true);
      }
      if IsMove(cmd.value) {
        r := Navigate(cmd.value, dec.opens);
        assert r != Ok(false);
      } else {
        r := Handle(cmd.value, dec);
      }
    }
  }
}

=== FILE: playlist_man.dfy ===
/** src/playlist_man.rs: turning the paths given on the command line into the
    playlist. Walking directories, making paths absolute and parsing URLs are
    file-system and library work; their outcomes are inputs of the model. */
module PlaylistMan {
  import opened Wrappers
  import opened Text
  import opened StreamBase
  import opened Cue
  import SymphoniaStream

  const FILE_SCHEME: string := "file://"

  /** `uri_to_str`: a "file://" URL becomes the path `Url::to_file_path`
      gives (`converted`); anything else, and a URL that does not convert, is
      taken as a path as it is. */
  function UriToStr(uri: string, converted: Option<string>): (path: string)
    ensures !StartsWith(uri, FILE_SCHEME) ==> path == uri
    ensures StartsWith(uri, FILE_SCHEME) && converted.Some? ==> path == converted.value
    ensures converted.None? ==> path == uri
  {
    if StartsWith(uri, FILE_SCHEME) then converted.UnwrapOr(uri) else uri
  }

  /** A plain path is never converted, whatever the URL parser would say. */
  lemma PlainPathKept(uri: string, c1: Option<string>, c2: Option<string>)
    requires uri == [] || uri[0] == '/'
    ensures UriToStr(uri, c1) == UriToStr(uri, c2) == uri
  {
  }

  /** The files found under every command-line entry, in order: `walk(p)`
      stands for the regular files `WalkDir` yields under `p`, made absolute. */
  function WalkAll(uris: seq<string>, fileUrl: string -> Option<string>, walk: string -> seq<string>): seq<string> {
    if uris == [] then []
    else WalkAll(uris[..|uris| - 1], fileUrl, walk)
         + walk(UriToStr(uris[|uris| - 1], fileUrl(uris[|uris| - 1])))
  }

  // ---------------------------------------------------------------------
  // Expanding files into tracks

  /** One track per track of the sheet, numbered by its id, in sheet order. */
  function SheetTracks(path: string, sheet: CueSheet): (r: seq<Track>)
    ensures |r| == |sheet.tracks|
    ensures forall k :: 0 <= k < |r| ==> r[k] == Track(path, Some(TrackIds(sheet)[k]))
  {
    var ids := TrackIds(sheet);
    seq(|ids|, k requires 0 <= k < |ids| => Track(path, Some(ids[k])))
  }

  /** The tracks one file contributes once `sheets` is the CUE cache: a
      playable file is a single whole-file track; a cached sheet gives its
      tracks; anything else gives none. */
  function TracksOfFile(f: string, sheets: map<string, Option<CueSheet>>): seq<Track> {
    FileChunk(f, SymphoniaStream.IsPathSupported(f), sheets)
  }

  /** `TracksOfFile` once it is known whether `f` is playable. */
  function FileChunk(f: string, playable: bool, sheets: map<string, Option<CueSheet>>): seq<Track> {
    if playable then [Track(f, None)]
    else if f in sheets && sheets[f].Some? then SheetTracks(f, sheets[f].value)
    else []
  }

  /** The tracks of all files, file by file. */
  function Expanded(files: seq<string>, sheets: map<string, Option<CueSheet>>): seq<Track> {
    if files == [] then []
    else Expanded(files[..|files| - 1], sheets) + TracksOfFile(files[|files| - 1], sheets)
  }

  /** The concatenation of `chunks`. */
  function Flatten<T>(chunks: seq<seq<T>>): seq<T> {
    if chunks == [] then [] else Flatten(chunks[..|chunks| - 1]) + chunks[|chunks| - 1]
  }

  /** Expanding file by file and concatenating is `Expanded`. */
  lemma {:induction false} FlattenChunks(files: seq<string>, sheets: map<string, Option<CueSheet>>, chunks: seq<seq<Track>>)
    requires |chunks| == |files|
    requires forall j :: 0 <= j < |files| ==> chunks[j] == TracksOfFile(files[j], sheets)
    ensures Flatten(chunks) == Expanded(files, sheets)
  {
    if files != [] {
      FlattenChunks(files[..|files| - 1], sheets, chunks[..|chunks| - 1]);
    }
  }

  /** Every expanded track belongs to one of the files. */
  lemma {:induction false} ExpandedFromFiles(files: seq<string>, sheets: map<string, Option<CueSheet>>)
    ensures forall t :: t in Expanded(files, sheets) ==> t.filename in files
  {
    if files != [] {
      var init := files[..|files| - 1];
      ExpandedFromFiles(init, sheets);
      var last := TracksOfFile(files[|files| - 1], sheets);
      forall t | t in Expanded(files, sheets) ensures t.filename in files {
        if t in last {
          var k :| 0 <= k < |last| && last[k] == t;
          assert t.filename == files[|files| - 1];
        } else {
          assert t in Expanded(init, sheets);
          assert t.filename in init;
        }
      }
    }
  }

  // ---------------------------------------------------------------------
  // Dropping the audio files that CUE sheets cover

  /** The `source_filename`s of the given sheets. */
  function SourceFilenames(sheets: set<CueSheet>): (r: set<string>)
    ensures forall f :: f in r <==> exists s :: s in sheets && s.sourceFilename == f
  {
    set s | s in sheets :: s.sourceFilename
  }

  /** The tracks whose file is not one of `sources`, in their order. */
  function WithoutSources(tracks: seq<Track>, sources: set<string>): (r: seq<Track>)
    ensures forall t :: multiset(r)[t] == if t.filename in sources then 0 else multiset(tracks)[t]
  {
    if tracks == [] then []
    else
      var init := tracks[..|tracks| - 1];
      var last := tracks[|tracks| - 1];
      assert tracks == init + [last];
      WithoutSources(init, sources) + if last.filename in sources then [] else [last]
  }

  // ---------------------------------------------------------------------
  // Sorting

  /** `nameLe(a, b)` stands for `compare_str(a.to_uppercase(),
      b.to_uppercase()) != Greater`, the natural order of the upper-cased
      names. Any total preorder will do. */
  ghost predicate TotalPreorder(nameLe: (string, string) -> bool) {
    && (forall a, b :: nameLe(a, b) || nameLe(b, a))
    && (forall a, b, c :: nameLe(a, b) && nameLe(b, c) ==> nameLe(a, c))
  }

  /** `Option<usize>::cmp(..) != Greater`: None first, then by number. */
  predicate IndexLe(a: Option<nat>, b: Option<nat>) {
    match (a, b)
    case (None, _) => true
    case (Some(_), None) => false
    case (Some(x), Some(y)) => x <= y
  }

  /** The order of the playlist: by name, and by index among equal names. */
  predicate TrackLe(nameLe: (string, string) -> bool, a: Track, b: Track) {
    nameLe(a.filename, b.filename) && (nameLe(b.filename, a.filename) ==> IndexLe(a.index, b.index))
  }

  ghost predicate Sorted(nameLe: (string, string) -> bool, ts: seq<Track>) {
    forall i, j :: 0 <= i < j < |ts| ==> TrackLe(nameLe, ts[i], ts[j])
  }

  lemma TrackLeTotal(nameLe: (string, string) -> bool, a: Track, b: Track)
    requires TotalPreorder(nameLe)
    ensures TrackLe(nameLe, a, b) || TrackLe(nameLe, b, a)
  {
  }

  lemma TrackLeTransitive(nameLe: (string, string) -> bool, a: Track, b: Track, c: Track)
    requires TotalPreorder(nameLe)
    requires TrackLe(nameLe, a, b) && TrackLe(nameLe, b, c)
    ensures TrackLe(nameLe, a, c)
  {
    assert nameLe(a.filename, c.filename);
    if nameLe(c.filename, a.filename) {
      assert nameLe(b.filename, a.filename) && nameLe(c.filename, b.filename);
    }
  }

  /** Puts `t` in front of the first track that comes strictly after it,
      so behind every track of equal rank. */
  function Insert(nameLe: (string, string) -> bool, t: Track, ts: seq<Track>): (r: seq<Track>)
    ensures multiset(r) == multiset(ts) + multiset{t}
  {
    if ts == [] then [t]
    else if !TrackLe(nameLe, ts[0], t) then [t] + ts
    else
      assert ts == [ts[0]] + ts[1..];
      [ts[0]] + Insert(nameLe, t, ts[1..])
  }

  /** `sort_by` with the playlist order: each track in turn goes behind the
      tracks of equal rank already placed, so the sort is stable. */
  function SortTracks(nameLe: (string, string) -> bool, ts: seq<Track>): (r: seq<Track>)
    ensures multiset(r) == multiset(ts)
  {
    if ts == [] then []
    else
      assert ts == ts[..|ts| - 1] + [ts[|ts| - 1]];
      Insert(nameLe, ts[|ts| - 1], SortTracks(nameLe, ts[..|ts| - 1]))
  }

  lemma {:induction false} InsertSorted(nameLe: (string, string) -> bool, t: Track, ts: seq<Track>)
    requires TotalPreorder(nameLe) && Sorted(nameLe, ts)
    ensures Sorted(nameLe, Insert(nameLe, t, ts))
  {
    if ts != [] && TrackLe(nameLe, ts[0], t) {
      InsertSorted(nameLe, t, ts[1..]);
      HeadBelowInsert(nameLe, t, ts);
      ConsSorted(nameLe, ts[0], Insert(nameLe, t, ts[1..]));
    } else if ts != [] {
      TrackLeTotal(nameLe, t, ts[0]);
      forall u | u in ts ensures TrackLe(nameLe, t, u) {
        if u != ts[0] {
          TrackLeTransitive(nameLe, t, ts[0], u);
        }
      }
      ConsSorted(nameLe, t, ts);
    }
  }

  /** The head of a sorted list comes before everything inserting a later
      track into its tail gives. */
  lemma HeadBelowInsert(nameLe: (string, string) -> bool, t: Track, ts: seq<Track>)
    requires ts != [] && Sorted(nameLe, ts) && TrackLe(nameLe, ts[0], t)
    ensures forall u :: u in Insert(nameLe, t, ts[1..]) ==> TrackLe(nameLe, ts[0], u)
  {
    var rest := Insert(nameLe, t, ts[1..]);
    forall u | u in rest ensures TrackLe(nameLe, ts[0], u) {
      assert u in multiset(rest);
      if u != t {
        assert u in ts[1..];
      }
    }
  }

  /** A track before every track of a sorted list extends it in front. */
  lemma ConsSorted(nameLe: (string, string) -> bool, x: Track, rest: seq<Track>)
    requires Sorted(nameLe, rest) && forall u :: u in rest ==> TrackLe(nameLe, x, u)
    ensures Sorted(nameLe, [x] + rest)
  {
    var r := [x] + rest;
    forall i, j | 0 <= i < j < |r| ensures TrackLe(nameLe, r[i], r[j]) {
      if i == 0 {
        assert r[j] in rest;
      } else {
        assert r[i] == rest[i - 1] && r[j] == rest[j - 1];
      }
    }
  }

  /** Tracks of equal rank: neither comes after the other. */
  predicate SameRank(nameLe: (string, string) -> bool, a: Track, b: Track) {
    TrackLe(nameLe, a, b) && TrackLe(nameLe, b, a)
  }

  /** The tracks of `ts` that rank equal to `x`, in the order of `ts`. */
  function RankClass(nameLe: (string, string) -> bool, ts: seq<Track>, x: Track): (r: seq<Track>)
    ensures |r| <= |ts|
  {
    if ts == [] then []
    else (if SameRank(nameLe, ts[0], x) then [ts[0]] else []) + RankClass(nameLe, ts[1..], x)
  }

  lemma {:induction false} RankClassAppend(nameLe: (string, string) -> bool, a: seq<Track>, b: seq<Track>, x: Track)
    ensures RankClass(nameLe, a + b, x) == RankClass(nameLe, a, x) + RankClass(nameLe, b, x)
  {
    if a != [] {
      var head := if SameRank(nameLe, a[0], x) then [a[0]] else [];
      assert (a + b)[0] == a[0] && (a + b)[1..] == a[1..] + b;
      RankClassAppend(nameLe, a[1..], b, x);
      assert RankClass(nameLe, a + b, x) == head + (RankClass(nameLe, a[1..], x) + RankClass(nameLe, b, x));
    } else {
      assert a + b == b;
    }
  }

  /** In a sorted list, nothing from a track that comes strictly after `t`
      onwards ranks equal to `t`. */
  lemma {:induction false} NoneOfRankAbove(nameLe: (string, string) -> bool, t: Track, ts: seq<Track>, x: Track)
    requires TotalPreorder(nameLe) && Sorted(nameLe, ts) && ts != [] && !TrackLe(nameLe, ts[0], t)
    requires SameRank(nameLe, t, x)
    ensures RankClass(nameLe, ts, x) == []
  {
    if SameRank(nameLe, ts[0], x) {
      TrackLeTransitive(nameLe, ts[0], x, t);
    }
    if |ts| > 1 {
      if TrackLe(nameLe, ts[1], t) {
        TrackLeTransitive(nameLe, ts[0], ts[1], t);
      }
      NoneOfRankAbove(nameLe, t, ts[1..], x);
    }
  }

  /** Inserting `t` into a sorted list puts it behind every track of its
      rank and changes no other rank. */
  lemma {:induction false} InsertRankClass(nameLe: (string, string) -> bool, t: Track, ts: seq<Track>, x: Track)
    requires TotalPreorder(nameLe) && Sorted(nameLe, ts)
    ensures RankClass(nameLe, Insert(nameLe, t, ts), x)
            == RankClass(nameLe, ts, x) + (if SameRank(nameLe, t, x) then [t] else [])
  {
    if ts == [] {
      assert Insert(nameLe, t, ts) == [t];
      assert RankClass(nameLe, [t], x) == (if SameRank(nameLe, t, x) then [t] else []) + RankClass(nameLe, [], x);
    } else if !TrackLe(nameLe, ts[0], t) {
      InsertInFront(nameLe, t, ts, x);
    } else {
      assert Sorted(nameLe, ts[1..]);
      InsertRankClass(nameLe, t, ts[1..], x);
      InsertBehind(nameLe, t, ts, x);
    }
  }

  /** A track going in front of a sorted list whose head comes strictly
      after it ranks apart from every track of the list. */
  lemma InsertInFront(nameLe: (string, string) -> bool, t: Track, ts: seq<Track>, x: Track)
    requires TotalPreorder(nameLe) && Sorted(nameLe, ts) && ts != [] && !TrackLe(nameLe, ts[0], t)
    ensures RankClass(nameLe, Insert(nameLe, t, ts), x)
            == RankClass(nameLe, ts, x) + (if SameRank(nameLe, t, x) then [t] else [])
  {
    var u := [t] + ts;
    assert Insert(nameLe, t, ts) == u;
    assert u[0] == t && u[1..] == ts;
    assert RankClass(nameLe, u, x) == (if SameRank(nameLe, t, x) then [t] else []) + RankClass(nameLe, ts, x);
    if SameRank(nameLe, t, x) {
      NoneOfRankAbove(nameLe, t, ts, x);
    }
  }

  /** A track going past the head of a list adds to the rank classes what
      it adds to those of the tail. */
  lemma InsertBehind(nameLe: (string, string) -> bool, t: Track, ts: seq<Track>, x: Track)
    requires ts != [] && TrackLe(nameLe, ts[0], t)
    requires RankClass(nameLe, Insert(nameLe, t, ts[1..]), x)
             == RankClass(nameLe, ts[1..], x) + (if SameRank(nameLe, t, x) then [t] else [])
    ensures RankClass(nameLe, Insert(nameLe, t, ts), x)
            == RankClass(nameLe, ts, x) + (if SameRank(nameLe, t, x) then [t] else [])
  {
    var head := if SameRank(nameLe, ts[0], x) then [ts[0]] else [];
    var tail := if SameRank(nameLe, t, x) then [t] else [];
    var rest := Insert(nameLe, t, ts[1..]);
    var u := [ts[0]] + rest;
    assert Insert(nameLe, t, ts) == u;
    assert u[0] == ts[0] && u[1..] == rest;
    assert RankClass(nameLe, u, x) == head + RankClass(nameLe, rest, x);
    assert RankClass(nameLe, ts, x) == head + RankClass(nameLe, ts[1..], x);
    AppendAssoc(head, RankClass(nameLe, ts[1..], x), tail);
  }

  /** The sort is stable: the tracks of each rank keep their input order. */
  lemma {:induction false} SortTracksStable(nameLe: (string, string) -> bool, ts: seq<Track>, x: Track)
    requires TotalPreorder(nameLe)
    ensures RankClass(nameLe, SortTracks(nameLe, ts), x) == RankClass(nameLe, ts, x)
  {
    if ts != [] {
      var init, last := ts[..|ts| - 1], ts[|ts| - 1];
      assert ts == init + [last];
      assert SortTracks(nameLe, ts) == Insert(nameLe, last, SortTracks(nameLe, init));
      SortTracksStable(nameLe, init, x);
      StableStep(nameLe, init, last, x);
    }
  }

  /** One step of the sort keeps the rank classes in input order. */
  lemma StableStep(nameLe: (string, string) -> bool, init: seq<Track>, last: Track, x: Track)
    requires TotalPreorder(nameLe)
    requires RankClass(nameLe, SortTracks(nameLe, init), x) == RankClass(nameLe, init, x)
    ensures RankClass(nameLe, Insert(nameLe, last, SortTracks(nameLe, init)), x) == RankClass(nameLe, init + [last], x)
  {
    SortTracksSorted(nameLe, init);
    InsertRankClass(nameLe, last, SortTracks(nameLe, init), x);
    RankClassAppend(nameLe, init, [last], x);
    assert RankClass(nameLe, [last], x) == (if SameRank(nameLe, last, x) then [last] else []) + RankClass(nameLe, [], x);
  }

  /** Two files whose names compare equal once upper-cased, such as
      "/m/a.flac" walked before "/m/A.flac", stay in walk order. */
  lemma SortKeepsWalkOrder()
    ensures var a, b := Track("/m/a.flac", None), Track("/m/A.flac", None);
            SortTracks((x: string, y: string) => true, [a, b]) == [a, b]
  {
    var a, b := Track("/m/a.flac", None), Track("/m/A.flac", None);
    var le := (x: string, y: string) => true;
    assert [a, b][..1] == [a] && [a][..0] == [];
    assert SortTracks(le, [a]) == [a];
    assert Insert(le, b, [a]) == [a] + Insert(le, b, []);
  }

  /** The playlist order is a sorted permutation of the tracks. */
  lemma {:induction false} SortTracksSorted(nameLe: (string, string) -> bool, ts: seq<Track>)
    requires TotalPreorder(nameLe)
    ensures Sorted(nameLe, SortTracks(nameLe, ts))
    ensures multiset(SortTracks(nameLe, ts)) == multiset(ts)
  {
    if ts != [] {
      SortTracksSorted(nameLe, ts[..|ts| - 1]);
      InsertSorted(nameLe, ts[|ts| - 1], SortTracks(nameLe, ts[..|ts| - 1]));
    }
  }

  // ---------------------------------------------------------------------
  // collect_tracks

  /** Whether the CUE sheet `f` can be built: `parse(f)` is what reading and
      parsing `f` gives and `listing(d)` what listing directory `d` gives. */
  ghost predicate Buildable(f: string, parse: string -> Option<ParsedCue>, listing: string -> Option<seq<string>>) {
    IsSupportedFile(f) && parse(f).Some? && FindSource(f, listing(ParentDir(f))).Some?
    && Loadable(parse(f).value)
  }

  /** The closure of `collect_tracks` for a file that is not playable: ask
      the factory for its sheet and list the sheet's tracks; a file that is
      not a CUE sheet, or whose sheet fails to load, gives none. */
  method CueFileTracks(factory: CueFactory, f: string, parsed: Option<ParsedCue>, listing: Option<seq<string>>)
    returns (tracks: seq<Track>)
    requires factory.Valid()
    modifies factory
    ensures factory.Valid()
    ensures f in old(factory.sheets) ==> factory.sheets == old(factory.sheets)
    ensures f !in old(factory.sheets)
            && !(IsSupportedFile(f) && parsed.Some? && FindSource(f, listing).Some? && Loadable(parsed.value))
            ==> factory.sheets == old(factory.sheets)
    ensures f !in old(factory.sheets) && IsSupportedFile(f) && parsed.Some?
              && FindSource(f, listing).Some? && Loadable(parsed.value) ==>
              exists s :: factory.sheets == old(factory.sheets)[f := Some(s)]
    ensures tracks == (if f in factory.sheets && factory.sheets[f].Some? then SheetTracks(f, factory.sheets[f].value) else [])
  {
    var r := factory.GetOrNew(f, parsed, listing);
    match r {
      case Ok(Some(sheet)) =>
        tracks := SheetTracks(f, sheet);
      case _ =>
        tracks := [];
    }
  }

  /** Two copies of a file name carry the same flags. */
  ghost predicate FlagsConsistent(files: seq<string>, playable: seq<bool>, loads: seq<bool>) {
    |playable| == |files| && |loads| == |files|
    && forall j, k :: 0 <= j < |files| && 0 <= k < |files| && files[j] == files[k]
                      ==> playable[j] == playable[k] && loads[j] == loads[k]
  }

  /** Chunk `j` holds the tracks of `files[j]`, for every chunk so far. */
  ghost predicate ChunksMatch(files: seq<string>, playable: seq<bool>, sheets: map<string, Option<CueSheet>>,
                              chunks: seq<seq<Track>>) {
    |chunks| <= |files| && |playable| == |files|
    && forall j :: 0 <= j < |chunks| ==> chunks[j] == FileChunk(files[j], playable[j], sheets)
  }

  /** Every loadable CUE candidate among the first `n` files is cached. */
  ghost predicate Covered(files: seq<string>, playable: seq<bool>, loads: seq<bool>, n: nat,
                          sheets: map<string, Option<CueSheet>>) {
    n <= |files| && |playable| == |files| && |loads| == |files|
    && forall j :: 0 <= j < n && !playable[j] && loads[j] ==> files[j] in sheets
  }

  /** A playable file adds its own chunk. */
  lemma ChunkOfPlayable(files: seq<string>, playable: seq<bool>, loads: seq<bool>,
                        sheets: map<string, Option<CueSheet>>, chunks: seq<seq<Track>>)
    requires ChunksMatch(files, playable, sheets, chunks) && |chunks| < |files|
    requires Covered(files, playable, loads, |chunks|, sheets)
    requires playable[|chunks|]
    ensures ChunksMatch(files, playable, sheets, chunks + [[Track(files[|chunks|], None)]])
    ensures Covered(files, playable, loads, |chunks| + 1, sheets)
  {
    var c := chunks + [[Track(files[|chunks|], None)]];
    assert forall j :: 0 <= j < |chunks| ==> c[j] == chunks[j];
  }

  /** A CUE candidate whose sheet this step cached adds that sheet's tracks;
      no earlier file was the same candidate, since a loadable earlier copy
      would already be cached. */
  lemma ChunkOfNewSheet(files: seq<string>, playable: seq<bool>, loads: seq<bool>,
                        before: map<string, Option<CueSheet>>, s: CueSheet, chunks: seq<seq<Track>>)
    requires FlagsConsistent(files, playable, loads)
    requires ChunksMatch(files, playable, before, chunks) && |chunks| < |files|
    requires Covered(files, playable, loads, |chunks|, before)
    requires !playable[|chunks|] && loads[|chunks|] && files[|chunks|] !in before
    ensures var f := files[|chunks|]; var after := before[f := Some(s)];
            && ChunksMatch(files, playable, after, chunks + [SheetTracks(f, s)])
            && Covered(files, playable, loads, |chunks| + 1, after)
  {
    var i := |chunks|;
    var f := files[i];
    var after := before[f := Some(s)];
    var c := chunks + [SheetTracks(f, s)];
    forall j | 0 <= j < i ensures c[j] == FileChunk(files[j], playable[j], after) {
      assert c[j] == chunks[j];
    }
  }

  /** A CUE candidate that was cached before, or that does not load, leaves
      the cache as it was and adds the tracks of its cached sheet, if any. */
  lemma ChunkOfKnownSheet(files: seq<string>, playable: seq<bool>, loads: seq<bool>,
                          sheets: map<string, Option<CueSheet>>, chunks: seq<seq<Track>>)
    requires ChunksMatch(files, playable, sheets, chunks) && |chunks| < |files|
    requires Covered(files, playable, loads, |chunks|, sheets)
    requires !playable[|chunks|]
    requires files[|chunks|] in sheets || !loads[|chunks|]
    ensures var f := files[|chunks|];
            var ts := if f in sheets && sheets[f].Some? then SheetTracks(f, sheets[f].value) else [];
            && ChunksMatch(files, playable, sheets, chunks + [ts])
            && Covered(files, playable, loads, |chunks| + 1, sheets)
  {
    var f := files[|chunks|];
    var ts := if f in sheets && sheets[f].Some? then SheetTracks(f, sheets[f].value) else [];
    var c := chunks + [ts];
    assert forall j :: 0 <= j < |chunks| ==> c[j] == chunks[j];
  }

  /** What the walk over `files` has built so far: one chunk per file seen,
      and a cache holding exactly the loadable sheets among them. */
  ghost predicate Collected(files: seq<string>, playable: seq<bool>, loads: seq<bool>,
                            parse: string -> Option<ParsedCue>, listing: string -> Option<seq<string>>,
                            sheets: map<string, Option<CueSheet>>, chunks: seq<seq<Track>>) {
    && (forall g :: g in sheets ==> g in files)
    && (forall g {:trigger Buildable(g, parse, listing)} :: g in sheets ==> Buildable(g, parse, listing))
    && Covered(files, playable, loads, |chunks|, sheets)
    && ChunksMatch(files, playable, sheets, chunks)
  }

  /** One file of the walk in `collect_tracks`: a playable file is its own
      track, any other file goes through the factory. */
  method CollectStep(factory: CueFactory, files: seq<string>, ghost playable: seq<bool>, ghost loads: seq<bool>,
                     parse: string -> Option<ParsedCue>, listing: string -> Option<seq<string>>,
                     chunks: seq<seq<Track>>)
    returns (next: seq<seq<Track>>)
    requires FlagsConsistent(files, playable, loads) && |chunks| < |files|
    requires playable[|chunks|] == SymphoniaStream.IsPathSupported(files[|chunks|])
    requires loads[|chunks|] == Buildable(files[|chunks|], parse, listing)
    requires factory.Valid() && Collected(files, playable, loads, parse, listing, factory.sheets, chunks)
    modifies factory
    ensures |next| == |chunks| + 1
    ensures factory.Valid() && Collected(files, playable, loads, parse, listing, factory.sheets, next)
  {
    var i := |chunks|;
    var f := files[i];
    if SymphoniaStream.IsPathSupported(f) {
      ChunkOfPlayable(files, playable, loads, factory.sheets, chunks);
      next := chunks + [[Track(f, None)]];
    } else {
      var before := factory.sheets;
      var ts := CueFileTracks(factory, f, parse(f), listing(ParentDir(f)));
      if f !in before && loads[i] {
        var s :| factory.sheets == before[f := Some(s)];
        ChunkOfNewSheet(files, playable, loads, before, s, chunks);
      } else {
        ChunkOfKnownSheet(files, playable, loads, before, chunks);
      }
      next := chunks + [ts];
    }
  }

  /** The loop of `collect_tracks` over the walked files: one chunk of
      tracks per file, and the sheets that loaded in the new factory. */
  method CollectFiles(files: seq<string>, parse: string -> Option<ParsedCue>, listing: string -> Option<seq<string>>)
    returns (factory: CueFactory, chunks: seq<seq<Track>>)
    ensures fresh(factory) && factory.Valid()
    ensures forall f :: f in factory.sheets ==> f in files
    ensures forall f {:trigger Buildable(f, parse, listing)} :: f in factory.sheets ==> Buildable(f, parse, listing)
    ensures forall j {:trigger Buildable(files[j], parse, listing)} ::
              (0 <= j < |files| && !SymphoniaStream.IsPathSupported(files[j]) && Buildable(files[j], parse, listing))
              ==> files[j] in factory.sheets
    ensures |chunks| == |files| && forall j :: 0 <= j < |files| ==> chunks[j] == TracksOfFile(files[j], factory.sheets)
  {
    ghost var playable := seq(|files|, j requires 0 <= j < |files| => SymphoniaStream.IsPathSupported(files[j]));
    ghost var loads := seq(|files|, j requires 0 <= j < |files| => Buildable(files[j], parse, listing));
    assert FlagsConsistent(files, playable, loads);
    factory := new CueFactory();
    chunks := [];
    while |chunks| < |files|
      invariant |chunks| <= |files|
      invariant fresh(factory) && factory.Valid()
      invariant Collected(files, playable, loads, parse, listing, factory.sheets, chunks)
    {
      chunks := CollectStep(factory, files, playable, loads, parse, listing, chunks);
    }
  }

  /** `collect_tracks`: the files under `uris` become tracks (CUE sheets
      through a new `CueFactory`, which is returned), the audio files a loaded
      sheet covers are dropped, and the rest is sorted. */
  method CollectTracks(
    uris: seq<string>,
    fileUrl: string -> Option<string>,
    walk: string -> seq<string>,
    parse: string -> Option<ParsedCue>,
    listing: string -> Option<seq<string>>,
    nameLe: (string, string) -> bool)
    returns (tracks: seq<Track>, factory: CueFactory)
    ensures fresh(factory) && factory.Valid()
    ensures var files := WalkAll(uris, fileUrl, walk);
            && (forall f :: f in factory.sheets ==> f in files)
            && (forall f {:trigger Buildable(f, parse, listing)} :: f in factory.sheets ==> Buildable(f, parse, listing))
            && (forall j {:trigger Buildable(files[j], parse, listing)} ::
                  (0 <= j < |files| && !SymphoniaStream.IsPathSupported(files[j]) && Buildable(files[j], parse, listing))
                  ==> files[j] in factory.sheets)
            && var kept := WithoutSources(Expanded(files, factory.sheets), SourceFilenames(factory.Sheets()));
            && multiset(tracks) == multiset(kept)
            && (TotalPreorder(nameLe) ==> Sorted(nameLe, tracks))
            && (TotalPreorder(nameLe) ==> forall x :: RankClass(nameLe, tracks, x) == RankClass(nameLe, kept, x))
  {
    var files := WalkAll(uris, fileUrl, walk);
    var chunks;
    factory, chunks := CollectFiles(files, parse, listing);
    FlattenChunks(files, factory.sheets, chunks);
    var filtered := WithoutSources(Flatten(chunks), SourceFilenames(factory.Sheets()));
    tracks := SortTracks(nameLe, filtered);
    if TotalPreorder(nameLe) {
      SortTracksSorted(nameLe, filtered);
      forall x ensures RankClass(nameLe, tracks, x) == RankClass(nameLe, filtered, x) {
        SortTracksStable(nameLe, filtered, x);
      }
    }
  }
}

=== FILE: stream_base.dfy ===
/** src/stream_base.rs: the track and metadata records shared by the player,
    the decoder and the playlist, plus `std::time::Duration` and the small
    part of `std::path::Path` the core uses. */
module StreamBase {
  import opened Wrappers
  import opened Text

  // ---------------------------------------------------------------------
  // std::time::Duration, counted in nanoseconds

  type Duration = nat

  const NANOS_PER_SEC: nat := 1_000_000_000

  /** `Duration::MAX`: `u64::MAX` seconds and 999 999 999 nanoseconds. */
  const DURATION_MAX: Duration := (U64_LIMIT - 1) * NANOS_PER_SEC + (NANOS_PER_SEC - 1)

  function Secs(n: nat): Duration {
    n * NANOS_PER_SEC
  }

  /** `Duration::saturating_sub`: zero instead of a negative duration. */
  function SaturatingSub(a: Duration, b: Duration): (r: Duration)
    ensures a >= b ==> r + b == a
    ensures a <= b ==> r == 0
  {
    if a >= b then a - b else 0
  }

  /** `Duration::saturating_add`: `Duration::MAX` instead of an overflow. */
  function SaturatingAdd(a: Duration, b: Duration): (r: Duration)
    ensures a + b <= DURATION_MAX ==> r == a + b
    ensures a + b > DURATION_MAX ==> r == DURATION_MAX
  {
    if a + b <= DURATION_MAX then a + b else DURATION_MAX
  }

  /** `Duration::as_secs`: whole seconds, the fraction dropped. */
  function AsSecs(d: Duration): (s: nat)
    ensures Secs(s) <= d < Secs(s + 1)
  {
    d / NANOS_PER_SEC
  }

  // ---------------------------------------------------------------------
  // Records

  /** `Track`: a playable file, or track `index` of the CUE sheet `filename`. */
  datatype Track = Track(filename: string, index: Option<nat>)

  /** `TrackMeta`: tag information of a track. */
  datatype TrackMeta = TrackMeta(
    artist: Option<string>,
    album: Option<string>,
    title: Option<string>,
    track: Option<nat>,
    trackTotal: Option<nat>,
    disc: Option<nat>,
    discTotal: Option<nat>,
    year: Option<nat>,
    duration: Duration)

  /** `TrackMeta::default()`. */
  function DefaultMeta(): (m: TrackMeta)
    ensures m.artist.None? && m.album.None? && m.title.None?
    ensures m.track.None? && m.trackTotal.None? && m.disc.None? && m.discTotal.None?
    ensures m.year.None? && m.duration == 0
  {
    TrackMeta(None, None, None, None, None, None, None, None, 0)
  }

  /** `StreamPacketMeta`: what a stream reports about one decoded packet. */
  datatype StreamPacketMeta = StreamPacketMeta(
    channelsCount: nat,
    sampleRate: nat,
    trackMeta: Option<TrackMeta>,
    position: Option<Duration>)

  // ---------------------------------------------------------------------
  // Track serialization (serde, with `index` skipped when it is None)

  datatype JsonValue = JString(s: string) | JNumber(n: nat)

  /** The fields a `Track` serializes to, in declaration order. */
  function SerializeTrack(t: Track): (fields: seq<(string, JsonValue)>)
    ensures |fields| >= 1 && fields[0] == ("filename", JString(t.filename))
    ensures t.index.None? ==> |fields| == 1
    ensures t.index.Some? ==> fields == [fields[0], ("index", JNumber(t.index.value))]
  {
    [("filename", JString(t.filename))]
      + (match t.index case Some(i) => [("index", JNumber(i))] case None => [])
  }

  /** Reads a `Track` back; a missing `index` means None. */
  function DeserializeTrack(fields: seq<(string, JsonValue)>): Option<Track> {
    if |fields| >= 1 && fields[0].0 == "filename" && fields[0].1.JString? then
      if |fields| == 1 then Some(Track(fields[0].1.s, None))
      else if |fields| == 2 && fields[1].0 == "index" && fields[1].1.JNumber? then
        Some(Track(fields[0].1.s, Some(fields[1].1.n)))
      else None
    else None
  }

  /** Serializing a track and reading it back gives the same track, whether
      or not the index was written. */
  lemma TrackRoundTrip(t: Track)
    ensures DeserializeTrack(SerializeTrack(t)) == Some(t)
  {
  }

  // ---------------------------------------------------------------------
  // std::path::Path, for '/'-separated paths

  function LastIndexOf(s: string, c: char): (r: Option<nat>)
    ensures r.Some? ==> r.value < |s| && s[r.value] == c
                        && forall j :: r.value < j < |s| ==> s[j] != c
    ensures r.None? ==> forall j :: 0 <= j < |s| ==> s[j] != c
  {
    if s == [] then None
    else if s[|s| - 1] == c then Some(|s| - 1)
    else LastIndexOf(s[..|s| - 1], c)
  }

  /** `Path::file_name`: the last component; None for an empty one or "..". */
  function FileName(path: string): (r: Option<string>)
    ensures r.Some? ==> r.value != [] && '/' !in r.value && EndsWith(path, r.value)
  {
    var name := match LastIndexOf(path, '/') case Some(k) => path[k + 1..] case None => path;
    if name == [] || name == ".." then None else Some(name)
  }

  /** `Path::extension`: what follows the last '.' of the file name, unless
      that '.' is the first character of the name. */
  function Extension(path: string): (r: Option<string>)
    ensures r.Some? ==> FileName(path).Some? && '.' !in r.value
    ensures r.Some? ==> |r.value| < |path| && path[|path| - |r.value| - 1] == '.'
                        && path[|path| - |r.value|..] == r.value
  {
    match FileName(path)
    case None => None
    case Some(name) =>
      match LastIndexOf(name, '.')
      case Some(k) =>
        if k == 0 then None
        else Some(name[k + 1..])
      case None => None
  }

  /** `Path::parent(..).unwrap_or_default()`: what comes before the last '/'
      ("/" for a file in the root, "" for a bare file name). */
  function ParentDir(path: string): string {
    match LastIndexOf(path, '/')
    case Some(k) => if k == 0 then "/" else path[..k]
    case None => ""
  }

  /** The last `c` of `p + [c] + q` is the one after `p` when `q` has none. */
  lemma {:induction false} LastIndexOfSplit(p: string, c: char, q: string)
    requires c !in q
    ensures LastIndexOf(p + [c] + q, c) == Some(|p|)
  {
    if q != [] {
      var s := p + [c] + q;
      assert s[..|s| - 1] == p + [c] + q[..|q| - 1];
      LastIndexOfSplit(p, c, q[..|q| - 1]);
    }
  }

  /** The parent and the file name of `dir/name`. */
  lemma ChildPath(dir: string, name: string)
    requires dir != [] && '/' !in name
    ensures ParentDir(dir + "/" + name) == dir
    ensures name != [] && name != ".." ==> FileName(dir + "/" + name) == Some(name)
  {
    LastIndexOfSplit(dir, '/', name);
    var p := dir + "/" + name;
    assert p[..|dir|] == dir;
    assert p[|dir| + 1..] == name;
  }

  /** A name without '/' is its own file name. */
  lemma PlainFileName(name: string)
    requires name != [] && name != ".." && '/' !in name
    ensures FileName(name) == Some(name)
  {
  }

  /** The extension of a file named `stem.ext`, where `ext` has no '.' and
      the stem is not empty. */
  lemma ExtensionOfName(path: string, stem: string, ext: string)
    requires FileName(path) == Some(stem + "." + ext)
    requires stem != [] && '.' !in ext
    ensures Extension(path) == Some(ext)
  {
    var name := stem + "." + ext;
    LastIndexOfSplit(stem, '.', ext);
    assert name[|stem| + 1..] == ext;
  }

  // ---------------------------------------------------------------------
  // StreamHelper::is_extension_supported

  /** Whether `ext` equals one of `exts`, ignoring ASCII case (the search
      loop of `is_extension_supported`). */
  function MatchesAny(ext: string, exts: seq<string>): (r: bool)
    ensures r <==> exists i :: 0 <= i < |exts| && EqIgnoreAsciiCase(ext, exts[i])
  {
    if exts == [] then false
    else if EqIgnoreAsciiCase(ext, exts[0]) then true
    else
      var r := MatchesAny(ext, exts[1..]);
      assert forall i :: 1 <= i < |exts| ==> exts[i] == exts[1..][i - 1];
      r
  }

  /** `StreamHelper::is_extension_supported`: true exactly when the path has
      an extension that equals one of `exts` ignoring ASCII case. */
  function IsExtensionSupported(path: string, exts: seq<string>): (r: bool)
    ensures r <==> Extension(path).Some?
                   && exists i :: 0 <= i < |exts| && EqIgnoreAsciiCase(Extension(path).value, exts[i])
    ensures Extension(path).None? ==> !r
    ensures exts == [] ==> !r
  {
    match Extension(path)
    case Some(ext) => MatchesAny(ext, exts)
    case None => false
  }
}

=== FILE: symphonia_stream.dfy ===
/** src/symphonia_stream.rs: the audio stream backed by symphonia, with tag
    reading through lofty. Decoding itself, the container demuxer and lofty's
    file probing are foreign; the demuxer's packets and the tags lofty reads
    are inputs of the model. */
module SymphoniaStream {
  import opened Wrappers
  import opened Text
  import opened StreamBase

  /** `EXTS`: the extensions this stream accepts. */
  const EXTS: seq<string> := ["flac", "ogg", "mp3"]

  /** `Stream::is_path_supported`. */
  function IsPathSupported(path: string): (r: bool)
    ensures r <==> Extension(path).Some?
                   && exists i :: 0 <= i < |EXTS| && EqIgnoreAsciiCase(Extension(path).value, EXTS[i])
  {
    IsExtensionSupported(path, EXTS)
  }

  // ---------------------------------------------------------------------
  // Lofty tags

  /** The tag formats lofty distinguishes. */
  datatype TagType = Ape | Id3v1 | Id3v2 | Mp4Ilst | VorbisComments | RiffInfo | AiffText

  /** The item keys the stream asks for; every other key is `Other`. */
  datatype ItemKey = TrackArtist | AlbumTitle | TrackTitle | Other(name: string)

  /** `ItemValue`: a tag item holds text, a locator (URL) or binary data. */
  datatype ItemValue = Text(text: string) | Locator(url: string) | Binary(bytes: seq<byte>)

  /** A lofty `Tag`: its type, its items in order, and the numbers its
      `track`, `track_total`, `disk`, `disk_total` and `year` accessors give. */
  datatype Tag = Tag(
    tagType: TagType,
    items: seq<(ItemKey, ItemValue)>,
    track: Option<nat>,
    trackTotal: Option<nat>,
    disk: Option<nat>,
    diskTotal: Option<nat>,
    year: Option<nat>)

  /** What lofty reads from a file: the duration from its audio properties,
      its tags in file order and the tag type that is primary for its format. */
  datatype TaggedFile = TaggedFile(duration: Duration, tags: seq<Tag>, primaryType: TagType)

  /** The position of the first item with key `key`. */
  function FirstWithKey(items: seq<(ItemKey, ItemValue)>, key: ItemKey): (r: Option<nat>)
    ensures r.Some? ==> r.value < |items| && items[r.value].0 == key
                        && forall j :: 0 <= j < r.value ==> items[j].0 != key
    ensures r.None? ==> forall j :: 0 <= j < |items| ==> items[j].0 != key
  {
    if items == [] then None
    else if items[0].0 == key then Some(0)
    else match FirstWithKey(items[1..], key)
      case None => None
      case Some(k) => Some(k + 1)
  }

  /** `Tag::get`: the value of the first item with key `key`. */
  function TagGet(items: seq<(ItemKey, ItemValue)>, key: ItemKey): (r: Option<ItemValue>)
    ensures r.None? <==> forall j :: 0 <= j < |items| ==> items[j].0 != key
    ensures r.Some? ==> exists i :: 0 <= i < |items| && items[i] == (key, r.value)
                                     && forall j :: 0 <= j < i ==> items[j].0 != key
  {
    match FirstWithKey(items, key)
    case Some(i) => Some(items[i].1)
    case None => None
  }

  /** Whether `s` contains an ASCII control character (the early-exit scan of
      `valid_lofty_tag_string`). */
  function HasAsciiControl(s: string): (r: bool)
    ensures r <==> exists i :: 0 <= i < |s| && IsAsciiControl(s[i])
  {
    if s == [] then false
    else if IsAsciiControl(s[0]) then true
    else
      assert forall i :: 1 <= i < |s| ==> s[i] == s[1..][i - 1];
      HasAsciiControl(s[1..])
  }

  /** `valid_lofty_tag_string`: the text of the item with key `key`, unless the
      item is absent, is not text, or has an ASCII control character. */
  function ValidLoftyTagString(tag: Tag, key: ItemKey): (r: Option<string>)
    ensures r.Some? <==> TagGet(tag.items, key).Some? && TagGet(tag.items, key).value.Text?
                         && forall i :: 0 <= i < |TagGet(tag.items, key).value.text|
                              ==> !IsAsciiControl(TagGet(tag.items, key).value.text[i])
    ensures r.Some? ==> TagGet(tag.items, key) == Some(Text(r.value))
  {
    match TagGet(tag.items, key)
    case Some(Text(s)) => if HasAsciiControl(s) then None else Some(s)
    case _ => None
  }

  // The value each field of `TrackMeta` takes from one tag.
  function ArtistOf(tag: Tag): Option<string> { ValidLoftyTagString(tag, TrackArtist) }
  function AlbumOf(tag: Tag): Option<string> { ValidLoftyTagString(tag, AlbumTitle) }
  function TitleOf(tag: Tag): Option<string> { ValidLoftyTagString(tag, TrackTitle) }
  function TrackOf(tag: Tag): Option<nat> { tag.track }
  function TrackTotalOf(tag: Tag): Option<nat> { tag.trackTotal }
  function DiscOf(tag: Tag): Option<nat> { tag.disk }
  function DiscTotalOf(tag: Tag): Option<nat> { tag.diskTotal }
  function YearOf(tag: Tag): Option<nat> { tag.year }

  /** `fill_lofty_tag`: every field of `info` that is still None takes the
      tag's value; a field that already has a value keeps it. The duration is
      not touched. */
  method FillLoftyTag(tag: Tag, info: TrackMeta) returns (r: TrackMeta)
    ensures info.artist.Some? ==> r.artist == info.artist
    ensures info.artist.None? ==> r.artist == ArtistOf(tag)
    ensures info.album.Some? ==> r.album == info.album
    ensures info.album.None? ==> r.album == AlbumOf(tag)
    ensures info.title.Some? ==> r.title == info.title
    ensures info.title.None? ==> r.title == TitleOf(tag)
    ensures info.track.Some? ==> r.track == info.track
    ensures info.track.None? ==> r.track == TrackOf(tag)
    ensures info.trackTotal.Some? ==> r.trackTotal == info.trackTotal
    ensures info.trackTotal.None? ==> r.trackTotal == TrackTotalOf(tag)
    ensures info.disc.Some? ==> r.disc == info.disc
    ensures info.disc.None? ==> r.disc == DiscOf(tag)
    ensures info.discTotal.Some? ==> r.discTotal == info.discTotal
    ensures info.discTotal.None? ==> r.discTotal == DiscTotalOf(tag)
    ensures info.year.Some? ==> r.year == info.year
    ensures info.year.None? ==> r.year == YearOf(tag)
    ensures r.duration == info.duration
  {
    var artist, album, title := info.artist, info.album, info.title;
    var track, trackTotal, disc, discTotal, year :=
      info.track, info.trackTotal, info.disc, info.discTotal, info.year;
    if artist.None? {
      artist := ArtistOf(tag);
    }
    assert artist == if info.artist.Some? then info.artist else ArtistOf(tag);
    if album.None? {
      album := AlbumOf(tag);
    }
    assert album == if info.album.Some? then info.album else AlbumOf(tag);
    if title.None? {
      title := TitleOf(tag);
    }
    assert title == if info.title.Some? then info.title else TitleOf(tag);
    if track.None? {
      track := tag.track;
    }
    assert track == if info.track.Some? then info.track else TrackOf(tag);
    if trackTotal.None? {
      trackTotal := tag.trackTotal;
    }
    assert trackTotal == if info.trackTotal.Some? then info.trackTotal else TrackTotalOf(tag);
    if disc.None? {
      disc := tag.disk;
    }
    assert disc == if info.disc.Some? then info.disc else DiscOf(tag);
    if discTotal.None? {
      discTotal := tag.diskTotal;
    }
    assert discTotal == if info.discTotal.Some? then info.discTotal else DiscTotalOf(tag);
    if year.None? {
      year := tag.year;
    }
    assert year == if info.year.Some? then info.year else YearOf(tag);
    r := TrackMeta(artist, album, title, track, trackTotal, disc, discTotal, year, info.duration);
  }

  /** The value of the first tag in `tags` that provides one. */
  function FirstProvided<T>(tags: seq<Tag>, get: Tag -> Option<T>): Option<T> {
    if tags == [] then None
    else FirstProvided(tags[..|tags| - 1], get).Or(get(tags[|tags| - 1]))
  }

  /** `FirstProvided` is the value of the earliest tag that has one, and None
      exactly when no tag has one. */
  lemma {:induction false} FirstProvidedSpec<T>(tags: seq<Tag>, get: Tag -> Option<T>)
    ensures FirstProvided(tags, get).None? <==> forall i :: 0 <= i < |tags| ==> get(tags[i]).None?
    ensures FirstProvided(tags, get).Some? ==>
              exists i :: 0 <= i < |tags| && get(tags[i]) == FirstProvided(tags, get)
                          && forall j :: 0 <= j < i ==> get(tags[j]).None?
  {
    if tags != [] {
      var init := tags[..|tags| - 1];
      FirstProvidedSpec(init, get);
      assert forall i :: 0 <= i < |init| ==> init[i] == tags[i];
      if FirstProvided(init, get).Some? {
        var i :| 0 <= i < |init| && get(init[i]) == FirstProvided(init, get)
                 && forall j :: 0 <= j < i ==> get(init[j]).None?;
        assert get(tags[i]) == FirstProvided(tags, get);
      } else if get(tags[|tags| - 1]).Some? {
        assert get(tags[|tags| - 1]) == FirstProvided(tags, get);
      }
    }
  }

  /** `TaggedFile::primary_tag`: the first tag of the primary type. */
  function PrimaryTag(file: TaggedFile): (r: Option<nat>)
    ensures r.Some? ==> r.value < |file.tags| && file.tags[r.value].tagType == file.primaryType
    ensures r.None? ==> forall i :: 0 <= i < |file.tags| ==> file.tags[i].tagType != file.primaryType
  {
    FirstOfType(file.tags, file.primaryType)
  }

  function FirstOfType(tags: seq<Tag>, t: TagType): (r: Option<nat>)
    ensures r.Some? ==> r.value < |tags| && tags[r.value].tagType == t
    ensures r.None? ==> forall i :: 0 <= i < |tags| ==> tags[i].tagType != t
  {
    if tags == [] then None
    else if tags[0].tagType == t then Some(0)
    else match FirstOfType(tags[1..], t)
      case None => None
      case Some(k) => Some(k + 1)
  }

  /** The tags of another type than `t`, in file order. */
  function OtherTypes(tags: seq<Tag>, t: TagType): (r: seq<Tag>)
    ensures forall i :: 0 <= i < |r| ==> r[i].tagType != t && r[i] in tags
    ensures forall i :: 0 <= i < |tags| && tags[i].tagType != t ==> tags[i] in r
  {
    if tags == [] then []
    else
      var rest := OtherTypes(tags[1..], t);
      assert forall i :: 1 <= i < |tags| ==> tags[i] == tags[1..][i - 1];
      if tags[0].tagType != t then [tags[0]] + rest else rest
  }

  /** The order in which `get_lofty_meta` applies the tags: the primary tag
      first and then only the tags of other types, or all tags when the file
      has no tag of its primary type. */
  function ApplicationOrder(file: TaggedFile): (order: seq<Tag>)
    ensures PrimaryTag(file).Some? ==>
              |order| >= 1 && order[0] == file.tags[PrimaryTag(file).value]
              && forall i :: 1 <= i < |order| ==> order[i].tagType != file.primaryType
    ensures PrimaryTag(file).None? ==> order == file.tags
  {
    match PrimaryTag(file)
    case Some(p) => [file.tags[p]] + OtherTypes(file.tags, file.primaryType)
    case None => file.tags
  }

  /** The metadata the tags of `file` describe: the duration from the audio
      properties, and each tag field from the first tag in application order
      that provides it. */
  function TagsMeta(file: TaggedFile): TrackMeta {
    var order := ApplicationOrder(file);
    TrackMeta(
      FirstProvided(order, ArtistOf), FirstProvided(order, AlbumOf), FirstProvided(order, TitleOf),
      FirstProvided(order, TrackOf), FirstProvided(order, TrackTotalOf),
      FirstProvided(order, DiscOf), FirstProvided(order, DiscTotalOf),
      FirstProvided(order, YearOf), file.duration)
  }

  /** A value the primary tag provides wins over every other tag's. */
  lemma PrimaryTagWins<T>(file: TaggedFile, get: Tag -> Option<T>)
    requires PrimaryTag(file).Some? && get(file.tags[PrimaryTag(file).value]).Some?
    ensures FirstProvided(ApplicationOrder(file), get) == get(file.tags[PrimaryTag(file).value])
  {
    var order := ApplicationOrder(file);
    FirstProvidedSpec(order, get);
    var i :| 0 <= i < |order| && get(order[i]) == FirstProvided(order, get)
             && forall j :: 0 <= j < i ==> get(order[j]).None?;
    assert i == 0;
  }

  /** A file without tags describes only its duration. */
  lemma NoTagsOnlyDuration(file: TaggedFile)
    requires file.tags == []
    ensures TagsMeta(file) == DefaultMeta().(duration := file.duration)
  {
  }

  /** `get_lofty_meta` on what lofty read: None when the file could not be
      opened or read; otherwise the tags applied one by one to the default
      metadata carrying the file's duration. */
  method GetLoftyMeta(file: Option<TaggedFile>) returns (r: Option<TrackMeta>)
    ensures r.Some? <==> file.Some?
    ensures r.Some? ==> r.value == TagsMeta(file.value)
  {
    if file.None? {
      return None;
    }
    var f := file.value;
    var info := DefaultMeta().(duration := f.duration);
    if f.tags == [] {
      return Some(info);
    }
    var order := ApplicationOrder(f);
    var i := 0;
    while i < |order|
      invariant 0 <= i <= |order|
      invariant ProvidedBy(info, order[..i]) && info.duration == f.duration
    {
      ghost var before := info;
      info := FillLoftyTag(order[i], info);
      ProvidedByStep(order[..i], order[i], before, info);
      assert order[..i] + [order[i]] == order[..i + 1];
      i := i + 1;
    }
    assert order[..i] == order;
    return Some(info);
  }

  /** Every tag field of `info` is the first value `tags` provide for it. */
  predicate ProvidedBy(info: TrackMeta, tags: seq<Tag>) {
    && info.artist == FirstProvided(tags, ArtistOf)
    && info.album == FirstProvided(tags, AlbumOf)
    && info.title == FirstProvided(tags, TitleOf)
    && info.track == FirstProvided(tags, TrackOf)
    && info.trackTotal == FirstProvided(tags, TrackTotalOf)
    && info.disc == FirstProvided(tags, DiscOf)
    && info.discTotal == FirstProvided(tags, DiscTotalOf)
    && info.year == FirstProvided(tags, YearOf)
  }

  /** Filling the fields still missing from `tag` extends the tags the
      metadata was taken from by `tag`. */
  lemma ProvidedByStep(tags: seq<Tag>, tag: Tag, before: TrackMeta, after: TrackMeta)
    requires ProvidedBy(before, tags)
    requires after.artist == before.artist.Or(ArtistOf(tag))
    requires after.album == before.album.Or(AlbumOf(tag))
    requires after.title == before.title.Or(TitleOf(tag))
    requires after.track == before.track.Or(TrackOf(tag))
    requires after.trackTotal == before.trackTotal.Or(TrackTotalOf(tag))
    requires after.disc == before.disc.Or(DiscOf(tag))
    requires after.discTotal == before.discTotal.Or(DiscTotalOf(tag))
    requires after.year == before.year.Or(YearOf(tag))
    ensures ProvidedBy(after, tags + [tag])
  {
    assert (tags + [tag])[..|tags|] == tags;
  }

  // ---------------------------------------------------------------------
  // The stream

  /** One interleaved f32 sample; the model never looks at its value. */
  type Sample = real

  /** What the demuxer and the decoder give for one packet. */
  datatype PacketResult =
    | ReadFailed                          // `next_packet` failed (this includes the end of the stream)
    | Packet(trackId: nat, decoded: Decoded)

  /** The decoder's verdict on a packet. */
  datatype Decoded =
    | Samples(samples: seq<Sample>, channelsCount: nat, sampleRate: nat, position: Option<Duration>)
    | DecodeError                         // recoverable: logged and skipped
    | Fatal                               // any other decoder error

  /** A packet `read_packet` passes over: one of another track, or one the
      decoder rejected with a recoverable error. */
  predicate Skipped(p: PacketResult, trackId: nat) {
    p.Packet? && (p.trackId != trackId || p.decoded.DecodeError?)
  }

  /** The position of the first packet from `from` on that is not skipped, or
      the end of `packets`. */
  function NextUsable(packets: seq<PacketResult>, from: nat, trackId: nat): (k: nat)
    requires from <= |packets|
    ensures from <= k <= |packets|
    ensures forall j :: from <= j < k ==> Skipped(packets[j], trackId)
    ensures k < |packets| ==> !Skipped(packets[k], trackId)
    decreases |packets| - from
  {
    if from == |packets| || !Skipped(packets[from], trackId) then from
    else NextUsable(packets, from + 1, trackId)
  }

  /** `NextUsable` is the first position, from `from` on, that is not skipped. */
  lemma {:induction false} NextUsableAt(packets: seq<PacketResult>, from: nat, k: nat, trackId: nat)
    requires from <= k <= |packets|
    requires forall j :: from <= j < k ==> Skipped(packets[j], trackId)
    requires k < |packets| ==> !Skipped(packets[k], trackId)
    ensures NextUsable(packets, from, trackId) == k
    decreases k - from
  {
    if from < k {
      NextUsableAt(packets, from + 1, k, trackId);
    }
  }

  class SymphoniaStream {
    /** The file path, used to read the tags. */
    const path: string
    /** The id of the track being decoded. */
    const trackId: nat
    /** What lofty reads from `path`; None when the file cannot be opened or read. */
    const tagFile: Option<TaggedFile>
    /** The packets the demuxer delivers, in order; `cursor` counts those read. */
    const packets: seq<PacketResult>
    var cursor: nat
    /** The sample buffer of the last decoded packet; None before the first. */
    var buffer: Option<seq<Sample>>
    var metadataSent: bool

    ghost predicate Valid()
      reads this
    {
      cursor <= |packets|
    }

    /** The stream right after `open`: nothing read, no buffer, metadata not sent. */
    constructor (path: string, trackId: nat, tagFile: Option<TaggedFile>, packets: seq<PacketResult>)
      ensures Valid()
      ensures this.path == path && this.trackId == trackId
      ensures this.tagFile == tagFile && this.packets == packets
      ensures cursor == 0 && buffer.None? && !metadataSent
    {
      this.path := path;
      this.trackId := trackId;
      this.tagFile := tagFile;
      this.packets := packets;
      cursor := 0;
      buffer := None;
      metadataSent := false;
    }

    /** `pull_track_info`: the file's metadata (the default when lofty fails)
        the first time, None ever after. */
    method PullTrackInfo() returns (r: Option<TrackMeta>)
      modifies this
      ensures old(metadataSent) ==> r.None?
      ensures !old(metadataSent) ==> r == Some(if tagFile.Some? then TagsMeta(tagFile.value) else DefaultMeta())
      ensures metadataSent
      ensures cursor == old(cursor) && buffer == old(buffer)
    {
      if metadataSent {
        return None;
      }
      metadataSent := true;
      var meta := GetLoftyMeta(tagFile);
      return Some(meta.UnwrapOr(DefaultMeta()));
    }

    /** `write`: appends the buffered samples to `data` and returns their
        count; fails, leaving `data` alone, when nothing was decoded yet. */
    method Write(data: seq<Sample>) returns (r: Result<nat, string>, data': seq<Sample>)
      ensures buffer.None? ==> r.Err? && data' == data
      ensures buffer.Some? ==> r == Ok(|buffer.value|) && data' == data + buffer.value
    {
      if buffer.Some? {
        var samples := buffer.value;
        return Ok(|samples|), data + samples;
      }
      return Err("sample buffer is not created yet"), data;
    }

    /** `read_packet`: reads packets, passing over those of other tracks and
        those with recoverable decode errors. The first other packet ends the
        call: decoded samples replace the buffer and are reported; a read
        failure or a fatal decoder error is an error. */
    method ReadPacket() returns (r: Result<StreamPacketMeta, string>)
      requires Valid()
      modifies this
      ensures Valid()
      ensures var k := NextUsable(packets, old(cursor), trackId);
              && (k == |packets| ==> r.Err? && cursor == k
                                     && buffer == old(buffer) && metadataSent == old(metadataSent))
              && (k < |packets| ==> cursor == k + 1)
              && (k < |packets| && (packets[k].ReadFailed? || packets[k].decoded.Fatal?) ==>
                    r.Err? && buffer == old(buffer) && metadataSent == old(metadataSent))
              && (k < |packets| && packets[k].Packet? && packets[k].decoded.Samples? ==>
                    var d := packets[k].decoded;
                    && r.Ok? && buffer == Some(d.samples)
                    && r.value.channelsCount == d.channelsCount
                    && r.value.sampleRate == d.sampleRate
                    && r.value.position == d.position
                    && metadataSent
                    && (old(metadataSent) ==> r.value.trackMeta.None?)
                    && (!old(metadataSent) ==> r.value.trackMeta.Some?))
    {
      while true
        invariant old(cursor) <= cursor <= |packets|
        invariant forall j :: old(cursor) <= j < cursor ==> Skipped(packets[j], trackId)
        invariant buffer == old(buffer) && metadataSent == old(metadataSent)
        decreases |packets| - cursor
      {
        if cursor == |packets| {
          NextUsableAt(packets, old(cursor), cursor, trackId);
          return Err("cannot read packet");
        }
        if !Skipped(packets[cursor], trackId) {
          NextUsableAt(packets, old(cursor), cursor, trackId);
        }
        var packet := packets[cursor];
        cursor := cursor + 1;
        match packet
        case ReadFailed =>
          return Err("cannot read packet");
        case Packet(id, decoded) =>
          if id != trackId {
            continue;
          }
          match decoded
          case Samples(samples, channels, rate, position) =>
            buffer := Some(samples);
            var meta := PullTrackInfo();
            return Ok(StreamPacketMeta(channels, rate, meta, position));
          case DecodeError =>
            continue;
          case Fatal =>
            return Err("decoder error");
      }
    }
  }
}

=== FILE: text.dfy ===
/** Character and string helpers that stand for the Rust standard-library
    routines the core relies on (`char::is_ascii_control`,
    `eq_ignore_ascii_case`, `str::trim`, `str::lines`, decimal and hexadecimal
    formatting, `usize::from_str`). Strings are sequences of Unicode scalar
    values. */
module Text {
  import opened Wrappers

  type byte = x: nat | x < 256

  /** `u64::MAX + 1`: the width of `u64` and, on a 64-bit target, of `usize`. */
  const U64_LIMIT: nat := 0x1_0000_0000_0000_0000

  // ---------------------------------------------------------------------
  // Character classes

  /** `char::is_ascii_control`: U+0000..U+001F and U+007F. */
  predicate IsAsciiControl(c: char) {
    c < ' ' || c == '\U{7F}'
  }

  predicate IsAsciiDigit(c: char) {
    '0' <= c <= '9'
  }

  /** `char::is_ascii_hexdigit`: 0-9, a-f and A-F. */
  predicate IsAsciiHexDigit(c: char) {
    IsAsciiDigit(c) || 'a' <= c <= 'f' || 'A' <= c <= 'F'
  }

  /** `char::is_whitespace`: the Unicode White_Space property. */
  predicate IsWhitespace(c: char) {
    ('\t' <= c <= '\r') || c == ' ' || c == '\U{85}' || c == '\U{A0}'
    || c == '\U{1680}' || ('\U{2000}' <= c <= '\U{200A}') || c == '\U{2028}'
    || c == '\U{2029}' || c == '\U{202F}' || c == '\U{205F}' || c == '\U{3000}'
  }

  /** `char::to_ascii_lowercase`. */
  function AsciiLower(c: char): (r: char)
    ensures 'A' <= c <= 'Z' ==> 'a' <= r <= 'z'
    ensures !('A' <= c <= 'Z') ==> r == c
  {
    if 'A' <= c <= 'Z' then (c as int + 32) as char else c
  }

  /** `str::to_ascii_lowercase`. */
  function AsciiLowerString(s: string): (r: string)
    ensures |r| == |s|
    ensures forall i :: 0 <= i < |s| ==> r[i] == AsciiLower(s[i])
  {
    seq(|s|, i requires 0 <= i < |s| => AsciiLower(s[i]))
  }

  /** `str::eq_ignore_ascii_case`. */
  predicate EqIgnoreAsciiCase(a: string, b: string) {
    |a| == |b| && forall i :: 0 <= i < |a| ==> AsciiLower(a[i]) == AsciiLower(b[i])
  }

  predicate StartsWith(s: string, prefix: string) {
    |prefix| <= |s| && s[..|prefix|] == prefix
  }

  predicate EndsWith(s: string, suffix: string) {
    |suffix| <= |s| && s[|s| - |suffix|..] == suffix
  }

  // ---------------------------------------------------------------------
  // str::trim

  /** The number of white-space characters `s` starts with. */
  function LeadingWhitespace(s: string): (n: nat)
    ensures n <= |s|
    ensures forall i :: 0 <= i < n ==> IsWhitespace(s[i])
    ensures n == |s| || !IsWhitespace(s[n])
  {
    if s != [] && IsWhitespace(s[0]) then 1 + LeadingWhitespace(s[1..]) else 0
  }

  /** The number of white-space characters `s` ends with. */
  function TrailingWhitespace(s: string): (n: nat)
    ensures n <= |s|
    ensures forall i :: |s| - n <= i < |s| ==> IsWhitespace(s[i])
    ensures n == |s| || !IsWhitespace(s[|s| - 1 - n])
  {
    if s != [] && IsWhitespace(s[|s| - 1]) then 1 + TrailingWhitespace(s[..|s| - 1]) else 0
  }

  /** `str::trim_start`. */
  function TrimStart(s: string): string {
    s[LeadingWhitespace(s)..]
  }

  /** `str::trim_end`. */
  function TrimEnd(s: string): string {
    s[..|s| - TrailingWhitespace(s)]
  }

  /** `str::trim`: `trim_end` followed by `trim_start`. */
  function Trim(s: string): string {
    TrimStart(TrimEnd(s))
  }

  /** How many leading characters `Trim` drops. */
  function TrimOffset(s: string): nat {
    LeadingWhitespace(TrimEnd(s))
  }

  /** `Trim` gives a contiguous part of `s` with no white space at either
      end, and everything it drops is white space. */
  lemma TrimSpec(s: string)
    ensures TrimOffset(s) + |Trim(s)| <= |s|
    ensures Trim(s) == s[TrimOffset(s)..TrimOffset(s) + |Trim(s)|]
    ensures Trim(s) == [] || (!IsWhitespace(Trim(s)[0]) && !IsWhitespace(Trim(s)[|Trim(s)| - 1]))
    ensures forall i :: 0 <= i < TrimOffset(s) ==> IsWhitespace(s[i])
    ensures forall i :: TrimOffset(s) + |Trim(s)| <= i < |s| ==> IsWhitespace(s[i])
  {
    var t := TrimEnd(s);
    var r := TrimStart(t);
    assert r == s[TrimOffset(s)..|t|];
    if r != [] {
      assert r[|r| - 1] == t[|t| - 1];
    }
  }

  /** Trimming removes only white space: a string that neither starts nor
      ends with white space is left unchanged. */
  lemma {:induction false} TrimKeepsTrimmed(s: string)
    requires s == [] || (!IsWhitespace(s[0]) && !IsWhitespace(s[|s| - 1]))
    ensures Trim(s) == s
  {
  }

  // ---------------------------------------------------------------------
  // str::lines

  function IndexOf(s: string, c: char): (r: Option<nat>)
    ensures r.Some? ==> r.value < |s| && s[r.value] == c
                        && forall j :: 0 <= j < r.value ==> s[j] != c
    ensures r.None? ==> forall j :: 0 <= j < |s| ==> s[j] != c
  {
    if s == [] then None
    else if s[0] == c then Some(0)
    else match IndexOf(s[1..], c)
      case None => None
      case Some(k) => Some(k + 1)
  }

  /** One line without its terminator: a carriage return is removed only when
      it came right before the line feed. */
  function StripCr(line: string): string {
    if line != [] && line[|line| - 1] == '\r' then line[..|line| - 1] else line
  }

  /** `str::lines`: split at "\n" or "\r\n"; a final terminator does not start
      another line. */
  function Lines(s: string): (r: seq<string>)
    ensures s == [] <==> r == []
    ensures forall i :: 0 <= i < |r| ==> '\n' !in r[i]
    ensures s != [] && '\n' !in s ==> r == [s]
    decreases |s|
  {
    if s == [] then []
    else match IndexOf(s, '\n')
      case None => [s]
      case Some(k) =>
        assert '\n' !in s[..k];
        [StripCr(s[..k])] + Lines(s[k + 1..])
  }

  // ---------------------------------------------------------------------
  // Decimal numbers

  function DigitChar(d: nat): (c: char)
    requires d < 10
    ensures IsAsciiDigit(c)
  {
    ('0' as int + d) as char
  }

  function DigitValue(c: char): (d: nat)
    requires IsAsciiDigit(c)
    ensures d < 10
  {
    c as int - '0' as int
  }

  predicate AllDigits(s: string) {
    forall i :: 0 <= i < |s| ==> IsAsciiDigit(s[i])
  }

  /** `usize::to_string` / `u64::to_string`: the shortest decimal form. */
  function NatToDecimal(n: nat): (r: string)
    ensures r != [] && AllDigits(r)
    ensures |r| > 1 ==> r[0] != '0'
  {
    if n < 10 then [DigitChar(n)] else NatToDecimal(n / 10) + [DigitChar(n % 10)]
  }

  /** The value of a string of decimal digits. */
  function DecimalValue(s: string): nat
    requires AllDigits(s)
  {
    if s == [] then 0 else DecimalValue(s[..|s| - 1]) * 10 + DigitValue(s[|s| - 1])
  }

  /** Decimal formatting is undone by reading the digits back. */
  lemma {:induction false} DecimalRoundTrip(n: nat)
    ensures DecimalValue(NatToDecimal(n)) == n
  {
    if n >= 10 {
      DecimalRoundTrip(n / 10);
      var s := NatToDecimal(n);
      assert s[..|s| - 1] == NatToDecimal(n / 10);
    }
  }

  /** Distinct numbers have distinct decimal forms. */
  lemma NatToDecimalInjective(m: nat, n: nat)
    requires NatToDecimal(m) == NatToDecimal(n)
    ensures m == n
  {
    DecimalRoundTrip(m);
    DecimalRoundTrip(n);
  }

  /** `usize::from_str` on a 64-bit target: an optional '+', then at least one
      ASCII digit and nothing else, and a value below 2^64. */
  function ParseUsize(s: string): (r: Option<nat>)
    ensures r.Some? ==> r.value < U64_LIMIT
  {
    var digits := if s != [] && s[0] == '+' then s[1..] else s;
    if digits != [] && AllDigits(digits) && DecimalValue(digits) < U64_LIMIT
    then Some(DecimalValue(digits))
    else None
  }

  /** A number written by `to_string` is read back by `parse`. */
  lemma ParseUsizeOfDecimal(n: nat)
    requires n < U64_LIMIT
    ensures ParseUsize(NatToDecimal(n)) == Some(n)
  {
    DecimalRoundTrip(n);
  }

  // ---------------------------------------------------------------------
  // Hexadecimal digits

  /** The lower-case hexadecimal digit of `d`. */
  function HexDigitLower(d: nat): (c: char)
    requires d < 16
    ensures IsAsciiHexDigit(c)
  {
    if d < 10 then DigitChar(d) else ('a' as int + d - 10) as char
  }

  /** The value of a hexadecimal digit of either case. */
  function HexDigitValue(c: char): (d: nat)
    requires IsAsciiHexDigit(c)
    ensures d < 16
  {
    if IsAsciiDigit(c) then DigitValue(c)
    else if 'a' <= c <= 'f' then c as int - 'a' as int + 10
    else c as int - 'A' as int + 10
  }

  /** Writing a digit and reading it back gives the digit; reading a digit
      and writing it in lower case gives the digit in lower case. */
  lemma HexDigitRoundTrip(d: nat, c: char)
    requires d < 16 && IsAsciiHexDigit(c)
    ensures HexDigitValue(HexDigitLower(d)) == d
    ensures HexDigitLower(HexDigitValue(c)) == AsciiLower(c)
  {
  }

  /** Concatenation is associative. */
  lemma AppendAssoc<T>(a: seq<T>, b: seq<T>, c: seq<T>)
    ensures (a + b) + c == a + (b + c)
  {
  }

  /** A non-empty sequence holds its first element. */
  lemma HeadIsMember<T>(s: seq<T>)
    ensures s != [] ==> s[0] in s
  {
  }
}

=== FILE: tray_icon.dfy ===
/** src/tray_icon.rs: the system-tray icon. Four pre-decoded images, one of
    which is shown according to the current image type, a tooltip and a
    menu. The icon images are PNG frames whose RGBA pixels are rotated in
    place into the ARGB order the tray protocol expects. */
module TrayIcon {
  import opened Wrappers
  import opened Text

  /** `u32`, the width and height of a decoded PNG frame. */
  type u32 = x: nat | x < 0x1_0000_0000

  const I32_MIN: int := -0x8000_0000
  const I32_LIMIT: int := 0x8000_0000

  datatype TrayIconImageType = Stop | Play | PlayHL | Pause

  /** A tray image: `height` and `width` as `i32`, ARGB32 pixel bytes. */
  datatype Icon = Icon(height: int, width: int, data: seq<byte>)

  /** `TrayMenuItem`: a label (`text`) and the callback it runs, the callback
      identified by a number. */
  datatype TrayMenuItem = TrayMenuItem(text: string, action: nat)

  /** A standard menu entry as handed to the tray host. */
  datatype MenuItem = Standard(text: string, activate: nat)

  /** What the PNG decoder produced for one image: the output buffer, the
      size of the first frame inside it and the frame dimensions. */
  datatype DecodedFrame = DecodedFrame(buf: seq<byte>, bufferSize: nat, width: u32, height: u32)

  datatype IcoError =
    | DecodeFailed(context: string)  // reading the PNG header or frame failed
    | FrameOutOfRange                // the frame is larger than the buffer: the slice panics
    | PartialPixel                   // the frame size is not a multiple of 4: the last chunk panics
    | CannotCreate(image: TrayIconImageType, cause: IcoError)
    | SpawnFailed(reason: string)    // the tray service could not be started

  /** `u32 as i32`: values from 2^31 on wrap to negative numbers. */
  function AsI32(n: u32): (r: int)
    ensures I32_MIN <= r < I32_LIMIT
    ensures n < I32_LIMIT ==> r == n
    ensures n >= I32_LIMIT ==> r + 0x1_0000_0000 == n
  {
    if n < I32_LIMIT then n else n - 0x1_0000_0000
  }

  // ---------------------------------------------------------------------
  // Pixel rotation

  /** One pixel [r, g, b, a] in the order [a, r, g, b]. */
  function Argb(p: seq<byte>): (r: seq<byte>)
    requires |p| == 4
    ensures |r| == 4 && r[0] == p[3] && r[1] == p[0] && r[2] == p[1] && r[3] == p[2]
  {
    [p[3], p[0], p[1], p[2]]
  }

  /** Every 4-byte pixel of `s` rotated. */
  function ArgbPixels(s: seq<byte>): (r: seq<byte>)
    requires |s| % 4 == 0
    ensures |r| == |s|
    decreases |s|
  {
    if s == [] then [] else Argb(s[..4]) + ArgbPixels(s[4..])
  }

  /** Pixel `k` of the rotated buffer is pixel `k` of the input with its
      alpha byte moved to the front. */
  lemma {:induction false} ArgbPixelsAt(s: seq<byte>, k: nat)
    requires |s| % 4 == 0 && 4 * k + 4 <= |s|
    ensures ArgbPixels(s)[4 * k] == s[4 * k + 3]
    ensures ArgbPixels(s)[4 * k + 1] == s[4 * k]
    ensures ArgbPixels(s)[4 * k + 2] == s[4 * k + 1]
    ensures ArgbPixels(s)[4 * k + 3] == s[4 * k + 2]
    decreases k
  {
    var r := ArgbPixels(s);
    assert r == Argb(s[..4]) + ArgbPixels(s[4..]);
    if k > 0 {
      ArgbPixelsAt(s[4..], k - 1);
    }
  }

  /** Rotating one pixel only moves its bytes around. */
  lemma ArgbPermutes(p: seq<byte>)
    requires |p| == 4
    ensures multiset(Argb(p)) == multiset(p)
  {
    assert p == [p[0]] + [p[1]] + [p[2]] + [p[3]];
    assert Argb(p) == [p[3]] + [p[0]] + [p[1]] + [p[2]];
  }

  /** Rotating a buffer only moves its bytes around. */
  lemma {:induction false} ArgbPixelsPermutes(s: seq<byte>)
    requires |s| % 4 == 0
    ensures multiset(ArgbPixels(s)) == multiset(s)
    decreases |s|
  {
    if s != [] {
      var p, rest := s[..4], s[4..];
      ArgbPixelsPermutes(rest);
      ArgbPermutes(p);
      ArgbPixelsSplit(s);
      MultisetSplit(s, 4);
    }
  }

  /** The first step of `ArgbPixels`, for use where it should not unfold. */
  lemma ArgbPixelsSplit(s: seq<byte>)
    requires |s| % 4 == 0 && s != []
    ensures ArgbPixels(s) == Argb(s[..4]) + ArgbPixels(s[4..])
  {
  }

  /** The bytes of a buffer are those of its two parts. */
  lemma MultisetSplit(s: seq<byte>, i: nat)
    requires i <= |s|
    ensures multiset(s) == multiset(s[..i]) + multiset(s[i..])
  {
    assert s == s[..i] + s[i..];
  }

  /** `rgba2argb`: rotates the 4-byte pixel at `at` of `p` in place. */
  method Rgba2Argb(p: array<byte>, at: nat)
    requires at + 4 <= p.Length
    modifies p
    ensures p[at] == old(p[at + 3]) && p[at + 1] == old(p[at])
    ensures p[at + 2] == old(p[at + 1]) && p[at + 3] == old(p[at + 2])
    ensures forall k :: 0 <= k < p.Length && !(at <= k < at + 4) ==> p[k] == old(p[k])
  {
    var a, r, g, b := p[at + 3], p[at], p[at + 1], p[at + 2];
    p[at], p[at + 1], p[at + 2], p[at + 3] := a, r, g, b;
  }

  /** The `chunks_mut(4).for_each(rgba2argb)` loop over a whole buffer. */
  method RotatePixels(bytes: array<byte>)
    requires bytes.Length % 4 == 0
    modifies bytes
    ensures bytes[..] == ArgbPixels(old(bytes[..]))
  {
    ghost var src := bytes[..];
    ghost var target := ArgbPixels(src);
    var n := bytes.Length / 4;
    var j := 0;
    while j < n
      invariant 0 <= j <= n && 4 * n == bytes.Length
      invariant forall k :: 0 <= k < 4 * j ==> bytes[k] == target[k]
      invariant forall k :: 4 * j <= k < bytes.Length ==> bytes[k] == src[k]
    {
      Rgba2Argb(bytes, 4 * j);
      ArgbPixelsAt(src, j);
      j := j + 1;
    }
    assert bytes[..] == target;
  }

  /** `create_ico`: the first frame of the decoded buffer, every 4-byte chunk
      rotated to ARGB. The source panics when the frame is larger than the
      buffer or ends in a chunk shorter than four bytes; those panics are
      the errors `FrameOutOfRange` and `PartialPixel` here. */
  method CreateIco(frame: Result<DecodedFrame, string>) returns (r: Result<Icon, IcoError>)
    ensures frame.Err? ==> r == Err(DecodeFailed(frame.error))
    ensures frame.Ok? && frame.value.bufferSize > |frame.value.buf| ==> r == Err(FrameOutOfRange)
    ensures frame.Ok? && frame.value.bufferSize <= |frame.value.buf| && frame.value.bufferSize % 4 != 0
            ==> r == Err(PartialPixel)
    ensures r.Ok? <==> frame.Ok? && frame.value.bufferSize <= |frame.value.buf| && frame.value.bufferSize % 4 == 0
    ensures r.Ok? ==> r.value.height == AsI32(frame.value.height) && r.value.width == AsI32(frame.value.width)
    ensures r.Ok? ==> r.value.data == ArgbPixels(frame.value.buf[..frame.value.bufferSize])
  {
    if frame.Err? {
      return Err(DecodeFailed(frame.error));
    }
    var f := frame.value;
    if f.bufferSize > |f.buf| {
      return Err(FrameOutOfRange);
    }
    if f.bufferSize % 4 != 0 {
      return Err(PartialPixel);
    }
    var src := f.buf[..f.bufferSize];
    var bytes := new byte[|src|](i requires 0 <= i < |src| => src[i]);
    assert bytes[..] == src;
    RotatePixels(bytes);
    r := Ok(Icon(AsI32(f.height), AsI32(f.width), bytes[..]));
  }

  // ---------------------------------------------------------------------
  // Menu

  /** The tray menu built from the added items, one standard entry each. */
  function MenuOf(items: seq<TrayMenuItem>): (r: seq<MenuItem>)
    ensures |r| == |items|
    ensures forall i :: 0 <= i < |items| ==> r[i].text == items[i].text && r[i].activate == items[i].action
  {
    if items == [] then [] else [Standard(items[0].text, items[0].action)] + MenuOf(items[1..])
  }

  /** Adding items appends their entries after the existing ones. */
  lemma {:induction false} MenuOfAppend(a: seq<TrayMenuItem>, b: seq<TrayMenuItem>)
    ensures MenuOf(a + b) == MenuOf(a) + MenuOf(b)
  {
    if a != [] {
      assert (a + b)[1..] == a[1..] + b;
      MenuOfAppend(a[1..], b);
    } else {
      assert a + b == b;
    }
  }

  // ---------------------------------------------------------------------
  // The tray

  /** `TrayIconData`: what the tray host renders. */
  class TrayIconData {
    const stopImage: Icon
    const playImage: Icon
    const playHlImage: Icon
    const pauseImage: Icon
    var tooltip: string
    var imageType: TrayIconImageType
    var menuItems: seq<TrayMenuItem>

    constructor(stopImage: Icon, playImage: Icon, playHlImage: Icon, pauseImage: Icon)
      ensures this.stopImage == stopImage && this.playImage == playImage
      ensures this.playHlImage == playHlImage && this.pauseImage == pauseImage
      ensures tooltip == "" && imageType == Stop && menuItems == []
    {
      this.stopImage := stopImage;
      this.playImage := playImage;
      this.playHlImage := playHlImage;
      this.pauseImage := pauseImage;
      tooltip := "";
      imageType := Stop;
      menuItems := [];
    }

    /** `icon_pixmap`: exactly one image, the one of the current type. */
    function IconPixmap(): (r: seq<Icon>)
      reads this
      ensures |r| == 1
      ensures imageType == Stop ==> r[0] == stopImage
      ensures imageType == Play ==> r[0] == playImage
      ensures imageType == PlayHL ==> r[0] == playHlImage
      ensures imageType == Pause ==> r[0] == pauseImage
    {
      match imageType
      case Stop => [stopImage]
      case Play => [playImage]
      case PlayHL => [playHlImage]
      case Pause => [pauseImage]
    }

    /** `menu`: the items in the order they were added. */
    function Menu(): (r: seq<MenuItem>)
      reads this
      ensures |r| == |menuItems|
      ensures forall i :: 0 <= i < |menuItems| ==> r[i] == Standard(menuItems[i].text, menuItems[i].action)
    {
      MenuOf(menuItems)
    }
  }

  /** `TrayIcon`: the owner's handle, with its own copy of the image type. */
  class TrayIcon {
    const data: TrayIconData
    var imageType: TrayIconImageType

    /** The owner's copy of the image type matches what the host shows. */
    predicate Valid()
      reads this, data
    {
      data.imageType == imageType
    }

    constructor(data: TrayIconData)
      requires data.imageType == TrayIconImageType.Stop
      ensures this.data == data && imageType == TrayIconImageType.Stop && Valid()
    {
      this.data := data;
      imageType := TrayIconImageType.Stop;
    }

    /** `TrayIcon::new`: fails with the first image that cannot be created,
        then with the error of starting the tray service (`spawnError`, the
        outcome of `spawn`); otherwise the tray starts with the Stop image,
        no tooltip and no menu. */
    static method New(stop: Result<Icon, IcoError>, play: Result<Icon, IcoError>,
                      playHl: Result<Icon, IcoError>, pause: Result<Icon, IcoError>,
                      spawnError: Option<string>)
      returns (r: Result<TrayIcon, IcoError>)
      ensures stop.Err? ==> r == Err(CannotCreate(TrayIconImageType.Stop, stop.error))
      ensures stop.Ok? && play.Err? ==> r == Err(CannotCreate(TrayIconImageType.Play, play.error))
      ensures stop.Ok? && play.Ok? && playHl.Err? ==> r == Err(CannotCreate(TrayIconImageType.PlayHL, playHl.error))
      ensures stop.Ok? && play.Ok? && playHl.Ok? && pause.Err? ==> r == Err(CannotCreate(TrayIconImageType.Pause, pause.error))
      ensures stop.Ok? && play.Ok? && playHl.Ok? && pause.Ok? && spawnError.Some? ==> r == Err(SpawnFailed(spawnError.value))
      ensures r.Ok? <==> stop.Ok? && play.Ok? && playHl.Ok? && pause.Ok? && spawnError.None?
      ensures r.Ok? ==> fresh(r.value) && fresh(r.value.data) && r.value.Valid() && r.value.imageType == TrayIconImageType.Stop
      ensures r.Ok? ==> r.value.data.tooltip == "" && r.value.data.menuItems == []
      ensures r.Ok? ==> r.value.data.IconPixmap() == [stop.value]
    {
      if stop.Err? {
        return Err(CannotCreate(TrayIconImageType.Stop, stop.error));
      }
      if play.Err? {
        return Err(CannotCreate(TrayIconImageType.Play, play.error));
      }
      if playHl.Err? {
        return Err(CannotCreate(TrayIconImageType.PlayHL, playHl.error));
      }
      if pause.Err? {
        return Err(CannotCreate(TrayIconImageType.Pause, pause.error));
      }
      if spawnError.Some? {
        return Err(SpawnFailed(spawnError.value));
      }
      var data := new TrayIconData(stop.value, play.value, playHl.value, pause.value);
      var tray := new TrayIcon(data);
      r := Ok(tray);
    }

    /** `add_menu_item`: the new item goes after the existing ones. */
    method AddMenuItem(item: TrayMenuItem)
      modifies data`menuItems
      ensures data.menuItems == old(data.menuItems) + [item]
      ensures data.Menu() == old(data.Menu()) + [Standard(item.text, item.action)]
    {
      MenuOfAppend(data.menuItems, [item]);
      data.menuItems := data.menuItems + [item];
    }

    /** Shows image type `t`; nothing happens when it is already shown. */
    method Show(t: TrayIconImageType)
      requires Valid()
      modifies this`imageType, data`imageType
      ensures Valid() && imageType == t
    {
      if imageType == t {
        return;
      }
      imageType := t;
      data.imageType := t;
    }

    /** `play`. */
    method Play()
      requires Valid()
      modifies this`imageType, data`imageType
      ensures Valid() && imageType == TrayIconImageType.Play
      ensures old(imageType) == TrayIconImageType.Play ==> data.IconPixmap() == old(data.IconPixmap())
      ensures data.IconPixmap() == [data.playImage]
    {
      Show(TrayIconImageType.Play);
    }

    /** `play_hl`. */
    method PlayHl()
      requires Valid()
      modifies this`imageType, data`imageType
      ensures Valid() && imageType == TrayIconImageType.PlayHL
      ensures data.IconPixmap() == [data.playHlImage]
    {
      Show(TrayIconImageType.PlayHL);
    }

    /** `stop`. */
    method Stop()
      requires Valid()
      modifies this`imageType, data`imageType
      ensures Valid() && imageType == TrayIconImageType.Stop
      ensures data.IconPixmap() == [data.stopImage]
    {
      Show(TrayIconImageType.Stop);
    }

    /** `pause`. */
    method Pause()
      requires Valid()
      modifies this`imageType, data`imageType
      ensures Valid() && imageType == TrayIconImageType.Pause
      ensures data.IconPixmap() == [data.pauseImage]
    {
      Show(TrayIconImageType.Pause);
    }

    /** `set_tooltip`. */
    method SetTooltip(text: string)
      modifies data`tooltip
      ensures data.tooltip == text
    {
      data.tooltip := text;
    }
  }
}

=== FILE: wrappers.dfy ===
/** Failure-compatible wrappers used throughout the model: the counterparts of
    Rust's `Option<T>` and `Result<T, E>`. */
module Wrappers {

  datatype Option<+T> = None | Some(value: T) {
    /** `Option::unwrap_or` */
    function UnwrapOr(default: T): T {
      match this
      case Some(v) => v
      case None => default
    }

    /** `Option::or`: this value when present, otherwise `other`. */
    function Or(other: Option<T>): Option<T> {
      if Some? then this else other
    }
  }

  datatype Result<+T, +E> = Ok(value: T) | Err(error: E) {
    predicate IsFailure() {
      Err?
    }

    function PropagateFailure<U>(): Result<U, E>
      requires Err?
    {
      Err(error)
    }

    function Extract(): T
      requires Ok?
    {
      value
    }
  }

  /** The unit value returned by operations that only succeed or fail. */
  datatype Unit = Unit
}
